=== FILE: README.md ===
# Task management: a verified model of the server and its client helpers

This project models the core of a project and task management application. It covers the Express/Sequelize server and the small pure helpers of its React client:

- JWT access and refresh tokens, and the refresh-token ledger;
- the authentication endpoints and middleware;
- tasks, task dependencies (with the cycle check), time entries, comments, attachments, projects and notifications, each with its permission rules and ordered error checks;
- the `ON DELETE CASCADE` foreign keys that a task or project delete sets off;
- the request schemas;
- the reporting and PDF-report computations;
- the client's auth slice, and the formatters and rules of its time tracker, dependency panel, task filter and notification menu.

Each database table is a sequence of rows held by a class whose methods change it in place. Each method is proved against a specification function on the rows. The properties the application promises are proved as lemmas about those functions. Pure code is modelled as functions, each paired with a reader, an invariant or the server-side rule it mirrors.

Conventions:

- Dates are millisecond timestamps.
- A missing `assigneeId` is the id 0.
- JavaScript's `%`, `Math.floor` and `Math.round` are written out in `JsMath`.
- Percentages, averages and hours are exact rational numbers.

## Model

| member | source | states |
|---|---|---|
| Tokens.RefreshKey | backend/src/modules/auth/token.utils.ts:44 | the refresh key is `JWT_REFRESH_SECRET`, falling back to `JWT_SECRET` exactly when the former is unset or empty |
| Tokens.GenerateAccessToken | backend/src/modules/auth/token.utils.ts:24-35 | an access token is signed with `JWT_SECRET`, names the user, has type access and expires 15 minutes (900 s) after the second it is issued |
| Tokens.GenerateRefreshTokenJwt | backend/src/modules/auth/token.utils.ts:38-49 | a refresh token as written: signed with the refresh key, names the user, has type refresh and carries no nonce |
| Tokens.GenerateUniqueRefreshToken | backend/src/modules/auth/token.utils.ts:19-21 | the corrected refresh token: the same claims plus a random nonce |
| Tokens.SameSecondRefreshTokensCoincide | backend/src/modules/auth/token.utils.ts:38-49 | two refresh tokens issued as written to one user within the same second are identical |
| Tokens.NoncedRefreshTokensDiffer | backend/src/modules/auth/token.utils.ts:19-21 | corrected refresh tokens with different nonces never coincide |
| Tokens.Decode | backend/src/modules/auth/token.utils.ts:57 | decoding yields a signed token's claims, unchecked, and nothing for an unsigned one |
| Tokens.GenerateTokenPair | backend/src/modules/auth/token.utils.ts:52-65 | a pair holds the access token and the refresh token for the user, and `expiresIn` is the access token's 900-second lifetime read back from its `exp`; corrected rule (see Findings) |
| Tokens.Verify | backend/src/modules/auth/token.utils.ts:68-101 | a token verifies exactly when its signature, expiry, audience, issuer and type are acceptable; then it returns the token's claims, otherwise the single rejection message |
| Tokens.VerifyAccessToken | backend/src/modules/auth/token.utils.ts:68-83 | accepts exactly acceptable access tokens signed with `JWT_SECRET`; every failure is "Invalid or expired access token" |
| Tokens.VerifyRefreshToken | backend/src/modules/auth/token.utils.ts:86-101 | accepts exactly acceptable refresh tokens signed with the refresh key; every failure is "Invalid or expired refresh token" |
| Tokens.AccessTokenRoundTrip | backend/src/modules/auth/token.utils.ts:24-35 | an issued access token verifies, for its user, exactly until its 15 minutes are over |
| Tokens.RefreshTokenRoundTrip | backend/src/modules/auth/token.utils.ts:38-49 | an issued refresh token verifies, for its user, exactly until its 7 days are over |
| Tokens.NoTypeConfusion | backend/src/modules/auth/token.utils.ts:75-77 | a refresh token never passes as an access token, nor the reverse, even with one shared secret |
| Tokens.ExpiresInMatchesVerifier | backend/src/modules/auth/token.utils.ts:56-58 | the reported `expiresIn` is exactly how long the access token keeps verifying |
| Tokens.ForeignSignatureRejected | backend/src/modules/auth/token.utils.ts:70 | a token signed with another secret is always rejected |
| RefreshLedger.RevokeWhere | backend/src/modules/auth/token.utils.ts:106-109 | a bulk revocation keeps every row in place, changes only `isRevoked`, and revokes exactly the active rows selected |
| RefreshLedger.CountWhere | backend/src/modules/auth/token.utils.ts:146-150 | the affected-row count is the number of active rows the condition selects, and so zero exactly when none is selected |
| RefreshLedger.CountWhereCountsNewlyRevoked | backend/src/modules/auth/token.utils.ts:146-150 | the affected-row count is exactly how many more rows are revoked after the update than before |
| RefreshLedger.FindActive | backend/src/modules/auth/token.utils.ts:123-125 | finds an active row holding the token, or reports that none exists |
| RefreshLedger.EvolvesTransitive | backend/src/modules/auth/refreshToken.model.ts:60-64 | revocation only moves forward across any sequence of operations |
| RefreshLedger.StoreLeavesOneActive | backend/src/modules/auth/token.utils.ts:104-118 | after a successful store, the new row is the user's only active row, and other users' rows are untouched |
| RefreshLedger.FailedStoreLeavesNoneActive | backend/src/modules/auth/token.utils.ts:104-118 | a store that hits the unique index leaves the user with no active row |
| RefreshLedger.FreshTokenIsStored | backend/src/modules/auth/refreshToken.model.ts:69-74 | a token no row has held is always stored |
| RefreshLedger.ValidateAcceptsExactlyValidRows | backend/src/modules/auth/token.utils.ts:121-141 | validation accepts exactly the tokens whose row is unrevoked and unexpired, and names that row's user; the table is unchanged when no active row holds the token or the row is valid, and an expired active row is revoked with nothing else changed |
| RefreshLedger.RevokeIdempotent | backend/src/modules/auth/token.utils.ts:144-154 | revoking twice changes nothing more and the second call reports false |
| RefreshLedger.RevokedTokenHasNoActiveRow | backend/src/modules/auth/token.utils.ts:144-154 | after revocation, no active row holds the token |
| RefreshLedger.CleanupRevokesExactlyExpired | backend/src/modules/auth/token.utils.ts:165-176 | after the sweep no active row is expired, unexpired rows are untouched, and the count is zero exactly when nothing was expired |
| RefreshLedger.CleanupCountsExpired | backend/src/modules/auth/token.utils.ts:165-176 | the sweep reports the number of active rows that had expired, which is also how many more rows are revoked afterwards |
| RefreshLedger.OperationsEvolve | backend/src/modules/auth/token.utils.ts:104-176 | every ledger operation keeps rows in place and only revokes |
| RefreshLedger.Ledger.constructor | backend/src/modules/auth/refreshToken.model.ts:36-85 | the ledger starts empty and well formed |
| RefreshLedger.Ledger.Store | backend/src/modules/auth/token.utils.ts:104-118 | the new rows and outcome are those of `StoreSpec`; the ledger stays well formed |
| RefreshLedger.Ledger.ValidateFromDb | backend/src/modules/auth/token.utils.ts:121-141 | the new rows and verdict are those of `ValidateSpec`; the ledger stays well formed |
| RefreshLedger.Ledger.Revoke | backend/src/modules/auth/token.utils.ts:144-154 | the new rows and result are those of `RevokeSpec`; the ledger stays well formed |
| RefreshLedger.Ledger.RevokeAllForUser | backend/src/modules/auth/token.utils.ts:157-162 | revokes every active row of the user and nothing else; the user is left with no active row |
| RefreshLedger.Ledger.CleanupExpired | backend/src/modules/auth/token.utils.ts:165-176 | the new rows and count are those of `CleanupSpec`; the ledger stays well formed |
| RefreshLedger.ExpiryIsStrict | backend/src/modules/auth/refreshToken.model.ts:26-33 | a row expires strictly after `expiresAt`, stays expired as time passes, and is valid exactly while unrevoked and not past `expiresAt` |
| Entities.ParseTaskStatus | backend/src/models/Task.ts:66-69 | a string names a status exactly when it is that status's name, and nothing otherwise |
| Entities.ParsePriority | backend/src/models/Task.ts:70-73 | a string names a priority exactly when it is that priority's name, and nothing otherwise |
| Entities.EnumNamesRoundTrip | backend/src/models/Task.ts:66-73 | every status and priority name reads back as the value it names |
| Entities.FindUser | backend/src/middleware/auth.middleware.ts:19 | finds a user with the id, or reports that none exists |
| Entities.FindUserByEmail | backend/src/modules/auth/auth.controller.ts:82 | finds a user with the email, or reports that none exists |
| Entities.FindProject | backend/src/modules/tasks/task.controller.ts:144 | finds a project with the id, or reports that none exists |
| Entities.FindTask | backend/src/modules/tasks/task.controller.ts:119 | finds a task with the id, or reports that none exists |
| Entities.ProjectOwnerOf | backend/src/models/index.ts:15 | a task's project owner is present exactly when its project exists, and is that project's owner |
| Entities.NextId | backend/src/models/Task.ts:37-41 | the next id is positive and above every id in the table |
| AuthMiddleware.ExtractAccessToken | backend/src/middleware/auth.middleware.ts:12 | the token is the non-empty `accessToken` cookie if there is one, otherwise the second word of the `Authorization` header when that word is present and non-empty |
| AuthMiddleware.AuthenticateDecision | backend/src/middleware/auth.middleware.ts:10-30 | a request is admitted exactly when a token is found, verifies as an access token and names an existing user, and then for that user; every refusal is a 401, "Access token required" when no token is found |
| AuthMiddleware.AuthRequest.constructor | backend/src/middleware/auth.middleware.ts:5-8 | a request starts with its cookie and header, no user, no response and `next` not yet called |
| AuthMiddleware.Authenticate | backend/src/middleware/auth.middleware.ts:10-30 | an admitted request gets `req.user` set and `next` called exactly once; a refused one gets its 401 response and `next` is not called |
| AuthMiddleware.RefreshTokenNeverAuthenticates | backend/src/middleware/auth.middleware.ts:18-28 | a refresh token presented as the access cookie is always refused |
| AuthMiddleware.AccessTokenAdmitsItsUser | backend/src/middleware/auth.middleware.ts:18-26 | an issued access token, within its 15 minutes, admits exactly the user it was issued for, whatever the header says |
| AuthMiddleware.AuthorizeDecision | backend/src/middleware/auth.middleware.ts:32-44 | `authorize` passes exactly a request whose user's role is listed; 401 without a user, 403 for an unlisted role |
| AuthMiddleware.Authorize | backend/src/middleware/auth.middleware.ts:32-44 | `next` is called once when the role gate passes; otherwise the 401 or 403 response is set and `next` is not called; `req.user` is untouched |
| AuthMiddleware.AdminGuardAdmitsOnlyAdmins | backend/src/middleware/auth.middleware.ts:10-44 | behind `authenticate`, an admin-only route admits exactly existing users whose stored role is admin |
| AuthController.Me | backend/src/modules/auth/auth.controller.ts:207-227 | `me` answers with the stored user an access token names, shown without its password; 401 without a token or for a token that does not verify, 404 for a user that no longer exists |
| AuthController.RegisterOutcomes | backend/src/modules/auth/auth.controller.ts:23-41 | an invalid body or a taken e-mail is refused with 400 before any user is created or token stored, and "User already exists" is given exactly for a taken e-mail; a registration appends one user with a fresh id, the submitted e-mail and password and the role `employee` by default, answers with that user's id, e-mail, name and role only, and leaves the issued refresh token as the user's only active one; corrected rule (see Findings) |
| AuthController.LoginOutcomes | backend/src/modules/auth/auth.controller.ts:82-98 | an unknown e-mail and a wrong password get the same 401 "Invalid credentials", exactly those, and no token is stored; a login is for the user with that e-mail and password, answers with that user's id, e-mail, name and role only, and its tokens name that user |
| AuthController.IssueLeavesOneActive | backend/src/modules/auth/auth.controller.ts:36-41 | every issued session leaves the new refresh token as the user's only active one, with a row expiring seven days later; corrected rule (see Findings) |
| AuthController.FreshNonceIssues | backend/src/modules/auth/auth.controller.ts:36-41 | with a nonce no stored token carries, issuing always stores the new refresh token |
| AuthController.RefreshRefusals | backend/src/modules/auth/auth.controller.ts:135-149 | a missing or empty cookie gets 401 "Refresh token not provided" and a cookie that fails verification 401 "Invalid refresh token", the ledger unchanged in both cases; a refresh succeeds only for a verified cookie whose ledger row is valid |
| AuthController.RefreshIsSingleUse | backend/src/modules/auth/auth.controller.ts:145-157 | once a refresh token has been exchanged, presenting it again is refused with 401 at any later time |
| AuthController.RefreshIssuesForRowOwner | backend/src/modules/auth/auth.controller.ts:142-152 | a refreshed pair is issued for the user the ledger row names |
| AuthController.LogoutOutcomes | backend/src/modules/auth/auth.controller.ts:186-253 | logout always succeeds, changes nothing without a cookie and otherwise only revokes the cookie's token; logout-all succeeds exactly for a present, verifying access token, changes nothing when refused, and leaves that user no active refresh token |
| AuthController.LogoutThenRefreshFails | backend/src/modules/auth/auth.controller.ts:186-199 | after logout, the revoked refresh cookie can no longer be exchanged |
| AuthController.LogoutAllThenRefreshFails | backend/src/modules/auth/auth.controller.ts:231-248 | after logout-all, none of that user's refresh tokens can be exchanged |
| AuthController.EnvelopeExpiresNoLaterThanRow | backend/src/modules/auth/auth.controller.ts:39-41 | a refresh token's own expiry never outlasts its ledger row's seven days |
| AuthController.AsWrittenReissueLocksOut | backend/src/modules/auth/auth.controller.ts:36-41 | with refresh tokens as written, a second issue in the same second hits the unique index after revoking, leaving the user with no active refresh token |
| AuthController.AuthBackend.constructor | backend/src/modules/auth/auth.controller.ts:17-19 | the backend starts with no users over a well-formed ledger |
| AuthController.AuthBackend.Issue | backend/src/modules/auth/auth.controller.ts:36-41 | the ledger and the issued pair are those of `IssueSpec` |
| AuthController.AuthBackend.Register | backend/src/modules/auth/auth.controller.ts:17-73 | the users, the ledger and the reply are those of `RegisterSpec`: the reply's user is the new row as `{ id, email, name, role }`, without the password |
| AuthController.AuthBackend.Login | backend/src/modules/auth/auth.controller.ts:76-130 | the ledger and the reply are those of `LoginSpec`, whose user is the matching row as `{ id, email, name, role }`, without the password; the users are untouched |
| AuthController.PublicHidesPassword | backend/src/modules/auth/auth.controller.ts:58-64 | the user shown in a session or `me` reply does not depend on the stored password |
| AuthController.AuthBackend.Refresh | backend/src/modules/auth/auth.controller.ts:133-183 | the ledger and the reply are those of `RefreshSpec` |
| AuthController.AuthBackend.Logout | backend/src/modules/auth/auth.controller.ts:186-204 | the ledger and the reply are those of `LogoutSpec` |
| AuthController.AuthBackend.LogoutAll | backend/src/modules/auth/auth.controller.ts:231-253 | the ledger and the reply are those of `LogoutAllSpec` |
| UserSchema.ParseRole | backend/src/modules/auth/user.schema.ts:4 | a role parses exactly from the names `admin` and `employee`, and back to the same name |
| UserSchema.ParseCreateUser | backend/src/modules/auth/user.schema.ts:7-22 | a registration body passes exactly when the e-mail is a well-formed string, the password a string of 8 or more characters with a lower-case letter, an upper-case letter and a digit, the name a string of 2 to 100 letters and spaces, and the role absent or a known role name; the role defaults to `employee` |
| UserSchema.ParseLogin | backend/src/modules/auth/user.schema.ts:25-33 | a login body passes exactly with a well-formed e-mail and any non-empty password, which are passed on unchanged |
| UserSchema.LoginIsLaxerThanRegistration | backend/src/modules/auth/user.schema.ts:12-15 | every registrable e-mail and password may log in, and a one-letter password may log in but never register |
| UserSchema.StrengthStopsAtLineBreak | backend/src/modules/auth/user.schema.ts:15 | the strength look-aheads do not cross a line break: `Password1` is strong, the same after a leading newline is not |
| UserSchema.EmptyUpdateRefused | backend/src/modules/auth/user.schema.ts:48-50 | an update that gives no field is refused |
| UserSchema.NonTextFieldsRefused | backend/src/modules/auth/user.schema.ts:4-50 | a field present but not a string fails every schema: a numeric `role` is refused rather than defaulted |
| UserSchema.NewPasswordsFollowRegistrationRule | backend/src/modules/auth/user.schema.ts:53-75 | a new password passes the change and reset schemas exactly when it would pass registration; a short one is refused by both |
| Validation.Respond | backend/src/validation/middleware.ts:5-71 | validated data is passed on, a schema violation is answered with 400 and the middleware's message, and an error thrown inside a transform reaches the default handler as a 500 with its own message |
| Validation.ParseId | backend/src/modules/tasks/task.schema.ts:151-156 | an id parameter parses exactly when it is a non-empty digit string, and then as the number those digits write |
| Validation.ParseIdRoundTrip | backend/src/modules/tasks/task.schema.ts:151-156 | every natural number written in decimal parses back as itself |
| Validation.ParseIdRefusesSigns | backend/src/modules/tasks/task.schema.ts:154 | an empty id, or one with a sign, is refused |
| Validation.ParsePage | backend/src/modules/tasks/task.schema.ts:127-136 | `page` defaults to 1, a non-digit string is a validation error, 0 throws "Page must be at least 1", and every parsed page is at least 1 and is the number its digits write |
| Validation.ParseLimit | backend/src/modules/tasks/task.schema.ts:137-147 | `limit` defaults to 10, a non-digit string is a validation error, 0 or more than 100 throws, and every parsed limit lies in 1..100 and is the number its digits write |
| Validation.PagingRoundTrip | backend/src/modules/tasks/task.schema.ts:127-147 | an in-range page or limit written in decimal reads back as itself, and a limit above 100 reaches the client as a 500 "Limit cannot exceed 100", not a 400 |
| TaskSchema.StatusOrDefault | backend/src/modules/tasks/task.schema.ts:30 | the status defaults to `todo` and otherwise must be one of the three status names, which it keeps |
| TaskSchema.PriorityOrDefault | backend/src/modules/tasks/task.schema.ts:31 | the priority defaults to `medium` and otherwise must be one of the four priority names, which it keeps |
| TaskSchema.ParseCreateTask | backend/src/modules/tasks/task.schema.ts:10-57 | a new-task body passes exactly when title, description, ids, enums, due date, labels, estimate and dependency ids all follow their rules; the fields are kept, a given status, priority or dependency list is the one parsed, and status and priority default to `todo` and `medium` and dependencies to the empty list |
| TaskSchema.DueInstant | backend/src/modules/tasks/task.controller.ts:154-164 | the due date handed to the database is the instant the string names; an absent one is none, and an empty one is passed on as the empty string, which the column refuses |
| TaskSchema.ValidatedTaskReachesAssignee | backend/src/modules/tasks/task.controller.ts:154-178 | behind the schema every new task has an assignee, so the assignment notice goes out exactly when the assignee is not the creator; a `dueDate` of `""` passes the schema but the create never succeeds, answering 500 once the project and permission checks pass; a stored task has the validated assignee, status and priority, and a due date in the future when it has one |
| TaskSchema.JoinedLabelsPass | backend/src/modules/tasks/task.schema.ts:40-46 | labels that each have 2 to 50 characters once trimmed, joined with commas, pass together |
| TaskSchema.TrailingCommaRefused | backend/src/modules/tasks/task.schema.ts:43-46 | a trailing comma makes an empty last label, which is refused |
| TaskSchema.ParseUpdateTask | backend/src/modules/tasks/task.schema.ts:60-111 | an update body passes exactly when every given field follows its rule and at least one field is given; the edit carries exactly the given fields (status and priority as named, the due date as the instant it names, an empty one as the empty string the update then fails on), with `actualHours` allowed from 0 |
| TaskSchema.UpdateNeedsAField | backend/src/modules/tasks/task.schema.ts:106-111 | an empty update is refused, and one giving only `dependencies` passes but leaves the task as it was |
| TaskSchema.ParseOptional | backend/src/modules/tasks/task.schema.ts:115-126 | an optional query field is parsed only when given, and parses whenever its rule holds |
| TaskSchema.ParseTaskQuery | backend/src/modules/tasks/task.schema.ts:114-148 | a task query passes exactly when every given field parses and page and limit are in range; out-of-range page or limit throws; page and limit default to 1 and 10; every given field is the value parsed |
| TaskSchema.ParseTaskParams | backend/src/modules/tasks/task.schema.ts:151-156 | the `:id` parameter passes exactly as a digit string and never throws |
| TaskSchema.ValidateUpdateRequest | backend/src/modules/tasks/task.controller.ts:188-190 | the `:id` parameter is checked before the body: a bad id is a parameter error whatever the body, and the request passes exactly when both are valid; a canonical id reads back as written |
| Entities.ParseProjectStatus | backend/src/modules/projects/project.schema.ts:4 | a project status parses exactly from `active`, `completed` and `cancelled`, and back to the same name |
| ProjectSchema.ParseCreateProject | backend/src/modules/projects/project.schema.ts:7-24 | a new-project body passes exactly when the name has 3 to 100 letters, digits, spaces, hyphens or underscores, the description 10 to 1000 characters, the status is known and the team ids are positive; status defaults to `active` and the team to empty |
| ProjectSchema.ProjectNamesAreTaskTitles | backend/src/modules/projects/project.schema.ts:8-13 | every valid project name is also a valid task title, and not the reverse: `Plan (draft)` is a title but not a name |
| ProjectSchema.ValidatedProjectNotifiesTeam | backend/src/modules/projects/project.controller.ts:68-94 | a validated project is owned by its creator, is `active` by default, and addresses a notification to exactly the team members other than the creator, all of them positive ids |
| ProjectSchema.ParseUpdateProject | backend/src/modules/projects/project.schema.ts:27-45 | an update passes exactly when each given field follows its rule and at least one field is given; the edit carries the given fields, and no edit it passes is one the database refuses (the update route never applies it, project.routes.ts:10) |
| ProjectSchema.ParseProjectQuery | backend/src/modules/projects/project.schema.ts:48-76 | a project query passes exactly when the status is known, the owner id is digits, and page and limit are in range; out-of-range page or limit throws; page and limit default to 1 and 10; every given field is the value parsed |
| ProjectSchema.ParseProjectParams | backend/src/modules/projects/project.schema.ts:79-84 | the `:id` parameter passes exactly as a digit string, reads back as written when canonical, and never throws |
| PdfSchema.ParseFormat | backend/src/modules/projects/pdf.schema.ts:4 | a page format parses exactly from `A4`, `A3` and `Letter` |
| PdfSchema.ParseOptions | backend/src/modules/projects/pdf.schema.ts:7-17 | options pass exactly with a known format and a scale within 0.1..2; format, landscape and scale default to A4, false and 1 |
| PdfSchema.ParseOptionsField | backend/src/modules/projects/pdf.schema.ts:25 | absent options become the empty object, without the inner defaults |
| PdfSchema.Effective | backend/src/modules/projects/pdf.service.ts:132-140 | the service prints with a given format, landscape exactly when it is `true`, and a given non-zero scale; anything else falls back |
| PdfSchema.DefaultsAgree | backend/src/modules/projects/pdf.schema.ts:7-25 | absent, empty and default-naming options print the same pages (A4, portrait, 1 cm margins, scale 1), and every accepted scale is printed as given |
| PdfSchema.ParseReportRequest | backend/src/modules/projects/pdf.schema.ts:20-35 | a project or task report request passes exactly with a digit-string id and valid options, and yields that id's value |
| PdfSchema.ParseTimeTrackingRequest | backend/src/modules/projects/pdf.schema.ts:38-56 | a time report request passes exactly with a digit-string user id, two valid dates and valid options, and yields their values |
| TaskDependencies.ParseDependencyType | backend/src/modules/tasks/TaskDependency.ts:51-55 | a dependency type is stored exactly when it is one of the four enum names, and it keeps that name |
| TaskDependencies.Successors | backend/src/controllers/taskDependency.controller.ts:313-316 | the lookup inside the search yields exactly the tasks the given task depends on |
| TaskDependencies.DependencyTable.Retain | backend/src/models/index.ts:42-46 | the cascade's step on the dependencies table: keeps exactly the picked rows, in order, with the invariant |
| TaskDependencies.RetainKeepsInvariant | backend/src/models/index.ts:42-46 | removing dependency rows keeps ids and pairs unique and the graph acyclic |
| TaskDependencies.ReachableTrans | backend/src/controllers/taskDependency.controller.ts:295-324 | reachability along "depends on" edges composes |
| TaskDependencies.CheckCircularDependency | backend/src/controllers/taskDependency.controller.ts:295-324 | the stack-and-visited-set search terminates and reports a cycle exactly when the task is reachable from the task it would depend on, the two being equal included |
| TaskDependencies.InsertPreservesAcyclic | backend/src/controllers/taskDependency.controller.ts:140-151 | adding an edge the cycle check lets through keeps an acyclic dependency graph acyclic |
| TaskDependencies.AcyclicSubgraph | backend/src/controllers/taskDependency.controller.ts:196-199 | removing or editing rows without adding a pair never creates a cycle |
| TaskDependencies.AsWrittenLocksOutOwner | backend/src/controllers/taskDependency.controller.ts:118-123 | as written, a project owner who is not an administrator is refused, although the rule admits owners |
| TaskDependencies.TypeOrDefault | backend/src/controllers/taskDependency.controller.ts:149 | an absent or empty type falls back to the default; any other is stored only when it is a known type |
| TaskDependencies.LagOrZero | backend/src/controllers/taskDependency.controller.ts:150 | an absent or zero lag is stored as 0, any other lag as given, negative included |
| TaskDependencies.CreateSucceedsExactlyWhenChecksPass | backend/src/controllers/taskDependency.controller.ts:100-151 | a create succeeds exactly when there is a user, both tasks exist, the caller may manage, the pair is not a self-dependency, not a duplicate and not a cycle, and the type is known; the first failing check decides the error (401, 404, 404, 403, 400, 400, 400); success appends just the new row; corrected rule (see Findings) |
| TaskDependencies.CheckCreate | backend/src/controllers/taskDependency.controller.ts:100-151 | the handler's checks, run in order with the stack search deciding the cycle check and a type outside the enum failing the insert, report exactly the first failure `CreateFailure` names (401, 404, 404, 403, 400, 400, 400, 500), or none; corrected rule (see Findings) |
| TaskDependencies.NewRow | backend/src/controllers/taskDependency.controller.ts:146-151 | once every check passes, the pair is new and closes no cycle, the type is a stored one, and create appends exactly this row with the next id |
| TaskDependencies.CreateDefaults | backend/src/controllers/taskDependency.controller.ts:146-151 | with no type and no lag given, the new row is finish-to-start with lag 0 |
| TaskDependencies.AppendKeepsInvariant | backend/src/modules/tasks/TaskDependency.ts:65-71 | appending a fresh, cycle-free pair with the next id keeps the unique pair index, acyclicity and the id bound |
| TaskDependencies.CreatePreservesInvariant | backend/src/modules/tasks/TaskDependency.ts:65-71 | every create, successful or not, keeps at most one row per pair, no cycle and the id bound |
| TaskDependencies.FindDependency | backend/src/controllers/taskDependency.controller.ts:182 | finds the row with the id, or reports that none exists |
| TaskDependencies.UpdateKeepsPair | backend/src/controllers/taskDependency.controller.ts:182-199 | an update edits one row in place: ids and pairs never change, the type changes only for a non-empty value, the lag whenever the field is present, 0 included; 404 and 403 change nothing |
| TaskDependencies.UpdatePreservesInvariant | backend/src/controllers/taskDependency.controller.ts:175-221 | updates never break the unique pair index, acyclicity or the id bound |
| TaskDependencies.DeleteRemovesOnlyThatRow | backend/src/controllers/taskDependency.controller.ts:223-249 | a delete removes exactly the row with that id and keeps every other row; a refusal changes nothing |
| TaskDependencies.DependencyTable.constructor | backend/src/modules/tasks/TaskDependency.ts:35-71 | the table starts empty with the next id 1 |
| TaskDependencies.DependencyTable.Create | backend/src/controllers/taskDependency.controller.ts:94-173 | the rows, next id and reply are those of `CreateSpec`; the table invariant is kept |
| TaskDependencies.DependencyTable.Update | backend/src/controllers/taskDependency.controller.ts:175-221 | the rows and reply are those of `UpdateSpec`; the table invariant is kept |
| TaskDependencies.DependencyTable.Delete | backend/src/controllers/taskDependency.controller.ts:223-249 | the rows and reply are those of `DeleteSpec`; the table invariant is kept |
| TaskDependencies.FindPair | backend/src/controllers/taskDependency.controller.ts:132-138 | the duplicate lookup finds a row exactly when the pair is in the table |
| TimeEntries.DurationMinutes | backend/src/modules/tasks/timeEntry.controller.ts:172 | the recorded duration is the elapsed time rounded to the nearest minute, halves rounding up |
| TimeEntries.DurationExactOnWholeMinutes | backend/src/modules/tasks/timeEntry.controller.ts:172 | a whole number of minutes is recorded exactly, and up to 29.999 seconds more still rounds down to it |
| TimeEntries.FindRunning | backend/src/modules/tasks/timeEntry.controller.ts:110-112 | finds a running entry of the user, or reports that the user has none |
| TimeEntries.FindEntry | backend/src/modules/tasks/timeEntry.controller.ts:155-158 | finds the entry with the id, or reports that none exists |
| TimeEntries.AsWrittenRefusesOwner | backend/src/modules/tasks/timeEntry.controller.ts:97-107 | as written, a project owner who is neither administrator nor assignee cannot track time on the project's tasks, although the rule admits owners |
| TimeEntries.StartKeepsOneRunning | backend/src/modules/tasks/timeEntry.controller.ts:83-126 | a start succeeds exactly for a signed-in caller, an existing task the caller may track, and no running entry of the caller on any task, checked in that order; the new entry runs from now with no end or duration, and at most one entry per user stays running; corrected rule (see Findings) |
| TimeEntries.SecondStartRefused | backend/src/modules/tasks/timeEntry.controller.ts:109-118 | after a start, the same user's next start is refused, whatever the task |
| TimeEntries.StopEndsOnlyThatEntry | backend/src/modules/tasks/timeEntry.controller.ts:150-178 | a stop succeeds exactly for an existing running entry of the caller or for an administrator; it ends the entry now, records the rounded minutes and touches no other row; a stop of a stopped entry is a 400 that changes nothing |
| TimeEntries.UpdateKeepsRunningFlags | backend/src/modules/tasks/timeEntry.controller.ts:202-240 | an edit changes one row of the caller's own (or any, for an administrator), never its user, task or running flag; the duration is recomputed only when both times are sent, and an empty description keeps the old one |
| TimeEntries.DeleteRemovesOnlyThatEntry | backend/src/modules/tasks/timeEntry.controller.ts:265-281 | a delete succeeds exactly for the entry's own user or an administrator, running or not, and removes exactly that entry |
| TimeEntries.ListByUser | backend/src/modules/tasks/timeEntry.controller.ts:51-73 | another user's entries are refused to a non-administrator; the listing holds exactly that user's entries, each as often as the table holds it, newest start first |
| TimeEntries.Filter | backend/src/modules/tasks/timeEntry.controller.ts:62-63 | keeps exactly the entries of the user, each as often as the table holds it |
| TimeEntries.TimeEntryTable.Retain | backend/src/models/index.ts:35 | the cascade's step on the time-entries table: keeps exactly the picked rows, in order, with the invariant |
| TimeEntries.RetainKeepsInvariant | backend/src/models/index.ts:35 | removing entries keeps ids unique and at most one running entry per user |
| TimeEntries.RunningEntry | backend/src/modules/tasks/timeEntry.controller.ts:289-310 | without a user the answer is 401; otherwise the caller's running entry, or 404 exactly when the caller has none |
| TimeEntries.RunningEntryIsUnique | backend/src/modules/tasks/timeEntry.controller.ts:297-299 | under the invariant, the running entry reported is the caller's only running entry |
| TimeEntries.TimeEntryTable.constructor | backend/src/modules/tasks/TimeEntry.ts:1-82 | the table starts empty with the next id 1 |
| TimeEntries.TimeEntryTable.Start | backend/src/modules/tasks/timeEntry.controller.ts:83-147 | the rows, next id and reply are those of `StartSpec`; at most one running entry per user is kept |
| TimeEntries.TimeEntryTable.Stop | backend/src/modules/tasks/timeEntry.controller.ts:150-199 | the rows and reply are those of `StopSpec` |
| TimeEntries.TimeEntryTable.Update | backend/src/modules/tasks/timeEntry.controller.ts:202-262 | the rows and reply are those of `UpdateSpec` |
| TimeEntries.TimeEntryTable.Delete | backend/src/modules/tasks/timeEntry.controller.ts:265-286 | the rows and reply are those of `DeleteSpec` |
| Tasks.OwnedProjectIds | backend/src/modules/tasks/task.controller.ts:44-48 | the ids collected are exactly those of the projects the user owns |
| Tasks.View | backend/src/modules/tasks/task.controller.ts:75-107 | a listed task carries exactly its own dependency rows and time entries, empty lists when there are none |
| Tasks.Views | backend/src/modules/tasks/task.controller.ts:75-108 | the views hold exactly the picked tasks, each with its own dependencies and time entries |
| Tasks.ListTasks | backend/src/modules/tasks/task.controller.ts:14-114 | the listing holds exactly the tasks that match the filters present (status, assignee, project) and that the caller sees: every task for an administrator, otherwise the tasks of the caller's projects and those assigned to the caller; the query is not validated, so an unknown status name or an id that is not an integer is refused by the database with 500 |
| Tasks.ColumnInt | backend/src/modules/tasks/task.controller.ts:16-28 | a query id reaches the database as text; it is read as the integer its digits and optional sign write, when that fits in 32 bits, and refused otherwise |
| Tasks.ColumnIntRoundTrip | backend/src/modules/tasks/task.controller.ts:16-28 | every 32-bit integer written in decimal is read back as itself |
| Tasks.ColumnIntNeedsDigits | backend/src/modules/tasks/task.controller.ts:16-28 | text without a digit is refused, so such a query id is answered with 500 |
| Tasks.Filters | backend/src/modules/tasks/task.controller.ts:16-28 | the query's filters are read exactly when each given value is read: the status as the one it names, the ids as the integers they write |
| Tasks.ListingsNest | backend/src/modules/tasks/task.controller.ts:32-71 | an administrator's listing contains anyone else's for the same filters, and adding a filter only removes tasks |
| Tasks.CreateOutcome | backend/src/modules/tasks/task.controller.ts:144-164 | an unknown project is a 404, checked first, then 403; a task is created exactly when the project exists, the caller is an administrator or its owner, the assignee, if any, is a user, and the due date is not `""`, an unknown assignee or an empty due date being a 500; it gets a fresh id, status `todo` and priority `medium` unless given, the given due date, `actualHours` 0, and nothing else changes |
| Tasks.FindTaskIndex | backend/src/modules/tasks/task.controller.ts:193-199 | finds the task with the id, or reports that none exists |
| Tasks.DeleteRightsImplyUpdateRights | backend/src/modules/tasks/task.controller.ts:201-242 | whoever may delete a task may update it, and an assignee who is neither administrator nor project owner may update but not delete |
| Tasks.EditKeepsIdentity | backend/src/modules/tasks/task.controller.ts:211-212 | the title, status and assignee are replaced exactly when the edit gives them; the id, project and creation time never change |
| Tasks.EmptyEditChangesNothing | backend/src/modules/tasks/task.controller.ts:211-212 | an edit that gives no field leaves the task as it was |
| Tasks.UpdateEditsOnlyThatTask | backend/src/modules/tasks/task.controller.ts:188-226 | an update succeeds exactly for an existing task, an administrator, the project's owner or the assignee, an assignee, if given, that is a user, and a due date other than `""`; it changes only that task, and 404, 403 or 500 change nothing |
| Tasks.DeleteRemovesOnlyThatTask | backend/src/modules/tasks/task.controller.ts:228-249 | a delete succeeds exactly for an existing task and an administrator or the project's owner, and removes exactly that task from the tasks table; the rows that cascade from it are `Cascade.DeleteTaskCascades` |
| Tasks.RemoveTaskAt | backend/src/modules/tasks/task.controller.ts:244 | destroying a row keeps every other row and the unique ids |
| Tasks.TaskTable.constructor | backend/src/models/Task.ts:1-97 | the table starts empty with the next id 1 |
| Tasks.TaskTable.Create | backend/src/modules/tasks/task.controller.ts:138-186 | the rows, next id and reply are those of `CreateSpec`; an assignee other than the creator gets exactly one new unread `task_assigned` notification, and otherwise no notification is added |
| Tasks.AnnounceAssignee | backend/src/modules/tasks/task.controller.ts:173-178 | an existing assignee other than the creator gets exactly one new unread `task_assigned` notification about the task; otherwise the notifications are unchanged |
| Tasks.TaskTable.Update | backend/src/modules/tasks/task.controller.ts:188-226 | the rows and reply are those of `UpdateSpec` |
| Tasks.TaskTable.Delete | backend/src/modules/tasks/task.controller.ts:228-249 | the task table's own step of `deleteTask`: its rows and reply are those of `DeleteSpec`; `Cascade.DestroyTask` adds the cascade |
| Tasks.TaskTable.Retain | backend/src/models/index.ts:14 | the cascade's step on the tasks table: keeps exactly the picked rows, in order, with the invariant |
| Tasks.RetainKeepsInvariant | backend/src/models/index.ts:14 | removing tasks keeps ids unique and below the next id |
| Comments.CommentsOfTask | backend/src/controllers/comment.controller.ts:7-20 | a task's comments are exactly the rows of that task, each as often as the table holds it, oldest first |
| Comments.CommentTable.Retain | backend/src/models/index.ts:20 | the cascade's step on the comments table: keeps exactly the picked rows, in order, with the invariant |
| Comments.RetainKeepsInvariant | backend/src/models/index.ts:20 | removing comments keeps ids unique and below the next id |
| Comments.CreateOutcome | backend/src/controllers/comment.controller.ts:29-49 | without a user the answer is 401, then an unknown task is 404; a comment is created exactly when both checks pass and content is given; its author is always the caller, and ids stay unique |
| Comments.FindComment | backend/src/controllers/comment.controller.ts:73-77 | finds the comment with the id, or reports that none exists |
| Comments.EditIsForTheAuthorOnly | backend/src/controllers/comment.controller.ts:68-84 | an edit succeeds exactly for the comment's author, an administrator not excepted; it changes only that comment's content, and a refusal changes nothing |
| Comments.DeleteFollowsStoredRole | backend/src/controllers/comment.controller.ts:111-116 | deleting someone else's comment follows the role stored for the caller's account, not the role the caller presents |
| Comments.DeleteRemovesOnlyThatComment | backend/src/controllers/comment.controller.ts:102-118 | a delete removes exactly the comment asked for, for its author or a stored administrator, or changes nothing |
| Comments.CommentTable.constructor | backend/src/modules/tasks/Comment.ts:1-57 | the table starts empty with the next id 1 |
| Comments.CommentTable.Create | backend/src/controllers/comment.controller.ts:29-66 | the rows, next id and reply are those of `CreateSpec` |
| Comments.CommentTable.Update | backend/src/controllers/comment.controller.ts:68-100 | the rows and reply are those of `UpdateSpec` |
| Comments.CommentTable.Delete | backend/src/controllers/comment.controller.ts:102-124 | the rows and reply are those of `DeleteSpec` |
| Attachments.NewestFirst | backend/src/controllers/attachment.controller.ts:13-22 | a listing holds exactly the picked attachments, each as often as the table holds it, newest first |
| Attachments.AttachmentsOfTask | backend/src/controllers/attachment.controller.ts:10-26 | a task's listing holds exactly the attachments of that task, each as often as the table holds it, newest first |
| Attachments.AttachmentsOfProject | backend/src/controllers/attachment.controller.ts:32-48 | a project's listing holds exactly the attachments of that project, each as often as the table holds it, newest first |
| Attachments.AttachmentTable.Retain | backend/src/models/index.ts:26-29 | the cascade's step on the attachments table: keeps exactly the picked rows, in order, with the invariant |
| Attachments.RetainKeepsInvariant | backend/src/models/index.ts:26-29 | removing attachments keeps ids unique and below the next id |
| Attachments.UploadOutcome | backend/src/controllers/attachment.controller.ts:54-97 | an upload is stored exactly when a signed-in caller names at least one target, every target given exists and a file was received; each refusal is the first failing check in the handler's order (401 no user, 400 no target, 404 task, 404 project, 400 no file) and changes nothing; the record carries the file's metadata, the ids given and the caller as uploader |
| Attachments.FindAttachment | backend/src/controllers/attachment.controller.ts:177-181 | finds the attachment with the id, or reports that none exists |
| Attachments.DeleteRemovesOnlyThatAttachment | backend/src/controllers/attachment.controller.ts:172-193 | a delete succeeds exactly for an existing attachment and its uploader or an administrator, removes exactly that record, and a refusal changes nothing |
| Attachments.AttachmentTable.constructor | backend/src/modules/tasks/Attachment.ts:1-91 | the table starts empty with the next id 1 |
| Attachments.AttachmentTable.Upload | backend/src/controllers/attachment.controller.ts:54-114 | the rows, next id and reply are those of `UploadSpec` |
| Attachments.AttachmentTable.Delete | backend/src/controllers/attachment.controller.ts:172-199 | the rows and reply are those of `DeleteSpec` |
| Projects.TasksOf | backend/src/modules/projects/project.controller.ts:19 | a project's included tasks are exactly the tasks whose project is that project |
| Projects.ListProjects | backend/src/modules/projects/project.controller.ts:15-31 | an administrator sees every project, anyone else exactly the projects they own, each with exactly its own tasks |
| Projects.AdminListsEveryProject | backend/src/modules/projects/project.controller.ts:15-21 | an administrator's listing is the whole table in table order |
| Projects.NewRow | backend/src/modules/projects/project.controller.ts:71-76 | a new project is owned by its creator and is `active` unless a status is given |
| Projects.TeamRecipients | backend/src/modules/projects/project.controller.ts:85-94 | the notified team members are exactly the listed members other than the creator |
| Projects.TeamRecipientsCount | backend/src/modules/projects/project.controller.ts:87-92 | each member other than the creator is notified as often as listed, the creator never |
| Projects.FindProjectIndex | backend/src/modules/projects/project.controller.ts:106-110 | finds the row with the id, or reports that none exists |
| Projects.ApplyEdit | backend/src/modules/projects/project.controller.ts:116-117 | an edit never changes a project's id, owner or creation time; one the columns accept sets the given name and description and the status it names, and keeps what it leaves out |
| Projects.UpdateNeedsOwnerOrAdmin | backend/src/modules/projects/project.controller.ts:104-123 | the body is not validated: an update succeeds exactly for an existing project, its owner or an administrator, and values the columns accept; a `null` name or description or an unknown status is a 500; a refusal changes nothing; only that project changes, every owner and id is kept, so ids stay unique |
| Projects.DeleteNeedsOwnerOrAdmin | backend/src/modules/projects/project.controller.ts:125-142 | a delete succeeds exactly for an existing project and its owner or an administrator; a refusal changes nothing; a success removes exactly that project from the projects table; the rows that cascade from it are `Cascade.DeleteProjectCascades` |
| Projects.ProjectTable.constructor | backend/src/models/Project.ts:26-58 | the table starts empty with the next id 1 |
| Projects.NotifyTeam | backend/src/modules/projects/project.controller.ts:85-94 | each listed member other than the creator that is a user, in list order, gets one unread `project_assigned` notification about the project; a member who is no user gets none; earlier notifications are untouched |
| Projects.NotifyMember | backend/src/modules/projects/project.controller.ts:87-92 | one turn of the loop keeps the notifications sent so far matched, in order, to the known recipients among the members seen so far |
| Projects.ProjectTable.Create | backend/src/modules/projects/project.controller.ts:64-102 | the new project is appended, and exactly one unread `project_assigned` notification per listed member other than the creator that is a user is added, in list order, with earlier notifications untouched |
| Projects.ProjectTable.Update | backend/src/modules/projects/project.controller.ts:104-123 | the rows and reply are those of `UpdateSpec`, including the 500 for a value the columns refuse |
| Projects.ProjectTable.Delete | backend/src/modules/projects/project.controller.ts:125-142 | the project table's own step of `deleteProject`: its rows and reply are those of `DeleteSpec`; `Cascade.DestroyProject` adds the cascade |
| Cascade.WithoutTasks | backend/src/models/index.ts:20-46 | destroying tasks removes exactly the comments, attachments, time entries and dependency rows (on either side) that name one of them; every other row stays, never more often than before |
| Cascade.WithoutTasksKeepsInvariants | backend/src/models/index.ts:20-46 | the cascade keeps every child table's invariant: unique ids, one running timer per user, an acyclic dependency graph |
| Cascade.WithoutOneTask | backend/src/models/index.ts:20-46 | destroying one task removes exactly the comments, attachments, time entries and dependency rows that name it |
| Cascade.DeleteTaskCascades | backend/src/modules/tasks/task.controller.ts:228-249 | a refused `deleteTask` changes nothing; a successful one removes the task and exactly the rows that name it |
| Cascade.DeleteTaskKeepsInvariants | backend/src/models/index.ts:20-46 | every `deleteTask` keeps the tables' invariants and the foreign keys: each remaining row names a task that still exists |
| Cascade.TaskIdsOf | backend/src/models/index.ts:14 | the ids of exactly the project's tasks |
| Cascade.DeleteProjectCascades | backend/src/modules/projects/project.controller.ts:125-142 | a refused `deleteProject` changes nothing; a successful one removes the project, its tasks, exactly the rows that name one of them, and the attachments that name the project |
| Cascade.DeleteProjectKeepsInvariants | backend/src/models/index.ts:14-46 | every `deleteProject` keeps the tables' invariants and the foreign keys |
| Cascade.DroppedTimersStop | backend/src/models/index.ts:35 | after tasks are destroyed a user has a running timer exactly when one ran on a task that remains |
| Cascade.DeletedTaskFreesTimer | backend/src/modules/tasks/timeEntry.controller.ts:109-117 | once the task a user's only running timer was on is destroyed, starting a timer is no longer refused as already running |
| Cascade.DroppedTasksLeaveNoWalk | backend/src/controllers/taskDependency.controller.ts:295-324 | after tasks are destroyed the cycle search only follows walks that existed before, and none of two or more tasks passes through a destroyed one |
| Cascade.DeletingMiddleTaskBreaksChain | backend/src/controllers/taskDependency.controller.ts:295-324 | with rows 1→3 and 3→2, task 2 is reached from task 1, and no longer once task 3 is destroyed |
| Cascade.DropTasks | backend/src/models/index.ts:20-46 | the child tables become exactly `WithoutTasks` of what they were, each keeping its invariant and next id |
| Cascade.DestroyTask | backend/src/modules/tasks/task.controller.ts:228-249 | `deleteTask` with the cascade: the tasks, child tables and reply are those of `DeleteTaskSpec` |
| Cascade.DestroyProject | backend/src/modules/projects/project.controller.ts:125-142 | `deleteProject` with the cascade: the projects, tasks, child tables and reply are those of `DeleteProjectSpec` |
| Notifications.UnreadCount | backend/src/modules/auth/notification.controller.ts:37-39 | the count is zero exactly when none of the user's notifications is unread, and never exceeds the table |
| Notifications.Matching | backend/src/modules/auth/notification.controller.ts:17-21 | the listing's rows are exactly the user's rows, with the read flag equal to `isRead === 'true'` when `isRead` is given |
| Notifications.NewestFirst | backend/src/modules/auth/notification.controller.ts:25 | the same rows, each as often as before, newest first |
| Notifications.Window | backend/src/modules/auth/notification.controller.ts:26-27 | at most `limit` rows, the slice after `offset` when there are enough, nothing past the end, order kept |
| Notifications.ListNotifications | backend/src/modules/auth/notification.controller.ts:8-53 | 401 exactly without a signed-in user; otherwise the `offset`/`limit` window (20 and 0 by default) of the user's matching rows sorted newest first, so at most `limit` rows, each a matching row, with the user's whole unread count and the paging echoed |
| Notifications.FirstPageHoldsEveryMatch | backend/src/modules/auth/notification.controller.ts:17-29 | asked from offset 0 with a limit of at least the table's size, the page holds every row of the user that the read filter admits |
| Notifications.PagesTile | backend/src/modules/auth/notification.controller.ts:26-27 | a page followed by the next one is the page as long as both, so paging neither skips nor repeats rows |
| Notifications.UnreadCountIgnoresPaging | backend/src/modules/auth/notification.controller.ts:37-39 | the unread count does not depend on the read filter or the page asked for |
| Notifications.FindNotification | backend/src/modules/auth/notification.controller.ts:64 | finds the notification with the id, or reports that none exists |
| Notifications.MarkReadIdempotent | backend/src/modules/auth/notification.controller.ts:55-81 | only the owner marks a notification read (401, 404, 403 otherwise, with nothing changed); only that row's flag changes, and marking twice equals marking once |
| Notifications.FindNotificationAfterEdit | backend/src/modules/auth/notification.controller.ts:74 | editing a row in place, id kept, does not move the lookup |
| Notifications.MarkAllRead | backend/src/modules/auth/notification.controller.ts:91-94 | the table keeps its length; exactly the user's rows are marked read |
| Notifications.MarkAllReadClearsOnlyOwn | backend/src/modules/auth/notification.controller.ts:83-101 | afterwards the user has nothing unread and every other user's rows and unread count are unchanged |
| Notifications.UnreadCountOfOthers | backend/src/modules/auth/notification.controller.ts:91-94 | marking one user's rows read leaves another user's unread count alone |
| Notifications.DeleteOnlyOwn | backend/src/modules/auth/notification.controller.ts:103-129 | a delete succeeds only for an existing notification of the caller and removes exactly it; a refusal changes nothing |
| Notifications.ProjectNameOrUnknown | backend/src/modules/auth/notification.controller.ts:173 | the project name shown in a message is never empty |
| Notifications.CommentRecipients | backend/src/modules/auth/notification.controller.ts:257-287 | the assignee first when there is one, then every mentioned user in order, repeats kept |
| Notifications.NotificationTable.constructor | backend/src/models/Notification.ts:34-80 | the table starts empty with the next id 1 |
| Notifications.NotificationTable.CreateNotification | backend/src/modules/auth/notification.controller.ts:132-161 | for a recipient that is a user, appends exactly one unread notification carrying the given fields and the next id; for any other id the insert fails, the result is null and nothing changes |
| Notifications.NotificationTable.NotifyTaskAssigned | backend/src/modules/auth/notification.controller.ts:164-188 | nothing for an unknown task or an assignee who is no user; otherwise one unread `task_assigned` notification to the assignee naming the task and its project, or `Unknown Project` |
| Notifications.NotificationTable.NotifyProjectAssigned | backend/src/modules/auth/notification.controller.ts:191-212 | nothing for an unknown project or a user id no user has; otherwise one unread `project_assigned` notification to the user naming the project |
| Notifications.NotificationTable.NotifyTaskCompleted | backend/src/modules/auth/notification.controller.ts:215-241 | nothing for an unknown or unassigned task or an assignee who is no user; otherwise one unread `task_completed` notification to its assignee |
| Notifications.NotificationTable.NotifyNewComment | backend/src/modules/auth/notification.controller.ts:244-294 | nothing for an unknown task; otherwise one result per recipient of `CommentRecipients`, in that order: null for a recipient who is no user, else an unread `comment_added` notification to them; exactly the non-null ones are stored |
| Notifications.NotificationTable.NoteCommentTo | backend/src/modules/auth/notification.controller.ts:257-286 | one turn of the loop: the next recipient's result is null or their note, and only a note is stored |
| Notifications.KnownUsers | backend/src/modules/auth/notification.controller.ts:139-160 | the ids that name a user, in order, are exactly those a notification can be stored for |
| Notifications.KnownUsersStep | backend/src/modules/auth/notification.controller.ts:139-160 | one more id joins the known users exactly when it names a user |
| Notifications.Stored | backend/src/modules/auth/notification.controller.ts:139-160 | the stored notifications are exactly the non-null results |
| Notifications.NotificationTable.MarkAsRead | backend/src/modules/auth/notification.controller.ts:55-81 | the rows and reply are those of `MarkReadSpec` |
| Notifications.NotificationTable.MarkAllAsRead | backend/src/modules/auth/notification.controller.ts:83-101 | 401 without a user and nothing changed; otherwise the rows become `MarkAllRead` of the caller |
| Notifications.NotificationTable.Delete | backend/src/modules/auth/notification.controller.ts:103-129 | the rows and reply are those of `DeleteSpec` |
| PdfReports.OrZero | backend/src/modules/projects/pdf.service.ts:112-113 | a missing value counts as 0, a present one as itself |
| PdfReports.ProjectStatsOf | backend/src/modules/projects/pdf.service.ts:104-113 | the total is the number of tasks, the three status counts add up to it, and no task is done exactly when the completed count is 0 |
| PdfReports.MissingEstimatesAddNothing | backend/src/modules/projects/pdf.service.ts:112 | tasks without an estimate add nothing to the estimated total |
| PdfReports.AssigneesOf | backend/src/modules/projects/pdf.service.ts:87-96 | one loaded assignee slot per task, carrying that task's assignee id, empty for an unassigned task |
| PdfReports.LatestWithId | backend/src/modules/projects/pdf.service.ts:1077-1081 | the last assignee object with the id, absent exactly when no task has that assignee |
| PdfReports.MemberIdsAreTheAssignees | backend/src/modules/projects/pdf.service.ts:1075-1083 | the team holds each distinct assignee once, and exactly the assignees |
| PdfReports.MemberIdsGrowAtTheEnd | backend/src/modules/projects/pdf.service.ts:1077-1082 | members keep the order in which their ids were first met |
| PdfReports.ExtractTeamMembers | backend/src/modules/projects/pdf.service.ts:1075-1083 | one member per distinct assignee id in first-met order, each the last object seen with that id |
| PdfReports.Completion | backend/src/modules/projects/pdf.service.ts:1085-1093 | 100 exactly for `done`, 50 exactly for `in_progress`, 0 for anything else |
| PdfReports.CompletionFollowsStatus | backend/src/modules/projects/pdf.service.ts:1085-1093 | completion rises from todo to in progress to done, from 0 to 100 |
| PdfReports.HoursAndMinutes | backend/src/modules/projects/pdf.service.ts:553-554 | for a non-negative total, whole hours and minutes below 60 that give the total back |
| PdfReports.TimeSpentSplits | backend/src/modules/projects/pdf.service.ts:190 | non-negative durations give a non-negative time spent that splits exactly into hours and minutes |
| PdfReports.EntriesOnIsTheDay | backend/src/modules/projects/pdf.service.ts:1098-1107 | an entry is in its own day's group and in no other |
| PdfReports.DaysAreTheDates | backend/src/modules/projects/pdf.service.ts:252 | a day is worked exactly when some entry was made on it |
| PdfReports.GroupsOfExtend | backend/src/modules/projects/pdf.service.ts:1098-1109 | one more entry, added to its day's group or opening a new one, keeps the grouping |
| PdfReports.GroupByDate | backend/src/modules/projects/pdf.service.ts:1095-1112 | one group per day worked, each day once, each group holding exactly that day's entries in order; the group count is `daysWorked` |
| PdfReports.ReportFailure | backend/src/modules/projects/reporting.controller.ts:433-440 | 404 exactly when the thrown message says the subject is missing, the generic 500 otherwise |
| PdfReports.AsWrittenMissingSubjectError | backend/src/modules/projects/pdf.service.ts:99-151 | as written, the error that reaches the handler for a missing subject is not the not-found message |
| PdfReports.AsWrittenMissingSubjectIs500 | backend/src/modules/projects/pdf.service.ts:146-151 | as written, a missing project or task is answered with 500 |
| PdfReports.MissingSubjectError | backend/src/modules/projects/reporting.controller.ts:435-436 | the corrected error for a missing subject reaches the handler's 404 |
| PdfReports.ReportError | backend/src/modules/projects/pdf.service.ts:99-101 | an error exactly when the project or task is missing, and it is answered with 404; corrected rule (see Findings) |
| PdfReports.TimeTrackingFailure | backend/src/modules/projects/reporting.controller.ts:485-492 | 404 exactly for a missing user or a message about time entries, the generic 500 otherwise |
| PdfReports.TimeTrackingDatesMissing | backend/src/modules/projects/reporting.controller.ts:470-472 | 400 exactly when `startDate` or `endDate` is absent or empty |
| PdfReports.TimeTrackingFailureIs500 | backend/src/modules/projects/pdf.service.ts:282-285 | the service's own failure message is always answered with 500 |
| Reporting.Percentage | backend/src/modules/projects/reporting.controller.ts:28 | the rate times the total is the part times 100, 0 without a total, between 0 and 100 for a part of the total, and 100 exactly when all are counted |
| Reporting.ProjectOverviewOf | backend/src/modules/projects/reporting.controller.ts:16-35 | the three status counts add up to the number of projects; the completion rate is between 0 and 100, and 100 exactly when there are projects and all are completed |
| Reporting.TaskOverviewOf | backend/src/modules/projects/reporting.controller.ts:38-57 | the three status counts add up to the number of tasks; the completion rate is 100 exactly when there are tasks and all are done |
| Reporting.AssignedTo | backend/src/modules/projects/reporting.controller.ts:73 | a user's tasks are exactly the tasks assigned to them |
| Reporting.TasksOf | backend/src/modules/projects/reporting.controller.ts:107 | a project's tasks are exactly the tasks that name it |
| Reporting.CompletionOf | backend/src/modules/projects/reporting.controller.ts:74-84 | the done count is at most the task count, and the rate is between 0 and 100, and 0 without tasks |
| Reporting.UserPerformanceOf | backend/src/modules/projects/reporting.controller.ts:60-92 | one row per user in table order, counting exactly the user's assigned tasks |
| Reporting.ProjectProgressOf | backend/src/modules/projects/reporting.controller.ts:95-126 | corrected rule (see Findings): one row per project in table order, counting exactly the project's tasks |
| Reporting.ProjectProgressHandler | backend/src/modules/projects/reporting.controller.ts:95-126 | a query whose include does not name the association's alias is answered with 500; otherwise the progress rows, counting the project's tasks when they are read under the alias and none otherwise |
| Reporting.AsWrittenProgressIs500 | backend/src/modules/projects/reporting.controller.ts:97-104 | as written (see Findings) the include names no alias, so every request is answered with 500; with the alias named but the rows read under `Tasks`, every project counts no tasks |
| Reporting.ProgressWithAlias | backend/src/models/index.ts:14-15 | with the include under the alias `tasks` and the rows read under it, the handler answers with every project's progress |
| Reporting.FinishingRaisesOnlyTheAssignee | backend/src/modules/projects/reporting.controller.ts:72-86 | finishing a task raises its assignee's completed count by one and no other user's |
| Reporting.PriorityDistributionOf | backend/src/modules/projects/reporting.controller.ts:129-147 | the low, medium and high counts are the numbers of such tasks, and their total never exceeds the task count |
| Reporting.PriorityTotalLeavesOutUrgent | backend/src/modules/projects/reporting.controller.ts:139 | the total falls short of the task count by exactly the urgent tasks |
| Reporting.Weight | backend/src/modules/projects/reporting.controller.ts:291 | a task weighs between 0 and 3, and 0 exactly when urgent |
| Reporting.WorkloadOf | backend/src/modules/projects/reporting.controller.ts:277-293 | the score is the sum of the user's task weights, at most three per task |
| Reporting.WeightsAddUp | backend/src/modules/projects/reporting.controller.ts:279-291 | the summed weights are three per high, two per medium and one per low task |
| Reporting.WeightsBounded | backend/src/modules/projects/reporting.controller.ts:291 | the score is between 0 and three times the number of tasks |
| Reporting.Load | backend/src/modules/projects/reporting.controller.ts:395-402 | an open task loads its estimate (0 when missing), a done one nothing |
| Reporting.UtilizationOf | backend/src/modules/projects/reporting.controller.ts:393-414 | the open-task count, the summed open estimates, the 40-hour capacity, the rate as their percentage, and overallocation exactly above 40 hours |
| Reporting.OpenEstimates | backend/src/modules/projects/reporting.controller.ts:400-402 | summing the open tasks' estimates is summing every task's load |
| Reporting.DoneTasksDoNotLoad | backend/src/modules/projects/reporting.controller.ts:395-397 | a finished task changes no user's utilisation |
| Reporting.ActualIfDone | backend/src/modules/projects/reporting.controller.ts:232-234 | only a completed task adds its actual hours |
| Reporting.ProductivityOf | backend/src/modules/projects/reporting.controller.ts:222-256 | estimates are summed over all the user's tasks, actual hours over the completed ones, and the completed and overdue counts together never exceed the task count |
| Reporting.ProductivityRates | backend/src/modules/projects/reporting.controller.ts:244-254 | the on-time rate is the share of tasks not overdue, between 0 and 100; the efficiency is actual over estimated hours as a percentage, 0 without an estimate |
| Reporting.CompletedActuals | backend/src/modules/projects/reporting.controller.ts:224-234 | summing the completed tasks' actual hours is summing every task's completed-only hours |
| Reporting.OverdueGrowsWithTime | backend/src/modules/projects/reporting.controller.ts:225-227 | a user's overdue count never falls as time passes |
| Reporting.TallyCountsEstimates | backend/src/modules/projects/reporting.controller.ts:158-162 | exactly the tasks with an estimate are counted, and exactly their estimates summed |
| Reporting.TallyCountsActuals | backend/src/modules/projects/reporting.controller.ts:163-166 | exactly the tasks with actual hours are counted, and exactly their hours summed |
| Reporting.TimeTrackingStatsOf | backend/src/modules/projects/reporting.controller.ts:151-167 | the loop's four figures are the counts and sums over the tasks that have each value |
| Reporting.Average | backend/src/modules/projects/reporting.controller.ts:174-175 | the average times the count is the total, 0 for none |
| Reporting.TimeTrackingRates | backend/src/modules/projects/reporting.controller.ts:169-177 | the two averages, and an accuracy that is 100 exactly when actual hours equal a positive estimate |
| Reporting.WithProject | backend/src/modules/projects/reporting.controller.ts:535 | corrected rule (see Findings): the report keeps exactly the selected tasks whose project exists |
| Reporting.CustomReportOf | backend/src/modules/projects/reporting.controller.ts:549-591 | corrected rule (see Findings): a summary for no type or `summary`, a listing for `detailed`, the error object for any other type; the summary counts the selected tasks with a project, the done and the in-progress ones among them, the selected projects and the completed ones, and sums their estimates and the done tasks' actual hours; the listing has one row per such task in order and one per selected project with its task and done-task counts |
| Reporting.CustomReportHandler | backend/src/modules/projects/reporting.controller.ts:532-545 | a query whose includes do not all name their association's alias is answered with 500; otherwise the report its type asks for |
| Reporting.AsWrittenCustomReportIs500 | backend/src/modules/projects/reporting.controller.ts:532-545 | as written (see Findings) the project include of the task query and the task include of the project query name no alias, so every request is answered with 500 |
| Reporting.CustomReportWithAliases | backend/src/models/index.ts:14-18 | with every include under its alias, the handler answers with the report of `CustomReportOf` |
| Reporting.SummaryAgreesWithDetail | backend/src/modules/projects/reporting.controller.ts:553-582 | corrected rule (see Findings): the summary's completed count equals the number of done rows in the detailed listing |
| AuthSlice.Initial | frontend/src/store/slices/authSlice.ts:13-19 | a page load starts signed out, loading, with no error and the stored token held |
| AuthSlice.FailureMessage | frontend/src/store/slices/authSlice.ts:78 | the error's own message when it has one, otherwise `Login failed` or `Registration failed`; never empty |
| AuthSlice.Reduce | frontend/src/store/slices/authSlice.ts:65-111 | each case's effect on the state and the stored token, and every case keeps a consistent store consistent: the held token is the stored one, and the slice is signed in exactly when it holds a user |
| AuthSlice.RunKeepsConsistent | frontend/src/store/slices/authSlice.ts:63-112 | any run of actions keeps the store consistent |
| AuthSlice.CheckAuthAction | frontend/src/store/slices/authSlice.ts:41-50 | `checkAuth` is fulfilled exactly when a non-empty token is stored and the server returns a user, and then with that user |
| AuthSlice.LogoutAction | frontend/src/store/slices/authSlice.ts:52-57 | `logout` is fulfilled exactly when the server's reply succeeds |
| AuthSlice.LogoutThenCheckAuthSignsOut | frontend/src/store/slices/authSlice.ts:52-57 | after a successful logout, `checkAuth` is rejected whatever the server would say, and the slice stays signed out |
| AuthSlice.LoginFromPageLoad | frontend/src/store/slices/authSlice.ts:65-79 | a fulfilled login signs in with the reply's user and token, held and stored alike; a rejected one leaves the slice signed out with the failure message and the stored token untouched |
| AuthSlice.AsWrittenFulfilled | frontend/src/store/slices/authSlice.ts:69-75 | as written, the fulfilled case signs in but holds no token and stores the string `undefined` |
| AuthSlice.AsWrittenLoginLosesToken | frontend/src/store/slices/authSlice.ts:69-90 | as written, every login leaves the store inconsistent and never stores the access token; the corrected case keeps the store consistent and stores it |
| AuthSlice.AuthStore.constructor | frontend/src/store/slices/authSlice.ts:13-19 | the store starts as `Initial` of the stored token |
| AuthSlice.AuthStore.Pending | frontend/src/store/slices/authSlice.ts:65-68 | the store becomes `Reduce` of the pending case |
| AuthSlice.AuthStore.Fulfilled | frontend/src/store/slices/authSlice.ts:69-75 | the store becomes `Reduce` of the corrected fulfilled case |
| AuthSlice.AuthStore.Rejected | frontend/src/store/slices/authSlice.ts:76-79 | the store becomes `Reduce` of the rejected case |
| AuthSlice.AuthStore.CheckAuthFulfilled | frontend/src/store/slices/authSlice.ts:95-99 | the store becomes `Reduce` of the `checkAuth` fulfilled case |
| AuthSlice.AuthStore.CheckAuthRejected | frontend/src/store/slices/authSlice.ts:100-106 | the store becomes `Reduce` of the `checkAuth` rejected case |
| AuthSlice.AuthStore.LogoutFulfilled | frontend/src/store/slices/authSlice.ts:107-111 | the store becomes `Reduce` of the logout case |
| TimeTrackerView.FormatTimeReadsBack | frontend/src/components/TimeTracker.tsx:53-62 | the clock text reads back as the elapsed seconds: three fields from the first full hour on and two before, minutes and seconds padded to two digits |
| TimeTrackerView.FormatDurationReadsBack | frontend/src/components/TimeTracker.tsx:214-224 | a duration text reads back as its minutes (an absent one as 0), with an hours part exactly from 60 minutes on |
| TimeTrackerView.ManageMatchesServer | frontend/src/components/TimeTracker.tsx:226-228 | the tracker offers to manage exactly the entries the server lets the user change, and never offers to delete a running one |
| TimeTrackerView.RunningEntry | frontend/src/components/TimeTracker.tsx:35 | the first running entry in the list, absent exactly when none is running |
| TimeTrackerView.AsWrittenAdoptsOthersTimer | frontend/src/components/TimeTracker.tsx:35-39 | as written, on a task's list with another user's running entry first, the tracker adopts that entry although the viewer's own timer runs, and stopping it is refused to an employee (403) |
| TimeTrackerView.RunningEntryOf | frontend/src/components/TimeTracker.tsx:35 | corrected rule (see Findings): the first running entry of the current user, absent exactly when that user has none running |
| TimeTrackerView.RunningEntryOfIsTheUsersOne | frontend/src/components/TimeTracker.tsx:35-39 | on any list, mixed users included, with at most one running entry per user the corrected lookup finds exactly the current user's running entry, the one `getRunningTimeEntry` reports |
| TimeTrackerView.OwnEntriesAgree | frontend/src/components/TimeTracker.tsx:35 | on a list of the viewer's own entries the as-written and the corrected lookups agree |
| DependencyView.AvailableTasks | frontend/src/components/TaskDependencies.tsx:34-37 | the offered tasks are exactly the tasks other than this one that it does not already depend on |
| DependencyView.AvailableTasksKeepOrder | frontend/src/components/TaskDependencies.tsx:34-37 | the offer keeps the task list's order |
| DependencyView.OfferedTasksPassPairChecks | frontend/src/components/TaskDependencies.tsx:34-37 | given the task's rows, an offered task passes the server's self-dependency and duplicate checks |
| DependencyView.AllowedRequestIsWellFormed | frontend/src/components/TaskDependencies.tsx:40-60 | a request the guard lets through is never a self-dependency, names a type the server stores as chosen, and carries the chosen lag |
| DependencyView.TypeTextsTellTypesApart | frontend/src/components/TaskDependencies.tsx:113-156 | the four types have four different labels, descriptions and icons; an unknown type shows its raw name, no description and the link icon |
| DependencyView.LagTimeReadsBack | frontend/src/components/TaskDependencies.tsx:158-162 | every lag text reads back as its signed days, with `days` exactly above one day and `after` exactly for a positive lag |
| DependencyView.PanelMatchesServer | frontend/src/components/TaskDependencies.tsx:164-166 | the panel offers management exactly to the users the server admits as written, and never to one the intended rule refuses |
| TaskFilterView.ActiveFieldsBounds | frontend/src/components/TaskFilter.tsx:56-62 | at most three distinct active fields, none exactly when no field is set, three exactly when all are |
| TaskFilterView.ActiveFilterCount | frontend/src/components/TaskFilter.tsx:56-62 | the count is the number of active fields, between 0 and 3 |
| TaskFilterView.HandleStatusChange | frontend/src/components/TaskFilter.tsx:31-36 | only the status changes: `all` unsets it, any other value sets it |
| TaskFilterView.HandleAssigneeChange | frontend/src/components/TaskFilter.tsx:38-43 | only the assignee changes: 0 unsets it, any other id sets it |
| TaskFilterView.HandleProjectChange | frontend/src/components/TaskFilter.tsx:45-50 | only the project changes: 0 unsets it, any other id sets it |
| TaskFilterView.ClearFilters | frontend/src/components/TaskFilter.tsx:52-54 | every field is unset |
| TaskFilterView.ChangesCountOneField | frontend/src/components/TaskFilter.tsx:31-62 | a change moves the count by the one field it touches; cleared filters count zero |
| TaskFilterView.ShownStatus | frontend/src/components/TaskFilter.tsx:92 | the status select shows `all` exactly when no status is active or it is `all` |
| TaskFilterView.ShownId | frontend/src/components/TaskFilter.tsx:110 | an id select shows 0 exactly when the id is unset or 0 |
| TaskFilterView.ReselectingChangesNothing | frontend/src/components/TaskFilter.tsx:92-138 | choosing the shown option again keeps the active fields, and each handler applied twice is applied once |
| NotificationDropdown.BadgeShowsCount | frontend/src/components/NotificationDropdown.tsx:108-112 | the badge shows exactly when something is unread, reads `99+` exactly above 99, and below that is the count in at most two digits |
| NotificationDropdown.ElapsedMinutes | frontend/src/components/NotificationDropdown.tsx:76 | the whole minutes elapsed, rounded down |
| NotificationDropdown.AgoReadsBack | frontend/src/components/NotificationDropdown.tsx:79-81 | an age text reads back as its number and unit |
| NotificationDropdown.TimeAgoBracketsElapsed | frontend/src/components/NotificationDropdown.tsx:73-82 | `Just now` exactly under a minute; otherwise the text names a number of minutes, hours or days that brackets the elapsed time |
| NotificationDropdown.IconsTellTypesApart | frontend/src/components/NotificationDropdown.tsx:54-71 | six different icons for the six types, and the bell exactly for any other type |
| NotificationDropdown.ClickNotification | frontend/src/components/NotificationDropdown.tsx:42-47 | a click marks the notification read exactly when it is unread, and closes the menu |
| NotificationDropdown.UnreadCountAfterRead | backend/src/modules/auth/notification.controller.ts:74 | marking one of the user's unread notifications read lowers their unread count by one |
| NotificationDropdown.ClickOnListedNotification | frontend/src/components/NotificationDropdown.tsx:15-47 | a listed notification is unread, so a click asks to mark it read; the server accepts and the unread count drops by one |

## Left out

- HTTP, cookies, headers and the database are abstracted: a handler is a function from the request's fields and the tables it reads to the new tables and a status with a message, and a table is a sequence of rows in id order.
- Cryptography: a JWT signature is modelled as the key it was signed with, so verifying is key equality and the token's text is its claims; `crypto.randomBytes` is a nonce parameter.
- AuthController.Login: `validatePassword` (bcrypt) is modelled as equality with the stored password, and hashing on save is not modelled.
- Clocks: times are integer milliseconds passed in as `nowMs`; `toDateString` is the `dateOf` parameter; "a week from now" (`setDate(getDate() + 7)`) is 7 × 86 400 000 ms, so daylight-saving shifts are ignored.
- Floating point: rates, percentages and averages are exact reals, and rounding for display (`toFixed`) is not modelled; hours are integers.
- Reporting.ProductivityOf: `averageTaskCompletionTime` (reporting.controller.ts:246-251) is not modelled, because it is a floating-point mean of date differences.
- PdfReports.GroupByDate: the per-day `totalHours` (pdf.service.ts:1104-1108) is not modelled, only the grouping of entries by day.
- Reporting.CustomReportOf: the `where` conditions and `include`s of the custom report's queries (reporting.controller.ts:510-530) are abstracted; the tasks and projects they select are parameters.
- The monthly trends, project timeline and task velocity reports (reporting.controller.ts:186-220, 302-345, 347-390) are left out: they group rows with SQL `DATE_TRUNC`, which the model has no counterpart for.
- Read-only handlers that only load one row or its associations are not modelled: `getTaskById` (task.controller.ts:117), `getProjectById` (project.controller.ts:43), `getTaskDependencies`, `getTaskDependents` and `getAllDependenciesForProject` (taskDependency.controller.ts:8, 51, 251), `getTimeEntriesByTask` (timeEntry.controller.ts:7) and `downloadAttachment` (attachment.controller.ts:117).
- Attachment files: multer's storage, the file system write and `fs.unlinkSync` on delete are left out; only the attachment rows are modelled.
- The PDF and HTML rendering (puppeteer, the templates, the charts) is left out; the model covers the data each report is built from and the errors the handlers answer with.
- Concurrency: every handler runs to completion before the next, so races between requests (two starts of a timer, two refreshes of one token) are not modelled.
- The legacy `backend/src/controllers/auth.controller.ts` is not part of this model. The `authenticate` middleware checks every request's token with `verifyAccessToken` from `modules/auth` (auth.middleware.ts:3, 18), which demands the issuer, the audience and the type `access` (token.utils.ts:68-77); the legacy controller's tokens carry only a `userId`, so they cannot pass.
- The validation middleware is modelled only by the 400 answer it gives (`Respond`); zod's messages are not modelled.
- The React components' state, timers and polling (the running clock's one-second tick, the notification list's refresh) are left out; the model covers the pure helpers the components render with.
- Notifications.ListNotifications: `limit` and `offset` are natural numbers. A query value that `Number` turns into a negative number or `NaN` (notification.controller.ts:26-27) reaches the database as an invalid `LIMIT`/`OFFSET`, which is answered with 500; the model cannot express that input.
- `modules/tasks/Task.ts` and `modules/auth/Notification.ts`, which the handlers import, are not part of this model. The columns, defaults and foreign keys follow `models/Task.ts` and `models/Notification.ts`: a new task's `actualHours` defaults to 0, `assigneeId` and `Notification.userId` reference `Users`, and a missing assignee is allowed (the id 0), although `models/Task.ts` declares the column not null.
- Notifications.NotificationTable.CreateNotification: a failed insert leaves `nextId` as it was, whereas a database sequence may already have consumed that id; ids stay unique either way.
- The task, project and PDF schemas, and the time-entry, comment and dependency bodies, take each body field as absent or of its declared type; a field of another JSON type, which zod refuses with 400, is not modelled there. The account schemas do model it (`UserSchema.Field`).
- The handler specifications use the corrected rules of the Findings, not the code as written: the nonced refresh token, `MayManage` and `MayTrack` admitting the project owner, the 404 for a missing PDF subject, and the aliased includes of the project progress and custom reports. The as-written behaviour is stated by the as-written members named in each Findings row.
- Text: zod's `.min` and `.max` count UTF-16 code units, and the model counts Unicode scalar values, so lengths differ for characters outside the Basic Multilingual Plane.
- PdfSchema.ParseOptionsField: an absent options object becomes the empty object without the inner defaults, which is how zod version 4 applies `.default({})`; zod version 3 would then parse the default and fill in the inner defaults. Which zod version is installed is not part of this model.
- Validation.ParsePage and Validation.ParseLimit: an absent `page` or `limit` becomes 1 or 10 without running the checks (task.schema.ts:127-147), which is how zod version 4 applies `.optional().default(…)`; zod version 3 would parse the default number with the string schema and refuse the query with 400. The same reading decides `ProjectSchema.ParseProjectQuery` and `TaskSchema.ParseTaskQuery`.
- TaskSchema.ParseUpdateTask: a given `dependencies` list is validated but not carried into the edit, because `updateTask` never reads it (task.controller.ts:211).
- `CreateTimeEntrySchema` (task.schema.ts:159-185) is not modelled: it is imported (task.controller.ts:12), but no handler in this model validates with it.
- Projects.UpdateSpec: a `null` status, which the column allows, and a body field of another JSON type are not modelled; a given status is text and a given name or description is text or `null`.
- Tasks.ColumnInt: the database also reads an id with leading or trailing white space, which the model refuses; a query key given twice, which Express turns into a list, is not modelled.
- Tokens.Sign: an unset or empty `JWT_SECRET` is not modelled. `jsonwebtoken` throws on such a key (token.utils.ts:30, 44), so registration and login would answer 500; the model signs with whatever key it is given.

## Findings

| source | as written | input that shows it | evidently intended | confidence | as-written member | corrected member |
|---|---|---|---|---|---|---|
| backend/src/controllers/taskDependency.controller.ts:105-123 | the task is loaded with `findByPk` without its project, so `task.project?.ownerId` is always undefined and only administrators pass the check; the update and delete handlers (188-193, 235-240) do the same | an employee who owns the project creates a dependency between two of its tasks: 403 | the owner of the task's project, or an administrator, may manage its dependencies | medium, not executed | TaskDependencies.AsWrittenLocksOutOwner | TaskDependencies.MayManage |
| backend/src/modules/tasks/timeEntry.controller.ts:93-107 | the same unincluded `project?.ownerId` check when starting a timer | an employee who owns the project but is not the assignee starts a timer on one of its tasks: 403 | the assignee, the project owner or an administrator may track time on a task | medium, not executed | TimeEntries.AsWrittenRefusesOwner | TimeEntries.MayTrack |
| backend/src/modules/auth/token.utils.ts:38-49 | the refresh token carries only the user id, the type and the second it was issued, so two issued to one user in one second are the same string | a user logs in twice in the same second: the second store revokes the first row, then hits the unique index on `token`, and the user has no active refresh token | each refresh token is unique, which a `jti` nonce drawn like `generateRefreshToken`'s `crypto.randomBytes(64)` (token.utils.ts:19-21) provides | high, not executed | AuthController.AsWrittenReissueLocksOut | Tokens.NoncedRefreshTokensDiffer |
| backend/src/modules/projects/pdf.service.ts:99-151 | `Project not found` is thrown inside the `try` whose `catch` rethrows `Failed to generate project report PDF`, so the handler's 404 branch (reporting.controller.ts:435-436) never matches; the task report (pdf.service.ts:174-175, 221-224) does the same | a PDF report for a project id that does not exist: 500 | a missing project or task answers 404 | high, not executed | PdfReports.AsWrittenMissingSubjectIs500 | PdfReports.MissingSubjectError |
| frontend/src/store/slices/authSlice.ts:69-75 | the login and register reducers store `action.payload.token`, but the server answers with `accessToken` (auth.controller.ts:57-68) | a successful login: the store keeps no token and `localStorage` gets `undefined` | the reducers store the access token the server sends | high, not executed | AuthSlice.AsWrittenLoginLosesToken | AuthSlice.Reduce |
| backend/src/modules/projects/reporting.controller.ts:97-104 | `getProjectProgress` includes `Task` without `as`, but the association is declared under the alias `tasks` (models/index.ts:14), so the query throws an eager-loading error; the rows are also read as `.Tasks` (107) | any request for project progress: 500 with `Failed to fetch project progress data` | the include names the alias `tasks` and the rows are read under it, so each project counts its tasks | high, not executed | Reporting.AsWrittenProgressIs500 | Reporting.ProgressWithAlias |
| backend/src/modules/projects/reporting.controller.ts:532-545 | `getCustomReport` includes `Project` in the task query and `Task` in the project query without `as`, but the associations are declared under the aliases `project` and `tasks` (models/index.ts:14-15), so the task query throws an eager-loading error; the rows are also read as `.Project` and `.Tasks` (571, 581-582) | any custom report, of any type: 500 with `Failed to generate custom report` | the includes name the aliases and the rows are read under them, so tasks name their project and projects count their tasks | high, not executed | Reporting.AsWrittenCustomReportIs500 | Reporting.CustomReportWithAliases |
| frontend/src/components/TimeTracker.tsx:35 | the tracker takes the first running entry of its list, `timeEntries.find(entry => entry.isRunning)`, but the dashboards pass it a task's entries of every user | a task where another user's timer is listed before the viewer's running timer: the tracker shows the other user's timer as the viewer's, and its stop button is refused with 403 for an employee (for an administrator it stops the other user's timer) | the tracker picks the current user's running entry, filtering on `currentUserId` | medium, not executed | TimeTrackerView.AsWrittenAdoptsOthersTimer | TimeTrackerView.RunningEntryOf |

=== FILE: attachments.dfy ===
/**
 * File attachments of tasks and projects: the listings, the upload handler
 * with its ordered checks, and the delete permission. The file on disk is
 * not part of this model; an upload carries the metadata the upload
 * middleware reports. These handlers answer with an `error` key.
 */
module Attachments {
  import opened Common
  import opened Entities
  import Ordering
  import Tables

  datatype Attachment = Attachment(
    id: int,
    filename: string,
    originalName: string,
    mimeType: string,
    size: int,
    path: string,
    taskId: Option<int>,
    projectId: Option<int>,
    uploadedBy: UserId,
    createdAt: int)

  /** What the upload middleware reports about the received file. */
  datatype UploadedFile = UploadedFile(filename: string, originalName: string, mimeType: string, size: int, path: string)

  const NotAuthenticated: string := "User not authenticated"
  const TargetRequired: string := "Either taskId or projectId must be provided"
  const TaskNotFound: string := "Task not found"
  const ProjectNotFound: string := "Project not found"
  const NoFile: string := "No file uploaded"
  const AttachmentNotFound: string := "Attachment not found"
  const CannotDelete: string := "Not authorized to delete this attachment"
  const AttachmentDeleted: string := "Attachment deleted successfully"

  /** The attachments picked by `p`, newest first. */
  function NewestFirst(rows: seq<Attachment>, p: Attachment -> bool): (r: seq<Attachment>)
    ensures Ordering.SortedOn(r, (a: Attachment) => a.createdAt, true)
    ensures forall a :: a in r <==> a in rows && p(a)
    ensures multiset(r) <= multiset(rows)
    ensures forall a :: a in rows ==> multiset(r)[a] == if p(a) then multiset(rows)[a] else 0
  {
    Tables.FilterCounts(rows, p);
    var picked := Tables.Filter(rows, p);
    Ordering.SortOn(picked, (a: Attachment) => a.createdAt, true)
  }

  /** `getAttachmentsByTask` */
  function AttachmentsOfTask(rows: seq<Attachment>, taskId: int): (r: seq<Attachment>)
    ensures Ordering.SortedOn(r, (a: Attachment) => a.createdAt, true)
    ensures forall a :: a in r <==> a in rows && a.taskId == Some(taskId)
    ensures multiset(r) <= multiset(rows)
    ensures forall a :: a in rows ==> multiset(r)[a] == if a.taskId == Some(taskId) then multiset(rows)[a] else 0
  {
    NewestFirst(rows, (a: Attachment) => a.taskId == Some(taskId))
  }

  /** `getAttachmentsByProject` */
  function AttachmentsOfProject(rows: seq<Attachment>, projectId: int): (r: seq<Attachment>)
    ensures Ordering.SortedOn(r, (a: Attachment) => a.createdAt, true)
    ensures forall a :: a in r <==> a in rows && a.projectId == Some(projectId)
    ensures multiset(r) <= multiset(rows)
    ensures forall a :: a in rows ==> multiset(r)[a] == if a.projectId == Some(projectId) then multiset(rows)[a] else 0
  {
    NewestFirst(rows, (a: Attachment) => a.projectId == Some(projectId))
  }

  predicate AttachmentInvariant(rows: seq<Attachment>, nextId: int)
  {
    && UniqueIds(rows, (a: Attachment) => a.id)
    && forall k :: 0 <= k < |rows| ==> rows[k].id < nextId
  }

  /**
   * `uploadAttachment`. `taskId` and `projectId` are the body fields, `None`
   * when absent or empty; `file` is absent when no file was received.
   */
  function UploadSpec(rows: seq<Attachment>, nextId: int, caller: Option<Caller>, tasks: seq<Task>, projects: seq<Project>,
                      taskId: Option<int>, projectId: Option<int>, file: Option<UploadedFile>, nowMs: int)
    : (seq<Attachment>, int, Result<Attachment>)
  {
    if CallerId(caller).None? then (rows, nextId, Err(Unauthorized(NotAuthenticated)))
    else if taskId.None? && projectId.None? then (rows, nextId, Err(BadRequest(TargetRequired)))
    else if taskId.Some? && FindTask(tasks, taskId.value).None? then (rows, nextId, Err(NotFound(TaskNotFound)))
    else if projectId.Some? && FindProject(projects, projectId.value).None? then (rows, nextId, Err(NotFound(ProjectNotFound)))
    else if file.None? then (rows, nextId, Err(BadRequest(NoFile)))
    else
      var f := file.value;
      var a := Attachment(nextId, f.filename, f.originalName, f.mimeType, f.size, f.path, taskId, projectId, caller.value.id, nowMs);
      (rows + [a], nextId + 1, Ok(a))
  }

  /**
   * An upload is stored exactly when a signed-in caller names at least one
   * existing target and sends a file. The refusals come in the handler's
   * order: no caller, no target, a missing task, a missing project, no file.
   * The record carries the file's metadata, every id given and the caller as
   * uploader.
   */
  lemma UploadOutcome(rows: seq<Attachment>, nextId: int, caller: Option<Caller>, tasks: seq<Task>, projects: seq<Project>,
                      taskId: Option<int>, projectId: Option<int>, file: Option<UploadedFile>, nowMs: int)
    requires AttachmentInvariant(rows, nextId)
    ensures var (after, next, r) := UploadSpec(rows, nextId, caller, tasks, projects, taskId, projectId, file, nowMs);
      && (r.Ok? <==>
          && CallerId(caller).Some? && (taskId.Some? || projectId.Some?)
          && (taskId.Some? ==> FindTask(tasks, taskId.value).Some?)
          && (projectId.Some? ==> FindProject(projects, projectId.value).Some?)
          && file.Some?)
      && (CallerId(caller).None? ==> r == Err(Unauthorized(NotAuthenticated)))
      && (CallerId(caller).Some? && taskId.None? && projectId.None? ==> r == Err(BadRequest(TargetRequired)))
      && (CallerId(caller).Some? && taskId.Some? && FindTask(tasks, taskId.value).None? ==> r == Err(NotFound(TaskNotFound)))
      && ((CallerId(caller).Some? && (taskId.None? || FindTask(tasks, taskId.value).Some?)
           && projectId.Some? && FindProject(projects, projectId.value).None?)
          ==> r == Err(NotFound(ProjectNotFound)))
      && ((CallerId(caller).Some? && (taskId.Some? || projectId.Some?)
           && (taskId.Some? ==> FindTask(tasks, taskId.value).Some?)
           && (projectId.Some? ==> FindProject(projects, projectId.value).Some?)
           && file.None?)
          ==> r == Err(BadRequest(NoFile)))
      && (r.Err? ==> after == rows && next == nextId)
      && (r.Ok? ==> after == rows + [r.value] && r.value.uploadedBy == caller.value.id
                    && r.value.taskId == taskId && r.value.projectId == projectId
                    && r.value.filename == file.value.filename && r.value.originalName == file.value.originalName
                    && r.value.mimeType == file.value.mimeType && r.value.size == file.value.size
                    && r.value.path == file.value.path)
      && AttachmentInvariant(after, next)
  {
    var (after, next, r) := UploadSpec(rows, nextId, caller, tasks, projects, taskId, projectId, file, nowMs);
    if r.Ok? {
      assert forall k :: 0 <= k < |rows| ==> after[k] == rows[k];
    }
  }

  function FindAttachment(rows: seq<Attachment>, id: int): (r: Option<nat>)
    ensures r.Some? ==> r.value < |rows| && rows[r.value].id == id
    ensures r.None? ==> forall k :: 0 <= k < |rows| ==> rows[k].id != id
  {
    Tables.IndexWhere(rows, (a: Attachment) => a.id == id)
  }

  /** The uploader or an administrator may delete an attachment. */
  predicate MayDelete(caller: Option<Caller>, a: Attachment)
  {
    caller.Some? && (a.uploadedBy == caller.value.id || IsAdmin(caller.value))
  }

  /** `deleteAttachment` */
  function DeleteSpec(rows: seq<Attachment>, caller: Option<Caller>, id: int): (seq<Attachment>, Result<string>)
  {
    var k := FindAttachment(rows, id);
    if k.None? then (rows, Err(NotFound(AttachmentNotFound)))
    else if !MayDelete(caller, rows[k.value]) then (rows, Err(Forbidden(CannotDelete)))
    else (rows[..k.value] + rows[k.value + 1..], Ok(AttachmentDeleted))
  }

  /** A deletion removes exactly the attachment asked for, and only for its uploader or an administrator. */
  lemma DeleteRemovesOnlyThatAttachment(rows: seq<Attachment>, nextId: int, caller: Option<Caller>, id: int)
    requires AttachmentInvariant(rows, nextId)
    ensures var (after, r) := DeleteSpec(rows, caller, id);
      && (r.Err? ==> after == rows)
      && (r.Ok? <==> exists k :: 0 <= k < |rows| && rows[k].id == id && MayDelete(caller, rows[k]))
      && (r.Ok? ==> exists k :: 0 <= k < |rows| && rows[k].id == id && after == rows[..k] + rows[k + 1..])
  {
  }

  /** Dropping rows keeps the ids unique and below the next id. */
  lemma RetainKeepsInvariant(rows: seq<Attachment>, nextId: int, keep: Attachment -> bool)
    requires AttachmentInvariant(rows, nextId)
    ensures AttachmentInvariant(Tables.Filter(rows, keep), nextId)
  {
    var after := Tables.Filter(rows, keep);
    Tables.FilterPairwise(rows, keep, (a: Attachment, b: Attachment) => a.id != b.id);
    forall k | 0 <= k < |after| ensures after[k].id < nextId {
      assert after[k] in rows;
    }
  }

  /** The `Attachments` table. */
  class AttachmentTable {
    var rows: seq<Attachment>
    var nextId: int

    predicate Valid()
      reads this
    {
      AttachmentInvariant(rows, nextId)
    }

    constructor ()
      ensures Valid() && rows == [] && nextId == 1
    {
      rows := [];
      nextId := 1;
    }

    /** The database removing the rows `keep` rejects, as an `ON DELETE CASCADE` does. */
    method Retain(keep: Attachment -> bool)
      requires Valid()
      modifies this
      ensures Valid() && nextId == old(nextId)
      ensures rows == Tables.Filter(old(rows), keep)
    {
      RetainKeepsInvariant(rows, nextId, keep);
      rows := Tables.Filter(rows, keep);
    }

    /** `uploadAttachment` */
    method Upload(caller: Option<Caller>, tasks: seq<Task>, projects: seq<Project>, taskId: Option<int>, projectId: Option<int>,
                  file: Option<UploadedFile>, nowMs: int) returns (r: Result<Attachment>)
      requires Valid()
      modifies this
      ensures Valid()
      ensures (rows, nextId, r) == UploadSpec(old(rows), old(nextId), caller, tasks, projects, taskId, projectId, file, nowMs)
    {
      UploadOutcome(rows, nextId, caller, tasks, projects, taskId, projectId, file, nowMs);
      if CallerId(caller).None? {
        return Err(Unauthorized(NotAuthenticated));
      }
      if taskId.None? && projectId.None? {
        return Err(BadRequest(TargetRequired));
      }
      if taskId.Some? && FindTask(tasks, taskId.value).None? {
        return Err(NotFound(TaskNotFound));
      }
      if projectId.Some? && FindProject(projects, projectId.value).None? {
        return Err(NotFound(ProjectNotFound));
      }
      if file.None? {
        return Err(BadRequest(NoFile));
      }
      var f := file.value;
      var a := Attachment(nextId, f.filename, f.originalName, f.mimeType, f.size, f.path, taskId, projectId, caller.value.id, nowMs);
      rows := rows + [a];
      nextId := nextId + 1;
      r := Ok(a);
    }

    /** `deleteAttachment` */
    method Delete(caller: Option<Caller>, id: int) returns (r: Result<string>)
      requires Valid()
      modifies this
      ensures Valid() && nextId == old(nextId)
      ensures (rows, r) == DeleteSpec(old(rows), caller, id)
    {
      var k := FindAttachment(rows, id);
      if k.None? {
        return Err(NotFound(AttachmentNotFound));
      }
      if !MayDelete(caller, rows[k.value]) {
        return Err(Forbidden(CannotDelete));
      }
      ghost var before := rows;
      rows := rows[..k.value] + rows[k.value + 1..];
      assert forall j :: 0 <= j < |rows| ==> rows[j] == before[if j < k.value then j else j + 1];
      r := Ok(AttachmentDeleted);
    }
  }
}

=== FILE: auth_controller.dfy ===
/**
 * The session endpoints: register, login, refresh, logout, logout-all and
 * me. They issue token pairs, record each refresh token in the ledger with a
 * seven-day row expiry, rotate the refresh token on every refresh, and
 * revoke on logout.
 *
 * The class `AuthBackend` holds the `Users` table and the ledger; each
 * handler is a method proved against a pure specification function
 * (`RegisterSpec`, `LoginSpec`, `RefreshSpec`, `LogoutSpec`,
 * `LogoutAllSpec`), and the session properties are lemmas about those
 * functions. `nonce` is the random value of the corrected refresh token;
 * cookies are given as tokens, `None` when the cookie is absent.
 */
module AuthController {
  import opened Common
  import opened Tokens
  import opened Entities
  import opened RefreshLedger
  import opened AuthMiddleware
  import opened UserSchema

  /** `expiresAt.setDate(expiresAt.getDate() + 7)`, in milliseconds. */
  const RowLifetimeMs: int := 7 * 24 * 60 * 60 * 1000

  const ValidationFailed: string := "Validation failed"
  const UserExists: string := "User already exists"
  const InvalidCredentials: string := "Invalid credentials"
  const ServerFailure: string := "Server error"
  const RefreshNotProvided: string := "Refresh token not provided"
  const InvalidRefresh: string := "Invalid refresh token"
  const AccessNotProvided: string := "Access token not provided"
  const InvalidAccess: string := "Invalid access token"
  const LoggedOut: string := "Logged out successfully"
  const LoggedOutEverywhere: string := "Logged out from all devices successfully"

  /**
   * A user as the session endpoints show it. Register and login answer
   * `{ id, email, name, role }`, and `me` loads the row without its
   * `password` column: no reply carries the password.
   */
  datatype PublicUser = PublicUser(id: UserId, email: string, name: string, role: Role)

  function Public(u: User): PublicUser
  {
    PublicUser(u.id, u.email, u.name, u.role)
  }

  /** Two rows that differ only in their password are shown alike: the reply does not depend on it. */
  lemma PublicHidesPassword(u: User, password: string)
    ensures Public(u.(password := password)) == Public(u)
  {
  }

  /** The body of a successful register, login or refresh: the user (not part of a refresh reply) and the pair. */
  datatype Session = Session(user: Option<PublicUser>, tokens: TokenPair)

  /**
   * Issue a pair for `userId` and store its refresh token: the common tail of
   * register, login and refresh. A store that hits the unique index throws.
   */
  function IssueSpec(rows: seq<RefreshToken>, userId: UserId, nowMs: int, s: Secrets, nonce: string): (seq<RefreshToken>, Option<TokenPair>)
  {
    var pair := GenerateTokenPair(userId, nowMs, s, nonce);
    var (after, outcome) := StoreSpec(rows, pair.refreshToken, userId, nowMs + RowLifetimeMs);
    (after, if outcome == Stored then Some(pair) else None)
  }

  /** `register`: validate the body, refuse a taken e-mail, create the user, issue a session. */
  function RegisterSpec(users: seq<User>, rows: seq<RefreshToken>, body: CreateUserBody, isEmail: string -> bool,
                        nowMs: int, s: Secrets, nonce: string): (seq<User>, seq<RefreshToken>, Result<Session>)
  {
    var data := ParseCreateUser(body, isEmail);
    if data.None? then (users, rows, Err(BadRequest(ValidationFailed)))
    else if FindUserByEmail(users, data.value.email).Some? then (users, rows, Err(BadRequest(UserExists)))
    else
      var user := User(NextId(users, (u: User) => u.id), data.value.email, data.value.password, data.value.name, data.value.role);
      var (after, pair) := IssueSpec(rows, user.id, nowMs, s, nonce);
      (users + [user], after, if pair.Some? then Ok(Session(Some(Public(user)), pair.value)) else Err(ServerError(ServerFailure)))
  }

  /** `login`: validate the body, check the credentials, issue a session. */
  function LoginSpec(users: seq<User>, rows: seq<RefreshToken>, body: LoginBody, isEmail: string -> bool,
                     nowMs: int, s: Secrets, nonce: string): (seq<RefreshToken>, Result<Session>)
  {
    var data := ParseLogin(body, isEmail);
    if data.None? then (rows, Err(BadRequest(ValidationFailed)))
    else
      var user := FindUserByEmail(users, data.value.email);
      if user.None? || user.value.password != data.value.password then (rows, Err(Unauthorized(InvalidCredentials)))
      else
        var (after, pair) := IssueSpec(rows, user.value.id, nowMs, s, nonce);
        (after, if pair.Some? then Ok(Session(Some(Public(user.value)), pair.value)) else Err(ServerError(ServerFailure)))
  }

  /**
   * `refreshToken`: the cookie must verify as a refresh token and be active in
   * the ledger; the new pair is for the user the ledger row names, and
   * storing it revokes the presented token.
   */
  function RefreshSpec(rows: seq<RefreshToken>, cookie: Option<Token>, nowMs: int, s: Secrets, nonce: string): (seq<RefreshToken>, Result<Session>)
  {
    if cookie.None? || !Present(cookie.value) then (rows, Err(Unauthorized(RefreshNotProvided)))
    else if VerifyRefreshToken(cookie.value, s, nowMs).Rejected? then (rows, Err(Unauthorized(InvalidRefresh)))
    else
      var (validated, v) := ValidateSpec(rows, cookie.value, nowMs);
      if !v.valid || v.userId.None? || v.userId.value == 0 then (validated, Err(Unauthorized(RefreshRejection)))
      else
        var (after, pair) := IssueSpec(validated, v.userId.value, nowMs, s, nonce);
        (after, if pair.Some? then Ok(Session(None, pair.value)) else Err(Unauthorized(InvalidRefresh)))
  }

  /** `logout`: revoke the refresh cookie if there is one; always a success. */
  function LogoutSpec(rows: seq<RefreshToken>, cookie: Option<Token>): (seq<RefreshToken>, Result<string>)
  {
    if cookie.Some? && Present(cookie.value) then (RevokeSpec(rows, cookie.value).0, Ok(LoggedOut))
    else (rows, Ok(LoggedOut))
  }

  /** `logoutAll`: with a valid access token, revoke every refresh token of its user. */
  function LogoutAllSpec(rows: seq<RefreshToken>, cookie: Option<Token>, authorization: Option<seq<Token>>,
                         nowMs: int, s: Secrets): (seq<RefreshToken>, Result<string>)
  {
    var token := ExtractAccessToken(cookie, authorization);
    if token.None? then (rows, Err(Unauthorized(AccessNotProvided)))
    else
      var decoded := VerifyAccessToken(token.value, s, nowMs);
      if decoded.Rejected? then (rows, Err(Unauthorized(InvalidAccess)))
      else (RevokeWhere(rows, ByUser(decoded.claims.userId)), Ok(LoggedOutEverywhere))
  }

  /** `me`: the user an access token names, without the password. */
  function Me(users: seq<User>, cookie: Option<Token>, authorization: Option<seq<Token>>, nowMs: int, s: Secrets): (r: Result<PublicUser>)
    ensures ExtractAccessToken(cookie, authorization).None? ==> r == Err(Unauthorized(AccessNotProvided))
    ensures r.Ok? <==>
      && ExtractAccessToken(cookie, authorization).Some?
      && VerifyAccessToken(ExtractAccessToken(cookie, authorization).value, s, nowMs).Verified?
      && FindUser(users, ExtractAccessToken(cookie, authorization).value.claims.userId).Some?
    ensures r.Ok? ==>
      var user := FindUser(users, ExtractAccessToken(cookie, authorization).value.claims.userId);
      user.Some? && user.value in users && r.value == Public(user.value)
      && r.value.id == ExtractAccessToken(cookie, authorization).value.claims.userId
    ensures r.Err? ==> r.failure.Unauthorized? || r.failure == NotFound(UserNotFound)
  {
    var token := ExtractAccessToken(cookie, authorization);
    if token.None? then Err(Unauthorized(AccessNotProvided))
    else
      var decoded := VerifyAccessToken(token.value, s, nowMs);
      if decoded.Rejected? then Err(Unauthorized(AccessRejection))
      else
        var user := FindUser(users, decoded.claims.userId);
        if user.None? then Err(NotFound(UserNotFound)) else Ok(Public(user.value))
  }

  /** Issuing for a user leaves exactly one active ledger row for that user: the new one. */
  lemma IssueLeavesOneActive(rows: seq<RefreshToken>, userId: UserId, nowMs: int, s: Secrets, nonce: string)
    requires IssueSpec(rows, userId, nowMs, s, nonce).1.Some?
    ensures var (after, pair) := IssueSpec(rows, userId, nowMs, s, nonce);
      ActiveOf(after, userId) == {|rows|} && after[|rows|].token == pair.value.refreshToken
      && after[|rows|].expiresAt == nowMs + RowLifetimeMs
  {
    var pair := GenerateTokenPair(userId, nowMs, s, nonce);
    StoreLeavesOneActive(rows, pair.refreshToken, userId, nowMs + RowLifetimeMs);
  }

  /** A nonce that no stored token carries always yields a stored session. */
  lemma FreshNonceIssues(rows: seq<RefreshToken>, userId: UserId, nowMs: int, s: Secrets, nonce: string)
    requires forall i :: 0 <= i < |rows| ==> !(rows[i].token.Signed? && rows[i].token.claims.jti == Some(nonce))
    ensures IssueSpec(rows, userId, nowMs, s, nonce).1.Some?
  {
    var pair := GenerateTokenPair(userId, nowMs, s, nonce);
    assert !HasToken(rows, pair.refreshToken);
    FreshTokenIsStored(rows, pair.refreshToken, userId, nowMs + RowLifetimeMs);
  }

  /**
   * Rotation on use: once a refresh token has been exchanged, presenting it
   * again is refused, at any later time and whatever nonce is drawn.
   */
  lemma RefreshIsSingleUse(rows: seq<RefreshToken>, token: Token, t1: int, t2: int, s: Secrets, n1: string, n2: string)
    requires WellFormed(rows)
    requires RefreshSpec(rows, Some(token), t1, s, n1).1.Ok?
    ensures var after := RefreshSpec(rows, Some(token), t1, s, n1).0;
      RefreshSpec(after, Some(token), t2, s, n2).1.Err?
      && RefreshSpec(after, Some(token), t2, s, n2).1.failure.Unauthorized?
  {
    var (validated, v) := ValidateSpec(rows, token, t1);
    var k := FindActive(rows, token).value;
    assert validated == rows;
    var u := v.userId.value;
    assert u == rows[k].userId;
    var pair := GenerateTokenPair(u, t1, s, n1);
    var (after, outcome) := StoreSpec(rows, pair.refreshToken, u, t1 + RowLifetimeMs);
    assert outcome == Stored;
    assert RefreshSpec(rows, Some(token), t1, s, n1).0 == after;
    var revoked := RevokeWhere(rows, ByUser(u));
    assert after == revoked + [RefreshToken(|rows| + 1, pair.refreshToken, u, t1 + RowLifetimeMs, false)];
    assert after[k].isRevoked;
    assert pair.refreshToken != token by {
      assert revoked[k].token == token;
    }
    forall i | 0 <= i < |after| ensures after[i].token != token || after[i].isRevoked {
      if i < |rows| && i != k {
        assert after[i].token == rows[i].token != rows[k].token;
      }
    }
    assert FindActive(after, token).None?;
  }

  /** After logout, the refresh cookie it revoked can no longer be exchanged. */
  lemma LogoutThenRefreshFails(rows: seq<RefreshToken>, token: Token, nowMs: int, s: Secrets, nonce: string)
    requires Present(token)
    ensures var after := LogoutSpec(rows, Some(token)).0;
      RefreshSpec(after, Some(token), nowMs, s, nonce).1.Err?
  {
    RevokedTokenHasNoActiveRow(rows, token);
  }

  /** After logout-all with a user's access token, none of that user's refresh tokens can be exchanged. */
  lemma LogoutAllThenRefreshFails(rows: seq<RefreshToken>, cookie: Option<Token>, authorization: Option<seq<Token>>,
                                  t1: int, t2: int, s: Secrets, refresh: Token, nonce: string)
    requires LogoutAllSpec(rows, cookie, authorization, t1, s).1.Ok?
    requires forall i :: 0 <= i < |rows| && rows[i].token == refresh ==>
      rows[i].userId == ExtractAccessToken(cookie, authorization).value.claims.userId
    ensures var after := LogoutAllSpec(rows, cookie, authorization, t1, s).0;
      RefreshSpec(after, Some(refresh), t2, s, nonce).1.Err?
  {
    var u := ExtractAccessToken(cookie, authorization).value.claims.userId;
    var after := RevokeWhere(rows, ByUser(u));
    forall i | 0 <= i < |after| && after[i].token == refresh ensures after[i].isRevoked {
      assert ByUser(u)(rows[i]);
    }
  }

  /** A successful refresh issues the new pair for the user the ledger row names. */
  lemma RefreshIssuesForRowOwner(rows: seq<RefreshToken>, token: Token, nowMs: int, s: Secrets, nonce: string)
    requires WellFormed(rows)
    requires RefreshSpec(rows, Some(token), nowMs, s, nonce).1.Ok?
    ensures var pair := RefreshSpec(rows, Some(token), nowMs, s, nonce).1.value.tokens;
      exists i :: 0 <= i < |rows| && rows[i].token == token && IsValid(rows[i], nowMs)
        && pair.accessToken.claims.userId == rows[i].userId
        && pair.refreshToken.claims.userId == rows[i].userId
  {
    var k := FindActive(rows, token).value;
    assert rows[k].token == token && IsValid(rows[k], nowMs);
  }

  /**
   * The refresh token's own `exp` never outlasts its ledger row: while the
   * token still verifies, the row's seven days have not run out.
   */
  lemma EnvelopeExpiresNoLaterThanRow(issuedMs: int, nowMs: int, row: RefreshToken)
    requires row.expiresAt == issuedMs + RowLifetimeMs
    requires EpochSeconds(nowMs) < EpochSeconds(issuedMs) + RefreshLifetime
    ensures !IsExpired(row, nowMs)
  {
    var a := issuedMs / 1000;
    var b := nowMs / 1000;
    assert a * 1000 <= issuedMs;
    assert nowMs < b * 1000 + 1000;
    assert b + 1 <= a + RefreshLifetime;
    assert (b + 1) * 1000 <= (a + RefreshLifetime) * 1000;
  }

  /**
   * The refresh tokens `GenerateRefreshTokenJwt` signs do not survive a
   * second issue in the same second: the store hits the unique index after
   * revoking, and the user is left without any active refresh token.
   */
  lemma AsWrittenReissueLocksOut(rows: seq<RefreshToken>, userId: UserId, t1: int, t2: int, s: Secrets, k: nat)
    requires k < |rows| && rows[k].token == GenerateRefreshTokenJwt(userId, t1, s)
    requires EpochSeconds(t1) == EpochSeconds(t2)
    ensures var (after, outcome) := StoreSpec(rows, GenerateRefreshTokenJwt(userId, t2, s), userId, t2 + RowLifetimeMs);
      outcome == DuplicateToken && ActiveOf(after, userId) == {}
  {
    SameSecondRefreshTokensCoincide(userId, t1, t2, s);
    var revoked := RevokeWhere(rows, ByUser(userId));
    assert revoked[k].token == rows[k].token;
    FailedStoreLeavesNoneActive(rows, GenerateRefreshTokenJwt(userId, t2, s), userId, t2 + RowLifetimeMs);
  }

  /**
   * Registration refuses an invalid body and a taken e-mail without touching
   * either table, and the taken-e-mail answer is given exactly for a valid
   * body whose e-mail some user already has. A registration that goes
   * through appends one user, with an id no user holds, the submitted
   * e-mail and password, and the role `employee` unless a role was asked
   * for; the reply shows that user without the password, and the user's
   * only active refresh token is the one just issued.
   */
  lemma RegisterOutcomes(users: seq<User>, rows: seq<RefreshToken>, body: CreateUserBody, isEmail: string -> bool,
                         nowMs: int, s: Secrets, nonce: string)
    ensures var (users2, rows2, r) := RegisterSpec(users, rows, body, isEmail, nowMs, s, nonce);
      && (r.Err? && r.failure.BadRequest? ==> users2 == users && rows2 == rows)
      && (r == Err(BadRequest(UserExists)) <==>
            ParseCreateUser(body, isEmail).Some? && exists k :: 0 <= k < |users| && users[k].email == body.email.text)
      && (r.Ok? ==>
            && |users2| == |users| + 1 && users2[..|users|] == users
            && r.value.user == Some(Public(users2[|users|]))
            && users2[|users|].email == body.email.text
            && users2[|users|].password == body.password.text
            && (forall k :: 0 <= k < |users| ==> users[k].email != body.email.text && users[k].id != users2[|users|].id)
            && (body.role.Absent? ==> users2[|users|].role == Employee)
            && ActiveOf(rows2, users2[|users|].id) == {|rows|}
            && rows2[|rows|].token == r.value.tokens.refreshToken)
  {
    var data := ParseCreateUser(body, isEmail);
    if data.Some? && FindUserByEmail(users, data.value.email).None? {
      var user := User(NextId(users, (u: User) => u.id), data.value.email, data.value.password, data.value.name, data.value.role);
      if IssueSpec(rows, user.id, nowMs, s, nonce).1.Some? {
        IssueLeavesOneActive(rows, user.id, nowMs, s, nonce);
      }
    }
  }

  /**
   * Login gives one answer, `Invalid credentials`, to a valid body whether
   * its e-mail is unknown or its password wrong, and exactly then; a refused
   * login leaves the ledger as it was. A login that goes through is for the
   * user with that e-mail and password; the reply shows that user without
   * the password, and its tokens name that user.
   */
  lemma LoginOutcomes(users: seq<User>, rows: seq<RefreshToken>, body: LoginBody, isEmail: string -> bool,
                      nowMs: int, s: Secrets, nonce: string)
    ensures var (rows2, r) := LoginSpec(users, rows, body, isEmail, nowMs, s, nonce);
      var data := ParseLogin(body, isEmail);
      && (r == Err(Unauthorized(InvalidCredentials)) <==>
            && data.Some?
            && (FindUserByEmail(users, data.value.email).None?
                || FindUserByEmail(users, data.value.email).value.password != data.value.password))
      && (r.Err? && !r.failure.ServerError? ==> rows2 == rows)
      && (r.Ok? ==>
            && FindUserByEmail(users, body.email.text).Some?
            && var user := FindUserByEmail(users, body.email.text).value;
               && user.password == body.password.text
               && r.value.user == Some(Public(user))
               && r.value.tokens.accessToken.claims.userId == user.id
               && r.value.tokens.refreshToken.claims.userId == user.id)
  {
  }

  /**
   * Refresh refuses a missing or empty cookie with `Refresh token not
   * provided` and one that does not verify as a refresh token with `Invalid
   * refresh token`, leaving the ledger as it was in both cases; it succeeds
   * only for a cookie that verifies and that some ledger row holds and
   * still finds valid.
   */
  lemma RefreshRefusals(rows: seq<RefreshToken>, cookie: Option<Token>, nowMs: int, s: Secrets, nonce: string)
    requires WellFormed(rows)
    ensures var (rows2, r) := RefreshSpec(rows, cookie, nowMs, s, nonce);
      && ((cookie.None? || !Present(cookie.value)) ==> rows2 == rows && r == Err(Unauthorized(RefreshNotProvided)))
      && (cookie.Some? && Present(cookie.value) && VerifyRefreshToken(cookie.value, s, nowMs).Rejected? ==>
            rows2 == rows && r == Err(Unauthorized(InvalidRefresh)))
      && (r.Ok? ==>
            && cookie.Some? && VerifyRefreshToken(cookie.value, s, nowMs).Verified?
            && exists i :: 0 <= i < |rows| && rows[i].token == cookie.value && IsValid(rows[i], nowMs))
  {
    if cookie.Some? && Present(cookie.value) && VerifyRefreshToken(cookie.value, s, nowMs).Verified? {
      ValidateAcceptsExactlyValidRows(rows, cookie.value, nowMs);
    }
  }

  /**
   * Logout always answers `Logged out successfully`; without a cookie it
   * changes nothing, and with one it only revokes, after which no active row
   * holds the cookie's token. Logout-all succeeds exactly for an access token
   * that is present and verifies; refused, it changes nothing, and otherwise
   * it leaves the token's user with no active refresh token.
   */
  lemma LogoutOutcomes(rows: seq<RefreshToken>, cookie: Option<Token>, authorization: Option<seq<Token>>,
                       nowMs: int, s: Secrets)
    ensures var (rows2, r) := LogoutSpec(rows, cookie);
      && r == Ok(LoggedOut)
      && Evolves(rows, rows2)
      && ((cookie.None? || !Present(cookie.value)) ==> rows2 == rows)
      && (cookie.Some? && Present(cookie.value) ==> FindActive(rows2, cookie.value).None?)
    ensures var (rows2, r) := LogoutAllSpec(rows, cookie, authorization, nowMs, s);
      var token := ExtractAccessToken(cookie, authorization);
      && (r.Ok? <==> token.Some? && VerifyAccessToken(token.value, s, nowMs).Verified?)
      && (r.Err? ==> rows2 == rows && r.failure.Unauthorized?)
      && (r.Ok? ==> r.value == LoggedOutEverywhere && ActiveOf(rows2, token.value.claims.userId) == {})
  {
    if cookie.Some? && Present(cookie.value) {
      RevokedTokenHasNoActiveRow(rows, cookie.value);
      OperationsEvolve(rows, cookie.value, 0, 0, nowMs);
    }
    var token := ExtractAccessToken(cookie, authorization);
    if token.Some? && VerifyAccessToken(token.value, s, nowMs).Verified? {
      var u := token.value.claims.userId;
      var after := RevokeWhere(rows, ByUser(u));
      forall i | 0 <= i < |after| && after[i].userId == u ensures after[i].isRevoked {
        assert ByUser(u)(rows[i]);
      }
    }
  }

  /** The `Users` table and the refresh-token ledger the handlers work on. */
  class AuthBackend {
    var users: seq<User>
    const ledger: Ledger
    const secrets: Secrets

    ghost predicate Valid()
      reads this, ledger
    {
      ledger.Valid()
    }

    constructor (l: Ledger, s: Secrets)
      requires l.Valid()
      ensures Valid() && ledger == l && secrets == s && users == []
    {
      users := [];
      ledger := l;
      secrets := s;
    }

    method Issue(userId: UserId, nowMs: int, nonce: string) returns (pair: Option<TokenPair>)
      requires Valid()
      modifies ledger
      ensures Valid()
      ensures (ledger.rows, pair) == IssueSpec(old(ledger.rows), userId, nowMs, secrets, nonce)
    {
      var p := GenerateTokenPair(userId, nowMs, secrets, nonce);
      var outcome := ledger.Store(p.refreshToken, userId, nowMs + RowLifetimeMs);
      pair := if outcome == Stored then Some(p) else None;
    }

    /** `register` */
    method Register(body: CreateUserBody, isEmail: string -> bool, nowMs: int, nonce: string) returns (r: Result<Session>)
      requires Valid()
      modifies this, ledger
      ensures Valid()
      ensures (users, ledger.rows, r) == RegisterSpec(old(users), old(ledger.rows), body, isEmail, nowMs, secrets, nonce)
    {
      var data := ParseCreateUser(body, isEmail);
      if data.None? {
        return Err(BadRequest(ValidationFailed));
      }
      if FindUserByEmail(users, data.value.email).Some? {
        return Err(BadRequest(UserExists));
      }
      var user := User(NextId(users, (u: User) => u.id), data.value.email, data.value.password, data.value.name, data.value.role);
      users := users + [user];
      var pair := Issue(user.id, nowMs, nonce);
      r := if pair.Some? then Ok(Session(Some(Public(user)), pair.value)) else Err(ServerError(ServerFailure));
    }

    /** `login` */
    method Login(body: LoginBody, isEmail: string -> bool, nowMs: int, nonce: string) returns (r: Result<Session>)
      requires Valid()
      modifies ledger
      ensures Valid()
      ensures (ledger.rows, r) == LoginSpec(users, old(ledger.rows), body, isEmail, nowMs, secrets, nonce)
    {
      var data := ParseLogin(body, isEmail);
      if data.None? {
        return Err(BadRequest(ValidationFailed));
      }
      var user := FindUserByEmail(users, data.value.email);
      if user.None? || user.value.password != data.value.password {
        return Err(Unauthorized(InvalidCredentials));
      }
      var pair := Issue(user.value.id, nowMs, nonce);
      r := if pair.Some? then Ok(Session(Some(Public(user.value)), pair.value)) else Err(ServerError(ServerFailure));
    }

    /** `refreshToken` */
    method Refresh(cookie: Option<Token>, nowMs: int, nonce: string) returns (r: Result<Session>)
      requires Valid()
      modifies ledger
      ensures Valid()
      ensures (ledger.rows, r) == RefreshSpec(old(ledger.rows), cookie, nowMs, secrets, nonce)
    {
      if cookie.None? || !Present(cookie.value) {
        return Err(Unauthorized(RefreshNotProvided));
      }
      var decoded := VerifyRefreshToken(cookie.value, secrets, nowMs);
      if decoded.Rejected? {
        return Err(Unauthorized(InvalidRefresh));
      }
      var v := ledger.ValidateFromDb(cookie.value, nowMs);
      if !v.valid || v.userId.None? || v.userId.value == 0 {
        return Err(Unauthorized(RefreshRejection));
      }
      var pair := Issue(v.userId.value, nowMs, nonce);
      r := if pair.Some? then Ok(Session(None, pair.value)) else Err(Unauthorized(InvalidRefresh));
    }

    /** `logout` */
    method Logout(cookie: Option<Token>) returns (r: Result<string>)
      requires Valid()
      modifies ledger
      ensures Valid()
      ensures (ledger.rows, r) == LogoutSpec(old(ledger.rows), cookie)
    {
      if cookie.Some? && Present(cookie.value) {
        var _ := ledger.Revoke(cookie.value);
      }
      r := Ok(LoggedOut);
    }

    /** `logoutAll` */
    method LogoutAll(cookie: Option<Token>, authorization: Option<seq<Token>>, nowMs: int) returns (r: Result<string>)
      requires Valid()
      modifies ledger
      ensures Valid()
      ensures (ledger.rows, r) == LogoutAllSpec(old(ledger.rows), cookie, authorization, nowMs, secrets)
    {
      var token := ExtractAccessToken(cookie, authorization);
      if token.None? {
        return Err(Unauthorized(AccessNotProvided));
      }
      var decoded := VerifyAccessToken(token.value, secrets, nowMs);
      if decoded.Rejected? {
        return Err(Unauthorized(InvalidAccess));
      }
      ledger.RevokeAllForUser(decoded.claims.userId);
      r := Ok(LoggedOutEverywhere);
    }
  }
}

=== FILE: auth_middleware.dfy ===
/**
 * The request guards every protected endpoint runs first: `authenticate`
 * admits a request carrying a valid access token of an existing user and
 * attaches that user to the request; `authorize(...roles)` admits an
 * authenticated request whose user holds one of the roles.
 *
 * The `Authorization` header is given as its space-separated words, each a
 * token (a word that is not a signed token is uninterpreted text).
 */
module AuthMiddleware {
  import opened Common
  import opened Tokens
  import opened Entities

  const TokenRequired: string := "Access token required"
  const UserNotFound: string := "User not found"
  const AuthenticationRequired: string := "Authentication required"
  const InsufficientPermissions: string := "Insufficient permissions"

  /** `req.cookies.accessToken || req.headers.authorization?.split(' ')[1]`, then the `!accessToken` test. */
  function ExtractAccessToken(cookie: Option<Token>, authorization: Option<seq<Token>>): (r: Option<Token>)
    ensures r.Some? ==> Present(r.value)
    ensures cookie.Some? && Present(cookie.value) ==> r == cookie
    ensures !(cookie.Some? && Present(cookie.value)) ==>
      (r.Some? <==> authorization.Some? && |authorization.value| >= 2 && Present(authorization.value[1]))
    ensures !(cookie.Some? && Present(cookie.value)) && r.Some? ==> r.value == authorization.value[1]
  {
    if cookie.Some? && Present(cookie.value) then cookie
    else if authorization.Some? && |authorization.value| >= 2 && Present(authorization.value[1]) then Some(authorization.value[1])
    else None
  }

  datatype Decision = Admit(user: User) | Deny(failure: Failure)

  /** What `authenticate` decides for a request. */
  function AuthenticateDecision(cookie: Option<Token>, authorization: Option<seq<Token>>, users: seq<User>, nowMs: int, s: Secrets): (d: Decision)
    ensures ExtractAccessToken(cookie, authorization).None? ==> d == Deny(Unauthorized(TokenRequired))
    ensures d.Admit? <==>
      && ExtractAccessToken(cookie, authorization).Some?
      && VerifyAccessToken(ExtractAccessToken(cookie, authorization).value, s, nowMs).Verified?
      && FindUser(users, VerifyAccessToken(ExtractAccessToken(cookie, authorization).value, s, nowMs).claims.userId).Some?
    ensures d.Admit? ==>
      d.user in users && d.user.id == ExtractAccessToken(cookie, authorization).value.claims.userId
    ensures d.Deny? ==> d.failure.Unauthorized?
  {
    var t := ExtractAccessToken(cookie, authorization);
    if t.None? then Deny(Unauthorized(TokenRequired))
    else
      var v := VerifyAccessToken(t.value, s, nowMs);
      if v.Rejected? then Deny(Unauthorized(v.reason))
      else
        var u := FindUser(users, v.claims.userId);
        if u.None? then Deny(Unauthorized(UserNotFound)) else Admit(u.value)
  }

  /** A refresh token, whoever it is for, never passes `authenticate`. */
  lemma RefreshTokenNeverAuthenticates(userId: UserId, issuedMs: int, nowMs: int, s: Secrets, nonce: string, users: seq<User>)
    ensures AuthenticateDecision(Some(GenerateUniqueRefreshToken(userId, issuedMs, s, nonce)), None, users, nowMs, s).Deny?
  {
    NoTypeConfusion(userId, issuedMs, nowMs, s, nonce);
  }

  /** A fresh access token admits its own user while the user exists and the token has not expired. */
  lemma AccessTokenAdmitsItsUser(user: User, issuedMs: int, nowMs: int, s: Secrets, users: seq<User>, words: Option<seq<Token>>)
    requires user in users && FindUser(users, user.id) == Some(user)
    requires EpochSeconds(nowMs) < EpochSeconds(issuedMs) + AccessLifetime
    ensures AuthenticateDecision(Some(GenerateAccessToken(user.id, issuedMs, s)), words, users, nowMs, s) == Admit(user)
  {
  }

  /** A request as the guards see it, with the user `authenticate` attaches and the count of `next()` calls. */
  class AuthRequest {
    const accessTokenCookie: Option<Token>
    const authorization: Option<seq<Token>>
    var user: Option<User>
    var nextCalls: nat
    var response: Option<Failure>

    constructor (cookie: Option<Token>, header: Option<seq<Token>>)
      ensures accessTokenCookie == cookie && authorization == header
      ensures user == None && nextCalls == 0 && response == None
    {
      accessTokenCookie := cookie;
      authorization := header;
      user := None;
      nextCalls := 0;
      response := None;
    }
  }

  /** `authenticate(req, res, next)` */
  method Authenticate(req: AuthRequest, users: seq<User>, nowMs: int, s: Secrets)
    modifies req
    ensures match AuthenticateDecision(req.accessTokenCookie, req.authorization, users, nowMs, s)
      case Admit(u) =>
        req.user == Some(u) && req.nextCalls == old(req.nextCalls) + 1 && req.response == old(req.response)
      case Deny(f) =>
        req.user == old(req.user) && req.nextCalls == old(req.nextCalls) && req.response == Some(f)
  {
    var token := ExtractAccessToken(req.accessTokenCookie, req.authorization);
    if token.None? {
      req.response := Some(Unauthorized(TokenRequired));
      return;
    }
    var decoded := VerifyAccessToken(token.value, s, nowMs);
    if decoded.Rejected? {
      req.response := Some(Unauthorized(decoded.reason));
      return;
    }
    var user := FindUser(users, decoded.claims.userId);
    if user.None? {
      req.response := Some(Unauthorized(UserNotFound));
      return;
    }
    req.user := user;
    req.nextCalls := req.nextCalls + 1;
  }

  /** What `authorize(...roles)` decides for the user on the request. */
  function AuthorizeDecision(roles: seq<Role>, user: Option<User>): (r: Option<Failure>)
    ensures r.None? <==> user.Some? && user.value.role in roles
    ensures user.None? ==> r == Some(Unauthorized(AuthenticationRequired))
    ensures user.Some? && user.value.role !in roles ==> r == Some(Forbidden(InsufficientPermissions))
  {
    if user.None? then Some(Unauthorized(AuthenticationRequired))
    else if user.value.role !in roles then Some(Forbidden(InsufficientPermissions))
    else None
  }

  /** `authorize(...roles)(req, res, next)` */
  method Authorize(req: AuthRequest, roles: seq<Role>)
    modifies req
    ensures req.user == old(req.user)
    ensures AuthorizeDecision(roles, req.user).None? ==> req.nextCalls == old(req.nextCalls) + 1 && req.response == old(req.response)
    ensures AuthorizeDecision(roles, req.user).Some? ==> req.nextCalls == old(req.nextCalls) && req.response == AuthorizeDecision(roles, req.user)
  {
    if req.user.None? {
      req.response := Some(Unauthorized(AuthenticationRequired));
      return;
    }
    if req.user.value.role !in roles {
      req.response := Some(Forbidden(InsufficientPermissions));
      return;
    }
    req.nextCalls := req.nextCalls + 1;
  }

  /** Behind `authenticate`, `authorize(Admin)` admits exactly the requests of existing administrators. */
  lemma AdminGuardAdmitsOnlyAdmins(cookie: Option<Token>, authorization: Option<seq<Token>>, users: seq<User>, nowMs: int, s: Secrets)
    ensures var d := AuthenticateDecision(cookie, authorization, users, nowMs, s);
      d.Admit? ==> (AuthorizeDecision([Admin], Some(d.user)).None? <==> d.user.role == Admin && d.user in users)
  {
  }
}

=== FILE: auth_slice.dfy ===
/**
 * The browser's authentication state: the auth slice's reducer cases, the
 * thunks that decide which case runs, and the token kept in local storage.
 * The store is a class whose fields the reducer cases assign, one method per
 * case; each method is specified by the transition function `Reduce` on the
 * store's value, and the properties of the slice are lemmas about `Reduce`.
 */
module AuthSlice {
  import opened Common

  /** The user record the backend puts in its replies. */
  datatype SessionUser = SessionUser(id: int, email: string, name: string, role: string)

  /** The body of the backend's login and register replies. */
  datatype AuthReply = AuthReply(user: SessionUser, accessToken: string, refreshToken: string, expiresIn: int)

  datatype AuthState = AuthState(
    user: Option<SessionUser>,
    token: Option<string>,
    isAuthenticated: bool,
    loading: bool,
    error: Option<string>)

  /** The slice's state together with the token held in local storage. */
  datatype Store = Store(state: AuthState, stored: Option<string>)

  datatype Flow = Login | Register

  /**
   * The actions the slice sees. `LogoutRejected` stands for every action the
   * slice has no case for (a failed logout, `checkAuth.pending`).
   */
  datatype AuthAction =
    | Pending(flow: Flow)
    | Fulfilled(flow: Flow, reply: AuthReply)
    | Rejected(flow: Flow, message: Option<string>)
    | CheckAuthFulfilled(user: SessionUser)
    | CheckAuthRejected
    | LogoutFulfilled
    | LogoutRejected

  /** The state a page load starts from: signed out, loading, token taken from storage. */
  function Initial(stored: Option<string>): (s: Store)
    ensures !s.state.isAuthenticated && s.state.user.None? && s.state.loading && s.state.error.None?
    ensures s.state.token == stored && s.stored == stored
  {
    Store(AuthState(None, stored, false, true, None), stored)
  }

  /** `action.error.message || 'Login failed'` (or `'Registration failed'`). */
  function FailureMessage(flow: Flow, message: Option<string>): (m: string)
    ensures m != ""
    ensures message.Some? && message.value != "" ==> m == message.value
    ensures message.None? || message.value == "" ==>
      m == (if flow == Login then "Login failed" else "Registration failed")
  {
    if message.Some? && message.value != "" then message.value
    else if flow == Login then "Login failed" else "Registration failed"
  }

  /**
   * The token a fulfilled login or register stores. The reply carries it as
   * `accessToken`; `AsWrittenFulfilled` reads the `token` field instead.
   */
  function ReplyToken(reply: AuthReply): string
  {
    reply.accessToken
  }

  /**
   * A store whose parts agree: the state holds the token that storage
   * holds, and the slice is signed in exactly when it holds a user.
   */
  predicate Consistent(s: Store)
  {
    && (s.state.isAuthenticated <==> s.state.user.Some?)
    && s.state.token == s.stored
  }

  /** The slice's reducer, with the stored token written alongside the state. */
  function Reduce(s: Store, a: AuthAction): (r: Store)
    ensures Consistent(s) ==> Consistent(r)
    ensures a.Fulfilled? ==>
      r.state.isAuthenticated && r.state.user == Some(a.reply.user) && !r.state.loading
      && r.stored == Some(a.reply.accessToken)
    ensures a.Rejected? ==>
      && r.state.isAuthenticated == s.state.isAuthenticated && r.state.user == s.state.user
      && r.state.token == s.state.token && r.stored == s.stored
      && !r.state.loading && r.state.error.Some? && r.state.error.value != ""
    ensures a.Pending? ==> r.state.loading && r.state.error.None? && r.stored == s.stored
    ensures a.CheckAuthFulfilled? ==>
      r.state.isAuthenticated && r.state.user == Some(a.user) && r.state.token == s.state.token && r.stored == s.stored
    ensures a.CheckAuthRejected? || a.LogoutFulfilled? ==>
      !r.state.isAuthenticated && r.state.user.None? && r.state.token.None? && r.stored.None?
    ensures a.LogoutFulfilled? ==> r.state.loading == s.state.loading && r.state.error == s.state.error
    ensures a.LogoutRejected? ==> r == s
  {
    var st := s.state;
    match a
    case Pending(_) => Store(st.(loading := true, error := None), s.stored)
    case Fulfilled(_, reply) =>
      Store(st.(loading := false, isAuthenticated := true, user := Some(reply.user), token := Some(ReplyToken(reply))),
            Some(ReplyToken(reply)))
    case Rejected(flow, message) => Store(st.(loading := false, error := Some(FailureMessage(flow, message))), s.stored)
    case CheckAuthFulfilled(user) => Store(st.(loading := false, isAuthenticated := true, user := Some(user)), s.stored)
    case CheckAuthRejected => Store(st.(loading := false, isAuthenticated := false, user := None, token := None), None)
    case LogoutFulfilled => Store(st.(user := None, token := None, isAuthenticated := false), None)
    case LogoutRejected => s
  }

  /** The store after a run of actions, in order. */
  function Run(s: Store, actions: seq<AuthAction>): Store
    decreases |actions|
  {
    if |actions| == 0 then s else Run(Reduce(s, actions[0]), actions[1..])
  }

  /** Every run of actions from a page load keeps the store consistent. */
  lemma {:induction false} RunKeepsConsistent(s: Store, actions: seq<AuthAction>)
    requires Consistent(s)
    ensures Consistent(Run(s, actions))
    decreases |actions|
  {
    if |actions| > 0 {
      RunKeepsConsistent(Reduce(s, actions[0]), actions[1..]);
    }
  }

  /**
   * The `checkAuth` thunk: with no stored token (or an empty one) it throws
   * before asking the server; otherwise the server's `/me` reply decides.
   * `me` is the user the server returns, `None` when the request fails.
   */
  function CheckAuthAction(stored: Option<string>, me: Option<SessionUser>): (a: AuthAction)
    ensures a.CheckAuthFulfilled? <==> stored.Some? && stored.value != "" && me.Some?
    ensures a.CheckAuthFulfilled? || a.CheckAuthRejected?
    ensures a.CheckAuthFulfilled? ==> a.user == me.value
  {
    if stored.None? || stored.value == "" then CheckAuthRejected
    else if me.Some? then CheckAuthFulfilled(me.value)
    else CheckAuthRejected
  }

  /** The `logout` thunk: fulfilled, and storage cleared, only when the server's reply succeeds. */
  function LogoutAction(serverOk: bool): (a: AuthAction)
    ensures a.LogoutFulfilled? <==> serverOk
    ensures a.LogoutFulfilled? || a.LogoutRejected?
  {
    if serverOk then LogoutFulfilled else LogoutRejected
  }

  /**
   * After a successful logout, a later `checkAuth` is rejected whatever the
   * server would say, and leaves the slice signed out.
   */
  lemma LogoutThenCheckAuthSignsOut(s: Store, me: Option<SessionUser>)
    ensures var out := Reduce(s, LogoutAction(true));
      && CheckAuthAction(out.stored, me) == CheckAuthRejected
      && var after := Reduce(out, CheckAuthAction(out.stored, me));
      !after.state.isAuthenticated && after.state.user.None? && !after.state.loading
  {
  }

  /**
   * A page load followed by a login attempt: a pending login then a
   * fulfilled one signs in with the reply's token, stored and held alike,
   * and no error; a rejected one leaves the slice signed out with an error.
   */
  lemma LoginFromPageLoad(stored: Option<string>, reply: AuthReply, message: Option<string>)
    ensures var signedIn := Run(Initial(stored), [Pending(Login), Fulfilled(Login, reply)]);
      && signedIn.state == AuthState(Some(reply.user), Some(reply.accessToken), true, false, None)
      && signedIn.stored == Some(reply.accessToken)
    ensures var refused := Run(Initial(stored), [Pending(Login), Rejected(Login, message)]);
      && !refused.state.isAuthenticated && refused.state.user.None? && !refused.state.loading
      && refused.state.error == Some(FailureMessage(Login, message))
      && refused.stored == stored
  {
    var p := Reduce(Initial(stored), Pending(Login));
    assert Run(Initial(stored), [Pending(Login), Fulfilled(Login, reply)]) == Run(p, [Fulfilled(Login, reply)]);
    assert Run(p, [Fulfilled(Login, reply)]) == Run(Reduce(p, Fulfilled(Login, reply)), []);
    assert Run(Initial(stored), [Pending(Login), Rejected(Login, message)]) == Run(p, [Rejected(Login, message)]);
    assert Run(p, [Rejected(Login, message)]) == Run(Reduce(p, Rejected(Login, message)), []);
  }

  /**
   * The fulfilled login and register cases as written: they read
   * `action.payload.token`, a field the reply does not have, so the state's
   * token becomes `undefined` (`None`) and storage holds the string
   * `"undefined"` that `setItem` makes of it.
   */
  function AsWrittenFulfilled(s: Store, reply: AuthReply): (r: Store)
    ensures r.state.isAuthenticated && r.state.user == Some(reply.user)
    ensures r.state.token.None? && r.stored == Some("undefined")
  {
    Store(s.state.(loading := false, isAuthenticated := true, user := Some(reply.user), token := None), Some("undefined"))
  }

  /**
   * As written, every login leaves the store inconsistent, and a later
   * `checkAuth` sends `Bearer undefined` rather than the access token; the
   * corrected case keeps the store consistent and stores the access token.
   */
  lemma AsWrittenLoginLosesToken(s: Store, reply: AuthReply, me: Option<SessionUser>)
    requires reply.accessToken != "undefined"
    ensures !Consistent(AsWrittenFulfilled(s, reply))
    ensures AsWrittenFulfilled(s, reply).stored != Some(reply.accessToken)
    ensures me.Some? ==> CheckAuthAction(AsWrittenFulfilled(s, reply).stored, me).CheckAuthFulfilled?
    ensures Consistent(s) ==> Consistent(Reduce(s, Fulfilled(Login, reply)))
    ensures Reduce(s, Fulfilled(Login, reply)).stored == Some(reply.accessToken)
  {
  }

  /** The slice's store: its state fields and the stored token, assigned in place by the reducer cases. */
  class AuthStore {
    var user: Option<SessionUser>
    var token: Option<string>
    var isAuthenticated: bool
    var loading: bool
    var error: Option<string>
    var stored: Option<string>

    function Value(): Store
      reads this
    {
      Store(AuthState(user, token, isAuthenticated, loading, error), stored)
    }

    /** `initialState`, with the token read from storage. */
    constructor(storedToken: Option<string>)
      ensures Value() == Initial(storedToken)
    {
      user := None;
      token := storedToken;
      isAuthenticated := false;
      loading := true;
      error := None;
      stored := storedToken;
    }

    /** `login.pending` and `register.pending` */
    method Pending(flow: Flow)
      modifies this
      ensures Value() == Reduce(old(Value()), AuthAction.Pending(flow))
    {
      loading := true;
      error := None;
    }

    /** `login.fulfilled` and `register.fulfilled`, storing the reply's access token. */
    method Fulfilled(flow: Flow, reply: AuthReply)
      modifies this
      ensures Value() == Reduce(old(Value()), AuthAction.Fulfilled(flow, reply))
    {
      loading := false;
      isAuthenticated := true;
      user := Some(reply.user);
      token := Some(ReplyToken(reply));
      stored := Some(ReplyToken(reply));
    }

    /** `login.rejected` and `register.rejected` */
    method Rejected(flow: Flow, message: Option<string>)
      modifies this
      ensures Value() == Reduce(old(Value()), AuthAction.Rejected(flow, message))
    {
      loading := false;
      error := Some(FailureMessage(flow, message));
    }

    /** `checkAuth.fulfilled`: signed in, the token left as it is. */
    method CheckAuthFulfilled(u: SessionUser)
      modifies this
      ensures Value() == Reduce(old(Value()), AuthAction.CheckAuthFulfilled(u))
    {
      loading := false;
      isAuthenticated := true;
      user := Some(u);
    }

    /** `checkAuth.rejected`: signed out and the stored token removed. */
    method CheckAuthRejected()
      modifies this
      ensures Value() == Reduce(old(Value()), AuthAction.CheckAuthRejected)
    {
      loading := false;
      isAuthenticated := false;
      user := None;
      token := None;
      stored := None;
    }

    /** The `logout` thunk's storage removal followed by `logout.fulfilled`. */
    method LogoutFulfilled()
      modifies this
      ensures Value() == Reduce(old(Value()), AuthAction.LogoutFulfilled)
    {
      stored := None;
      user := None;
      token := None;
      isAuthenticated := false;
    }
  }
}

=== FILE: cascade.dfy ===
/**
 * The `ON DELETE CASCADE` foreign keys of the associations. Destroying a
 * task makes the database remove the comments, attachments and time entries
 * that name it, and the dependency rows on either side of it. Destroying a
 * project removes its tasks, with everything they cascade to, and the
 * attachments that name the project.
 *
 * `DestroyTask` and `DestroyProject` are the delete handlers with the
 * cascade. Each is proved against a pure specification (`DeleteTaskSpec`,
 * `DeleteProjectSpec`) built on the handler's own `DeleteSpec`. The lemmas
 * state what the cascade keeps true (the tables' invariants and the foreign
 * keys) and what it changes for the handlers that run afterwards.
 */
module Cascade {
  import opened Common
  import opened Entities
  import Tables
  import Tasks
  import Projects
  import Comments
  import Attachments
  import TimeEntries
  import TaskDependencies

  /** The tables whose rows reference tasks. */
  datatype TaskChildren = TaskChildren(
    comments: seq<Comments.Comment>,
    attachments: seq<Attachments.Attachment>,
    entries: seq<TimeEntries.TimeEntry>,
    dependencies: seq<TaskDependencies.Dependency>)

  /** The rows that survive the destruction of the tasks in `gone`. */
  function KeepComment(gone: set<int>): Comments.Comment -> bool
  {
    (x: Comments.Comment) => x.taskId !in gone
  }

  function KeepAttachment(gone: set<int>): Attachments.Attachment -> bool
  {
    (x: Attachments.Attachment) => !(x.taskId.Some? && x.taskId.value in gone)
  }

  function KeepEntry(gone: set<int>): TimeEntries.TimeEntry -> bool
  {
    (x: TimeEntries.TimeEntry) => x.taskId !in gone
  }

  function KeepDependency(gone: set<int>): TaskDependencies.Dependency -> bool
  {
    (x: TaskDependencies.Dependency) => x.taskId !in gone && x.dependsOnTaskId !in gone
  }

  /**
   * The cascade of destroying the tasks in `gone`: every row that names one
   * of them goes, on either side of a dependency, and every other row stays
   * as often as it was there.
   */
  function WithoutTasks(c: TaskChildren, gone: set<int>): (r: TaskChildren)
    ensures forall x :: x in r.comments <==> x in c.comments && x.taskId !in gone
    ensures forall x :: x in r.attachments <==> x in c.attachments && !(x.taskId.Some? && x.taskId.value in gone)
    ensures forall x :: x in r.entries <==> x in c.entries && x.taskId !in gone
    ensures forall x :: x in r.dependencies <==>
      x in c.dependencies && x.taskId !in gone && x.dependsOnTaskId !in gone
    ensures multiset(r.comments) <= multiset(c.comments) && multiset(r.attachments) <= multiset(c.attachments)
    ensures multiset(r.entries) <= multiset(c.entries) && multiset(r.dependencies) <= multiset(c.dependencies)
  {
    Tables.FilterCounts(c.comments, KeepComment(gone));
    Tables.FilterCounts(c.attachments, KeepAttachment(gone));
    Tables.FilterCounts(c.entries, KeepEntry(gone));
    Tables.FilterCounts(c.dependencies, KeepDependency(gone));
    TaskChildren(
      Tables.Filter(c.comments, KeepComment(gone)),
      Tables.Filter(c.attachments, KeepAttachment(gone)),
      Tables.Filter(c.entries, KeepEntry(gone)),
      Tables.Filter(c.dependencies, KeepDependency(gone)))
  }

  /** Each table's own invariant: unique ids below the next id, one running timer per user, no cycle. */
  ghost predicate ChildrenValid(c: TaskChildren, commentNext: int, attachmentNext: int, entryNext: int, dependencyNext: int)
  {
    && Comments.CommentInvariant(c.comments, commentNext)
    && Attachments.AttachmentInvariant(c.attachments, attachmentNext)
    && TimeEntries.EntriesInvariant(c.entries, entryNext)
    && TaskDependencies.TableInvariant(c.dependencies, dependencyNext)
  }

  predicate HasTask(tasks: seq<Task>, id: int)
  {
    exists t :: t in tasks && t.id == id
  }

  /** The foreign keys: every row that references a task references one the table holds. */
  predicate ReferencesExist(tasks: seq<Task>, c: TaskChildren)
  {
    && (forall x :: x in c.comments ==> HasTask(tasks, x.taskId))
    && (forall x :: x in c.attachments && x.taskId.Some? ==> HasTask(tasks, x.taskId.value))
    && (forall x :: x in c.entries ==> HasTask(tasks, x.taskId))
    && (forall x :: x in c.dependencies ==> HasTask(tasks, x.taskId) && HasTask(tasks, x.dependsOnTaskId))
  }

  /** The cascade keeps every child table's invariant, the dependency graph's acyclicity included. */
  lemma WithoutTasksKeepsInvariants(c: TaskChildren, gone: set<int>, commentNext: int, attachmentNext: int,
                                    entryNext: int, dependencyNext: int)
    requires ChildrenValid(c, commentNext, attachmentNext, entryNext, dependencyNext)
    ensures ChildrenValid(WithoutTasks(c, gone), commentNext, attachmentNext, entryNext, dependencyNext)
  {
    Comments.RetainKeepsInvariant(c.comments, commentNext, KeepComment(gone));
    Attachments.RetainKeepsInvariant(c.attachments, attachmentNext, KeepAttachment(gone));
    TimeEntries.RetainKeepsInvariant(c.entries, entryNext, KeepEntry(gone));
    TaskDependencies.RetainKeepsInvariant(c.dependencies, dependencyNext, KeepDependency(gone));
  }

  /** `deleteTask` with the cascade: the tasks, the child tables and the reply. */
  function DeleteTaskSpec(tasks: seq<Task>, c: TaskChildren, caller: Caller, projects: seq<Project>, id: int)
    : (seq<Task>, TaskChildren, Result<string>)
  {
    var (after, r) := Tasks.DeleteSpec(tasks, caller, projects, id);
    (after, if r.Ok? then WithoutTasks(c, {id}) else c, r)
  }

  /**
   * A refused delete changes nothing. A delete that goes through removes the
   * task and every row that names it, and keeps every other row.
   */
  lemma DeleteTaskCascades(tasks: seq<Task>, taskNext: int, c: TaskChildren, caller: Caller, projects: seq<Project>, id: int)
    requires Tasks.TaskInvariant(tasks, taskNext)
    ensures var (tasks2, c2, r) := DeleteTaskSpec(tasks, c, caller, projects, id);
      && (r.Err? ==> tasks2 == tasks && c2 == c)
      && (r.Ok? ==>
            && (forall t :: t in tasks2 <==> t in tasks && t.id != id)
            && (forall x :: x in c2.comments <==> x in c.comments && x.taskId != id)
            && (forall x :: x in c2.attachments <==> x in c.attachments && x.taskId != Some(id))
            && (forall x :: x in c2.entries <==> x in c.entries && x.taskId != id)
            && (forall x :: x in c2.dependencies <==> x in c.dependencies && x.taskId != id && x.dependsOnTaskId != id))
  {
    Tasks.DeleteRemovesOnlyThatTask(tasks, taskNext, caller, projects, id);
    WithoutOneTask(c, id);
  }

  /** Destroying one task removes exactly the rows that name it. */
  lemma WithoutOneTask(c: TaskChildren, id: int)
    ensures var c2 := WithoutTasks(c, {id});
      && (forall x :: x in c2.comments <==> x in c.comments && x.taskId != id)
      && (forall x :: x in c2.attachments <==> x in c.attachments && x.taskId != Some(id))
      && (forall x :: x in c2.entries <==> x in c.entries && x.taskId != id)
      && (forall x :: x in c2.dependencies <==> x in c.dependencies && x.taskId != id && x.dependsOnTaskId != id)
  {
    var c2 := WithoutTasks(c, {id});
    forall x ensures x in c2.comments <==> x in c.comments && x.taskId != id { }
    forall x ensures x in c2.attachments <==> x in c.attachments && x.taskId != Some(id) {
      assert (x.taskId.Some? && x.taskId.value in {id}) <==> x.taskId == Some(id);
    }
    forall x ensures x in c2.entries <==> x in c.entries && x.taskId != id { }
    forall x ensures x in c2.dependencies <==> x in c.dependencies && x.taskId != id && x.dependsOnTaskId != id { }
  }

  /** Every delete, refused or not, keeps the foreign keys and every table's invariant. */
  lemma DeleteTaskKeepsInvariants(tasks: seq<Task>, taskNext: int, c: TaskChildren, caller: Caller, projects: seq<Project>,
                                  id: int, commentNext: int, attachmentNext: int, entryNext: int, dependencyNext: int)
    requires Tasks.TaskInvariant(tasks, taskNext) && ChildrenValid(c, commentNext, attachmentNext, entryNext, dependencyNext)
    requires ReferencesExist(tasks, c)
    ensures var (tasks2, c2, _) := DeleteTaskSpec(tasks, c, caller, projects, id);
      && Tasks.TaskInvariant(tasks2, taskNext)
      && ChildrenValid(c2, commentNext, attachmentNext, entryNext, dependencyNext)
      && ReferencesExist(tasks2, c2)
  {
    Tasks.DeleteRemovesOnlyThatTask(tasks, taskNext, caller, projects, id);
    var (tasks2, c2, r) := DeleteTaskSpec(tasks, c, caller, projects, id);
    if r.Ok? {
      WithoutTasksKeepsInvariants(c, {id}, commentNext, attachmentNext, entryNext, dependencyNext);
      forall i | i != id && HasTask(tasks, i) ensures HasTask(tasks2, i) {
        var t :| t in tasks && t.id == i;
        assert t in tasks2;
      }
    }
  }

  /** The ids of a project's tasks. */
  function TaskIdsOf(tasks: seq<Task>, projectId: int): (ids: set<int>)
    ensures forall t :: t in tasks && t.projectId == projectId ==> t.id in ids
    ensures forall i :: i in ids ==> exists t :: t in tasks && t.projectId == projectId && t.id == i
  {
    set t | t in tasks && t.projectId == projectId :: t.id
  }

  function KeepTask(projectId: int): Task -> bool
  {
    (t: Task) => t.projectId != projectId
  }

  function KeepProjectAttachment(projectId: int): Attachments.Attachment -> bool
  {
    (a: Attachments.Attachment) => a.projectId != Some(projectId)
  }

  /** `deleteProject` with the cascade: the projects, the tasks, the child tables and the reply. */
  function DeleteProjectSpec(projects: seq<Project>, tasks: seq<Task>, c: TaskChildren, caller: Caller, id: int)
    : (seq<Project>, seq<Task>, TaskChildren, Result<string>)
  {
    var (after, r) := Projects.DeleteSpec(projects, caller, id);
    if r.Err? then (after, tasks, c, r)
    else
      var c2 := WithoutTasks(c, TaskIdsOf(tasks, id));
      (after, Tables.Filter(tasks, KeepTask(id)),
       c2.(attachments := Tables.Filter(c2.attachments, KeepProjectAttachment(id))), r)
  }

  /**
   * A refused delete changes nothing. A delete that goes through removes the
   * project's tasks and every row that names one of them, and the
   * attachments that name the project; every other row stays.
   */
  lemma DeleteProjectCascades(projects: seq<Project>, tasks: seq<Task>, c: TaskChildren, caller: Caller, id: int)
    ensures var (projects2, tasks2, c2, r) := DeleteProjectSpec(projects, tasks, c, caller, id);
      var gone := TaskIdsOf(tasks, id);
      && (projects2, r) == Projects.DeleteSpec(projects, caller, id)
      && (r.Err? ==> projects2 == projects && tasks2 == tasks && c2 == c)
      && (r.Ok? ==>
            && (forall t :: t in tasks2 <==> t in tasks && t.projectId != id)
            && (forall x :: x in c2.comments <==> x in c.comments && x.taskId !in gone)
            && (forall x :: x in c2.attachments <==>
                  x in c.attachments && x.projectId != Some(id) && !(x.taskId.Some? && x.taskId.value in gone))
            && (forall x :: x in c2.entries <==> x in c.entries && x.taskId !in gone)
            && (forall x :: x in c2.dependencies <==>
                  x in c.dependencies && x.taskId !in gone && x.dependsOnTaskId !in gone))
  {
  }

  /** Every project delete, refused or not, keeps the foreign keys and every table's invariant. */
  lemma DeleteProjectKeepsInvariants(projects: seq<Project>, tasks: seq<Task>, taskNext: int, c: TaskChildren,
                                     caller: Caller, id: int, commentNext: int, attachmentNext: int, entryNext: int,
                                     dependencyNext: int)
    requires Tasks.TaskInvariant(tasks, taskNext) && ChildrenValid(c, commentNext, attachmentNext, entryNext, dependencyNext)
    requires ReferencesExist(tasks, c)
    ensures var (_, tasks2, c2, _) := DeleteProjectSpec(projects, tasks, c, caller, id);
      && Tasks.TaskInvariant(tasks2, taskNext)
      && ChildrenValid(c2, commentNext, attachmentNext, entryNext, dependencyNext)
      && ReferencesExist(tasks2, c2)
  {
    var (_, tasks2, c2, r) := DeleteProjectSpec(projects, tasks, c, caller, id);
    if r.Ok? {
      var gone := TaskIdsOf(tasks, id);
      var mid := WithoutTasks(c, gone);
      WithoutTasksKeepsInvariants(c, gone, commentNext, attachmentNext, entryNext, dependencyNext);
      Attachments.RetainKeepsInvariant(mid.attachments, attachmentNext, KeepProjectAttachment(id));
      Tasks.RetainKeepsInvariant(tasks, taskNext, KeepTask(id));
      forall i | i !in gone && HasTask(tasks, i) ensures HasTask(tasks2, i) {
        var t :| t in tasks && t.id == i;
        assert t in tasks2;
      }
    }
  }

  /**
   * After tasks are destroyed a user has a running timer exactly when they
   * had one on a task that remains: the timers of destroyed tasks are gone.
   */
  lemma DroppedTimersStop(entries: seq<TimeEntries.TimeEntry>, gone: set<int>, userId: UserId)
    ensures TimeEntries.FindRunning(Tables.Filter(entries, KeepEntry(gone)), userId).Some? <==>
      exists k :: 0 <= k < |entries| && entries[k].userId == userId && entries[k].isRunning && entries[k].taskId !in gone
  {
    var after := Tables.Filter(entries, KeepEntry(gone));
    var found := TimeEntries.FindRunning(after, userId);
    if found.Some? {
      assert after[found.value] in entries;
      var k :| 0 <= k < |entries| && entries[k] == after[found.value];
    }
    if k :| 0 <= k < |entries| && entries[k].userId == userId && entries[k].isRunning && entries[k].taskId !in gone {
      assert entries[k] in after;
      var j :| 0 <= j < |after| && after[j] == entries[k];
    }
  }

  /**
   * A user whose timer runs on a task that is then destroyed is no longer
   * refused a new timer: the start handler's "already running" check finds
   * nothing.
   */
  lemma DeletedTaskFreesTimer(tasks: seq<Task>, c: TaskChildren, caller: Caller, projects: seq<Project>, id: int,
                              entryNext: int, user: Caller, taskId: int, description: Option<string>, nowMs: int)
    requires forall k :: 0 <= k < |c.entries| && c.entries[k].userId == user.id && c.entries[k].isRunning ==>
      c.entries[k].taskId == id
    requires DeleteTaskSpec(tasks, c, caller, projects, id).2.Ok?
    ensures var (tasks2, c2, _) := DeleteTaskSpec(tasks, c, caller, projects, id);
      TimeEntries.StartSpec(c2.entries, entryNext, Some(user), tasks2, projects, taskId, description, nowMs).2
        != Err(BadRequest(TimeEntries.AlreadyRunning))
  {
    DroppedTimersStop(c.entries, {id}, user.id);
  }

  /**
   * After tasks are destroyed every walk along "depends on" rows was a walk
   * before, and no walk of two or more tasks passes through a destroyed one.
   */
  lemma DroppedTasksLeaveNoWalk(rows: seq<TaskDependencies.Dependency>, gone: set<int>, p: seq<int>)
    requires TaskDependencies.IsPath(Tables.Filter(rows, KeepDependency(gone)), p)
    ensures TaskDependencies.IsPath(rows, p)
    ensures |p| >= 2 ==> forall i :: 0 <= i < |p| ==> p[i] !in gone
  {
    var after := Tables.Filter(rows, KeepDependency(gone));
    forall i | 0 <= i < |p| - 1 ensures TaskDependencies.HasPair(rows, p[i], p[i + 1]) {
      assert TaskDependencies.HasPair(after, p[i], p[i + 1]);
      var k :| 0 <= k < |after| && after[k].taskId == p[i] && after[k].dependsOnTaskId == p[i + 1];
      assert after[k] in rows;
      var j :| 0 <= j < |rows| && rows[j] == after[k];
    }
    if |p| >= 2 {
      forall i | 0 <= i < |p| ensures p[i] !in gone {
        var h := if i < |p| - 1 then i else i - 1;
        assert TaskDependencies.HasPair(after, p[h], p[h + 1]);
        var k :| 0 <= k < |after| && after[k].taskId == p[h] && after[k].dependsOnTaskId == p[h + 1];
        assert after[k] in rows;
      }
    }
  }

  /** A walk of two or more tasks starts with a row. */
  lemma FirstStep(rows: seq<TaskDependencies.Dependency>, p: seq<int>)
    requires TaskDependencies.IsPath(rows, p) && |p| >= 2
    ensures TaskDependencies.HasPair(rows, p[0], p[1])
  {
  }

  /**
   * With rows "1 depends on 3" and "3 depends on 2", task 2 is reached from
   * task 1, so "2 depends on 1" would close a cycle; once task 3 is destroyed
   * both rows are gone and task 2 is no longer reached from task 1.
   */
  lemma DeletingMiddleTaskBreaksChain(t: TaskDependencies.DependencyType)
    ensures var rows := [TaskDependencies.Dependency(1, 1, 3, t, None), TaskDependencies.Dependency(2, 3, 2, t, None)];
      && TaskDependencies.Reachable(rows, 1, 2)
      && !TaskDependencies.Reachable(Tables.Filter(rows, KeepDependency({3})), 1, 2)
  {
    var rows := [TaskDependencies.Dependency(1, 1, 3, t, None), TaskDependencies.Dependency(2, 3, 2, t, None)];
    assert rows[0].taskId == 1 && rows[0].dependsOnTaskId == 3 && TaskDependencies.HasPair(rows, 1, 3);
    assert rows[1].taskId == 3 && rows[1].dependsOnTaskId == 2 && TaskDependencies.HasPair(rows, 3, 2);
    assert TaskDependencies.IsPath(rows, [1, 3, 2]);
    var after := Tables.Filter(rows, KeepDependency({3}));
    assert after == [] by {
      var keep := KeepDependency({3});
      assert !keep(rows[0]) && !keep(rows[1]);
      assert rows[1..][1..] == [];
      assert Tables.Filter(rows[1..], keep) == Tables.Filter(rows[1..][1..], keep) == [];
    }
    if TaskDependencies.Reachable(after, 1, 2) {
      var p :| TaskDependencies.IsPath(after, p) && p[0] == 1 && p[|p| - 1] == 2;
      FirstStep(after, p);
      assert false;
    }
  }

  /** The child tables as they stand. */
  ghost function ChildrenOf(comments: Comments.CommentTable, attachments: Attachments.AttachmentTable,
                            entries: TimeEntries.TimeEntryTable, dependencies: TaskDependencies.DependencyTable): TaskChildren
    reads comments, attachments, entries, dependencies
  {
    TaskChildren(comments.rows, attachments.rows, entries.rows, dependencies.rows)
  }

  /** The database's side of a destroy: remove every child row that names a task in `gone`. */
  method DropTasks(comments: Comments.CommentTable, attachments: Attachments.AttachmentTable,
                   entries: TimeEntries.TimeEntryTable, dependencies: TaskDependencies.DependencyTable, gone: set<int>)
    requires comments.Valid() && attachments.Valid() && entries.Valid() && dependencies.Valid()
    modifies comments, attachments, entries, dependencies
    ensures comments.Valid() && attachments.Valid() && entries.Valid() && dependencies.Valid()
    ensures ChildrenOf(comments, attachments, entries, dependencies)
      == WithoutTasks(old(ChildrenOf(comments, attachments, entries, dependencies)), gone)
    ensures comments.nextId == old(comments.nextId) && attachments.nextId == old(attachments.nextId)
    ensures entries.nextId == old(entries.nextId) && dependencies.nextId == old(dependencies.nextId)
  {
    comments.Retain(KeepComment(gone));
    attachments.Retain(KeepAttachment(gone));
    entries.Retain(KeepEntry(gone));
    dependencies.Retain(KeepDependency(gone));
  }

  /** `deleteTask`: `task.destroy()`, then the cascade. */
  method DestroyTask(tasks: Tasks.TaskTable, comments: Comments.CommentTable, attachments: Attachments.AttachmentTable,
                     entries: TimeEntries.TimeEntryTable, dependencies: TaskDependencies.DependencyTable,
                     caller: Caller, projects: seq<Project>, id: int) returns (r: Result<string>)
    requires tasks.Valid() && comments.Valid() && attachments.Valid() && entries.Valid() && dependencies.Valid()
    modifies tasks, comments, attachments, entries, dependencies
    ensures tasks.Valid() && comments.Valid() && attachments.Valid() && entries.Valid() && dependencies.Valid()
    ensures (tasks.rows, ChildrenOf(comments, attachments, entries, dependencies), r)
      == DeleteTaskSpec(old(tasks.rows), old(ChildrenOf(comments, attachments, entries, dependencies)), caller, projects, id)
  {
    r := tasks.Delete(caller, projects, id);
    if r.Ok? {
      DropTasks(comments, attachments, entries, dependencies, {id});
    }
  }

  /** `deleteProject`: `project.destroy()`, then the cascade to its tasks and theirs, and to its attachments. */
  method DestroyProject(projects: Projects.ProjectTable, tasks: Tasks.TaskTable, comments: Comments.CommentTable,
                        attachments: Attachments.AttachmentTable, entries: TimeEntries.TimeEntryTable,
                        dependencies: TaskDependencies.DependencyTable, caller: Caller, id: int) returns (r: Result<string>)
    requires projects.Valid() && tasks.Valid()
    requires comments.Valid() && attachments.Valid() && entries.Valid() && dependencies.Valid()
    modifies projects, tasks, comments, attachments, entries, dependencies
    ensures projects.Valid() && tasks.Valid()
    ensures comments.Valid() && attachments.Valid() && entries.Valid() && dependencies.Valid()
    ensures (projects.rows, tasks.rows, ChildrenOf(comments, attachments, entries, dependencies), r)
      == DeleteProjectSpec(old(projects.rows), old(tasks.rows), old(ChildrenOf(comments, attachments, entries, dependencies)),
                           caller, id)
  {
    r := projects.Delete(caller, id);
    if r.Ok? {
      var gone := TaskIdsOf(tasks.rows, id);
      tasks.Retain(KeepTask(id));
      DropTasks(comments, attachments, entries, dependencies, gone);
      attachments.Retain(KeepProjectAttachment(id));
    }
  }
}

=== FILE: comments.dfy ===
/**
 * Comments on tasks: the listing of a task's comments, and the create,
 * edit and delete handlers with their ownership rules. These handlers
 * answer with an `error` key rather than `message`; the text is the same.
 */
module Comments {
  import opened Common
  import opened Entities
  import Ordering
  import Tables

  datatype Comment = Comment(id: int, content: string, taskId: int, userId: UserId, createdAt: int)

  const NotAuthenticated: string := "User not authenticated"
  const TaskNotFound: string := "Task not found"
  const CommentNotFound: string := "Comment not found"
  const CannotEdit: string := "Not authorized to edit this comment"
  const CannotDelete: string := "Not authorized to delete this comment"
  const CommentDeleted: string := "Comment deleted successfully"
  const CreateFailed: string := "Failed to create comment"

  /** `getCommentsByTask`: the task's comments, oldest first. */
  function CommentsOfTask(rows: seq<Comment>, taskId: int): (r: seq<Comment>)
    ensures Ordering.SortedOn(r, (c: Comment) => c.createdAt, false)
    ensures forall c :: c in r <==> c in rows && c.taskId == taskId
    ensures multiset(r) <= multiset(rows)
    ensures forall c :: c in rows ==> multiset(r)[c] == if c.taskId == taskId then multiset(rows)[c] else 0
  {
    var ofTask := (c: Comment) => c.taskId == taskId;
    Tables.FilterCounts(rows, ofTask);
    var mine := Tables.Filter(rows, ofTask);
    Ordering.SortOn(mine, (c: Comment) => c.createdAt, false)
  }

  /** Comment ids are unique and below the next auto-increment id. */
  predicate CommentInvariant(rows: seq<Comment>, nextId: int)
  {
    && UniqueIds(rows, (c: Comment) => c.id)
    && forall k :: 0 <= k < |rows| ==> rows[k].id < nextId
  }

  /**
   * `createComment`: the caller must be signed in and the task must exist;
   * a missing `content` is refused by the non-null column, which the
   * handler answers with 500.
   */
  function CreateSpec(rows: seq<Comment>, nextId: int, caller: Option<Caller>, tasks: seq<Task>, taskId: int,
                      content: Option<string>, nowMs: int): (seq<Comment>, int, Result<Comment>)
  {
    if CallerId(caller).None? then (rows, nextId, Err(Unauthorized(NotAuthenticated)))
    else if FindTask(tasks, taskId).None? then (rows, nextId, Err(NotFound(TaskNotFound)))
    else if content.None? then (rows, nextId, Err(ServerError(CreateFailed)))
    else
      var c := Comment(nextId, content.value, taskId, caller.value.id, nowMs);
      (rows + [c], nextId + 1, Ok(c))
  }

  /** The author of a new comment is always the caller, the checks run in order, and ids stay unique. */
  lemma CreateOutcome(rows: seq<Comment>, nextId: int, caller: Option<Caller>, tasks: seq<Task>, taskId: int,
                      content: Option<string>, nowMs: int)
    requires CommentInvariant(rows, nextId)
    ensures var (after, next, r) := CreateSpec(rows, nextId, caller, tasks, taskId, content, nowMs);
      && (CallerId(caller).None? ==> r == Err(Unauthorized(NotAuthenticated)))
      && (CallerId(caller).Some? && FindTask(tasks, taskId).None? ==> r == Err(NotFound(TaskNotFound)))
      && (r.Ok? <==> CallerId(caller).Some? && FindTask(tasks, taskId).Some? && content.Some?)
      && (r.Err? ==> after == rows && next == nextId)
      && (r.Ok? ==> after == rows + [r.value] && r.value.userId == caller.value.id
                    && r.value.taskId == taskId && r.value.content == content.value)
      && CommentInvariant(after, next)
  {
    var (after, next, r) := CreateSpec(rows, nextId, caller, tasks, taskId, content, nowMs);
    if r.Ok? {
      assert forall k :: 0 <= k < |rows| ==> after[k] == rows[k];
    }
  }

  function FindComment(rows: seq<Comment>, id: int): (r: Option<nat>)
    ensures r.Some? ==> r.value < |rows| && rows[r.value].id == id
    ensures r.None? ==> forall k :: 0 <= k < |rows| ==> rows[k].id != id
  {
    Tables.IndexWhere(rows, (c: Comment) => c.id == id)
  }

  /** Only the author may edit a comment; the administrator role grants nothing here. */
  predicate MayEdit(caller: Option<Caller>, c: Comment)
  {
    caller.Some? && c.userId == caller.value.id
  }

  /**
   * The author may delete a comment, and so may a caller whose account, as
   * stored in the `Users` table, has the administrator role.
   */
  predicate MayDelete(caller: Option<Caller>, users: seq<User>, c: Comment)
  {
    || (caller.Some? && c.userId == caller.value.id)
    || (caller.Some? && FindUser(users, caller.value.id).Some? && FindUser(users, caller.value.id).value.role == Admin)
  }

  /** `updateComment`: a missing `content` leaves the comment as it was. */
  function UpdateSpec(rows: seq<Comment>, caller: Option<Caller>, id: int, content: Option<string>): (seq<Comment>, Result<Comment>)
  {
    var k := FindComment(rows, id);
    if k.None? then (rows, Err(NotFound(CommentNotFound)))
    else if !MayEdit(caller, rows[k.value]) then (rows, Err(Forbidden(CannotEdit)))
    else
      var c := if content.Some? then rows[k.value].(content := content.value) else rows[k.value];
      (rows[k.value := c], Ok(c))
  }

  /** `deleteComment` */
  function DeleteSpec(rows: seq<Comment>, caller: Option<Caller>, users: seq<User>, id: int): (seq<Comment>, Result<string>)
  {
    var k := FindComment(rows, id);
    if k.None? then (rows, Err(NotFound(CommentNotFound)))
    else if !MayDelete(caller, users, rows[k.value]) then (rows, Err(Forbidden(CannotDelete)))
    else (rows[..k.value] + rows[k.value + 1..], Ok(CommentDeleted))
  }

  /**
   * An edit changes only the content of the comment asked for, and only for
   * its author: an administrator who did not write it is refused.
   */
  lemma EditIsForTheAuthorOnly(rows: seq<Comment>, nextId: int, caller: Option<Caller>, id: int, content: Option<string>)
    requires CommentInvariant(rows, nextId)
    ensures var (after, r) := UpdateSpec(rows, caller, id, content);
      && |after| == |rows|
      && (r.Ok? <==> exists k :: 0 <= k < |rows| && rows[k].id == id && caller.Some? && rows[k].userId == caller.value.id)
      && (r.Err? ==> after == rows)
      && (forall k :: 0 <= k < |rows| ==> after[k].(content := rows[k].content) == rows[k])
      && (forall k :: 0 <= k < |rows| && rows[k].id != id ==> after[k] == rows[k])
      && CommentInvariant(after, nextId)
  {
  }

  /**
   * Deletion follows the stored role, not the role the caller presents: a
   * caller presenting the administrator role whose stored account is not an
   * administrator cannot delete someone else's comment, and one whose stored
   * account is an administrator can.
   */
  lemma DeleteFollowsStoredRole(rows: seq<Comment>, nextId: int, users: seq<User>, caller: Caller, id: int)
    requires CommentInvariant(rows, nextId)
    requires exists k :: 0 <= k < |rows| && rows[k].id == id && rows[k].userId != caller.id
    ensures FindUser(users, caller.id).Some? && FindUser(users, caller.id).value.role == Employee ==>
      DeleteSpec(rows, Some(caller.(role := Admin)), users, id).1 == Err(Forbidden(CannotDelete))
    ensures FindUser(users, caller.id).Some? && FindUser(users, caller.id).value.role == Admin ==>
      DeleteSpec(rows, Some(caller.(role := Employee)), users, id).1 == Ok(CommentDeleted)
  {
    var k := FindComment(rows, id);
    assert k.Some?;
    assert rows[k.value].userId != caller.id by {
      var j :| 0 <= j < |rows| && rows[j].id == id && rows[j].userId != caller.id;
      assert j == k.value;
    }
  }

  /** A deletion removes exactly the comment asked for, or changes nothing. */
  lemma DeleteRemovesOnlyThatComment(rows: seq<Comment>, caller: Option<Caller>, users: seq<User>, id: int)
    ensures var (after, r) := DeleteSpec(rows, caller, users, id);
      && (r.Err? ==> after == rows)
      && (r.Ok? ==> exists k :: 0 <= k < |rows| && rows[k].id == id && MayDelete(caller, users, rows[k])
                      && after == rows[..k] + rows[k + 1..])
  {
  }

  /** Dropping rows keeps the ids unique and below the next id. */
  lemma RetainKeepsInvariant(rows: seq<Comment>, nextId: int, keep: Comment -> bool)
    requires CommentInvariant(rows, nextId)
    ensures CommentInvariant(Tables.Filter(rows, keep), nextId)
  {
    var after := Tables.Filter(rows, keep);
    Tables.FilterPairwise(rows, keep, (a: Comment, b: Comment) => a.id != b.id);
    forall k | 0 <= k < |after| ensures after[k].id < nextId {
      assert after[k] in rows;
    }
  }

  /** The `Comments` table. */
  class CommentTable {
    var rows: seq<Comment>
    var nextId: int

    predicate Valid()
      reads this
    {
      CommentInvariant(rows, nextId)
    }

    constructor ()
      ensures Valid() && rows == [] && nextId == 1
    {
      rows := [];
      nextId := 1;
    }

    /** The database removing the rows `keep` rejects, as an `ON DELETE CASCADE` does. */
    method Retain(keep: Comment -> bool)
      requires Valid()
      modifies this
      ensures Valid() && nextId == old(nextId)
      ensures rows == Tables.Filter(old(rows), keep)
    {
      RetainKeepsInvariant(rows, nextId, keep);
      rows := Tables.Filter(rows, keep);
    }

    /** `createComment` */
    method Create(caller: Option<Caller>, tasks: seq<Task>, taskId: int, content: Option<string>, nowMs: int) returns (r: Result<Comment>)
      requires Valid()
      modifies this
      ensures Valid()
      ensures (rows, nextId, r) == CreateSpec(old(rows), old(nextId), caller, tasks, taskId, content, nowMs)
    {
      CreateOutcome(rows, nextId, caller, tasks, taskId, content, nowMs);
      if CallerId(caller).None? {
        return Err(Unauthorized(NotAuthenticated));
      }
      if FindTask(tasks, taskId).None? {
        return Err(NotFound(TaskNotFound));
      }
      if content.None? {
        return Err(ServerError(CreateFailed));
      }
      var c := Comment(nextId, content.value, taskId, caller.value.id, nowMs);
      rows := rows + [c];
      nextId := nextId + 1;
      r := Ok(c);
    }

    /** `updateComment` */
    method Update(caller: Option<Caller>, id: int, content: Option<string>) returns (r: Result<Comment>)
      requires Valid()
      modifies this
      ensures Valid() && nextId == old(nextId)
      ensures (rows, r) == UpdateSpec(old(rows), caller, id, content)
    {
      EditIsForTheAuthorOnly(rows, nextId, caller, id, content);
      var k := FindComment(rows, id);
      if k.None? {
        return Err(NotFound(CommentNotFound));
      }
      if !MayEdit(caller, rows[k.value]) {
        return Err(Forbidden(CannotEdit));
      }
      var c := rows[k.value];
      if content.Some? {
        c := c.(content := content.value);
      }
      rows := rows[k.value := c];
      r := Ok(c);
    }

    /** `deleteComment` */
    method Delete(caller: Option<Caller>, users: seq<User>, id: int) returns (r: Result<string>)
      requires Valid()
      modifies this
      ensures Valid() && nextId == old(nextId)
      ensures (rows, r) == DeleteSpec(old(rows), caller, users, id)
    {
      var k := FindComment(rows, id);
      if k.None? {
        return Err(NotFound(CommentNotFound));
      }
      if !MayDelete(caller, users, rows[k.value]) {
        return Err(Forbidden(CannotDelete));
      }
      ghost var before := rows;
      rows := rows[..k.value] + rows[k.value + 1..];
      assert forall j :: 0 <= j < |rows| ==> rows[j] == before[if j < k.value then j else j + 1];
      r := Ok(CommentDeleted);
    }
  }
}

=== FILE: common.dfy ===
/**
 * Vocabulary shared by every part of the task-management backend and frontend:
 * optional values, user roles, the authenticated caller a handler sees, and
 * the HTTP failures the handlers answer with.
 */
module Common {

  datatype Option<T> = None | Some(value: T)

  /** User identifiers are the database's auto-increment integers. */
  type UserId = int

  /** The two roles a user account can hold. */
  datatype Role = Admin | Employee

  function RoleName(r: Role): string
  {
    match r
    case Admin => "admin"
    case Employee => "employee"
  }

  /** The caller that the authentication middleware attached to the request. */
  datatype Caller = Caller(id: UserId, role: Role)

  /**
   * The identifier of the caller, as the handlers read it with `req.user?.id`
   * and then test with `!userId`: an absent caller and the (falsy) id 0 are
   * both treated as "not authenticated".
   */
  function CallerId(c: Option<Caller>): (r: Option<UserId>)
    ensures r.Some? <==> c.Some? && c.value.id != 0
    ensures r.Some? ==> r.value == c.value.id
  {
    if c.Some? && c.value.id != 0 then Some(c.value.id) else None
  }

  predicate IsAdmin(c: Caller)
  {
    c.role == Admin
  }

  /** An error response: the HTTP status together with the JSON `message`. */
  datatype Failure =
    | BadRequest(message: string)
    | Unauthorized(message: string)
    | Forbidden(message: string)
    | NotFound(message: string)
    | ServerError(message: string)
  {
    function Code(): (c: int)
      ensures 400 <= c < 600
    {
      match this
      case BadRequest(_) => 400
      case Unauthorized(_) => 401
      case Forbidden(_) => 403
      case NotFound(_) => 404
      case ServerError(_) => 500
    }
  }

  /** The outcome of a handler: a successful payload or an error response. */
  datatype Result<T> = Ok(value: T) | Err(failure: Failure)
}

=== FILE: dependency_view.dfy ===
/**
 * The task page's dependency panel: which tasks it offers as new
 * dependencies, when it lets a creation through, the request it sends, and
 * the labels, descriptions, icons and lag texts it shows. Each is related to
 * the server's rules for dependency rows, or to a reader of its own text.
 */
module DependencyView {
  import opened Common
  import opened Text
  import opened Entities
  import Tables
  import TaskDependencies

  /** `dependencies.some(dep => dep.dependsOnTaskId === id)` */
  predicate AlreadyDependedOn(deps: seq<TaskDependencies.Dependency>, id: int)
  {
    exists k :: 0 <= k < |deps| && deps[k].dependsOnTaskId == id
  }

  /** The filter test: neither the task itself nor a task it already depends on. */
  function Offered(taskId: int, deps: seq<TaskDependencies.Dependency>): Task -> bool
  {
    (t: Task) => t.id != taskId && !AlreadyDependedOn(deps, t.id)
  }

  /** `availableTasks`: the tasks the panel offers, in the order of the task list. */
  function AvailableTasks(taskId: int, deps: seq<TaskDependencies.Dependency>, allTasks: seq<Task>): (r: seq<Task>)
    ensures forall t :: t in r <==> t in allTasks && t.id != taskId && !AlreadyDependedOn(deps, t.id)
  {
    Tables.Filter(allTasks, Offered(taskId, deps))
  }

  /**
   * The filter keeps the list's order: offering from two lists joined is
   * offering from each in turn.
   */
  lemma AvailableTasksKeepOrder(taskId: int, deps: seq<TaskDependencies.Dependency>, a: seq<Task>, b: seq<Task>)
    ensures AvailableTasks(taskId, deps, a + b) == AvailableTasks(taskId, deps, a) + AvailableTasks(taskId, deps, b)
  {
    Tables.FilterAppend(a, b, Offered(taskId, deps));
  }

  /**
   * When the panel is given every row of the task, a task it offers passes
   * the server's self-dependency and duplicate-pair checks; only the cycle
   * check is left to the server.
   */
  lemma OfferedTasksPassPairChecks(taskId: int, rows: seq<TaskDependencies.Dependency>,
                                   deps: seq<TaskDependencies.Dependency>, allTasks: seq<Task>, t: Task)
    requires forall k :: 0 <= k < |rows| && rows[k].taskId == taskId ==> rows[k] in deps
    requires t in AvailableTasks(taskId, deps, allTasks)
    ensures t.id != taskId
    ensures !TaskDependencies.HasPair(rows, taskId, t.id)
  {
  }

  /** `handleCreate`'s guard: a selection (0 is none) other than the task itself. */
  predicate CreateAllowed(selectedTaskId: int, taskId: int)
  {
    selectedTaskId != 0 && selectedTaskId != taskId
  }

  /** The body `handleCreate` posts: the selected type by name, and `lagTime || 0`. */
  function CreateRequest(taskId: int, selectedTaskId: int, selectedType: TaskDependencies.DependencyType, lagTime: int)
    : TaskDependencies.CreateBody
  {
    TaskDependencies.CreateBody(taskId, selectedTaskId, Some(TaskDependencies.DependencyTypeName(selectedType)),
      Some(if lagTime != 0 then lagTime else 0))
  }

  /**
   * A request the guard lets through never asks for a self-dependency, names
   * a type the server stores as chosen, and carries the chosen lag.
   */
  lemma AllowedRequestIsWellFormed(taskId: int, selectedTaskId: int, selectedType: TaskDependencies.DependencyType, lagTime: int)
    requires CreateAllowed(selectedTaskId, taskId)
    ensures var body := CreateRequest(taskId, selectedTaskId, selectedType, lagTime);
      && body.taskId != body.dependsOnTaskId
      && TaskDependencies.TypeOrDefault(body.dependencyType, TaskDependencies.FinishToStart) == Some(selectedType)
      && TaskDependencies.LagOrZero(body.lagTime) == lagTime
    ensures !CreateAllowed(0, taskId) && !CreateAllowed(taskId, taskId)
  {
    var name := TaskDependencies.DependencyTypeName(selectedType);
    assert name != "";
    assert TaskDependencies.ParseDependencyType(name) == Some(selectedType) by {
      match selectedType
      case FinishToStart =>
      case StartToStart =>
      case FinishToFinish =>
      case StartToFinish =>
    }
  }

  /** `getDependencyTypeLabel`: an unknown type is shown as it is. */
  function TypeLabel(t: string): string
  {
    if t == "finish_to_start" then "Finish to Start"
    else if t == "start_to_start" then "Start to Start"
    else if t == "finish_to_finish" then "Finish to Finish"
    else if t == "start_to_finish" then "Start to Finish"
    else t
  }

  /** `getDependencyTypeDescription`: an unknown type has no description. */
  function TypeDescription(t: string): string
  {
    if t == "finish_to_start" then "Task can start when dependency task is finished"
    else if t == "start_to_start" then "Task can start when dependency task starts"
    else if t == "finish_to_finish" then "Task can finish when dependency task finishes"
    else if t == "start_to_finish" then "Task can finish when dependency task starts"
    else ""
  }

  /** `getDependencyIcon`: link, rocket, chequered flag and alarm clock; an unknown type gets the link. */
  function TypeIcon(t: string): string
  {
    if t == "finish_to_start" then "\U{1F517}"
    else if t == "start_to_start" then "\U{1F680}"
    else if t == "finish_to_finish" then "\U{1F3C1}"
    else if t == "start_to_finish" then "\U{23F0}"
    else "\U{1F517}"
  }

  /**
   * The four types have four different labels, descriptions and icons, and a
   * type's label is never another type's raw name; an unknown type keeps its
   * raw name, has an empty description and shows the finish-to-start icon.
   */
  lemma TypeTextsTellTypesApart(a: TaskDependencies.DependencyType, b: TaskDependencies.DependencyType, s: string)
    ensures var na := TaskDependencies.DependencyTypeName(a);
      var nb := TaskDependencies.DependencyTypeName(b);
      && (TypeLabel(na) == TypeLabel(nb) ==> a == b)
      && (TypeDescription(na) == TypeDescription(nb) ==> a == b)
      && (TypeIcon(na) == TypeIcon(nb) ==> a == b)
      && TypeDescription(na) != ""
      && TaskDependencies.ParseDependencyType(TypeLabel(na)).None?
    ensures TaskDependencies.ParseDependencyType(s).None? ==>
      TypeLabel(s) == s && TypeDescription(s) == "" && TypeIcon(s) == TypeIcon("finish_to_start")
  {
    TypeLabelsDiffer(a, b);
    TypeDescriptionsDiffer(a, b);
    TypeIconsDiffer(a, b);
    UnknownTypeTexts(s);
  }

  /** Two types with the same label are the same type, and no label is a type's raw name. */
  lemma TypeLabelsDiffer(a: TaskDependencies.DependencyType, b: TaskDependencies.DependencyType)
    ensures TypeLabel(TaskDependencies.DependencyTypeName(a)) == TypeLabel(TaskDependencies.DependencyTypeName(b)) ==> a == b
    ensures TaskDependencies.ParseDependencyType(TypeLabel(TaskDependencies.DependencyTypeName(a))).None?
  {
    match a
    case FinishToStart =>
    case StartToStart =>
    case FinishToFinish =>
    case StartToFinish =>
  }

  /** Two types with the same description are the same type, and every type has one. */
  lemma TypeDescriptionsDiffer(a: TaskDependencies.DependencyType, b: TaskDependencies.DependencyType)
    ensures TypeDescription(TaskDependencies.DependencyTypeName(a)) == TypeDescription(TaskDependencies.DependencyTypeName(b)) ==> a == b
    ensures TypeDescription(TaskDependencies.DependencyTypeName(a)) != ""
  {
    DescriptionLength(a);
    DescriptionLength(b);
  }

  /** The four descriptions have four different lengths. */
  lemma DescriptionLength(a: TaskDependencies.DependencyType)
    ensures |TypeDescription(TaskDependencies.DependencyTypeName(a))|
         == match a case FinishToStart => 47 case StartToStart => 42 case FinishToFinish => 45 case StartToFinish => 43
  {
    match a
    case FinishToStart =>
    case StartToStart =>
    case FinishToFinish =>
    case StartToFinish =>
  }

  /** Two types with the same icon are the same type. */
  lemma TypeIconsDiffer(a: TaskDependencies.DependencyType, b: TaskDependencies.DependencyType)
    ensures TypeIcon(TaskDependencies.DependencyTypeName(a)) == TypeIcon(TaskDependencies.DependencyTypeName(b)) ==> a == b
  {
    match a
    case FinishToStart =>
    case StartToStart =>
    case FinishToFinish =>
    case StartToFinish =>
  }

  /** A string that names no type keeps its raw name as label, has no description and shows the link. */
  lemma UnknownTypeTexts(s: string)
    ensures TaskDependencies.ParseDependencyType(s).None? ==>
      TypeLabel(s) == s && TypeDescription(s) == "" && TypeIcon(s) == TypeIcon("finish_to_start")
  {
  }

  /** `formatLagTime`: the count of days before or after, with the plural `s` from two days on. */
  function FormatLagTime(days: int): string
  {
    if days == 0 then "No delay"
    else if days > 0 then LagText(days, "after")
    else LagText(-days, "before")
  }

  /** `${n} day${n > 1 ? 's' : ''} ${side}` */
  function LagText(n: int, side: string): string
  {
    IntToString(n) + " day" + (if n > 1 then "s" else "") + " " + side
  }

  /** Reads a lag text back into signed days. */
  function ReadLagTime(s: string): Option<int>
  {
    if s == "No delay" then Some(0) else ReadLagWords(Split(s, ' '))
  }

  /** The words of a lag text: a count, `day` or `days`, and `after` or `before`. */
  function ReadLagWords(p: seq<string>): Option<int>
  {
    if |p| == 3 && IsDigitString(p[0]) && (p[1] == "day" || p[1] == "days") && (p[2] == "after" || p[2] == "before") then
      Some(if p[2] == "after" then DigitsValue(p[0]) as int else -(DigitsValue(p[0]) as int))
    else None
  }

  /** The three words of a lag text, split back apart. */
  lemma LagWords(n: nat, word: string, side: string)
    requires ' ' !in word && ' ' !in side
    ensures Split(NatToString(n) + " " + word + " " + side, ' ') == [NatToString(n), word, side]
  {
    assert forall i :: 0 <= i < |NatToString(n)| ==> IsDigit(NatToString(n)[i]);
    assert NatToString(n) + " " + word + " " + side == NatToString(n) + [' '] + (word + [' '] + side);
    SplitAfterPiece(NatToString(n), word + [' '] + side, ' ');
    SplitAfterPiece(word, side, ' ');
    SplitWithoutSeparator(side, ' ');
  }

  /** A lag text splits into the count, the unit word (`days` from two on) and the side. */
  lemma LagTextSplits(n: nat, side: string)
    requires side == "after" || side == "before"
    ensures Split(LagText(n, side), ' ') == [NatToString(n), if n > 1 then "days" else "day", side]
  {
    var word := if n > 1 then "days" else "day";
    assert LagText(n, side) == NatToString(n) + " " + word + " " + side;
    LagWords(n, word, side);
  }

  /** A lag text reads back as its count, negated before the task. */
  lemma LagTextReads(n: nat, side: string)
    requires side == "after" || side == "before"
    ensures ReadLagTime(LagText(n, side)) == Some(if side == "after" then n as int else -(n as int))
  {
    var text := LagText(n, side);
    assert text != "No delay" by {
      assert text[0] == NatToString(n)[0];
    }
    LagTextSplits(n, side);
    NatToStringRoundTrip(n);
    ReadLagFields(NatToString(n), if n > 1 then "days" else "day", side, n);
  }

  /** A count, a unit word and a side read back as the signed count. */
  lemma ReadLagFields(count: string, word: string, side: string, n: nat)
    requires IsDigitString(count) && DigitsValue(count) == n
    requires word == "day" || word == "days"
    requires side == "after" || side == "before"
    ensures ReadLagWords([count, word, side]) == Some(if side == "after" then n as int else -(n as int))
  {
  }

  /**
   * Every lag reads back as itself, and a non-zero lag is printed as its
   * size, the word `day` or `days` (`days` exactly when more than one), and
   * `after` or `before` by its sign.
   */
  lemma LagTimeReadsBack(days: int)
    ensures ReadLagTime(FormatLagTime(days)) == Some(days)
    ensures days != 0 ==>
      var p := Split(FormatLagTime(days), ' ');
      && |p| == 3
      && p[0] == NatToString(if days > 0 then days else -days)
      && (p[1] == "days" <==> days > 1 || days < -1)
      && (p[2] == "after" <==> days > 0)
  {
    if days > 0 {
      LagTextReads(days, "after");
      LagTextSplits(days, "after");
    } else if days < 0 {
      LagTextReads(-days, "before");
      LagTextSplits(-days, "before");
    }
  }

  /** `canManageDependencies`: only a user whose role is `admin`. */
  predicate CanManageDependencies(currentUserRole: string)
  {
    currentUserRole == "admin"
  }

  /**
   * The panel offers management to the users the server's handlers admit as
   * written (administrators only), and never to a user the intended rule
   * would refuse; a project owner who is not an administrator is refused by
   * both the panel and the handlers as written.
   */
  lemma PanelMatchesServer(caller: Caller, projects: seq<Project>, task: Option<Task>)
    ensures CanManageDependencies(RoleName(caller.role)) <==> TaskDependencies.AsWrittenMayManage(caller)
    ensures CanManageDependencies(RoleName(caller.role)) ==> TaskDependencies.MayManage(caller, projects, task)
  {
  }
}

=== FILE: entities.dfy ===
/**
 * The rows of the `Users`, `Projects` and `Tasks` tables that the handlers
 * read and write, with the enumerations of their status and priority
 * columns. Dates are millisecond timestamps.
 */
module Entities {
  import opened Common
  import Tables

  /**
   * A user account. `password` stands for the stored credential; the hashing
   * done by the user model is not part of this model, so a password matches
   * when it equals the stored one.
   */
  datatype User = User(id: UserId, email: string, password: string, name: string, role: Role)

  datatype ProjectStatus = Active | Completed | Cancelled

  datatype Project = Project(id: int, name: string, description: string, ownerId: UserId, status: ProjectStatus, createdAt: int)

  datatype TaskStatus = Todo | InProgress | Done

  datatype Priority = Low | Medium | High | Urgent

  datatype Task = Task(
    id: int,
    title: string,
    description: string,
    projectId: int,
    assigneeId: UserId,
    status: TaskStatus,
    priority: Priority,
    dueDate: Option<int>,
    labels: Option<string>,
    estimatedHours: Option<int>,
    actualHours: Option<int>,
    createdAt: int)

  function TaskStatusName(s: TaskStatus): string
  {
    match s
    case Todo => "todo"
    case InProgress => "in_progress"
    case Done => "done"
  }

  function PriorityName(p: Priority): string
  {
    match p
    case Low => "low"
    case Medium => "medium"
    case High => "high"
    case Urgent => "urgent"
  }

  /** The task status named by a string, as the `ENUM('todo', 'in_progress', 'done')` column accepts it. */
  function ParseTaskStatus(s: string): (r: Option<TaskStatus>)
    ensures r.Some? ==> TaskStatusName(r.value) == s
    ensures r.None? ==> forall st :: TaskStatusName(st) != s
  {
    if s == "todo" then Some(Todo)
    else if s == "in_progress" then Some(InProgress)
    else if s == "done" then Some(Done)
    else None
  }

  /** The priority named by a string, as the `ENUM('low', 'medium', 'high', 'urgent')` column accepts it. */
  function ParsePriority(s: string): (r: Option<Priority>)
    ensures r.Some? ==> PriorityName(r.value) == s
    ensures r.None? ==> forall p :: PriorityName(p) != s
  {
    if s == "low" then Some(Low)
    else if s == "medium" then Some(Medium)
    else if s == "high" then Some(High)
    else if s == "urgent" then Some(Urgent)
    else None
  }

  /** The status and priority names read back as the values they name. */
  lemma EnumNamesRoundTrip(st: TaskStatus, p: Priority)
    ensures ParseTaskStatus(TaskStatusName(st)) == Some(st)
    ensures ParsePriority(PriorityName(p)) == Some(p)
  {
  }

  function ProjectStatusName(s: ProjectStatus): string
  {
    match s
    case Active => "active"
    case Completed => "completed"
    case Cancelled => "cancelled"
  }

  /** The project status a name stands for: the schema's `z.enum` and the column's `ENUM` admit the same three. */
  function ParseProjectStatus(s: string): (r: Option<ProjectStatus>)
    ensures r.Some? ==> ProjectStatusName(r.value) == s
    ensures r.None? ==> forall st :: ProjectStatusName(st) != s
  {
    if s == "active" then Some(Active)
    else if s == "completed" then Some(Completed)
    else if s == "cancelled" then Some(Cancelled)
    else None
  }

  /** `User.findByPk(id)` */
  function FindUser(users: seq<User>, id: UserId): (r: Option<User>)
    ensures r.Some? ==> r.value in users && r.value.id == id
    ensures r.None? ==> forall i :: 0 <= i < |users| ==> users[i].id != id
  {
    Tables.FindWhere(users, (u: User) => u.id == id)
  }

  /** `User.findOne({ where: { email } })` */
  function FindUserByEmail(users: seq<User>, email: string): (r: Option<User>)
    ensures r.Some? ==> r.value in users && r.value.email == email
    ensures r.None? ==> forall i :: 0 <= i < |users| ==> users[i].email != email
  {
    Tables.FindWhere(users, (u: User) => u.email == email)
  }

  /** `Project.findByPk(id)` */
  function FindProject(projects: seq<Project>, id: int): (r: Option<Project>)
    ensures r.Some? ==> r.value in projects && r.value.id == id
    ensures r.None? ==> forall i :: 0 <= i < |projects| ==> projects[i].id != id
  {
    Tables.FindWhere(projects, (p: Project) => p.id == id)
  }

  /** `Task.findByPk(id)` */
  function FindTask(tasks: seq<Task>, id: int): (r: Option<Task>)
    ensures r.Some? ==> r.value in tasks && r.value.id == id
    ensures r.None? ==> forall i :: 0 <= i < |tasks| ==> tasks[i].id != id
  {
    Tables.FindWhere(tasks, (t: Task) => t.id == id)
  }

  /** The owner of a task's project, as the association `Task.belongsTo(Project, { as: 'project' })` yields it when included. */
  function ProjectOwnerOf(projects: seq<Project>, task: Task): (r: Option<UserId>)
    ensures r.Some? <==> FindProject(projects, task.projectId).Some?
    ensures r.Some? ==> r.value == FindProject(projects, task.projectId).value.ownerId
  {
    var p := FindProject(projects, task.projectId);
    if p.Some? then Some(p.value.ownerId) else None
  }

  /** Primary keys are unique. */
  predicate UniqueIds<T>(rows: seq<T>, id: T -> int)
  {
    forall i, j :: 0 <= i < j < |rows| ==> id(rows[i]) != id(rows[j])
  }

  /** The next auto-increment id: one more than every id in the table. */
  function NextId<T>(rows: seq<T>, id: T -> int): (n: int)
    ensures n >= 1
    ensures forall i :: 0 <= i < |rows| ==> id(rows[i]) < n
  {
    if rows == [] then 1
    else
      var rest := NextId(rows[1..], id);
      if id(rows[0]) + 1 > rest then id(rows[0]) + 1 else rest
  }
}

=== FILE: js_math.dfy ===
/**
 * JavaScript number operations on integer operands. Dafny's `/` and `%` are
 * Euclidean; JavaScript's `%` truncates toward zero and `Math.round` rounds
 * halves up, so both are written out here.
 */
module JsMath {

  /** `a % b` in JavaScript: the remainder takes the sign of the dividend. */
  function JsRem(a: int, b: int): (r: int)
    requires b > 0
    ensures a >= 0 ==> 0 <= r < b
    ensures a < 0 ==> -b < r <= 0
    ensures a >= 0 ==> r == a % b
  {
    if a >= 0 then a % b else -((-a) % b)
  }

  /** `Math.floor(a / b)` for a positive divisor. */
  function FloorDiv(a: int, b: int): (q: int)
    requires b > 0
    ensures q * b <= a < q * b + b
  {
    a / b
  }

  /** `Math.round(a / b)` for a positive divisor: the nearest integer, halves rounded up. */
  function RoundDiv(a: int, b: int): (q: int)
    requires b > 0
    ensures 2 * q * b - b <= 2 * a < 2 * q * b + b
  {
    (2 * a + b) / (2 * b)
  }
}

=== FILE: notification_dropdown.dfy ===
/**
 * The header's notification menu: the unread badge, the "time ago" text of
 * each notification, the icon of each type, and what a click on a
 * notification does. The menu lists the first ten of the user's unread
 * notifications, which ties a click to the server's mark-read handler.
 */
module NotificationDropdown {
  import opened Common
  import opened Text
  import opened JsMath
  import Notifications

  /**
   * The badge over the bell: none for no unread notifications, `99+` above
   * 99, the count itself otherwise. An absent count (`unreadCount || 0`)
   * is zero.
   */
  function BadgeText(unreadCount: Option<int>): Option<string>
  {
    var count := if unreadCount.Some? then unreadCount.value else 0;
    if !(count > 0) then None
    else if count > 99 then Some("99+")
    else Some(IntToString(count))
  }

  /**
   * The badge is shown exactly when some notification is unread; it reads
   * `99+` exactly above 99, and below that it is the count in at most two
   * digits.
   */
  lemma BadgeShowsCount(unreadCount: Option<int>)
    ensures var count := if unreadCount.Some? then unreadCount.value else 0;
      var b := BadgeText(unreadCount);
      && (b.Some? <==> count > 0)
      && (b == Some("99+") <==> count > 99)
      && (b.Some? && count <= 99 ==> IsDigitString(b.value) && |b.value| <= 2 && DigitsValue(b.value) == count)
  {
    var count := if unreadCount.Some? then unreadCount.value else 0;
    if 0 < count <= 99 {
      NatToStringRoundTrip(count);
      if count >= 10 {
        assert NatToString(count) == NatToString(count / 10) + [DigitChar(count % 10)];
      }
      assert |IntToString(count)| <= 2;
    }
  }

  /** `Math.floor((now - date) / (1000 * 60))` */
  function ElapsedMinutes(nowMs: int, createdMs: int): (m: int)
    ensures m * 60000 <= nowMs - createdMs < m * 60000 + 60000
  {
    FloorDiv(nowMs - createdMs, 1000 * 60)
  }

  /** `formatTimeAgo`: minutes below an hour, hours below a day, whole days after. */
  function FormatTimeAgo(nowMs: int, createdMs: int): string
  {
    var m := ElapsedMinutes(nowMs, createdMs);
    if m < 1 then "Just now"
    else if m < 60 then IntToString(m) + "m ago"
    else if m < 1440 then IntToString(FloorDiv(m, 60)) + "h ago"
    else IntToString(FloorDiv(m, 1440)) + "d ago"
  }

  /** Reads an age text back into its number and its unit letter. */
  function ReadTimeAgo(s: string): Option<(nat, char)>
  {
    if |s| >= 6 && s[|s| - 4..] == " ago" && IsDigitString(s[..|s| - 5]) then
      Some((DigitsValue(s[..|s| - 5]), s[|s| - 5]))
    else None
  }

  /** A number, a unit letter and ` ago` read back as that number and letter. */
  lemma AgoReadsBack(n: nat, unit: char)
    ensures ReadTimeAgo(NatToString(n) + [unit] + " ago") == Some((n, unit))
  {
    var s := NatToString(n) + [unit] + " ago";
    assert s[..|s| - 5] == NatToString(n);
    assert s[|s| - 4..] == " ago";
    NatToStringRoundTrip(n);
  }

  /** The span of time, in milliseconds, that `n` of a unit stands for. */
  predicate Brackets(n: nat, unit: char, ms: int)
  {
    && (unit == 'm' ==> n * 60000 <= ms < n * 60000 + 60000 && ms < 3600000)
    && (unit == 'h' ==> n * 3600000 <= ms < n * 3600000 + 3600000 && 3600000 <= ms < 86400000)
    && (unit == 'd' ==> n * 86400000 <= ms < n * 86400000 + 86400000 && 86400000 <= ms)
    && (unit == 'm' || unit == 'h' || unit == 'd')
  }

  /** Whole hours of whole minutes bracket the milliseconds. */
  lemma HoursBracket(m: int, ms: int)
    requires 60 <= m < 1440 && m * 60000 <= ms < m * 60000 + 60000
    ensures Brackets(FloorDiv(m, 60), 'h', ms)
  {
    var h := FloorDiv(m, 60);
    assert h * 60 <= m <= h * 60 + 59;
    assert h * 3600000 <= m * 60000 <= h * 3600000 + 3540000;
  }

  /** Whole days of whole minutes bracket the milliseconds. */
  lemma DaysBracket(m: int, ms: int)
    requires 1440 <= m && m * 60000 <= ms < m * 60000 + 60000
    ensures Brackets(FloorDiv(m, 1440), 'd', ms)
  {
    var d := FloorDiv(m, 1440);
    assert d * 1440 <= m <= d * 1440 + 1439;
    assert d * 86400000 <= m * 60000 <= d * 86400000 + 86340000;
  }

  /**
   * The age text brackets the time since the notification was made:
   * `Just now` under a minute (and for a date in the future), `Nm ago` for N
   * whole minutes under an hour, `Nh ago` for N whole hours under a day, and
   * `Nd ago` for N whole days.
   */
  lemma TimeAgoBracketsElapsed(nowMs: int, createdMs: int)
    ensures var text := FormatTimeAgo(nowMs, createdMs);
      && (text == "Just now" <==> nowMs - createdMs < 60000)
      && (nowMs - createdMs >= 60000 <==> ReadTimeAgo(text).Some?)
      && (ReadTimeAgo(text).Some? ==> Brackets(ReadTimeAgo(text).value.0, ReadTimeAgo(text).value.1, nowMs - createdMs))
  {
    var m := ElapsedMinutes(nowMs, createdMs);
    var ms := nowMs - createdMs;
    var text := FormatTimeAgo(nowMs, createdMs);
    if m < 1 {
      assert ms < 60000;
      assert ReadTimeAgo("Just now").None? by {
        assert "Just now"[4..] != " ago" by { assert "Just now"[4..][1] == 'n'; }
      }
    } else {
      assert ms >= 60000;
      var n: nat := if m < 60 then m else if m < 1440 then FloorDiv(m, 60) else FloorDiv(m, 1440);
      var unit := if m < 60 then 'm' else if m < 1440 then 'h' else 'd';
      assert text == NatToString(n) + [unit] + " ago";
      AgoReadsBack(n, unit);
      if m < 60 {
      } else if m < 1440 {
        HoursBracket(m, ms);
      } else {
        DaysBracket(m, ms);
      }
      assert text != "Just now" by {
        assert text[|text| - 1] == 'o';
      }
    }
  }

  /** `getNotificationIcon`: one icon per notification type, the bell for any other. */
  function NotificationIcon(t: string): string
  {
    if t == "task_assigned" then "\U{1F4CB}"
    else if t == "project_assigned" then "\U{1F4C1}"
    else if t == "task_completed" then "\U{2705}"
    else if t == "project_completed" then "\U{1F3C6}"
    else if t == "task_due" then "\U{23F0}"
    else if t == "comment_added" then "\U{1F4AC}"
    else "\U{1F514}"
  }

  /** The six types have six different icons, none of them the bell that any other type gets. */
  lemma IconsTellTypesApart(a: Notifications.NotificationType, b: Notifications.NotificationType, s: string)
    ensures NotificationIcon(Notifications.NotificationTypeName(a)) == NotificationIcon(Notifications.NotificationTypeName(b)) ==> a == b
    ensures NotificationIcon(Notifications.NotificationTypeName(a)) != "\U{1F514}"
    ensures (forall t :: Notifications.NotificationTypeName(t) != s) ==> NotificationIcon(s) == "\U{1F514}"
  {
    if forall t :: Notifications.NotificationTypeName(t) != s {
      assert Notifications.NotificationTypeName(Notifications.TaskAssigned) != s;
      assert Notifications.NotificationTypeName(Notifications.ProjectAssigned) != s;
      assert Notifications.NotificationTypeName(Notifications.TaskCompleted) != s;
      assert Notifications.NotificationTypeName(Notifications.ProjectCompleted) != s;
      assert Notifications.NotificationTypeName(Notifications.TaskDue) != s;
      assert Notifications.NotificationTypeName(Notifications.CommentAdded) != s;
    }
  }

  /** What a click does: the id to mark read, if the notification is unread, and whether the menu stays open. */
  datatype Click = Click(markRead: Option<int>, staysOpen: bool)

  /** `handleNotificationClick` */
  function ClickNotification(n: Notifications.Notification): (c: Click)
    ensures c.markRead.Some? <==> !n.isRead
    ensures c.markRead.Some? ==> c.markRead.value == n.id
    ensures !c.staysOpen
  {
    Click(if !n.isRead then Some(n.id) else None, false)
  }

  /** The menu's query: the user's unread notifications, ten from the newest. */
  function MenuList(rows: seq<Notifications.Notification>, caller: Caller): Result<Notifications.Page>
  {
    Notifications.ListNotifications(rows, Some(caller), Some("false"), Some(10), Some(0))
  }

  /** No two rows share an id. */
  predicate UniqueIds(rows: seq<Notifications.Notification>)
  {
    forall i, j :: 0 <= i < |rows| && 0 <= j < |rows| && rows[i].id == rows[j].id ==> i == j
  }

  /** Marking one of the user's unread rows read lowers the user's unread count by one. */
  lemma {:induction false} UnreadCountAfterRead(rows: seq<Notifications.Notification>, k: nat, userId: UserId)
    requires k < |rows| && rows[k].userId == userId && !rows[k].isRead
    ensures Notifications.UnreadCount(rows[k := rows[k].(isRead := true)], userId) == Notifications.UnreadCount(rows, userId) - 1
  {
    var after := rows[k := rows[k].(isRead := true)];
    if k == 0 {
      assert after[1..] == rows[1..];
    } else {
      assert after[1..] == rows[1..][k - 1 := rows[k].(isRead := true)];
      UnreadCountAfterRead(rows[1..], k - 1, userId);
    }
  }

  /**
   * Every notification the menu lists is unread, so a click on it asks the
   * server to mark it read; the server accepts, and the badge's count drops
   * by exactly one.
   */
  lemma ClickOnListedNotification(rows: seq<Notifications.Notification>, caller: Caller, n: Notifications.Notification)
    requires caller.id != 0 && UniqueIds(rows)
    requires n in MenuList(rows, caller).value.notifications
    ensures ClickNotification(n).markRead == Some(n.id)
    ensures var (after, r) := Notifications.MarkReadSpec(rows, Some(caller), n.id);
      && r.Ok?
      && Notifications.UnreadCount(after, caller.id) == Notifications.UnreadCount(rows, caller.id) - 1
  {
    assert n in rows && n.userId == caller.id && !n.isRead;
    var i :| 0 <= i < |rows| && rows[i] == n;
    var k := Notifications.FindNotification(rows, n.id).value;
    assert k == i;
    UnreadCountAfterRead(rows, k, caller.id);
  }
}

=== FILE: notifications.dfy ===
/**
 * In-app notifications: the `Notifications` table, the handlers a user
 * calls to list, read and delete their own notifications, and the helpers
 * the other handlers call to notify someone of an assignment, a completion
 * or a comment.
 */
module Notifications {
  import opened Common
  import opened Entities
  import Ordering

  datatype NotificationType = TaskAssigned | ProjectAssigned | TaskCompleted | ProjectCompleted | TaskDue | CommentAdded

  function NotificationTypeName(t: NotificationType): string
  {
    match t
    case TaskAssigned => "task_assigned"
    case ProjectAssigned => "project_assigned"
    case TaskCompleted => "task_completed"
    case ProjectCompleted => "project_completed"
    case TaskDue => "task_due"
    case CommentAdded => "comment_added"
  }

  datatype RelatedType = TaskRef | ProjectRef | CommentRef

  datatype Notification = Notification(
    id: int,
    userId: UserId,
    notificationType: NotificationType,
    title: string,
    message: string,
    relatedId: Option<int>,
    relatedType: Option<RelatedType>,
    isRead: bool,
    createdAt: int)

  const NotAuthenticated: string := "User not authenticated"
  const NotificationNotFound: string := "Notification not found"
  const NotAuthorizedUpdate: string := "Not authorized to update this notification"
  const MarkedRead: string := "Notification marked as read"
  const AllMarkedRead: string := "All notifications marked as read"
  const NotAuthorizedDelete: string := "Not authorized to delete this notification"
  const Deleted: string := "Notification deleted successfully"
  const DefaultLimit: nat := 20
  const DefaultOffset: nat := 0

  /** The user's unread notifications, counted with `count({ where: { userId, isRead: false } })`. */
  function UnreadCount(rows: seq<Notification>, userId: UserId): (n: nat)
    ensures n <= |rows|
    ensures n == 0 <==> forall k :: 0 <= k < |rows| ==> !(rows[k].userId == userId && !rows[k].isRead)
  {
    if rows == [] then 0
    else (if rows[0].userId == userId && !rows[0].isRead then 1 else 0) + UnreadCount(rows[1..], userId)
  }

  /** The `where` of the listing: the user's rows, and when `isRead` is given, those whose flag equals `isRead === 'true'`. */
  function Matching(rows: seq<Notification>, userId: UserId, isRead: Option<string>): (r: seq<Notification>)
    ensures |r| <= |rows|
    ensures forall n :: n in r <==> n in rows && n.userId == userId && (isRead.None? || n.isRead == (isRead.value == "true"))
  {
    if rows == [] then []
    else
      var rest := Matching(rows[1..], userId, isRead);
      assert forall n :: n in rows <==> n == rows[0] || n in rows[1..] by {
        assert rows == [rows[0]] + rows[1..];
      }
      if rows[0].userId == userId && (isRead.None? || rows[0].isRead == (isRead.value == "true")) then [rows[0]] + rest else rest
  }

  datatype Page = Page(notifications: seq<Notification>, unreadCount: nat, limit: nat, offset: nat)

  /** `order: [['createdAt', 'DESC']]` */
  function NewestFirst(s: seq<Notification>): (r: seq<Notification>)
    ensures Ordering.SortedOn(r, (n: Notification) => n.createdAt, true)
    ensures forall n :: n in r <==> n in s
    ensures multiset(r) == multiset(s)
  {
    Ordering.SortOn(s, (n: Notification) => n.createdAt, true)
  }

  /** `limit` and `offset` of a query: at most `limit` rows after skipping `offset`, in the order given. */
  function Window(s: seq<Notification>, limit: nat, offset: nat): (r: seq<Notification>)
    ensures |r| <= limit
    ensures offset + limit <= |s| ==> r == s[offset..offset + limit]
    ensures offset >= |s| ==> r == []
    ensures offset <= |s| <= offset + limit ==> r == s[offset..]
    ensures forall n :: n in r ==> n in s
    ensures Ordering.SortedOn(s, (n: Notification) => n.createdAt, true) ==>
      Ordering.SortedOn(r, (n: Notification) => n.createdAt, true)
  {
    var from := if offset <= |s| then offset else |s|;
    var to := if from + limit <= |s| then from + limit else |s|;
    var r := s[from..to];
    assert forall i :: 0 <= i < |r| ==> r[i] == s[from + i];
    r
  }

  /**
   * `getUserNotifications`: the matching rows, newest first, cut to `limit`
   * rows after skipping `offset` (20 and 0 by default), together with the
   * user's whole unread count.
   */
  function ListNotifications(rows: seq<Notification>, caller: Option<Caller>, isRead: Option<string>, limit: Option<nat>,
                             offset: Option<nat>): (r: Result<Page>)
    ensures CallerId(caller).None? <==> r.Err?
    ensures r.Err? ==> r.failure == Unauthorized(NotAuthenticated)
    ensures r.Ok? ==> r.value.unreadCount == UnreadCount(rows, caller.value.id)
    ensures r.Ok? ==> r.value.limit == (if limit.Some? then limit.value else DefaultLimit)
    ensures r.Ok? ==> r.value.offset == (if offset.Some? then offset.value else DefaultOffset)
    ensures r.Ok? ==> |r.value.notifications| <= r.value.limit
    ensures r.Ok? ==> Ordering.SortedOn(r.value.notifications, (n: Notification) => n.createdAt, true)
    ensures r.Ok? ==> forall n :: n in r.value.notifications ==>
      n in rows && n.userId == caller.value.id && (isRead.None? || n.isRead == (isRead.value == "true"))
    ensures r.Ok? ==> r.value.notifications
                      == Window(NewestFirst(Matching(rows, caller.value.id, isRead)), r.value.limit, r.value.offset)
  {
    if CallerId(caller).None? then Err(Unauthorized(NotAuthenticated))
    else
      var l := if limit.Some? then limit.value else DefaultLimit;
      var o := if offset.Some? then offset.value else DefaultOffset;
      var sorted := NewestFirst(Matching(rows, caller.value.id, isRead));
      Ok(Page(Window(sorted, l, o), UnreadCount(rows, caller.value.id), l, o))
  }

  /** Consecutive windows tile: a page followed by the next one is the page as long as both. */
  lemma PagesTile(s: seq<Notification>, a: nat, b: nat, offset: nat)
    ensures Window(s, a, offset) + Window(s, b, offset + a) == Window(s, a + b, offset)
  {
  }

  /**
   * The first page misses nothing: asked from offset 0 with a limit of at
   * least the table's size, the listing holds every row of the user that the
   * read filter admits.
   */
  lemma FirstPageHoldsEveryMatch(rows: seq<Notification>, caller: Caller, isRead: Option<string>, limit: nat,
                                 offset: Option<nat>)
    requires caller.id != 0
    requires offset.None? || offset == Some(0)
    requires limit >= |rows|
    ensures var r := ListNotifications(rows, Some(caller), isRead, Some(limit), offset);
      r.Ok? && forall n :: n in rows && n.userId == caller.id && (isRead.None? || n.isRead == (isRead.value == "true"))
                          ==> n in r.value.notifications
  {
    var sorted := NewestFirst(Matching(rows, caller.id, isRead));
    assert Window(sorted, limit, 0) == sorted;
  }

  /** The unread count does not depend on the read filter or the page asked for. */
  lemma UnreadCountIgnoresPaging(rows: seq<Notification>, caller: Caller, f1: Option<string>, f2: Option<string>,
                                 l1: Option<nat>, l2: Option<nat>, o1: Option<nat>, o2: Option<nat>)
    requires caller.id != 0
    ensures ListNotifications(rows, Some(caller), f1, l1, o1).value.unreadCount
         == ListNotifications(rows, Some(caller), f2, l2, o2).value.unreadCount
  {
  }

  /** `findByPk(id)`: the position of the notification with that id. */
  function FindNotification(rows: seq<Notification>, id: int): (r: Option<nat>)
    ensures r.Some? ==> r.value < |rows| && rows[r.value].id == id
    ensures r.None? ==> forall k :: 0 <= k < |rows| ==> rows[k].id != id
  {
    if rows == [] then None
    else if rows[0].id == id then Some(0)
    else
      var rest := FindNotification(rows[1..], id);
      if rest.Some? then Some(rest.value + 1) else None
  }

  /** `markNotificationAsRead` */
  function MarkReadSpec(rows: seq<Notification>, caller: Option<Caller>, id: int): (seq<Notification>, Result<string>)
  {
    if CallerId(caller).None? then (rows, Err(Unauthorized(NotAuthenticated)))
    else
      var k := FindNotification(rows, id);
      if k.None? then (rows, Err(NotFound(NotificationNotFound)))
      else if rows[k.value].userId != caller.value.id then (rows, Err(Forbidden(NotAuthorizedUpdate)))
      else (rows[k.value := rows[k.value].(isRead := true)], Ok(MarkedRead))
  }

  /**
   * Only the owner can mark a notification read; doing so changes nothing
   * but that row's flag, and doing it twice is the same as doing it once.
   */
  lemma MarkReadIdempotent(rows: seq<Notification>, caller: Option<Caller>, id: int)
    ensures var (once, r) := MarkReadSpec(rows, caller, id);
      && |once| == |rows|
      && (forall k :: 0 <= k < |rows| ==> once[k].(isRead := rows[k].isRead) == rows[k])
      && (r.Ok? ==> exists k :: 0 <= k < |rows| && rows[k].id == id && rows[k].userId == caller.value.id && once[k].isRead)
      && (r.Err? ==> once == rows)
      && MarkReadSpec(once, caller, id) == (once, r)
  {
    var (once, r) := MarkReadSpec(rows, caller, id);
    if r.Ok? {
      var k := FindNotification(rows, id).value;
      assert FindNotification(once, id) == Some(k) by {
        FindNotificationAfterEdit(rows, k, once[k]);
      }
      assert once[k := once[k].(isRead := true)] == once;
    } else if CallerId(caller).Some? && FindNotification(rows, id).Some? {
      assert FindNotification(once, id) == FindNotification(rows, id);
    }
  }

  /** Editing a row in place, id kept, does not move the lookup. */
  lemma {:induction false} FindNotificationAfterEdit(rows: seq<Notification>, k: nat, n: Notification)
    requires k < |rows| && n.id == rows[k].id
    ensures FindNotification(rows[k := n], rows[k].id) == FindNotification(rows, rows[k].id)
  {
    if k > 0 {
      assert rows[k := n][1..] == rows[1..][k - 1 := n];
      FindNotificationAfterEdit(rows[1..], k - 1, n);
    }
  }

  /** `markAllNotificationsAsRead`: `update({ isRead: true }, { where: { userId, isRead: false } })` */
  function MarkAllRead(rows: seq<Notification>, userId: UserId): (r: seq<Notification>)
    ensures |r| == |rows|
    ensures forall k :: 0 <= k < |rows| ==> r[k] == (if rows[k].userId == userId then rows[k].(isRead := true) else rows[k])
  {
    if rows == [] then []
    else [if rows[0].userId == userId && !rows[0].isRead then rows[0].(isRead := true) else rows[0]] + MarkAllRead(rows[1..], userId)
  }

  /** After marking all read the user has nothing unread, and no other user's row has changed. */
  lemma MarkAllReadClearsOnlyOwn(rows: seq<Notification>, userId: UserId)
    ensures UnreadCount(MarkAllRead(rows, userId), userId) == 0
    ensures forall k :: 0 <= k < |rows| && rows[k].userId != userId ==> MarkAllRead(rows, userId)[k] == rows[k]
    ensures forall other :: other != userId ==> UnreadCount(MarkAllRead(rows, userId), other) == UnreadCount(rows, other)
  {
    forall other | other != userId ensures UnreadCount(MarkAllRead(rows, userId), other) == UnreadCount(rows, other) {
      UnreadCountOfOthers(rows, userId, other);
    }
  }

  lemma {:induction false} UnreadCountOfOthers(rows: seq<Notification>, userId: UserId, other: UserId)
    requires other != userId
    ensures UnreadCount(MarkAllRead(rows, userId), other) == UnreadCount(rows, other)
  {
    if rows != [] {
      UnreadCountOfOthers(rows[1..], userId, other);
      assert MarkAllRead(rows, userId)[1..] == MarkAllRead(rows[1..], userId);
    }
  }

  /** `deleteNotification` */
  function DeleteSpec(rows: seq<Notification>, caller: Option<Caller>, id: int): (seq<Notification>, Result<string>)
  {
    if CallerId(caller).None? then (rows, Err(Unauthorized(NotAuthenticated)))
    else
      var k := FindNotification(rows, id);
      if k.None? then (rows, Err(NotFound(NotificationNotFound)))
      else if rows[k.value].userId != caller.value.id then (rows, Err(Forbidden(NotAuthorizedDelete)))
      else (rows[..k.value] + rows[k.value + 1..], Ok(Deleted))
  }

  /** A user deletes only their own notification, and only the one asked for. */
  lemma DeleteOnlyOwn(rows: seq<Notification>, caller: Option<Caller>, id: int)
    ensures var (after, r) := DeleteSpec(rows, caller, id);
      && (r.Ok? ==> exists k :: 0 <= k < |rows| && rows[k].id == id && rows[k].userId == caller.value.id
                      && after == rows[..k] + rows[k + 1..])
      && (r.Err? ==> after == rows)
  {
  }

  /** `'You have been assigned to the task: "' + title + '" in project "' + projectName + '"'` */
  function TaskAssignedMessage(taskTitle: string, projectName: string): string
  {
    "You have been assigned to the task: \"" + taskTitle + "\" in project \"" + projectName + "\""
  }

  /** `project?.name || 'Unknown Project'` */
  function ProjectNameOrUnknown(projects: seq<Project>, task: Task): (name: string)
    ensures name != ""
  {
    var p := FindProject(projects, task.projectId);
    if p.Some? && p.value.name != "" then p.value.name else "Unknown Project"
  }

  /** The recipients `notifyNewComment` writes to: the assignee when there is one, then each mentioned user, repeats kept. */
  function CommentRecipients(task: Task, mentioned: seq<UserId>): (r: seq<UserId>)
    ensures |r| == (if task.assigneeId != 0 then 1 else 0) + |mentioned|
    ensures task.assigneeId != 0 ==> r[0] == task.assigneeId && r[1..] == mentioned
    ensures task.assigneeId == 0 ==> r == mentioned
  {
    (if task.assigneeId != 0 then [task.assigneeId] else []) + mentioned
  }

  /** The ids among `ids` that name a user, in order, repeats kept: the ones a notification can be stored for. */
  function KnownUsers(users: seq<User>, ids: seq<UserId>): (r: seq<UserId>)
    ensures |r| <= |ids|
    ensures forall u :: u in r <==> u in ids && FindUser(users, u).Some?
  {
    if ids == [] then []
    else
      var front := ids[..|ids| - 1];
      var last := ids[|ids| - 1];
      assert ids == front + [last];
      KnownUsers(users, front) + (if FindUser(users, last).Some? then [last] else [])
  }

  /** One more id adds itself to the known users exactly when it names a user. */
  lemma KnownUsersStep(users: seq<User>, ids: seq<UserId>, u: UserId)
    ensures KnownUsers(users, ids + [u]) == KnownUsers(users, ids) + (if FindUser(users, u).Some? then [u] else [])
  {
    assert (ids + [u])[..|ids|] == ids;
  }

  /** An unread `comment_added` notification to `userId` about the task. */
  predicate IsCommentNote(n: Notification, userId: UserId, taskId: int)
  {
    n.userId == userId && n.notificationType == CommentAdded && !n.isRead && n.relatedId == Some(taskId)
  }

  /**
   * What one `createNotification` call returned for `userId`: nothing when
   * no user has that id, since the insert then fails and the error is
   * swallowed, and otherwise a comment note to that user.
   */
  predicate CommentNoteFor(users: seq<User>, n: Option<Notification>, userId: UserId, taskId: int)
  {
    && (n.None? <==> FindUser(users, userId).None?)
    && (n.Some? ==> IsCommentNote(n.value, userId, taskId))
  }

  /** The notifications a sequence of `createNotification` results stored: the ones that are not null, in order. */
  function Stored(results: seq<Option<Notification>>): (r: seq<Notification>)
    ensures |r| <= |results|
    ensures forall n :: n in r <==> Some(n) in results
  {
    if results == [] then []
    else
      var front := results[..|results| - 1];
      var last := results[|results| - 1];
      assert results == front + [last];
      Stored(front) + (if last.Some? then [last.value] else [])
  }

  /** The results so far answer, in order, the first recipients. */
  ghost predicate CommentNotesSoFar(users: seq<User>, out: seq<Option<Notification>>, recipients: seq<UserId>, taskId: int)
  {
    |out| <= |recipients| && forall j :: 0 <= j < |out| ==> CommentNoteFor(users, out[j], recipients[j], taskId)
  }

  /** A result for the next recipient extends the results so far. */
  lemma CommentNoteOneMore(users: seq<User>, out: seq<Option<Notification>>, recipients: seq<UserId>, taskId: int,
                           n: Option<Notification>)
    requires CommentNotesSoFar(users, out, recipients, taskId) && |out| < |recipients|
    requires CommentNoteFor(users, n, recipients[|out|], taskId)
    ensures CommentNotesSoFar(users, out + [n], recipients, taskId)
    ensures Stored(out + [n]) == Stored(out) + (if n.Some? then [n.value] else [])
  {
    forall j | 0 <= j < |out| + 1 ensures CommentNoteFor(users, (out + [n])[j], recipients[j], taskId) {
      if j < |out| {
        assert (out + [n])[j] == out[j];
      }
    }
    assert (out + [n])[..|out|] == out;
  }

  /** The `Notifications` table the handlers and helpers update in place. */
  class NotificationTable {
    var rows: seq<Notification>
    var nextId: int

    ghost predicate Valid()
      reads this
    {
      forall k :: 0 <= k < |rows| ==> rows[k].id < nextId
    }

    constructor ()
      ensures Valid() && rows == [] && nextId == 1
    {
      rows := [];
      nextId := 1;
    }

    /**
     * `createNotification`: every notification starts unread. `userId`
     * references `Users`, so for an id no user has the insert fails; the
     * error is caught and the result is null, with nothing stored.
     */
    method CreateNotification(users: seq<User>, userId: UserId, t: NotificationType, title: string, message: string,
                              relatedId: Option<int>, relatedType: Option<RelatedType>, nowMs: int)
      returns (n: Option<Notification>)
      requires Valid()
      modifies this
      ensures Valid()
      ensures FindUser(users, userId).None? ==> n.None? && rows == old(rows) && nextId == old(nextId)
      ensures FindUser(users, userId).Some? ==>
        && n == Some(Notification(old(nextId), userId, t, title, message, relatedId, relatedType, false, nowMs))
        && rows == old(rows) + [n.value] && nextId == old(nextId) + 1
    {
      if FindUser(users, userId).None? {
        return None;
      }
      var created := Notification(nextId, userId, t, title, message, relatedId, relatedType, false, nowMs);
      rows := rows + [created];
      nextId := nextId + 1;
      n := Some(created);
    }

    /** `notifyTaskAssigned(taskId, assigneeId)` */
    method NotifyTaskAssigned(users: seq<User>, tasks: seq<Task>, projects: seq<Project>, taskId: int, assigneeId: UserId,
                              nowMs: int)
      returns (n: Option<Notification>)
      requires Valid()
      modifies this
      ensures Valid()
      ensures FindTask(tasks, taskId).None? || FindUser(users, assigneeId).None? ==>
        n.None? && rows == old(rows) && nextId == old(nextId)
      ensures FindTask(tasks, taskId).Some? && FindUser(users, assigneeId).Some? ==>
        && n.Some? && rows == old(rows) + [n.value] && nextId == old(nextId) + 1
        && n.value.userId == assigneeId && n.value.notificationType == TaskAssigned && !n.value.isRead
        && n.value.message == TaskAssignedMessage(FindTask(tasks, taskId).value.title, ProjectNameOrUnknown(projects, FindTask(tasks, taskId).value))
        && n.value.relatedId == Some(taskId) && n.value.relatedType == Some(TaskRef)
    {
      var task := FindTask(tasks, taskId);
      if task.None? {
        return None;
      }
      var message := TaskAssignedMessage(task.value.title, ProjectNameOrUnknown(projects, task.value));
      n := CreateNotification(users, assigneeId, TaskAssigned, "New Task Assigned", message, Some(taskId), Some(TaskRef), nowMs);
    }

    /** `notifyProjectAssigned(projectId, userId)` */
    method NotifyProjectAssigned(users: seq<User>, projects: seq<Project>, projectId: int, userId: UserId, nowMs: int)
      returns (n: Option<Notification>)
      requires Valid()
      modifies this
      ensures Valid()
      ensures FindProject(projects, projectId).None? || FindUser(users, userId).None? ==>
        n.None? && rows == old(rows) && nextId == old(nextId)
      ensures FindProject(projects, projectId).Some? && FindUser(users, userId).Some? ==>
        && n.Some? && rows == old(rows) + [n.value] && nextId == old(nextId) + 1
        && n.value.userId == userId && n.value.notificationType == ProjectAssigned && !n.value.isRead
        && n.value.message == "You have been added to the project: \"" + FindProject(projects, projectId).value.name + "\""
        && n.value.relatedId == Some(projectId) && n.value.relatedType == Some(ProjectRef)
    {
      var project := FindProject(projects, projectId);
      if project.None? {
        return None;
      }
      var message := "You have been added to the project: \"" + project.value.name + "\"";
      n := CreateNotification(users, userId, ProjectAssigned, "Added to Project", message, Some(projectId), Some(ProjectRef), nowMs);
    }

    /** `notifyTaskCompleted(taskId)`: to the assignee, when the task has one. */
    method NotifyTaskCompleted(users: seq<User>, tasks: seq<Task>, taskId: int, nowMs: int) returns (n: Option<Notification>)
      requires Valid()
      modifies this
      ensures Valid()
      ensures (|| FindTask(tasks, taskId).None? || FindTask(tasks, taskId).value.assigneeId == 0
               || FindUser(users, FindTask(tasks, taskId).value.assigneeId).None?)
        ==> n.None? && rows == old(rows) && nextId == old(nextId)
      ensures (&& FindTask(tasks, taskId).Some? && FindTask(tasks, taskId).value.assigneeId != 0
               && FindUser(users, FindTask(tasks, taskId).value.assigneeId).Some?)
        ==> && n.Some? && rows == old(rows) + [n.value]
            && n.value.userId == FindTask(tasks, taskId).value.assigneeId && n.value.notificationType == TaskCompleted
            && !n.value.isRead && n.value.relatedId == Some(taskId)
    {
      var task := FindTask(tasks, taskId);
      if task.None? || task.value.assigneeId == 0 {
        return None;
      }
      var message := "The task \"" + task.value.title + "\" has been completed";
      n := CreateNotification(users, task.value.assigneeId, TaskCompleted, "Task Completed", message, Some(taskId), Some(TaskRef), nowMs);
    }

    /** One turn of `notifyNewComment`'s loop: the next recipient's `createNotification`. */
    method NoteCommentTo(users: seq<User>, recipients: seq<UserId>, i: nat, taskId: int, title: string, message: string,
                         nowMs: int, ghost base: seq<Notification>, ghost out: seq<Option<Notification>>)
      returns (n: Option<Notification>)
      requires Valid() && rows == base + Stored(out)
      requires CommentNotesSoFar(users, out, recipients, taskId) && |out| == i < |recipients|
      modifies this
      ensures Valid() && rows == base + Stored(out + [n])
      ensures CommentNotesSoFar(users, out + [n], recipients, taskId)
    {
      n := CreateNotification(users, recipients[i], CommentAdded, title, message, Some(taskId), Some(TaskRef), nowMs);
      CommentNoteOneMore(users, out, recipients, taskId, n);
    }

    /**
     * `notifyNewComment(taskId, commentId, mentionedUserIds)`: one
     * `createNotification` per recipient, in recipient order, whose results,
     * nulls included, are returned; only the recipients that are users get
     * an unread `comment_added` notification stored.
     */
    method NotifyNewComment(users: seq<User>, tasks: seq<Task>, taskId: int, mentioned: seq<UserId>, nowMs: int)
      returns (created: Option<seq<Option<Notification>>>)
      requires Valid()
      modifies this
      ensures Valid()
      ensures FindTask(tasks, taskId).None? ==> created.None? && rows == old(rows)
      ensures FindTask(tasks, taskId).Some? ==>
        var recipients := CommentRecipients(FindTask(tasks, taskId).value, mentioned);
        && created.Some? && rows == old(rows) + Stored(created.value)
        && |created.value| == |recipients|
        && forall i :: 0 <= i < |recipients| ==> CommentNoteFor(users, created.value[i], recipients[i], taskId)
    {
      var task := FindTask(tasks, taskId);
      if task.None? {
        return None;
      }
      var recipients := CommentRecipients(task.value, mentioned);
      var first := if task.value.assigneeId != 0 then 1 else 0;
      var ownerNote := "A new comment has been added to your task: \"" + task.value.title + "\"";
      var mentionNote := "You were mentioned in a comment on task: \"" + task.value.title + "\"";
      var out: seq<Option<Notification>> := [];
      for i := 0 to |recipients|
        invariant Valid()
        invariant |out| == i
        invariant rows == old(rows) + Stored(out)
        invariant CommentNotesSoFar(users, out, recipients, taskId)
      {
        var title := if i < first then "New Comment on Your Task" else "You were mentioned in a comment";
        var message := if i < first then ownerNote else mentionNote;
        var n := NoteCommentTo(users, recipients, i, taskId, title, message, nowMs, old(rows), out);
        out := out + [n];
      }
      created := Some(out);
    }

    /** `markNotificationAsRead` */
    method MarkAsRead(caller: Option<Caller>, id: int) returns (r: Result<string>)
      requires Valid()
      modifies this
      ensures Valid() && nextId == old(nextId)
      ensures (rows, r) == MarkReadSpec(old(rows), caller, id)
    {
      if CallerId(caller).None? {
        return Err(Unauthorized(NotAuthenticated));
      }
      var k := FindNotification(rows, id);
      if k.None? {
        return Err(NotFound(NotificationNotFound));
      }
      if rows[k.value].userId != caller.value.id {
        return Err(Forbidden(NotAuthorizedUpdate));
      }
      rows := rows[k.value := rows[k.value].(isRead := true)];
      r := Ok(MarkedRead);
    }

    /** `markAllNotificationsAsRead` */
    method MarkAllAsRead(caller: Option<Caller>) returns (r: Result<string>)
      requires Valid()
      modifies this
      ensures Valid() && nextId == old(nextId)
      ensures CallerId(caller).None? ==> rows == old(rows) && r == Err(Unauthorized(NotAuthenticated))
      ensures CallerId(caller).Some? ==> rows == MarkAllRead(old(rows), caller.value.id) && r == Ok(AllMarkedRead)
    {
      if CallerId(caller).None? {
        return Err(Unauthorized(NotAuthenticated));
      }
      rows := MarkAllRead(rows, caller.value.id);
      r := Ok(AllMarkedRead);
    }

    /** `deleteNotification` */
    method Delete(caller: Option<Caller>, id: int) returns (r: Result<string>)
      requires Valid()
      modifies this
      ensures Valid() && nextId == old(nextId)
      ensures (rows, r) == DeleteSpec(old(rows), caller, id)
    {
      if CallerId(caller).None? {
        return Err(Unauthorized(NotAuthenticated));
      }
      var k := FindNotification(rows, id);
      if k.None? {
        return Err(NotFound(NotificationNotFound));
      }
      if rows[k.value].userId != caller.value.id {
        return Err(Forbidden(NotAuthorizedDelete));
      }
      rows := rows[..k.value] + rows[k.value + 1..];
      r := Ok(Deleted);
    }
  }
}

=== FILE: ordering.dfy ===
/**
 * The `order: [[column, 'ASC' | 'DESC']]` of the listing queries. The database
 * may return rows with equal keys in any order; the model fixes one admissible
 * order, a stable sort on the key column (rows with equal keys keep table
 * order).
 */
module Ordering {

  /** Whether `a` may precede `b` in a listing ordered on `key`. */
  predicate Precedes<T>(a: T, b: T, key: T -> int, descending: bool)
  {
    if descending then key(a) >= key(b) else key(a) <= key(b)
  }

  predicate SortedOn<T>(s: seq<T>, key: T -> int, descending: bool)
  {
    forall i, j :: 0 <= i < j < |s| ==> Precedes(s[i], s[j], key, descending)
  }

  /** A row that may precede every row of a sorted listing may head it. */
  lemma ConsSorted<T>(h: T, t: seq<T>, key: T -> int, descending: bool)
    requires SortedOn(t, key, descending)
    requires forall y :: y in t ==> Precedes(h, y, key, descending)
    ensures SortedOn([h] + t, key, descending)
  {
    var r := [h] + t;
    forall i, j | 0 <= i < j < |r|
      ensures Precedes(r[i], r[j], key, descending)
    {
      assert r[j] == t[j - 1];
      if i > 0 {
        assert r[i] == t[i - 1];
      }
    }
  }

  function Insert<T>(x: T, s: seq<T>, key: T -> int, descending: bool): (r: seq<T>)
    requires SortedOn(s, key, descending)
    ensures SortedOn(r, key, descending)
    ensures multiset(r) == multiset(s) + multiset{x}
    ensures |r| == |s| + 1
    ensures forall y :: y in r ==> y in s || y == x
  {
    if s == [] || Precedes(x, s[0], key, descending) then
      assert forall y :: y in s ==> Precedes(x, y, key, descending) by {
        forall y | y in s
          ensures Precedes(x, y, key, descending)
        {
          var j :| 0 <= j < |s| && s[j] == y;
          assert j == 0 || Precedes(s[0], s[j], key, descending);
        }
      }
      ConsSorted(x, s, key, descending);
      [x] + s
    else
      var rest := Insert(x, s[1..], key, descending);
      assert s == [s[0]] + s[1..];
      assert forall y :: y in rest ==> Precedes(s[0], y, key, descending) by {
        forall y | y in rest
          ensures Precedes(s[0], y, key, descending)
        {
          if y != x {
            var j :| 0 <= j < |s[1..]| && s[1..][j] == y;
            assert s[j + 1] == y;
          }
        }
      }
      ConsSorted(s[0], rest, key, descending);
      [s[0]] + rest
  }

  /** The rows of `s` ordered on `key`, ascending or descending. */
  function SortOn<T>(s: seq<T>, key: T -> int, descending: bool): (r: seq<T>)
    ensures SortedOn(r, key, descending)
    ensures multiset(r) == multiset(s)
    ensures |r| == |s|
    ensures forall y :: y in r ==> y in s
    ensures forall y :: y in s ==> y in r
  {
    if s == [] then []
    else
      assert s == [s[0]] + s[1..];
      var r := Insert(s[0], SortOn(s[1..], key, descending), key, descending);
      assert forall y :: y in r ==> y in multiset(r);
      assert forall y :: y in s ==> y in multiset(s);
      r
  }
}

=== FILE: pdf_report.dfy ===
/**
 * The figures the PDF reports show: the project report's task counts, hour
 * totals and team list, the task report's completion and time spent, and
 * the time-tracking report's entries grouped by day. Rendering the pages is
 * not part of this model. Day strings (`toDateString()` of an entry's
 * creation time) come from the `dateOf` parameter.
 */
module PdfReports {
  import opened Common
  import opened Entities
  import opened JsMath
  import Tables
  import TimeEntries

  // ---------------------------------------------------------------------------
  // Project report
  // ---------------------------------------------------------------------------

  /** `value || 0`: a missing value counts as 0. */
  function OrZero(v: Option<int>): (r: int)
    ensures v.None? ==> r == 0
    ensures v.Some? ==> r == v.value
  {
    if v.Some? then v.value else 0
  }

  datatype ProjectStats = ProjectStats(
    totalTasks: nat,
    completedTasks: nat,
    inProgressTasks: nat,
    todoTasks: nat,
    totalEstimatedHours: int,
    totalActualHours: int)

  predicate IsDone(t: Task) { t.status == Done }
  predicate IsInProgress(t: Task) { t.status == InProgress }
  predicate IsTodo(t: Task) { t.status == Todo }
  predicate IsStarted(t: Task) { t.status != Todo }

  predicate AnyTask(t: Task) { true }

  function Estimate(t: Task): int { OrZero(t.estimatedHours) }
  function Actual(t: Task): int { OrZero(t.actualHours) }

  /**
   * The counts and totals of `generateProjectReport` over the project's
   * tasks. Every task has one of the three statuses, so the three counts
   * add up to the number of tasks.
   */
  function ProjectStatsOf(tasks: seq<Task>): (s: ProjectStats)
    ensures s.totalTasks == |tasks|
    ensures s.completedTasks + s.inProgressTasks + s.todoTasks == s.totalTasks
    ensures s.completedTasks == Tables.Count(tasks, IsDone) && s.inProgressTasks == Tables.Count(tasks, IsInProgress)
    ensures s.completedTasks == 0 <==> forall k :: 0 <= k < |tasks| ==> tasks[k].status != Done
  {
    Tables.CountDisjointUnion(tasks, IsDone, IsInProgress, IsStarted);
    Tables.CountDisjointUnion(tasks, IsStarted, IsTodo, AnyTask);
    ProjectStats(|tasks|, Tables.Count(tasks, IsDone), Tables.Count(tasks, IsInProgress), Tables.Count(tasks, IsTodo),
      Tables.Sum(tasks, Estimate), Tables.Sum(tasks, Actual))
  }

  /** Whether a task has an estimate. */
  predicate HasEstimate(t: Task) { t.estimatedHours.Some? }

  /** Tasks without an estimate add nothing to the estimated total. */
  lemma {:induction false} MissingEstimatesAddNothing(tasks: seq<Task>)
    ensures Tables.Sum(tasks, Estimate) == Tables.Sum(Tables.Filter(tasks, HasEstimate), Estimate)
  {
    if tasks != [] {
      MissingEstimatesAddNothing(tasks[1..]);
    }
  }

  /** A team member as the report lists it: the assignee's id, name and e-mail. */
  datatype Assignee = Assignee(id: int, name: string, email: string)

  /** The `assignee` each task is loaded with: none when unassigned or when no such user exists. */
  function AssigneesOf(tasks: seq<Task>, users: seq<User>): (r: seq<Option<Assignee>>)
    ensures |r| == |tasks|
    ensures forall k :: 0 <= k < |r| && r[k].Some? ==> r[k].value.id == tasks[k].assigneeId && tasks[k].assigneeId != 0
  {
    seq(|tasks|, k requires 0 <= k < |tasks| =>
      var u := if tasks[k].assigneeId == 0 then None else FindUser(users, tasks[k].assigneeId);
      if u.Some? then Some(Assignee(u.value.id, u.value.name, u.value.email)) else None)
  }

  /** The distinct assignee ids, in order of first appearance. */
  function MemberIds(s: seq<Option<Assignee>>): (ids: seq<int>)
  {
    if s == [] then []
    else
      var ids := MemberIds(s[..|s| - 1]);
      var a := s[|s| - 1];
      if a.Some? && a.value.id !in ids then ids + [a.value.id] else ids
  }

  /** The last assignee object carrying `id`. */
  function LatestWithId(s: seq<Option<Assignee>>, id: int): (r: Option<Assignee>)
    ensures r.Some? ==> r.value.id == id && r in s
    ensures r.None? <==> forall k :: 0 <= k < |s| ==> s[k].None? || s[k].value.id != id
  {
    if s == [] then None
    else
      var a := s[|s| - 1];
      if a.Some? && a.value.id == id then a
      else
        var r := LatestWithId(s[..|s| - 1], id);
        assert forall k :: 0 <= k < |s| - 1 ==> s[..|s| - 1][k] == s[k];
        r
  }

  /**
   * The member list is one entry per distinct assignee: its ids hold no
   * repeat, and an id is listed exactly when some task has that assignee.
   */
  lemma {:induction false} MemberIdsAreTheAssignees(s: seq<Option<Assignee>>)
    ensures forall i, j :: 0 <= i < j < |MemberIds(s)| ==> MemberIds(s)[i] != MemberIds(s)[j]
    ensures forall id :: id in MemberIds(s) <==> LatestWithId(s, id).Some?
  {
    if s != [] {
      MemberIdsAreTheAssignees(s[..|s| - 1]);
    }
  }

  /**
   * Order of first appearance: the members found in a prefix of the task
   * list come first, in the same order, in the members of the whole list.
   */
  lemma {:induction false} MemberIdsGrowAtTheEnd(s: seq<Option<Assignee>>, j: nat)
    requires j <= |s|
    ensures MemberIds(s[..j]) <= MemberIds(s)
    decreases |s| - j
  {
    if j < |s| {
      MemberIdsGrowAtTheEnd(s, j + 1);
      assert s[..j + 1][..j] == s[..j];
    } else {
      assert s[..j] == s;
    }
  }

  /**
   * `extractTeamMembers`: a map from assignee id to assignee, filled in task
   * order, then read out in the order its keys were first set. A later task
   * with the same assignee replaces the stored object, not its position.
   */
  method ExtractTeamMembers(assignees: seq<Option<Assignee>>) returns (members: seq<Assignee>)
    ensures |members| == |MemberIds(assignees)|
    ensures forall k :: 0 <= k < |members| ==> members[k].id == MemberIds(assignees)[k]
    ensures forall k :: 0 <= k < |members| ==> Some(members[k]) == LatestWithId(assignees, members[k].id)
  {
    var keys: seq<int> := [];
    var values: map<int, Assignee> := map[];
    for i := 0 to |assignees|
      invariant keys == MemberIds(assignees[..i])
      invariant forall id :: id in values <==> id in keys
      invariant forall k :: 0 <= k < |keys| ==> keys[k] in values
      invariant forall id :: id in values ==> Some(values[id]) == LatestWithId(assignees[..i], id)
    {
      assert assignees[..i + 1][..i] == assignees[..i];
      var a := assignees[i];
      if a.Some? {
        if a.value.id !in values {
          keys := keys + [a.value.id];
        }
        values := values[a.value.id := a.value];
      }
    }
    assert assignees[..|assignees|] == assignees;
    members := seq(|keys|, k requires 0 <= k < |keys| => values[keys[k]]);
  }

  // ---------------------------------------------------------------------------
  // Task report
  // ---------------------------------------------------------------------------

  /** `calculateTaskCompletion`: done is 100, in progress 50, anything else 0. */
  function Completion(status: string): (r: int)
    ensures r == 100 <==> status == "done"
    ensures r == 50 <==> status == "in_progress"
    ensures r == 0 <==> status != "done" && status != "in_progress"
  {
    if status == "done" then 100 else if status == "in_progress" then 50 else 0
  }

  /** Completion rises with the status: todo, then in progress, then done. */
  lemma CompletionFollowsStatus()
    ensures Completion(TaskStatusName(Todo)) < Completion(TaskStatusName(InProgress)) < Completion(TaskStatusName(Done))
    ensures Completion(TaskStatusName(Todo)) == 0 && Completion(TaskStatusName(Done)) == 100
  {
  }

  function Duration(e: TimeEntries.TimeEntry): int { OrZero(e.duration) }

  /**
   * The minutes of a list of entries, a missing duration counting as 0: the
   * task report's time spent and the time-tracking report's total.
   */
  function TimeSpent(entries: seq<TimeEntries.TimeEntry>): int
  {
    Tables.Sum(entries, Duration)
  }

  /**
   * The task report prints the time spent as whole hours and the minutes
   * left over; for a non-negative total the two give the total back.
   */
  function HoursAndMinutes(totalMinutes: int): (r: (int, int))
    ensures totalMinutes >= 0 ==> r.0 >= 0 && 0 <= r.1 < 60 && r.0 * 60 + r.1 == totalMinutes
    ensures totalMinutes < 0 ==> -60 < r.1 <= 0
  {
    (FloorDiv(totalMinutes, 60), JsRem(totalMinutes, 60))
  }

  /** Entries that all have a non-negative duration give a non-negative time spent. */
  lemma TimeSpentSplits(entries: seq<TimeEntries.TimeEntry>)
    requires forall k :: 0 <= k < |entries| ==> entries[k].duration.None? || entries[k].duration.value >= 0
    ensures TimeSpent(entries) >= 0
    ensures var (h, m) := HoursAndMinutes(TimeSpent(entries)); h * 60 + m == TimeSpent(entries)
  {
    NonNegativeDurations(entries);
  }

  lemma {:induction false} NonNegativeDurations(entries: seq<TimeEntries.TimeEntry>)
    requires forall k :: 0 <= k < |entries| ==> entries[k].duration.None? || entries[k].duration.value >= 0
    ensures Tables.Sum(entries, Duration) >= 0
  {
    if entries != [] {
      NonNegativeDurations(entries[1..]);
    }
  }

  // ---------------------------------------------------------------------------
  // Time-tracking report
  // ---------------------------------------------------------------------------

  /** The entries of one day, in their original order. */
  function EntriesOn<T>(entries: seq<T>, dateOf: T -> string, day: string): (r: seq<T>)
    ensures |r| <= |entries|
  {
    if entries == [] then []
    else
      var last := entries[|entries| - 1];
      EntriesOn(entries[..|entries| - 1], dateOf, day) + (if dateOf(last) == day then [last] else [])
  }

  /** An entry is in the group of its own day and of no other day. */
  lemma {:induction false} EntriesOnIsTheDay<T>(entries: seq<T>, dateOf: T -> string, day: string)
    ensures forall x :: x in EntriesOn(entries, dateOf, day) <==> x in entries && dateOf(x) == day
  {
    if entries != [] {
      var front := entries[..|entries| - 1];
      EntriesOnIsTheDay(front, dateOf, day);
      assert entries == front + [entries[|entries| - 1]];
    }
  }

  /** The days on which some entry was made. */
  function Days<T>(entries: seq<T>, dateOf: T -> string): set<string>
  {
    if entries == [] then {}
    else Days(entries[..|entries| - 1], dateOf) + {dateOf(entries[|entries| - 1])}
  }

  /** A day is among the days worked exactly when some entry was made on it. */
  lemma {:induction false} DaysAreTheDates<T>(entries: seq<T>, dateOf: T -> string)
    ensures forall d :: d in Days(entries, dateOf) <==> exists k :: 0 <= k < |entries| && dateOf(entries[k]) == d
  {
    if entries != [] {
      var front := entries[..|entries| - 1];
      DaysAreTheDates(front, dateOf);
      assert forall k :: 0 <= k < |front| ==> front[k] == entries[k];
    }
  }

  /**
   * `days` lists the days of `entries` once each, in the order they are
   * first met, and `groups` holds each listed day's entries.
   */
  ghost predicate GroupsOf<T>(entries: seq<T>, dateOf: T -> string, days: seq<string>, groups: map<string, seq<T>>)
  {
    && NoRepeats(days)
    && KeyedBy(groups, days)
    && ListsDaysWorked(days, entries, dateOf)
    && HoldsEachDay(groups, entries, dateOf)
  }

  ghost predicate NoRepeats(days: seq<string>)
  {
    forall a, b :: 0 <= a < b < |days| ==> days[a] != days[b]
  }

  ghost predicate KeyedBy<T>(groups: map<string, seq<T>>, days: seq<string>)
  {
    forall d :: d in groups <==> d in days
  }

  ghost predicate ListsDaysWorked<T>(days: seq<string>, entries: seq<T>, dateOf: T -> string)
  {
    forall d :: d in days <==> d in Days(entries, dateOf)
  }

  ghost predicate HoldsEachDay<T>(groups: map<string, seq<T>>, entries: seq<T>, dateOf: T -> string)
  {
    forall d :: EntriesOn(entries, dateOf, d) == (if d in groups then groups[d] else [])
  }

  /** Adding one entry to its day's group, opening the group when the day is new, keeps the grouping. */
  lemma GroupsOfExtend<T>(entries: seq<T>, x: T, dateOf: T -> string, days: seq<string>, groups: map<string, seq<T>>)
    requires GroupsOf(entries, dateOf, days, groups)
    ensures var day := dateOf(x);
      GroupsOf(entries + [x], dateOf, if day in groups then days else days + [day],
        groups[day := (if day in groups then groups[day] else []) + [x]])
  {
    if dateOf(x) in groups {
      ExtendOpenGroup(entries, x, dateOf, days, groups);
    } else {
      OpenNewGroup(entries, x, dateOf, days, groups);
    }
  }

  /** An entry on a day already grouped goes to the end of that day's group. */
  lemma ExtendOpenGroup<T>(entries: seq<T>, x: T, dateOf: T -> string, days: seq<string>, groups: map<string, seq<T>>)
    requires GroupsOf(entries, dateOf, days, groups) && dateOf(x) in groups
    ensures GroupsOf(entries + [x], dateOf, days, groups[dateOf(x) := groups[dateOf(x)] + [x]])
  {
    DaysExtend(entries, x, dateOf, days, days);
    GroupContentsExtend(entries, x, dateOf, groups, groups[dateOf(x)]);
  }

  /** An entry on a new day opens a group of its own, listed last. */
  lemma OpenNewGroup<T>(entries: seq<T>, x: T, dateOf: T -> string, days: seq<string>, groups: map<string, seq<T>>)
    requires GroupsOf(entries, dateOf, days, groups) && dateOf(x) !in groups
    ensures GroupsOf(entries + [x], dateOf, days + [dateOf(x)], groups[dateOf(x) := [x]])
  {
    var day := dateOf(x);
    NewDayListed(days, groups, day, [x]);
    DaysExtend(entries, x, dateOf, days, days + [day]);
    GroupContentsExtend(entries, x, dateOf, groups, []);
    assert [] + [x] == [x];
  }

  /** A day not yet grouped, listed last with a group of its own, keeps the days distinct and the groups keyed by them. */
  lemma NewDayListed<T>(days: seq<string>, groups: map<string, seq<T>>, day: string, group: seq<T>)
    requires NoRepeats(days) && KeyedBy(groups, days) && day !in groups
    ensures NoRepeats(days + [day])
    ensures KeyedBy(groups[day := group], days + [day])
  {
    var days' := days + [day];
    forall a, b | 0 <= a < b < |days'| ensures days'[a] != days'[b] {
      if b == |days| {
        assert days'[a] == days[a] && days'[b] == day;
      }
    }
    assert forall d :: d in days' <==> d in days || d == day;
  }

  /** The listed days stay the days worked when the new entry's day is listed. */
  lemma DaysExtend<T>(entries: seq<T>, x: T, dateOf: T -> string, days: seq<string>, days': seq<string>)
    requires ListsDaysWorked(days, entries, dateOf)
    requires forall d :: d in days' <==> d in days || d == dateOf(x)
    ensures ListsDaysWorked(days', entries + [x], dateOf)
  {
    AppendOne(entries, x, dateOf);
  }

  /** Each day's group stays that day's entries when the new entry joins the end of its own day's group. */
  lemma GroupContentsExtend<T>(entries: seq<T>, x: T, dateOf: T -> string, groups: map<string, seq<T>>, prior: seq<T>)
    requires HoldsEachDay(groups, entries, dateOf)
    requires prior == if dateOf(x) in groups then groups[dateOf(x)] else []
    ensures HoldsEachDay(groups[dateOf(x) := prior + [x]], entries + [x], dateOf)
  {
    var groups' := groups[dateOf(x) := prior + [x]];
    forall d ensures EntriesOn(entries + [x], dateOf, d) == (if d in groups' then groups'[d] else []) {
      EntriesOnAppend(entries, x, dateOf, d);
    }
  }

  /** One more entry adds its day to the days worked. */
  lemma AppendOne<T>(entries: seq<T>, x: T, dateOf: T -> string)
    ensures Days(entries + [x], dateOf) == Days(entries, dateOf) + {dateOf(x)}
  {
    assert (entries + [x])[..|entries|] == entries;
  }

  /** One more entry goes to the end of its own day's group and leaves the other groups alone. */
  lemma EntriesOnAppend<T>(entries: seq<T>, x: T, dateOf: T -> string, d: string)
    ensures EntriesOn(entries + [x], dateOf, d) == EntriesOn(entries, dateOf, d) + (if dateOf(x) == d then [x] else [])
  {
    assert (entries + [x])[..|entries|] == entries;
  }

  /**
   * `groupTimeEntriesByDate`: one group per day, created when the day is
   * first met, each holding that day's entries in order. The number of
   * groups is the report's `daysWorked`.
   */
  method GroupByDate<T>(entries: seq<T>, dateOf: T -> string) returns (days: seq<string>, groups: map<string, seq<T>>)
    ensures forall i, j :: 0 <= i < j < |days| ==> days[i] != days[j]
    ensures forall d :: d in groups <==> d in days
    ensures forall d :: d in days <==> d in Days(entries, dateOf)
    ensures forall d :: d in groups ==> groups[d] == EntriesOn(entries, dateOf, d)
    ensures |days| == |Days(entries, dateOf)|
  {
    days := [];
    groups := map[];
    for i := 0 to |entries|
      invariant GroupsOf(entries[..i], dateOf, days, groups)
    {
      assert entries[..i + 1] == entries[..i] + [entries[i]];
      GroupsOfExtend(entries[..i], entries[i], dateOf, days, groups);
      var day := dateOf(entries[i]);
      var group := if day in groups then groups[day] else [];
      if day !in groups {
        days := days + [day];
      }
      groups := groups[day := group + [entries[i]]];
    }
    assert entries[..|entries|] == entries;
    DistinctCount(days, Days(entries, dateOf));
  }

  /** A sequence without repeats has as many elements as its set. */
  lemma DistinctCount(s: seq<string>, elements: set<string>)
    requires forall i, j :: 0 <= i < j < |s| ==> s[i] != s[j]
    requires forall x :: x in s <==> x in elements
    ensures |elements| == |s|
  {
    DistinctSetSize(s);
    assert (set x | x in s) == elements;
  }

  lemma {:induction false} DistinctSetSize(s: seq<string>)
    requires forall i, j :: 0 <= i < j < |s| ==> s[i] != s[j]
    ensures |set x | x in s| == |s|
  {
    if s != [] {
      var front := s[..|s| - 1];
      DistinctSetSize(front);
      assert (set x | x in s) == (set x | x in front) + {s[|s| - 1]};
      assert s[|s| - 1] !in front;
    }
  }

  // ---------------------------------------------------------------------------
  // Errors reported by the report endpoints
  // ---------------------------------------------------------------------------

  datatype ReportKind = ProjectReport | TaskReport

  function MissingMessage(k: ReportKind): string
  {
    match k
    case ProjectReport => "Project not found"
    case TaskReport => "Task not found"
  }

  function FailedMessage(k: ReportKind): string
  {
    match k
    case ProjectReport => "Failed to generate project report PDF"
    case TaskReport => "Failed to generate task report PDF"
  }

  /**
   * The handler's answer to an error thrown by the service: 404 when the
   * message says the subject is missing, 500 otherwise.
   */
  function ReportFailure(k: ReportKind, thrown: string): (f: Failure)
    ensures f.Code() == 404 <==> thrown == MissingMessage(k)
    ensures f.Code() != 404 ==> f == ServerError(FailedMessage(k))
  {
    if thrown == MissingMessage(k) then NotFound(MissingMessage(k)) else ServerError(FailedMessage(k))
  }

  /**
   * The error the service throws when the report's subject is missing, as
   * written: the not-found error is raised inside the `try` whose `catch`
   * replaces every error with the generic failure message.
   */
  function AsWrittenMissingSubjectError(k: ReportKind): (m: string)
    ensures m != MissingMessage(k)
  {
    FailedMessage(k)
  }

  /** As written, a missing project or task is answered with 500, never with the handler's 404. */
  lemma AsWrittenMissingSubjectIs500(k: ReportKind)
    ensures ReportFailure(k, AsWrittenMissingSubjectError(k)).Code() == 500
  {
  }

  /** The not-found error passed through unchanged, as the handler expects. */
  function MissingSubjectError(k: ReportKind): (m: string)
    ensures ReportFailure(k, m).Code() == 404
  {
    MissingMessage(k)
  }

  /**
   * The service's outcome for a report request: the error it throws when the
   * subject is missing, nothing when it is found (rendering failures are not
   * part of this model).
   */
  function ReportError(k: ReportKind, projects: seq<Project>, tasks: seq<Task>, id: int): (r: Option<string>)
    ensures r.Some? <==> (if k == ProjectReport then FindProject(projects, id).None? else FindTask(tasks, id).None?)
    ensures r.Some? ==> ReportFailure(k, r.value) == NotFound(MissingMessage(k))
  {
    var found := if k == ProjectReport then FindProject(projects, id).Some? else FindTask(tasks, id).Some?;
    if found then None else Some(MissingSubjectError(k))
  }

  /** Whether `part` occurs in `s` (`String.prototype.includes`). */
  predicate Contains(s: string, part: string)
  {
    exists i, j :: 0 <= i <= j <= |s| && s[i..j] == part
  }

  const TimeTrackingFailed: string := "Failed to generate time tracking report PDF"

  /**
   * The time-tracking handler's answer to an error thrown by the service:
   * 404 for a missing user or a message about time entries, 500 otherwise.
   */
  function TimeTrackingFailure(thrown: string): (f: Failure)
    ensures f.Code() == 404 <==> thrown == "User not found" || Contains(thrown, "TimeEntry")
    ensures f.Code() != 404 ==> f == ServerError(TimeTrackingFailed)
  {
    if thrown == "User not found" || Contains(thrown, "TimeEntry") then NotFound("User or time entries not found")
    else ServerError(TimeTrackingFailed)
  }

  /** The handler refuses a request whose `startDate` or `endDate` is absent or empty. */
  function TimeTrackingDatesMissing(startDate: Option<string>, endDate: Option<string>): (r: Option<Failure>)
    ensures r.Some? <==> startDate.None? || startDate == Some("") || endDate.None? || endDate == Some("")
    ensures r.Some? ==> r.value.Code() == 400
  {
    if startDate.None? || startDate == Some("") || endDate.None? || endDate == Some("") then
      Some(BadRequest("startDate and endDate are required"))
    else None
  }

  /**
   * The service never looks the user up and replaces every error with its
   * own failure message, which names neither a missing user nor time
   * entries: a failed time-tracking report is always answered with 500.
   */
  lemma TimeTrackingFailureIs500()
    ensures TimeTrackingFailure(TimeTrackingFailed).Code() == 500
  {
    var s := TimeTrackingFailed;
    assert forall k :: 0 <= k < |s| ==> s[k] != 'T';
    forall i, j | 0 <= i <= j <= |s| ensures s[i..j] != "TimeEntry" {
      if j - i == 9 {
        assert s[i..j][0] == s[i];
      }
    }
  }
}

=== FILE: pdf_schema.dfy ===
/**
 * The request schemas of the PDF report endpoints: the page options, and the
 * id and date fields of each report request. The schema's defaults are
 * compared with the fallbacks the PDF service applies to the options it
 * receives. Whether a string is a date is decided by the `Date` constructor,
 * a parameter here (`None` for an invalid date).
 */
module PdfSchema {
  import opened Common
  import opened Text
  import opened Validation

  datatype PageFormat = A4 | A3 | Letter

  /** `z.enum(['A4', 'A3', 'Letter'])` */
  function ParseFormat(s: string): (r: Option<PageFormat>)
    ensures r.Some? <==> s in {"A4", "A3", "Letter"}
    ensures r == Some(A4) <==> s == "A4"
  {
    if s == "A4" then Some(A4) else if s == "A3" then Some(A3) else if s == "Letter" then Some(Letter) else None
  }

  /** The four optional margin strings. */
  datatype Margin = Margin(top: Option<string>, right: Option<string>, bottom: Option<string>, left: Option<string>)

  /** The options object as received; `scale` is any number. */
  datatype OptionsBody = OptionsBody(format: Option<string>, landscape: Option<bool>, margin: Option<Margin>, scale: Option<real>)

  /** The options object after parsing; a field is `None` when the parsed object lacks it. */
  datatype PdfOptions = PdfOptions(format: Option<PageFormat>, landscape: Option<bool>, margin: Option<Margin>, scale: Option<real>)

  const MinScale: real := 0.1
  const MaxScale: real := 2.0

  /** `PDFOptionsSchema.parse(o)`: `format`, `landscape` and `scale` get their defaults A4, false and 1. */
  function ParseOptions(o: OptionsBody): (r: Option<PdfOptions>)
    ensures r.Some? <==>
      && (o.format.None? || ParseFormat(o.format.value).Some?)
      && (o.scale.None? || MinScale <= o.scale.value <= MaxScale)
    ensures r.Some? ==>
      && r.value.format.Some? && r.value.landscape.Some? && r.value.scale.Some?
      && (o.format.None? ==> r.value.format == Some(A4))
      && (o.landscape.None? ==> r.value.landscape == Some(false))
      && (o.scale.None? ==> r.value.scale == Some(1.0))
      && (o.scale.Some? ==> r.value.scale == o.scale)
      && r.value.margin == o.margin
      && MinScale <= r.value.scale.value <= MaxScale
  {
    if && (o.format.None? || ParseFormat(o.format.value).Some?)
       && (o.scale.None? || MinScale <= o.scale.value <= MaxScale)
    then
      Some(PdfOptions(
        Some(if o.format.Some? then ParseFormat(o.format.value).value else A4),
        Some(if o.landscape.Some? then o.landscape.value else false),
        o.margin,
        Some(if o.scale.Some? then o.scale.value else 1.0)))
    else None
  }

  /**
   * `PDFOptionsSchema.optional().default({})`: an absent options object
   * becomes the empty object as it stands, without the inner defaults.
   */
  function ParseOptionsField(o: Option<OptionsBody>): (r: Option<PdfOptions>)
    ensures o.None? ==> r == Some(PdfOptions(None, None, None, None))
    ensures o.Some? ==> r == ParseOptions(o.value)
  {
    if o.None? then Some(PdfOptions(None, None, None, None)) else ParseOptions(o.value)
  }

  /** The page settings the PDF service prints with. */
  datatype PageSettings = PageSettings(format: PageFormat, landscape: bool, margin: Margin, scale: real)

  /** The margin the service uses when none is given. */
  const DefaultMargin: Margin := Margin(Some("1cm"), Some("1cm"), Some("1cm"), Some("1cm"))

  /**
   * The service's fallbacks `options.format || 'A4'`, `options.landscape ||
   * false`, `options.margin || {1cm on every side}` and `options.scale || 1`:
   * an absent value, and a scale of 0, fall back.
   */
  function Effective(o: PdfOptions): (s: PageSettings)
    ensures o.format.Some? ==> s.format == o.format.value
    ensures s.landscape <==> o.landscape == Some(true)
    ensures o.scale.Some? && o.scale.value != 0.0 ==> s.scale == o.scale.value
  {
    PageSettings(
      if o.format.Some? then o.format.value else A4,
      o.landscape == Some(true),
      if o.margin.Some? then o.margin.value else DefaultMargin,
      if o.scale.Some? && o.scale.value != 0.0 then o.scale.value else 1.0)
  }

  /**
   * The schema's defaults and the service's fallbacks agree: an absent
   * options object, an empty one, and one naming the defaults all render the
   * same pages, and every accepted options object prints with its own scale,
   * which lies between 0.1 and 2.
   */
  lemma DefaultsAgree(o: OptionsBody)
    ensures Effective(ParseOptionsField(None).value) == PageSettings(A4, false, DefaultMargin, 1.0)
    ensures Effective(ParseOptions(OptionsBody(None, None, None, None)).value) == PageSettings(A4, false, DefaultMargin, 1.0)
    ensures ParseOptions(OptionsBody(Some("A4"), Some(false), None, Some(1.0))) == ParseOptions(OptionsBody(None, None, None, None))
    ensures ParseOptions(o).Some? ==>
      && MinScale <= Effective(ParseOptions(o).value).scale <= MaxScale
      && (o.scale.Some? ==> Effective(ParseOptions(o).value).scale == o.scale.value)
  {
  }

  /** `ProjectReportPDFSchema` and `TaskReportPDFSchema`: a digit-string id and the options. */
  function ParseReportRequest(id: string, options: Option<OptionsBody>): (r: Option<(nat, PdfOptions)>)
    ensures r.Some? <==> IsDigitString(id) && ParseOptionsField(options).Some?
    ensures r.Some? ==> r.value.0 == DigitsValue(id) && Some(r.value.1) == ParseOptionsField(options)
  {
    var o := ParseOptionsField(options);
    if ParseId(id).Some? && o.Some? then Some((ParseId(id).value, o.value)) else None
  }

  /** `TimeTrackingReportPDFSchema`: a digit-string user id, two valid dates and the options. */
  function ParseTimeTrackingRequest(userId: string, startDate: Option<string>, endDate: Option<string>,
                                    options: Option<OptionsBody>, parseDate: string -> Option<int>)
    : (r: Option<(nat, int, int, PdfOptions)>)
    ensures r.Some? <==>
      && IsDigitString(userId)
      && startDate.Some? && parseDate(startDate.value).Some?
      && endDate.Some? && parseDate(endDate.value).Some?
      && ParseOptionsField(options).Some?
    ensures r.Some? ==>
      && r.value.0 == DigitsValue(userId)
      && r.value.1 == parseDate(startDate.value).value && r.value.2 == parseDate(endDate.value).value
  {
    var o := ParseOptionsField(options);
    if && ParseId(userId).Some?
       && startDate.Some? && parseDate(startDate.value).Some?
       && endDate.Some? && parseDate(endDate.value).Some?
       && o.Some?
    then Some((ParseId(userId).value, parseDate(startDate.value).value, parseDate(endDate.value).value, o.value))
    else None
  }
}

=== FILE: project_schema.dfy ===
/**
 * The request schemas of the project endpoints: the create and update
 * bodies, the listing query and the `:id` parameter. A body field is `None`
 * when the JSON body lacks it; numbers are taken as integers.
 */
module ProjectSchema {
  import opened Common
  import opened Text
  import opened Entities
  import opened Validation
  import Projects
  import TaskSchema

  /** `[a-zA-Z0-9\s\-_]` */
  predicate IsNameChar(c: char)
  {
    IsAsciiLetter(c) || IsDigit(c) || IsWhitespace(c) || c == '-' || c == '_'
  }

  /** `.min(3).max(100).regex(/^[a-zA-Z0-9\s\-_]+$/)` */
  predicate ValidName(n: string)
  {
    3 <= |n| <= 100 && forall i :: 0 <= i < |n| ==> IsNameChar(n[i])
  }

  /** `.min(10).max(1000)` */
  predicate ValidDescription(d: string)
  {
    10 <= |d| <= 1000
  }

  /** `z.array(z.number().int().positive())` */
  predicate PositiveIds(ids: seq<int>)
  {
    forall i :: 0 <= i < |ids| ==> ids[i] > 0
  }

  datatype CreateProjectBody = CreateProjectBody(
    name: Option<string>,
    description: Option<string>,
    status: Option<string>,
    teamMembers: Option<seq<int>>)

  /**
   * `CreateProjectSchema.parse(body)`, as the body `createProject` reads:
   * the status is `active` when absent and the team is empty when absent.
   */
  function ParseCreateProject(b: CreateProjectBody): (r: Option<Projects.NewProject>)
    ensures r.Some? <==>
      && b.name.Some? && ValidName(b.name.value)
      && b.description.Some? && ValidDescription(b.description.value)
      && (b.status.None? || ParseProjectStatus(b.status.value).Some?)
      && (b.teamMembers.None? || PositiveIds(b.teamMembers.value))
    ensures r.Some? ==>
      && r.value.name == b.name.value && r.value.description == b.description.value
      && r.value.status.Some?
      && (b.status.None? ==> r.value.status.value == Active)
      && (b.status.Some? ==> ProjectStatusName(r.value.status.value) == b.status.value)
      && r.value.teamMembers == (if b.teamMembers.Some? then b.teamMembers.value else [])
      && PositiveIds(r.value.teamMembers)
  {
    if && b.name.Some? && ValidName(b.name.value)
       && b.description.Some? && ValidDescription(b.description.value)
       && (b.status.None? || ParseProjectStatus(b.status.value).Some?)
       && (b.teamMembers.None? || PositiveIds(b.teamMembers.value))
    then
      var status := if b.status.Some? then ParseProjectStatus(b.status.value).value else Active;
      Some(Projects.NewProject(b.name.value, b.description.value, Some(status),
        if b.teamMembers.Some? then b.teamMembers.value else []))
    else None
  }

  /**
   * Every name the project schema admits is also a valid task title: the
   * project name's characters are a subset of the task title's and its
   * length bound is smaller.
   */
  lemma ProjectNamesAreTaskTitles(n: string)
    ensures ValidName(n) ==> TaskSchema.ValidTitle(n)
    ensures TaskSchema.ValidTitle("Plan (draft)") && !ValidName("Plan (draft)")
  {
    assert "Plan (draft)"[5] == '(';
  }

  /**
   * A validated project, stored by `createProject`, is owned by its creator
   * and addresses a notification to every team member other than the
   * creator; every addressee is a positive id.
   */
  lemma ValidatedProjectNotifiesTeam(b: CreateProjectBody, caller: Caller, id: int, nowMs: int)
    requires ParseCreateProject(b).Some?
    ensures var body := ParseCreateProject(b).value;
      var p := Projects.NewRow(id, caller, body, nowMs);
      var sent := Projects.TeamRecipients(body.teamMembers, caller.id);
      && p.ownerId == caller.id
      && (b.status.None? ==> p.status == Active)
      && (forall u :: u in sent <==> u in body.teamMembers && u != caller.id)
      && (forall k :: 0 <= k < |sent| ==> sent[k] > 0)
  {
    var body := ParseCreateProject(b).value;
    var sent := Projects.TeamRecipients(body.teamMembers, caller.id);
    forall k | 0 <= k < |sent| ensures sent[k] > 0 {
      assert sent[k] in body.teamMembers;
    }
  }

  datatype UpdateProjectBody = UpdateProjectBody(
    name: Option<string>,
    description: Option<string>,
    status: Option<string>,
    teamMembers: Option<seq<int>>)

  /**
   * `UpdateProjectSchema.parse(body)`: each given field valid, and at least
   * one given. The update route does not apply this schema, so
   * `updateProject` receives the body as it is; a body that passed it would
   * never make the database refuse the update.
   */
  function ParseUpdateProject(b: UpdateProjectBody): (r: Option<Projects.ProjectEdit>)
    ensures r.Some? <==>
      && (b.name.None? || ValidName(b.name.value))
      && (b.description.None? || ValidDescription(b.description.value))
      && (b.status.None? || ParseProjectStatus(b.status.value).Some?)
      && (b.teamMembers.None? || PositiveIds(b.teamMembers.value))
      && (b.name.Some? || b.description.Some? || b.status.Some? || b.teamMembers.Some?)
    ensures r.Some? ==>
      && (r.value.name.Some? <==> b.name.Some?) && (b.name.Some? ==> r.value.name == Some(b.name))
      && (r.value.description.Some? <==> b.description.Some?)
      && (b.description.Some? ==> r.value.description == Some(b.description))
      && r.value.status == b.status
      && !Projects.Unwritable(r.value)
  {
    if && (b.name.None? || ValidName(b.name.value))
       && (b.description.None? || ValidDescription(b.description.value))
       && (b.status.None? || ParseProjectStatus(b.status.value).Some?)
       && (b.teamMembers.None? || PositiveIds(b.teamMembers.value))
       && (b.name.Some? || b.description.Some? || b.status.Some? || b.teamMembers.Some?)
    then
      Some(Projects.ProjectEdit(
        if b.name.Some? then Some(b.name) else None,
        if b.description.Some? then Some(b.description) else None,
        b.status))
    else None
  }

  datatype ProjectQueryInput = ProjectQueryInput(status: Option<string>, ownerId: Option<string>, page: Option<string>, limit: Option<string>)

  datatype ProjectQueryData = ProjectQueryData(status: Option<ProjectStatus>, ownerId: Option<nat>, page: nat, limit: nat)

  /**
   * `ProjectQuerySchema.parse(query)`: the fields are checked in order, and a
   * `page` or `limit` out of range throws and ends the parse at once.
   */
  function ParseProjectQuery(q: ProjectQueryInput): (r: Outcome<ProjectQueryData>)
    ensures r.Parsed? <==>
      && (q.status.None? || ParseProjectStatus(q.status.value).Some?)
      && (q.ownerId.None? || IsDigitString(q.ownerId.value))
      && ParsePage(q.page).Parsed? && ParseLimit(q.limit).Parsed?
    ensures r.Thrown? <==> ParsePage(q.page).Thrown? || ParseLimit(q.limit).Thrown?
    ensures ParsePage(q.page).Thrown? ==> r == Thrown(PageTooSmall)
    ensures r.Parsed? ==>
      && 1 <= r.value.page && 1 <= r.value.limit <= MaxLimit
      && (q.page.None? ==> r.value.page == DefaultPage)
      && (q.limit.None? ==> r.value.limit == DefaultLimit)
      && (q.page.Some? ==> r.value.page == DigitsValue(q.page.value))
      && (q.limit.Some? ==> r.value.limit == DigitsValue(q.limit.value))
      && (r.value.status.Some? <==> q.status.Some?)
      && (q.status.Some? ==> ProjectStatusName(r.value.status.value) == q.status.value)
      && (q.ownerId.None? ==> r.value.ownerId.None?)
      && (q.ownerId.Some? ==> r.value.ownerId == Some(DigitsValue(q.ownerId.value)))
  {
    var page := ParsePage(q.page);
    var limit := ParseLimit(q.limit);
    if page.Thrown? then Thrown(page.message)
    else if limit.Thrown? then Thrown(limit.message)
    else if && (q.status.None? || ParseProjectStatus(q.status.value).Some?)
            && (q.ownerId.None? || IsDigitString(q.ownerId.value))
            && page.Parsed? && limit.Parsed?
    then
      Parsed(ProjectQueryData(
        if q.status.Some? then ParseProjectStatus(q.status.value) else None,
        if q.ownerId.Some? then ParseId(q.ownerId.value) else None,
        page.value, limit.value))
    else Invalid
  }

  /** `ProjectParamsSchema.parse(params)` */
  function ParseProjectParams(id: string): (r: Outcome<nat>)
    ensures r.Parsed? <==> IsDigitString(id)
    ensures r.Parsed? && (|id| == 1 || id[0] != '0') ==> NatToString(r.value) == id
    ensures !r.Thrown?
  {
    if IsDigitString(id) then
      assert |id| == 1 || id[0] != '0' ==> NatToString(DigitsValue(id)) == id by {
        if |id| == 1 || id[0] != '0' {
          DigitsToStringRoundTrip(id);
        }
      }
      Parsed(DigitsValue(id))
    else Invalid
  }
}

=== FILE: projects.dfy ===
/**
 * The project handlers: listing with its visibility rule, creation with the
 * caller as owner and the team-member notifications, and the update and
 * delete permission rule.
 */
module Projects {
  import opened Common
  import opened Entities
  import Tables
  import Notifications

  const ProjectNotFound: string := "Project not found"
  const InsufficientPermissions: string := "Insufficient permissions"
  const ProjectDeleted: string := "Project deleted successfully"
  const ServerFailure: string := "Server error"

  /** A listed project with its tasks. */
  datatype ProjectView = ProjectView(project: Project, tasks: seq<Task>)

  function TasksOf(tasks: seq<Task>, projectId: int): (r: seq<Task>)
    ensures forall t :: t in r <==> t in tasks && t.projectId == projectId
  {
    Tables.Filter(tasks, (t: Task) => t.projectId == projectId)
  }

  /** `getAllProjects`: an administrator sees every project, anyone else the projects they own. */
  function ListProjects(projects: seq<Project>, tasks: seq<Task>, caller: Caller): (r: seq<ProjectView>)
    ensures |r| <= |projects|
    ensures forall v :: v in r ==> v.project in projects && (IsAdmin(caller) || v.project.ownerId == caller.id)
    ensures forall v :: v in r ==> v.tasks == TasksOf(tasks, v.project.id)
    ensures forall k :: 0 <= k < |projects| && (IsAdmin(caller) || projects[k].ownerId == caller.id) ==>
      ProjectView(projects[k], TasksOf(tasks, projects[k].id)) in r
  {
    if projects == [] then []
    else
      var rest := ListProjects(projects[1..], tasks, caller);
      assert forall k :: 1 <= k < |projects| ==> projects[k] == projects[1..][k - 1];
      if IsAdmin(caller) || projects[0].ownerId == caller.id then [ProjectView(projects[0], TasksOf(tasks, projects[0].id))] + rest
      else rest
  }

  /** An administrator's listing is the whole table, in table order. */
  lemma {:induction false} AdminListsEveryProject(projects: seq<Project>, tasks: seq<Task>, admin: Caller)
    requires IsAdmin(admin)
    ensures |ListProjects(projects, tasks, admin)| == |projects|
    ensures forall k :: 0 <= k < |projects| ==> ListProjects(projects, tasks, admin)[k].project == projects[k]
  {
    if projects != [] {
      AdminListsEveryProject(projects[1..], tasks, admin);
      var rest := ListProjects(projects[1..], tasks, admin);
      ViewsInOrder(ProjectView(projects[0], TasksOf(tasks, projects[0].id)), rest, projects);
    }
  }

  /** Views of the tail, in order, after a view of the head are views of the whole table, in order. */
  lemma ViewsInOrder(head: ProjectView, rest: seq<ProjectView>, projects: seq<Project>)
    requires |projects| == |rest| + 1 && head.project == projects[0]
    requires forall k :: 0 <= k < |rest| ==> rest[k].project == projects[1..][k]
    ensures forall k :: 0 <= k < |projects| ==> ([head] + rest)[k].project == projects[k]
  {
    forall k | 1 <= k < |projects| ensures ([head] + rest)[k].project == projects[k] {
      assert ([head] + rest)[k] == rest[k - 1] && projects[k] == projects[1..][k - 1];
    }
  }

  /** The validated body of a create request. */
  datatype NewProject = NewProject(name: string, description: string, status: Option<ProjectStatus>, teamMembers: seq<UserId>)

  predicate ProjectInvariant(rows: seq<Project>, nextId: int)
  {
    && UniqueIds(rows, (p: Project) => p.id)
    && forall k :: 0 <= k < |rows| ==> rows[k].id < nextId
  }

  /** The project `createProject` stores: owned by the caller, `active` unless a status is given. */
  function NewRow(id: int, caller: Caller, body: NewProject, nowMs: int): (p: Project)
    ensures p.id == id && p.ownerId == caller.id && p.name == body.name && p.description == body.description
    ensures p.status == (if body.status.Some? then body.status.value else Active)
  {
    Project(id, body.name, body.description, caller.id, if body.status.Some? then body.status.value else Active, nowMs)
  }

  /** The team members `createProject` notifies: every listed member except the creator, in list order, repeats kept. */
  function TeamRecipients(members: seq<UserId>, creator: UserId): (r: seq<UserId>)
    ensures |r| <= |members|
    ensures forall u :: u in r <==> u in members && u != creator
  {
    if members == [] then []
    else
      var last := members[|members| - 1];
      var front := members[..|members| - 1];
      assert members == front + [last];
      TeamRecipients(front, creator) + (if last != creator then [last] else [])
  }

  /** Each member other than the creator is notified as often as listed, the creator never. */
  lemma {:induction false} TeamRecipientsCount(members: seq<UserId>, creator: UserId, u: UserId)
    ensures u != creator ==> multiset(TeamRecipients(members, creator))[u] == multiset(members)[u]
    ensures multiset(TeamRecipients(members, creator))[creator] == 0
  {
    if members != [] {
      var front := members[..|members| - 1];
      assert members == front + [members[|members| - 1]];
      TeamRecipientsCount(front, creator, u);
    }
  }

  /** `updateProject`, `deleteProject`: only an administrator or the owner. */
  predicate MayChange(caller: Caller, p: Project)
  {
    IsAdmin(caller) || p.ownerId == caller.id
  }

  function FindProjectIndex(rows: seq<Project>, id: int): (r: Option<nat>)
    ensures r.Some? ==> r.value < |rows| && rows[r.value].id == id
    ensures r.None? ==> forall k :: 0 <= k < |rows| ==> rows[k].id != id
  {
    Tables.IndexWhere(rows, (p: Project) => p.id == id)
  }

  /**
   * The fields `updateProject` copies from the body, which no schema checks
   * on this route: `None` is a field left out, which keeps its value, and
   * `Some(None)` a `null`.
   */
  datatype ProjectEdit = ProjectEdit(name: Option<Option<string>>, description: Option<Option<string>>, status: Option<string>)

  /**
   * What the database refuses to write: a `null` name or description (both
   * columns are not null) or a status outside the column's enum. The
   * handler's `catch` answers 500.
   */
  predicate Unwritable(e: ProjectEdit)
  {
    e.name == Some(None) || e.description == Some(None) || (e.status.Some? && ParseProjectStatus(e.status.value).None?)
  }

  /** `project.update({ name, description, status })` with the values the columns accept. */
  function ApplyEdit(p: Project, e: ProjectEdit): (r: Project)
    ensures r.id == p.id && r.ownerId == p.ownerId && r.createdAt == p.createdAt
    ensures !Unwritable(e) ==>
      && r.name == (if e.name.Some? then e.name.value.value else p.name)
      && r.description == (if e.description.Some? then e.description.value.value else p.description)
      && (e.status.Some? ==> ProjectStatusName(r.status) == e.status.value)
      && (e.status.None? ==> r.status == p.status)
  {
    p.(name := if e.name.Some? && e.name.value.Some? then e.name.value.value else p.name,
       description := if e.description.Some? && e.description.value.Some? then e.description.value.value else p.description,
       status := if e.status.Some? && ParseProjectStatus(e.status.value).Some? then ParseProjectStatus(e.status.value).value
                 else p.status)
  }

  /** `updateProject` */
  function UpdateSpec(rows: seq<Project>, caller: Caller, id: int, e: ProjectEdit): (seq<Project>, Result<Project>)
  {
    var k := FindProjectIndex(rows, id);
    if k.None? then (rows, Err(NotFound(ProjectNotFound)))
    else if !MayChange(caller, rows[k.value]) then (rows, Err(Forbidden(InsufficientPermissions)))
    else if Unwritable(e) then (rows, Err(ServerError(ServerFailure)))
    else
      var p := ApplyEdit(rows[k.value], e);
      (rows[k.value := p], Ok(p))
  }

  /** `deleteProject` */
  function DeleteSpec(rows: seq<Project>, caller: Caller, id: int): (seq<Project>, Result<string>)
  {
    var k := FindProjectIndex(rows, id);
    if k.None? then (rows, Err(NotFound(ProjectNotFound)))
    else if !MayChange(caller, rows[k.value]) then (rows, Err(Forbidden(InsufficientPermissions)))
    else (rows[..k.value] + rows[k.value + 1..], Ok(ProjectDeleted))
  }

  /**
   * An update answers 404 for an unknown project, 403 unless the caller is
   * an administrator or the owner, and 500 for a value the database refuses;
   * it never changes an owner or an id, so it cannot hand the project to
   * someone else.
   */
  lemma UpdateNeedsOwnerOrAdmin(rows: seq<Project>, nextId: int, caller: Caller, id: int, e: ProjectEdit)
    requires ProjectInvariant(rows, nextId)
    ensures var (after, r) := UpdateSpec(rows, caller, id, e);
      && (r.Ok? <==> (exists k :: 0 <= k < |rows| && rows[k].id == id && MayChange(caller, rows[k])) && !Unwritable(e))
      && ((exists k :: 0 <= k < |rows| && rows[k].id == id && MayChange(caller, rows[k])) && Unwritable(e) ==>
            r == Err(ServerError(ServerFailure)))
      && (forall k :: 0 <= k < |rows| && rows[k].id == id && r.Ok? ==> after[k] == ApplyEdit(rows[k], e) && r.value == after[k])
      && (forall k :: 0 <= k < |rows| && rows[k].id != id ==> after[k] == rows[k])
      && (r.Err? ==> after == rows)
      && |after| == |rows|
      && (forall k :: 0 <= k < |rows| ==> after[k].ownerId == rows[k].ownerId && after[k].id == rows[k].id)
      && ProjectInvariant(after, nextId)
  {
    var (after, r) := UpdateSpec(rows, caller, id, e);
    var found := FindProjectIndex(rows, id);
    if found.Some? {
      OnlyRowWithId(rows, nextId, found.value);
    }
    forall i, j | 0 <= i < j < |after| ensures after[i].id != after[j].id {
      assert after[i].id == rows[i].id && after[j].id == rows[j].id;
    }
  }

  /**
   * A delete answers 404 for an unknown project and 403 unless the caller is
   * an administrator or the owner; otherwise it removes exactly that project.
   */
  lemma DeleteNeedsOwnerOrAdmin(rows: seq<Project>, nextId: int, caller: Caller, id: int)
    requires ProjectInvariant(rows, nextId)
    ensures var (after, r) := DeleteSpec(rows, caller, id);
      && (r.Ok? <==> exists k :: 0 <= k < |rows| && rows[k].id == id && MayChange(caller, rows[k]))
      && (r.Err? ==> after == rows)
      && (r.Ok? ==> exists k :: 0 <= k < |rows| && rows[k].id == id && after == rows[..k] + rows[k + 1..])
  {
    var found := FindProjectIndex(rows, id);
    if found.Some? {
      OnlyRowWithId(rows, nextId, found.value);
    }
  }

  /** With unique ids, the row at `i` is the only one with its id. */
  lemma OnlyRowWithId(rows: seq<Project>, nextId: int, i: nat)
    requires ProjectInvariant(rows, nextId) && i < |rows|
    ensures forall k :: 0 <= k < |rows| && rows[k].id == rows[i].id ==> k == i
  {
    forall k | 0 <= k < |rows| && rows[k].id == rows[i].id ensures k == i {
    }
  }

  /** Appending a row with the next id keeps ids unique, and the row can then be found by its id. */
  lemma AppendKeepsInvariant(rows: seq<Project>, nextId: int, p: Project)
    requires ProjectInvariant(rows, nextId) && p.id == nextId
    ensures ProjectInvariant(rows + [p], nextId + 1)
    ensures FindProject(rows + [p], p.id).Some?
  {
    var after := rows + [p];
    assert after[|rows|] == p;
    assert forall k :: 0 <= k < |rows| ==> after[k] == rows[k];
  }

  /** Each sent notification is an unread `project_assigned` about the project, to the matching recipient. */
  ghost predicate NotifiedInOrder(sent: seq<Notifications.Notification>, recipients: seq<UserId>, projectId: int)
  {
    && |sent| == |recipients|
    && forall j :: 0 <= j < |sent| ==>
         && sent[j].userId == recipients[j] && sent[j].notificationType == Notifications.ProjectAssigned
         && !sent[j].isRead && sent[j].relatedId == Some(projectId)
  }

  /** One more matching notification for one more recipient keeps the order. */
  lemma NotifiedOneMore(sent: seq<Notifications.Notification>, recipients: seq<UserId>, projectId: int, n: Notifications.Notification)
    requires NotifiedInOrder(sent, recipients, projectId)
    requires n.notificationType == Notifications.ProjectAssigned && !n.isRead && n.relatedId == Some(projectId)
    ensures NotifiedInOrder(sent + [n], recipients + [n.userId], projectId)
  {
    var s, r := sent + [n], recipients + [n.userId];
    forall j | 0 <= j < |s| ensures s[j].userId == r[j] {
      if j < |sent| {
        assert s[j] == sent[j] && r[j] == recipients[j];
      }
    }
  }

  /** The recipients of one more team member: the earlier ones, then that member unless it is the creator. */
  lemma RecipientsStep(members: seq<UserId>, i: nat, creator: UserId)
    requires i < |members|
    ensures TeamRecipients(members[..i + 1], creator)
         == TeamRecipients(members[..i], creator) + (if members[i] != creator then [members[i]] else [])
  {
    assert members[..i + 1][..i] == members[..i];
  }

  /**
   * The loop at the end of `createProject`: each listed team member other
   * than the creator, in list order, is sent one `project_assigned`
   * notification about the project, which is stored when the member is a
   * user.
   */
  method NotifyTeam(notifications: Notifications.NotificationTable, users: seq<User>, projects: seq<Project>, projectId: int,
                    members: seq<UserId>, creator: UserId, nowMs: int)
    requires notifications.Valid() && FindProject(projects, projectId).Some?
    modifies notifications
    ensures notifications.Valid()
    ensures |old(notifications.rows)| <= |notifications.rows|
    ensures notifications.rows[..|old(notifications.rows)|] == old(notifications.rows)
    ensures NotifiedInOrder(notifications.rows[|old(notifications.rows)|..],
                            Notifications.KnownUsers(users, TeamRecipients(members, creator)), projectId)
  {
    ghost var earlier := notifications.rows;
    ghost var sent: seq<Notifications.Notification> := [];
    for i := 0 to |members|
      invariant notifications.Valid() && notifications.rows == earlier + sent
      invariant NotifiedInOrder(sent, Notifications.KnownUsers(users, TeamRecipients(members[..i], creator)), projectId)
    {
      var n;
      n, sent := NotifyMember(notifications, users, projects, projectId, members, i, creator, nowMs, earlier, sent);
    }
    assert members[..|members|] == members;
    assert notifications.rows[|earlier|..] == sent;
  }

  /** One turn of that loop: `notifyProjectAssigned` for the member at `i` unless it is the creator. */
  method NotifyMember(notifications: Notifications.NotificationTable, users: seq<User>, projects: seq<Project>, projectId: int,
                      members: seq<UserId>, i: nat, creator: UserId, nowMs: int,
                      ghost earlier: seq<Notifications.Notification>, ghost sent: seq<Notifications.Notification>)
    returns (n: Option<Notifications.Notification>, ghost sent': seq<Notifications.Notification>)
    requires notifications.Valid() && notifications.rows == earlier + sent
    requires i < |members| && FindProject(projects, projectId).Some?
    requires NotifiedInOrder(sent, Notifications.KnownUsers(users, TeamRecipients(members[..i], creator)), projectId)
    modifies notifications
    ensures notifications.Valid() && notifications.rows == earlier + sent'
    ensures NotifiedInOrder(sent', Notifications.KnownUsers(users, TeamRecipients(members[..i + 1], creator)), projectId)
  {
    RecipientsStep(members, i, creator);
    var before := TeamRecipients(members[..i], creator);
    ghost var known := Notifications.KnownUsers(users, before);
    n, sent' := None, sent;
    if members[i] == creator {
      assert TeamRecipients(members[..i + 1], creator) == before + [] == before;
    } else {
      Notifications.KnownUsersStep(users, before, members[i]);
      n := notifications.NotifyProjectAssigned(users, projects, projectId, members[i], nowMs);
      if n.Some? {
        assert Notifications.KnownUsers(users, TeamRecipients(members[..i + 1], creator)) == known + [n.value.userId];
        NotifiedOneMore(sent, known, projectId, n.value);
        sent' := sent + [n.value];
      } else {
        assert Notifications.KnownUsers(users, TeamRecipients(members[..i + 1], creator)) == known + [] == known;
      }
    }
  }

  /** The `Projects` table. */
  class ProjectTable {
    var rows: seq<Project>
    var nextId: int

    predicate Valid()
      reads this
    {
      ProjectInvariant(rows, nextId)
    }

    constructor ()
      ensures Valid() && rows == [] && nextId == 1
    {
      rows := [];
      nextId := 1;
    }

    /**
     * `createProject`: the project is appended with the caller as owner, then
     * each team member other than the creator that is a user receives one
     * unread `project_assigned` notification, in list order.
     */
    method Create(caller: Caller, body: NewProject, nowMs: int, users: seq<User>, notifications: Notifications.NotificationTable)
      returns (p: Project)
      requires Valid() && notifications.Valid()
      modifies this, notifications
      ensures Valid() && notifications.Valid()
      ensures p == NewRow(old(nextId), caller, body, nowMs)
      ensures rows == old(rows) + [p] && nextId == old(nextId) + 1
      ensures |old(notifications.rows)| <= |notifications.rows|
      ensures notifications.rows[..|old(notifications.rows)|] == old(notifications.rows)
      ensures NotifiedInOrder(notifications.rows[|old(notifications.rows)|..],
                              Notifications.KnownUsers(users, TeamRecipients(body.teamMembers, caller.id)), p.id)
    {
      var before, next := rows, nextId;
      p := NewRow(next, caller, body, nowMs);
      var after := before + [p];
      AppendKeepsInvariant(before, next, p);
      rows, nextId := after, next + 1;
      NotifyTeam(notifications, users, after, p.id, body.teamMembers, caller.id, nowMs);
    }

    /** `updateProject` */
    method Update(caller: Caller, id: int, e: ProjectEdit) returns (r: Result<Project>)
      requires Valid()
      modifies this
      ensures Valid() && nextId == old(nextId)
      ensures (rows, r) == UpdateSpec(old(rows), caller, id, e)
    {
      UpdateNeedsOwnerOrAdmin(rows, nextId, caller, id, e);
      var k := FindProjectIndex(rows, id);
      if k.None? {
        return Err(NotFound(ProjectNotFound));
      }
      if !MayChange(caller, rows[k.value]) {
        return Err(Forbidden(InsufficientPermissions));
      }
      if Unwritable(e) {
        return Err(ServerError(ServerFailure));
      }
      var p := ApplyEdit(rows[k.value], e);
      rows := rows[k.value := p];
      r := Ok(p);
    }

    /** `deleteProject` */
    method Delete(caller: Caller, id: int) returns (r: Result<string>)
      requires Valid()
      modifies this
      ensures Valid() && nextId == old(nextId)
      ensures (rows, r) == DeleteSpec(old(rows), caller, id)
    {
      var k := FindProjectIndex(rows, id);
      if k.None? {
        return Err(NotFound(ProjectNotFound));
      }
      if !MayChange(caller, rows[k.value]) {
        return Err(Forbidden(InsufficientPermissions));
      }
      ghost var before := rows;
      rows := rows[..k.value] + rows[k.value + 1..];
      assert forall j :: 0 <= j < |rows| ==> rows[j] == before[if j < k.value then j else j + 1];
      r := Ok(ProjectDeleted);
    }
  }
}

=== FILE: refresh_ledger.dfy ===
/**
 * The refresh-token ledger: the `refresh_tokens` table and the operations on
 * it. Each issued refresh token has one row; rows are never deleted, only
 * revoked, and a revoked row never becomes active again.
 *
 * Every bulk `UPDATE ... SET isRevoked = true WHERE isRevoked = false AND ...`
 * of the source is `RevokeWhere` with a selector, and its affected-row count
 * is `CountWhere`. The class `Ledger` holds the table and its methods are
 * proved against the pure specification functions `StoreSpec`,
 * `ValidateSpec`, `RevokeSpec` and `CleanupSpec`, about which the lemmas
 * below state the properties the session flows rely on.
 */
module RefreshLedger {
  import opened Common
  import opened Tokens
  import Tables

  /** A row of `refresh_tokens`; `expiresAt` is a millisecond timestamp. */
  datatype RefreshToken = RefreshToken(id: int, token: Token, userId: UserId, expiresAt: int, isRevoked: bool)

  /** `isExpired()`: the current time is strictly after `expiresAt`. */
  predicate IsExpired(row: RefreshToken, nowMs: int)
  {
    nowMs > row.expiresAt
  }

  /** `isValid()`: neither revoked nor expired. */
  predicate IsValid(row: RefreshToken, nowMs: int)
  {
    !row.isRevoked && !IsExpired(row, nowMs)
  }

  /**
   * The expiry boundary is strict: a row is still unexpired at the very
   * millisecond of `expiresAt` and expired from the next one on, and it stays
   * expired; a row is valid exactly while it is active and that instant has
   * not passed.
   */
  lemma ExpiryIsStrict(row: RefreshToken, t: int, later: int)
    requires t <= later
    ensures !IsExpired(row, row.expiresAt) && IsExpired(row, row.expiresAt + 1)
    ensures IsExpired(row, t) ==> IsExpired(row, later)
    ensures IsValid(row, t) <==> !row.isRevoked && t <= row.expiresAt
  {
  }

  /** The unique index `refresh_token_unique` on `token`. */
  predicate TokensUnique(rows: seq<RefreshToken>)
  {
    forall i, j :: 0 <= i < j < |rows| ==> rows[i].token != rows[j].token
  }

  /** Rows are never deleted, so the auto-increment id of a row is its position plus one. */
  predicate IdsSequential(rows: seq<RefreshToken>)
  {
    forall i :: 0 <= i < |rows| ==> rows[i].id == i + 1
  }

  predicate WellFormed(rows: seq<RefreshToken>)
  {
    TokensUnique(rows) && IdsSequential(rows)
  }

  /** `where: { token }` */
  function ByToken(token: Token): RefreshToken -> bool
  {
    (row: RefreshToken) => row.token == token
  }

  /** `where: { userId }` */
  function ByUser(userId: UserId): RefreshToken -> bool
  {
    (row: RefreshToken) => row.userId == userId
  }

  /** `where: { expiresAt: { [Op.lt]: now } }` */
  function ExpiredBefore(nowMs: int): RefreshToken -> bool
  {
    (row: RefreshToken) => row.expiresAt < nowMs
  }

  /** `UPDATE ... SET isRevoked = true WHERE isRevoked = false AND sel`. */
  function RevokeWhere(rows: seq<RefreshToken>, sel: RefreshToken -> bool): (r: seq<RefreshToken>)
    ensures |r| == |rows|
    ensures forall i :: 0 <= i < |rows| ==> r[i].(isRevoked := rows[i].isRevoked) == rows[i]
    ensures forall i :: 0 <= i < |rows| ==> (r[i].isRevoked <==> rows[i].isRevoked || sel(rows[i]))
  {
    if rows == [] then []
    else
      var head := if !rows[0].isRevoked && sel(rows[0]) then rows[0].(isRevoked := true) else rows[0];
      [head] + RevokeWhere(rows[1..], sel)
  }

  /** `where: { isRevoked: false }` together with `sel`. */
  function ActiveAnd(sel: RefreshToken -> bool): RefreshToken -> bool
  {
    (row: RefreshToken) => !row.isRevoked && sel(row)
  }

  /** `where: { isRevoked: true }` */
  function Revoked(): RefreshToken -> bool
  {
    (row: RefreshToken) => row.isRevoked
  }

  /** The affected-row count of that update: the active rows `sel` picks. */
  function CountWhere(rows: seq<RefreshToken>, sel: RefreshToken -> bool): (n: nat)
    ensures n <= |rows|
    ensures n == Tables.Count(rows, ActiveAnd(sel))
    ensures n == 0 <==> forall i :: 0 <= i < |rows| ==> rows[i].isRevoked || !sel(rows[i])
  {
    if rows == [] then 0
    else (if !rows[0].isRevoked && sel(rows[0]) then 1 else 0) + CountWhere(rows[1..], sel)
  }

  /**
   * The affected-row count is exactly how many more rows are revoked after
   * the update than before it.
   */
  lemma {:induction false} CountWhereCountsNewlyRevoked(rows: seq<RefreshToken>, sel: RefreshToken -> bool)
    ensures Tables.Count(RevokeWhere(rows, sel), Revoked()) == Tables.Count(rows, Revoked()) + CountWhere(rows, sel)
  {
    if rows != [] {
      CountWhereCountsNewlyRevoked(rows[1..], sel);
      var after := RevokeWhere(rows, sel);
      assert after[1..] == RevokeWhere(rows[1..], sel);
    }
  }

  /** `findOne({ where: { token, isRevoked: false } })`: the position of the first active row for `token`. */
  function FindActive(rows: seq<RefreshToken>, token: Token): (r: Option<nat>)
    ensures r.Some? ==> r.value < |rows| && rows[r.value].token == token && !rows[r.value].isRevoked
    ensures r.None? ==> forall i :: 0 <= i < |rows| ==> rows[i].token != token || rows[i].isRevoked
  {
    if rows == [] then None
    else if rows[0].token == token && !rows[0].isRevoked then Some(0)
    else
      var rest := FindActive(rows[1..], token);
      if rest.Some? then Some(rest.value + 1) else None
  }

  /** Whether any row, revoked or not, already holds `token`. */
  predicate HasToken(rows: seq<RefreshToken>, token: Token)
  {
    exists i :: 0 <= i < |rows| && rows[i].token == token
  }

  /** The rows of `userId` that are not revoked. */
  function ActiveOf(rows: seq<RefreshToken>, userId: UserId): set<nat>
  {
    set i | 0 <= i < |rows| && rows[i].userId == userId && !rows[i].isRevoked
  }

  /**
   * Revocation only ever goes forward: rows are kept in place, nothing but
   * `isRevoked` changes, and a revoked row stays revoked.
   */
  predicate Evolves(before: seq<RefreshToken>, after: seq<RefreshToken>)
  {
    && |before| <= |after|
    && (forall i :: 0 <= i < |before| ==> after[i].(isRevoked := before[i].isRevoked) == before[i])
    && (forall i :: 0 <= i < |before| ==> before[i].isRevoked ==> after[i].isRevoked)
  }

  lemma EvolvesTransitive(a: seq<RefreshToken>, b: seq<RefreshToken>, c: seq<RefreshToken>)
    requires Evolves(a, b) && Evolves(b, c)
    ensures Evolves(a, c)
  {
    forall i | 0 <= i < |a| ensures c[i].(isRevoked := a[i].isRevoked) == a[i] {
      assert c[i].(isRevoked := b[i].isRevoked) == b[i];
    }
  }

  datatype StoreOutcome = Stored | DuplicateToken

  /**
   * `storeRefreshToken`: revoke every active row of the user, then insert the
   * new row. The insert violates the unique index when any row already holds
   * the token; the revocation has been committed by then.
   */
  function StoreSpec(rows: seq<RefreshToken>, token: Token, userId: UserId, expiresAt: int): (seq<RefreshToken>, StoreOutcome)
  {
    var revoked := RevokeWhere(rows, ByUser(userId));
    if HasToken(revoked, token) then (revoked, DuplicateToken)
    else (revoked + [RefreshToken(|rows| + 1, token, userId, expiresAt, false)], Stored)
  }

  /** After a successful store the new row is the user's only active row; other users' rows are untouched. */
  lemma StoreLeavesOneActive(rows: seq<RefreshToken>, token: Token, userId: UserId, expiresAt: int)
    requires StoreSpec(rows, token, userId, expiresAt).1 == Stored
    ensures var after := StoreSpec(rows, token, userId, expiresAt).0;
      ActiveOf(after, userId) == {|rows|}
      && after[|rows|] == RefreshToken(|rows| + 1, token, userId, expiresAt, false)
      && (forall i :: 0 <= i < |rows| && rows[i].userId != userId ==> after[i] == rows[i])
  {
    var after := StoreSpec(rows, token, userId, expiresAt).0;
    var revoked := RevokeWhere(rows, ByUser(userId));
    assert after == revoked + [RefreshToken(|rows| + 1, token, userId, expiresAt, false)];
    forall i | 0 <= i < |rows| && rows[i].userId != userId ensures after[i] == rows[i] {
      assert after[i] == revoked[i];
    }
    forall i | 0 <= i < |rows| ensures i !in ActiveOf(after, userId) {
      assert after[i] == revoked[i];
    }
  }

  /** A failed store still revoked the user's rows: the user is left with no active row. */
  lemma FailedStoreLeavesNoneActive(rows: seq<RefreshToken>, token: Token, userId: UserId, expiresAt: int)
    requires StoreSpec(rows, token, userId, expiresAt).1 == DuplicateToken
    ensures ActiveOf(StoreSpec(rows, token, userId, expiresAt).0, userId) == {}
  {
    var after := StoreSpec(rows, token, userId, expiresAt).0;
    forall i | 0 <= i < |after| && after[i].userId == userId ensures after[i].isRevoked {
      assert ByUser(userId)(rows[i]);
    }
  }

  /** A token no row has ever held is always stored. */
  lemma FreshTokenIsStored(rows: seq<RefreshToken>, token: Token, userId: UserId, expiresAt: int)
    requires !HasToken(rows, token)
    ensures StoreSpec(rows, token, userId, expiresAt).1 == Stored
  {
    var revoked := RevokeWhere(rows, ByUser(userId));
    forall i | 0 <= i < |revoked| ensures revoked[i].token != token {
      assert revoked[i].token == rows[i].token;
    }
  }

  datatype Validation = Validation(valid: bool, userId: Option<UserId>)

  /**
   * `validateRefreshTokenFromDB`: look up the active row for the token; an
   * expired one is revoked on the spot and reported invalid.
   */
  function ValidateSpec(rows: seq<RefreshToken>, token: Token, nowMs: int): (seq<RefreshToken>, Validation)
  {
    match FindActive(rows, token)
    case None => (rows, Validation(false, None))
    case Some(i) =>
      if IsExpired(rows[i], nowMs) then (rows[i := rows[i].(isRevoked := true)], Validation(false, None))
      else (rows, Validation(true, Some(rows[i].userId)))
  }

  /**
   * Validation accepts exactly the tokens whose row is valid now, and names
   * that row's user; it changes nothing except revoking the token's active
   * row when that row has expired.
   */
  lemma ValidateAcceptsExactlyValidRows(rows: seq<RefreshToken>, token: Token, nowMs: int)
    requires WellFormed(rows)
    ensures var (after, v) := ValidateSpec(rows, token, nowMs);
      (v.valid <==> exists i :: 0 <= i < |rows| && rows[i].token == token && IsValid(rows[i], nowMs))
      && (v.valid ==> after == rows && v.userId.Some?
                      && exists i :: 0 <= i < |rows| && rows[i].token == token && rows[i].userId == v.userId.value)
      && (!v.valid ==> v.userId.None?)
      && ((forall i :: 0 <= i < |rows| && rows[i].token == token ==> rows[i].isRevoked) ==> after == rows)
      && (forall i :: 0 <= i < |rows| && rows[i].token == token && !rows[i].isRevoked && IsExpired(rows[i], nowMs)
            ==> after == rows[i := rows[i].(isRevoked := true)])
  {
    var (after, v) := ValidateSpec(rows, token, nowMs);
    var found := FindActive(rows, token);
    if found.Some? {
      var k := found.value;
      forall i | 0 <= i < |rows| && rows[i].token == token && IsValid(rows[i], nowMs) ensures i == k {
      }
      forall i | 0 <= i < |rows| && rows[i].token == token && !rows[i].isRevoked ensures i == k {
      }
    }
  }

  /** `revokeRefreshToken`: revoke the token's active row and report whether there was one. */
  function RevokeSpec(rows: seq<RefreshToken>, token: Token): (seq<RefreshToken>, bool)
  {
    (RevokeWhere(rows, ByToken(token)), CountWhere(rows, ByToken(token)) > 0)
  }

  /** Revoking is idempotent: a second revocation of the same token changes nothing and reports false. */
  lemma RevokeIdempotent(rows: seq<RefreshToken>, token: Token)
    ensures var (once, _) := RevokeSpec(rows, token);
      RevokeSpec(once, token) == (once, false)
  {
    var once := RevokeSpec(rows, token).0;
    var twice := RevokeWhere(once, ByToken(token));
    assert forall i :: 0 <= i < |once| ==> once[i].isRevoked || !ByToken(token)(once[i]);
    assert forall i :: 0 <= i < |once| ==> twice[i] == once[i];
    assert twice == once;
  }

  /** After revoking a token, no active row holds it. */
  lemma RevokedTokenHasNoActiveRow(rows: seq<RefreshToken>, token: Token)
    ensures FindActive(RevokeSpec(rows, token).0, token) == None
  {
    var once := RevokeSpec(rows, token).0;
    assert forall i :: 0 <= i < |once| ==> once[i].isRevoked || !ByToken(token)(rows[i]);
  }

  /** `cleanupExpiredTokens`: revoke every active row whose expiry is before now; report how many. */
  function CleanupSpec(rows: seq<RefreshToken>, nowMs: int): (seq<RefreshToken>, nat)
  {
    (RevokeWhere(rows, ExpiredBefore(nowMs)), CountWhere(rows, ExpiredBefore(nowMs)))
  }

  /** The sweep uses the same boundary as `isExpired`: afterwards no active row is expired, and no unexpired row was touched. */
  lemma CleanupRevokesExactlyExpired(rows: seq<RefreshToken>, nowMs: int)
    ensures var (after, n) := CleanupSpec(rows, nowMs);
      (forall i :: 0 <= i < |after| ==> !after[i].isRevoked ==> !IsExpired(after[i], nowMs))
      && (forall i :: 0 <= i < |rows| && !IsExpired(rows[i], nowMs) ==> after[i] == rows[i])
      && (n == 0 <==> forall i :: 0 <= i < |rows| ==> rows[i].isRevoked || !IsExpired(rows[i], nowMs))
  {
    var after := CleanupSpec(rows, nowMs).0;
    forall i | 0 <= i < |after| && !after[i].isRevoked ensures !IsExpired(after[i], nowMs) {
      assert !ExpiredBefore(nowMs)(rows[i]);
    }
    forall i | 0 <= i < |rows| && !IsExpired(rows[i], nowMs) ensures after[i] == rows[i] {
      assert !ExpiredBefore(nowMs)(rows[i]);
    }
  }

  /**
   * The sweep reports how many rows it revoked: the active rows that had
   * expired, which is also how many more rows are revoked afterwards.
   */
  lemma CleanupCountsExpired(rows: seq<RefreshToken>, nowMs: int)
    ensures var (after, n) := CleanupSpec(rows, nowMs);
      && n == Tables.Count(rows, (row: RefreshToken) => !row.isRevoked && IsExpired(row, nowMs))
      && Tables.Count(after, Revoked()) == Tables.Count(rows, Revoked()) + n
  {
    var expired := (row: RefreshToken) => !row.isRevoked && IsExpired(row, nowMs);
    Tables.CountMonotone(rows, expired, ActiveAnd(ExpiredBefore(nowMs)));
    Tables.CountMonotone(rows, ActiveAnd(ExpiredBefore(nowMs)), expired);
    CountWhereCountsNewlyRevoked(rows, ExpiredBefore(nowMs));
  }

  /** Every ledger operation only moves revocation forward. */
  lemma OperationsEvolve(rows: seq<RefreshToken>, token: Token, userId: UserId, expiresAt: int, nowMs: int)
    ensures Evolves(rows, StoreSpec(rows, token, userId, expiresAt).0)
    ensures Evolves(rows, ValidateSpec(rows, token, nowMs).0)
    ensures Evolves(rows, RevokeSpec(rows, token).0)
    ensures Evolves(rows, RevokeWhere(rows, ByUser(userId)))
    ensures Evolves(rows, CleanupSpec(rows, nowMs).0)
  {
    var revoked := RevokeWhere(rows, ByUser(userId));
    RevokeWhereEvolves(rows, ByUser(userId));
    if !HasToken(revoked, token) {
      AppendEvolves(rows, revoked, RefreshToken(|rows| + 1, token, userId, expiresAt, false));
    }
    match FindActive(rows, token)
    case None =>
    case Some(i) =>
      var after := rows[i := rows[i].(isRevoked := true)];
      assert forall j :: 0 <= j < |rows| ==> after[j].(isRevoked := rows[j].isRevoked) == rows[j];
    RevokeWhereEvolves(rows, ByToken(token));
    RevokeWhereEvolves(rows, ExpiredBefore(nowMs));
  }

  /** A revoking update only moves revocation forward. */
  lemma RevokeWhereEvolves(rows: seq<RefreshToken>, sel: RefreshToken -> bool)
    ensures Evolves(rows, RevokeWhere(rows, sel))
  {
  }

  /** Appending a row to a table that evolved from `rows` still evolves from `rows`. */
  lemma AppendEvolves(rows: seq<RefreshToken>, mid: seq<RefreshToken>, row: RefreshToken)
    requires Evolves(rows, mid)
    ensures Evolves(rows, mid + [row])
  {
    assert forall i :: 0 <= i < |mid| ==> (mid + [row])[i] == mid[i];
  }

  /** The table the source updates in place. */
  class Ledger {
    var rows: seq<RefreshToken>

    ghost predicate Valid()
      reads this
    {
      WellFormed(rows)
    }

    constructor ()
      ensures Valid() && rows == []
    {
      rows := [];
    }

    /** `storeRefreshToken(token, userId, expiresAt)` */
    method Store(token: Token, userId: UserId, expiresAt: int) returns (outcome: StoreOutcome)
      requires Valid()
      modifies this
      ensures Valid()
      ensures (rows, outcome) == StoreSpec(old(rows), token, userId, expiresAt)
    {
      var n := |rows|;
      rows := RevokeWhere(rows, ByUser(userId));
      if HasToken(rows, token) {
        outcome := DuplicateToken;
      } else {
        rows := rows + [RefreshToken(n + 1, token, userId, expiresAt, false)];
        outcome := Stored;
      }
    }

    /** `validateRefreshTokenFromDB(token)` */
    method ValidateFromDb(token: Token, nowMs: int) returns (v: Validation)
      requires Valid()
      modifies this
      ensures Valid()
      ensures (rows, v) == ValidateSpec(old(rows), token, nowMs)
    {
      var found := FindActive(rows, token);
      if found.None? {
        return Validation(false, None);
      }
      var i := found.value;
      if IsExpired(rows[i], nowMs) {
        rows := rows[i := rows[i].(isRevoked := true)];
        return Validation(false, None);
      }
      v := Validation(true, Some(rows[i].userId));
    }

    /** `revokeRefreshToken(token)` */
    method Revoke(token: Token) returns (revoked: bool)
      requires Valid()
      modifies this
      ensures Valid()
      ensures (rows, revoked) == RevokeSpec(old(rows), token)
    {
      var affected := CountWhere(rows, ByToken(token));
      rows := RevokeWhere(rows, ByToken(token));
      revoked := affected > 0;
    }

    /** `revokeAllUserRefreshTokens(userId)` */
    method RevokeAllForUser(userId: UserId)
      requires Valid()
      modifies this
      ensures Valid()
      ensures rows == RevokeWhere(old(rows), ByUser(userId))
      ensures ActiveOf(rows, userId) == {}
    {
      rows := RevokeWhere(rows, ByUser(userId));
      assert forall i :: 0 <= i < |rows| && rows[i].userId == userId ==> ByUser(userId)(old(rows)[i]);
    }

    /** `cleanupExpiredTokens()` */
    method CleanupExpired(nowMs: int) returns (affected: nat)
      requires Valid()
      modifies this
      ensures Valid()
      ensures (rows, affected) == CleanupSpec(old(rows), nowMs)
    {
      affected := CountWhere(rows, ExpiredBefore(nowMs));
      rows := RevokeWhere(rows, ExpiredBefore(nowMs));
    }
  }
}

=== FILE: reporting.dfy ===
/**
 * The statistics endpoints of the reporting controller: counts by status
 * and priority, completion rates, workload, utilisation, productivity, the
 * time-tracking summary and the custom report. Each endpoint reads whole
 * tables; a user's tasks are the tasks assigned to them and a project's
 * tasks are the tasks that name it. Rates and averages are real numbers;
 * hours and counts are integers.
 */
module Reporting {
  import opened Common
  import opened Entities
  import Tables
  import PdfReports

  /** `completed / total * 100`, or 0 when there is nothing to complete. */
  function Percentage(part: int, total: int): (r: real)
    ensures total <= 0 ==> r == 0.0
    ensures total > 0 ==> r * (total as real) == (part as real) * 100.0
    ensures total > 0 && 0 <= part <= total ==> 0.0 <= r <= 100.0
    ensures total > 0 ==> (r == 100.0 <==> part == total)
  {
    if total > 0 then
      RatioFacts(part, total);
      (part as real / total as real) * 100.0
    else 0.0
  }

  /** The ratio of two integers times the positive denominator gives the numerator back. */
  lemma RatioFacts(part: int, total: int)
    requires total > 0
    ensures (part as real / total as real) * (total as real) == part as real
    ensures part as real / total as real == 1.0 <==> part == total
    ensures 0 <= part <= total ==> 0.0 <= part as real / total as real <= 1.0
  {
    var q := part as real / total as real;
    assert q * (total as real) == part as real;
    if q == 1.0 {
      assert part as real == total as real;
    }
    if 0 <= part <= total {
      assert q * (total as real) <= 1.0 * (total as real);
    }
  }

  // ---------------------------------------------------------------------------
  // Project and task statistics
  // ---------------------------------------------------------------------------

  predicate IsActiveProject(p: Project) { p.status == Active }
  predicate IsCompletedProject(p: Project) { p.status == Completed }
  predicate IsCancelledProject(p: Project) { p.status == Cancelled }
  predicate IsClosedProject(p: Project) { p.status != Active }
  predicate AnyProject(p: Project) { true }

  datatype ProjectOverview = ProjectOverview(total: nat, active: nat, completed: nat, cancelled: nat, completionRate: real)

  /** `getProjectStats`: every project has one of the three statuses, so the three counts add up to the total. */
  function ProjectOverviewOf(projects: seq<Project>): (s: ProjectOverview)
    ensures s.total == |projects|
    ensures s.active + s.completed + s.cancelled == s.total
    ensures s.completed == Tables.Count(projects, IsCompletedProject)
    ensures 0.0 <= s.completionRate <= 100.0
    ensures s.completionRate == 100.0 <==> |projects| > 0 && forall k :: 0 <= k < |projects| ==> projects[k].status == Completed
  {
    Tables.CountDisjointUnion(projects, IsCompletedProject, IsCancelledProject, IsClosedProject);
    Tables.CountDisjointUnion(projects, IsActiveProject, IsClosedProject, AnyProject);
    var completed := Tables.Count(projects, IsCompletedProject);
    ProjectOverview(|projects|, Tables.Count(projects, IsActiveProject), completed, Tables.Count(projects, IsCancelledProject),
      Percentage(completed, |projects|))
  }

  datatype TaskOverview = TaskOverview(total: nat, todo: nat, inProgress: nat, completed: nat, completionRate: real)

  /** `getTaskStats`: the counts of the three statuses add up to the number of tasks. */
  function TaskOverviewOf(tasks: seq<Task>): (s: TaskOverview)
    ensures s.total == |tasks|
    ensures s.todo + s.inProgress + s.completed == s.total
    ensures s.completed == Tables.Count(tasks, PdfReports.IsDone)
    ensures 0.0 <= s.completionRate <= 100.0
    ensures s.completionRate == 100.0 <==> |tasks| > 0 && forall k :: 0 <= k < |tasks| ==> tasks[k].status == Done
  {
    var stats := PdfReports.ProjectStatsOf(tasks);
    TaskOverview(|tasks|, stats.todoTasks, stats.inProgressTasks, stats.completedTasks, Percentage(stats.completedTasks, |tasks|))
  }

  // ---------------------------------------------------------------------------
  // Per-user and per-project completion
  // ---------------------------------------------------------------------------

  /** The tasks assigned to a user (`assignedTasks`). */
  function AssignedTo(tasks: seq<Task>, userId: UserId): (r: seq<Task>)
    ensures forall t :: t in r <==> t in tasks && t.assigneeId == userId
  {
    Tables.Filter(tasks, (t: Task) => t.assigneeId == userId)
  }

  /** The tasks of a project. */
  function TasksOf(tasks: seq<Task>, projectId: int): (r: seq<Task>)
    ensures forall t :: t in r <==> t in tasks && t.projectId == projectId
  {
    Tables.Filter(tasks, (t: Task) => t.projectId == projectId)
  }

  datatype Completion = Completion(totalTasks: nat, completedTasks: nat, completionRate: real)

  /** How many of a list of tasks are done, and the share they make. */
  function CompletionOf(tasks: seq<Task>): (c: Completion)
    ensures c.totalTasks == |tasks|
    ensures c.completedTasks <= c.totalTasks
    ensures c.completedTasks == Tables.Count(tasks, PdfReports.IsDone)
    ensures c.totalTasks == 0 ==> c.completionRate == 0.0
    ensures 0.0 <= c.completionRate <= 100.0
  {
    var done := Tables.Filter(tasks, PdfReports.IsDone);
    Tables.FilterCount(tasks, PdfReports.IsDone);
    Completion(|tasks|, |done|, Percentage(|done|, |tasks|))
  }

  datatype UserPerformance = UserPerformance(id: UserId, name: string, email: string, role: Role, completion: Completion)

  /** `getUserPerformance`: one row per user, in table order, with the completion of the user's assigned tasks. */
  function UserPerformanceOf(users: seq<User>, tasks: seq<Task>): (r: seq<UserPerformance>)
    ensures |r| == |users|
    ensures forall k :: 0 <= k < |r| ==>
      && r[k].id == users[k].id && r[k].name == users[k].name && r[k].role == users[k].role
      && r[k].completion.completedTasks <= r[k].completion.totalTasks
      && r[k].completion.totalTasks == |AssignedTo(tasks, users[k].id)|
      && (r[k].completion.totalTasks == 0 ==> r[k].completion.completionRate == 0.0)
  {
    seq(|users|, k requires 0 <= k < |users| =>
      UserPerformance(users[k].id, users[k].name, users[k].email, users[k].role, CompletionOf(AssignedTo(tasks, users[k].id))))
  }

  datatype ProjectProgress = ProjectProgress(id: int, name: string, status: ProjectStatus, completion: Completion, createdAt: int)

  /** `getProjectProgress`: one row per project, in table order, with the completion of the project's tasks. */
  function ProjectProgressOf(projects: seq<Project>, tasks: seq<Task>): (r: seq<ProjectProgress>)
    ensures |r| == |projects|
    ensures forall k :: 0 <= k < |r| ==>
      && r[k].id == projects[k].id && r[k].status == projects[k].status
      && r[k].completion.completedTasks <= r[k].completion.totalTasks
      && r[k].completion.totalTasks == |TasksOf(tasks, projects[k].id)|
      && (r[k].completion.totalTasks == 0 ==> r[k].completion.completionRate == 0.0)
  {
    seq(|projects|, k requires 0 <= k < |projects| =>
      var p := projects[k];
      ProjectProgress(p.id, p.name, p.status, CompletionOf(TasksOf(tasks, p.id)), p.createdAt))
  }

  // ---------------------------------------------------------------------------
  // Eager loading
  // ---------------------------------------------------------------------------

  datatype ModelName = UserModel | ProjectModel | TaskModel

  /** An `include` entry: the model to load along and the alias it names, if any. */
  datatype Include = Include(model: ModelName, alias: Option<string>)

  /**
   * The aliases under which the associations are declared: a project's
   * tasks and owner, a task's project and assignee, a user's projects and
   * tasks. Every association has one.
   */
  function AssociationAlias(from: ModelName, to: ModelName): Option<string>
  {
    match (from, to)
    case (ProjectModel, TaskModel) => Some("tasks")
    case (ProjectModel, UserModel) => Some("owner")
    case (TaskModel, ProjectModel) => Some("project")
    case (TaskModel, UserModel) => Some("assignee")
    case (UserModel, ProjectModel) => Some("ownedProjects")
    case (UserModel, TaskModel) => Some("assignedTasks")
    case _ => None
  }

  /**
   * Whether a query on `from` can load every include: each must name an
   * associated model under the association's alias. Otherwise the query
   * throws an eager-loading error before reading any row.
   */
  predicate IncludesResolve(from: ModelName, includes: seq<Include>)
  {
    forall i :: 0 <= i < |includes| ==>
      AssociationAlias(from, includes[i].model).Some? && includes[i].alias == AssociationAlias(from, includes[i].model)
  }

  const ProgressFailed: string := "Failed to fetch project progress data"

  /** `Project.findAll({ include: [{ model: Task, required: false }] })`, as written. */
  const AsWrittenProgressInclude: Include := Include(TaskModel, None)

  /** The include naming the association's alias. */
  const ProgressInclude: Include := Include(TaskModel, Some("tasks"))

  /**
   * `getProjectProgress` with the given include, reading each project's
   * tasks under `key`: a query that cannot load its include is answered
   * with 500, and a key other than the alias reads no tasks.
   */
  function ProjectProgressHandler(projects: seq<Project>, tasks: seq<Task>, inc: Include, key: string)
    : (r: Result<seq<ProjectProgress>>)
    ensures r.Err? <==> !IncludesResolve(ProjectModel, [inc])
    ensures r.Err? ==> r.failure == ServerError(ProgressFailed)
    ensures r.Ok? && inc.alias == Some(key) ==> r.value == ProjectProgressOf(projects, tasks)
    ensures r.Ok? && inc.alias != Some(key) ==> r.value == ProjectProgressOf(projects, [])
  {
    if !IncludesResolve(ProjectModel, [inc]) then Err(ServerError(ProgressFailed))
    else if inc.alias == Some(key) then Ok(ProjectProgressOf(projects, tasks))
    else Ok(ProjectProgressOf(projects, []))
  }

  /**
   * As written, the include names no alias, so the handler answers 500 for
   * every table; naming the alias alone is not enough, since the rows are
   * read under `Tasks`, and every project would count no tasks.
   */
  lemma AsWrittenProgressIs500(projects: seq<Project>, tasks: seq<Task>)
    ensures ProjectProgressHandler(projects, tasks, AsWrittenProgressInclude, "Tasks") == Err(ServerError(ProgressFailed))
    ensures var r := ProjectProgressHandler(projects, tasks, ProgressInclude, "Tasks");
      r.Ok? && forall k :: 0 <= k < |r.value| ==> r.value[k].completion.totalTasks == 0
  {
    assert !IncludesResolve(ProjectModel, [AsWrittenProgressInclude]) by {
      assert [AsWrittenProgressInclude][0].alias == None;
    }
    var r := ProjectProgressHandler(projects, tasks, ProgressInclude, "Tasks");
    forall k | 0 <= k < |r.value| ensures r.value[k].completion.totalTasks == 0 {
      assert |TasksOf([], projects[k].id)| == 0;
    }
  }

  /** With the alias named and read, the handler answers with the progress of every project. */
  lemma ProgressWithAlias(projects: seq<Project>, tasks: seq<Task>)
    ensures ProjectProgressHandler(projects, tasks, ProgressInclude, "tasks") == Ok(ProjectProgressOf(projects, tasks))
  {
    assert IncludesResolve(ProjectModel, [ProgressInclude]);
  }

  /**
   * A user's completed tasks are counted among the completed tasks of the
   * whole table, and the users' shares never exceed it: finishing a task
   * raises exactly its assignee's count.
   */
  lemma {:induction false} FinishingRaisesOnlyTheAssignee(tasks: seq<Task>, t: Task, userId: UserId)
    requires t.status != Done
    ensures CompletionOf(AssignedTo(tasks + [t.(status := Done)], userId)).completedTasks
      == CompletionOf(AssignedTo(tasks + [t], userId)).completedTasks + (if t.assigneeId == userId then 1 else 0)
  {
    var mine := (x: Task) => x.assigneeId == userId;
    Tables.FilterAppend(tasks, [t], mine);
    Tables.FilterAppend(tasks, [t.(status := Done)], mine);
    var before := Tables.Filter(tasks, mine);
    Tables.CountAppend(before, Tables.Filter([t], mine), PdfReports.IsDone);
    Tables.CountAppend(before, Tables.Filter([t.(status := Done)], mine), PdfReports.IsDone);
  }

  // ---------------------------------------------------------------------------
  // Priority distribution and workload
  // ---------------------------------------------------------------------------

  predicate IsLow(t: Task) { t.priority == Low }
  predicate IsMedium(t: Task) { t.priority == Medium }
  predicate IsHigh(t: Task) { t.priority == High }
  predicate IsUrgent(t: Task) { t.priority == Urgent }
  predicate IsLowOrMedium(t: Task) { t.priority == Low || t.priority == Medium }
  predicate IsNotUrgent(t: Task) { t.priority != Urgent }

  datatype PriorityDistribution = PriorityDistribution(low: nat, medium: nat, high: nat, total: nat)

  /** `getTaskPriorityDistribution`: the counts of the low, medium and high priorities, and their sum as the total. */
  function PriorityDistributionOf(tasks: seq<Task>): (d: PriorityDistribution)
    ensures d.low == Tables.Count(tasks, IsLow) && d.medium == Tables.Count(tasks, IsMedium) && d.high == Tables.Count(tasks, IsHigh)
    ensures d.total <= |tasks|
  {
    Tables.CountDisjointUnion(tasks, IsLow, IsMedium, IsLowOrMedium);
    Tables.CountDisjointUnion(tasks, IsLowOrMedium, IsHigh, IsNotUrgent);
    var low := Tables.Count(tasks, IsLow);
    var medium := Tables.Count(tasks, IsMedium);
    var high := Tables.Count(tasks, IsHigh);
    PriorityDistribution(low, medium, high, low + medium + high)
  }

  /**
   * The distribution's total leaves urgent tasks out: it falls short of the
   * number of tasks by exactly the number of urgent ones, so it is the
   * number of tasks only when none is urgent.
   */
  lemma PriorityTotalLeavesOutUrgent(tasks: seq<Task>)
    ensures PriorityDistributionOf(tasks).total + Tables.Count(tasks, IsUrgent) == |tasks|
    ensures PriorityDistributionOf(tasks).total == |tasks| <==> forall k :: 0 <= k < |tasks| ==> tasks[k].priority != Urgent
  {
    Tables.CountDisjointUnion(tasks, IsLow, IsMedium, IsLowOrMedium);
    Tables.CountDisjointUnion(tasks, IsLowOrMedium, IsHigh, IsNotUrgent);
    Tables.CountDisjointUnion(tasks, IsNotUrgent, IsUrgent, PdfReports.AnyTask);
  }

  /** The weight a task adds to its assignee's workload score. */
  function Weight(t: Task): (w: int)
    ensures 0 <= w <= 3
    ensures w == 0 <==> t.priority == Urgent
  {
    match t.priority
    case High => 3
    case Medium => 2
    case Low => 1
    case Urgent => 0
  }

  datatype Workload = Workload(id: UserId, name: string, role: Role, totalTasks: nat, highPriority: nat,
                               mediumPriority: nat, lowPriority: nat, workloadScore: int)

  /**
   * A user's row of `getWorkloadDistribution`: the score weighs each high
   * priority task 3, each medium one 2 and each low one 1, which is the sum
   * of the tasks' weights; urgent tasks weigh nothing.
   */
  function WorkloadOf(u: User, tasks: seq<Task>): (w: Workload)
    ensures w.id == u.id && w.totalTasks == |AssignedTo(tasks, u.id)|
    ensures w.workloadScore == Tables.Sum(AssignedTo(tasks, u.id), Weight)
    ensures 0 <= w.workloadScore <= 3 * w.totalTasks
  {
    var mine := AssignedTo(tasks, u.id);
    var high := Tables.Count(mine, IsHigh);
    var medium := Tables.Count(mine, IsMedium);
    var low := Tables.Count(mine, IsLow);
    WeightsAddUp(mine);
    WeightsBounded(mine);
    Workload(u.id, u.name, u.role, |mine|, high, medium, low, high * 3 + medium * 2 + low)
  }

  /** The sum of the weights is three times the high count plus twice the medium count plus the low count. */
  lemma {:induction false} WeightsAddUp(tasks: seq<Task>)
    ensures Tables.Sum(tasks, Weight)
      == 3 * Tables.Count(tasks, IsHigh) + 2 * Tables.Count(tasks, IsMedium) + Tables.Count(tasks, IsLow)
  {
    if tasks != [] {
      var rest := tasks[1..];
      WeightsAddUp(rest);
      assert Tables.Sum(tasks, Weight) == Weight(tasks[0]) + Tables.Sum(rest, Weight);
      assert Tables.Count(tasks, IsHigh) == (if IsHigh(tasks[0]) then 1 else 0) + Tables.Count(rest, IsHigh);
      assert Tables.Count(tasks, IsMedium) == (if IsMedium(tasks[0]) then 1 else 0) + Tables.Count(rest, IsMedium);
      assert Tables.Count(tasks, IsLow) == (if IsLow(tasks[0]) then 1 else 0) + Tables.Count(rest, IsLow);
    }
  }

  /** Each task weighs at most 3, so the score is at most three times the number of tasks. */
  lemma {:induction false} WeightsBounded(tasks: seq<Task>)
    ensures 0 <= Tables.Sum(tasks, Weight) <= 3 * |tasks|
  {
    if tasks != [] {
      WeightsBounded(tasks[1..]);
      assert Tables.Sum(tasks, Weight) == Weight(tasks[0]) + Tables.Sum(tasks[1..], Weight);
    }
  }

  // ---------------------------------------------------------------------------
  // Resource utilisation
  // ---------------------------------------------------------------------------

  /** The hours a user is assumed to have each week. */
  const Capacity: int := 40

  /** A task still to be worked on: to do or in progress. */
  predicate IsOpen(t: Task) { t.status == InProgress || t.status == Todo }

  /** The estimate a task puts on its assignee: its estimate while open, nothing once done. */
  function Load(t: Task): (h: int)
    ensures t.status == Done ==> h == 0
    ensures t.status != Done ==> h == PdfReports.Estimate(t)
  {
    if IsOpen(t) then PdfReports.Estimate(t) else 0
  }

  datatype Utilization = Utilization(id: UserId, name: string, role: Role, activeTasks: nat, allocatedHours: int,
                                     capacity: int, utilizationRate: real, isOverallocated: bool)

  /**
   * A user's row of `getResourceUtilization`: the open tasks, the sum of
   * their estimates (a missing one counting as 0), and whether that sum
   * exceeds the 40-hour capacity.
   */
  function UtilizationOf(u: User, tasks: seq<Task>): (r: Utilization)
    ensures r.id == u.id && r.capacity == Capacity
    ensures r.activeTasks == Tables.Count(AssignedTo(tasks, u.id), IsOpen)
    ensures r.allocatedHours == Tables.Sum(AssignedTo(tasks, u.id), Load)
    ensures r.isOverallocated <==> r.allocatedHours > Capacity
    ensures r.utilizationRate * 40.0 == (r.allocatedHours as real) * 100.0
  {
    var mine := AssignedTo(tasks, u.id);
    var active := Tables.Filter(mine, IsOpen);
    var hours := Tables.Sum(active, PdfReports.Estimate);
    Tables.FilterCount(mine, IsOpen);
    OpenEstimates(mine);
    Utilization(u.id, u.name, u.role, |active|, hours, Capacity, Percentage(hours, Capacity), hours > Capacity)
  }

  /** Summing the estimates of the open tasks is summing every task's load. */
  lemma {:induction false} OpenEstimates(tasks: seq<Task>)
    ensures Tables.Sum(Tables.Filter(tasks, IsOpen), PdfReports.Estimate) == Tables.Sum(tasks, Load)
  {
    if tasks != [] {
      OpenEstimates(tasks[1..]);
    }
  }

  /** A finished task, however large its estimate, changes no user's utilisation. */
  lemma DoneTasksDoNotLoad(u: User, tasks: seq<Task>, t: Task)
    requires t.status == Done
    ensures UtilizationOf(u, tasks + [t]) == UtilizationOf(u, tasks)
  {
    var mine := (x: Task) => x.assigneeId == u.id;
    var before := AssignedTo(tasks, u.id);
    var added := Tables.Filter([t], mine);
    Tables.FilterAppend(tasks, [t], mine);
    assert AssignedTo(tasks + [t], u.id) == before + added;
    assert Tables.Count(added, IsOpen) == 0 && Tables.Sum(added, Load) == 0 by {
      if added != [] {
        assert added == [t];
        assert added[1..] == [];
      }
    }
    Tables.CountAppend(before, added, IsOpen);
    Tables.SumAppend(before, added, Load);
  }

  // ---------------------------------------------------------------------------
  // Productivity
  // ---------------------------------------------------------------------------

  /** A task is overdue when it has a due date before `now` and is not done. */
  predicate IsOverdue(t: Task, now: int)
  {
    t.dueDate.Some? && t.dueDate.value < now && t.status != Done
  }

  /** The actual hours a task adds to its assignee's total: only a completed task's count. */
  function ActualIfDone(t: Task): (h: int)
    ensures t.status != Done ==> h == 0
    ensures t.status == Done ==> h == PdfReports.Actual(t)
  {
    if t.status == Done then PdfReports.Actual(t) else 0
  }

  datatype Productivity = Productivity(id: UserId, name: string, email: string, role: Role, totalTasks: nat,
                                       completedTasks: nat, overdueTasks: nat, onTimeCompletionRate: real,
                                       totalEstimatedHours: int, totalActualHours: int, efficiency: real)

  /** The share of `total` tasks that are not among the `overdue` ones, as a percentage. */
  function OnTimeRate(total: nat, overdue: nat): real
  {
    Percentage(total - overdue, total)
  }

  /** The sizes and sums a productivity row is built from. */
  lemma ProductivityCounts(mine: seq<Task>, now: int)
    ensures |Tables.Filter(mine, PdfReports.IsDone)| == Tables.Count(mine, PdfReports.IsDone)
    ensures |Tables.Filter(mine, (t: Task) => IsOverdue(t, now))| == Tables.Count(mine, (t: Task) => IsOverdue(t, now))
    ensures Tables.Count(mine, PdfReports.IsDone) + Tables.Count(mine, (t: Task) => IsOverdue(t, now)) <= |mine|
    ensures Tables.Sum(Tables.Filter(mine, PdfReports.IsDone), PdfReports.Actual) == Tables.Sum(mine, ActualIfDone)
  {
    Tables.FilterCount(mine, PdfReports.IsDone);
    Tables.FilterCount(mine, (t: Task) => IsOverdue(t, now));
    Tables.CountDisjointUnion(mine, PdfReports.IsDone, (t: Task) => IsOverdue(t, now),
      (t: Task) => t.status == Done || IsOverdue(t, now));
    CompletedActuals(mine);
  }

  /**
   * A user's row of `getProductivityMetrics` at time `now`: estimates are
   * summed over all the user's tasks, actual hours over the completed ones
   * only, and a completed task is never overdue.
   */
  function ProductivityOf(u: User, tasks: seq<Task>, now: int): (r: Productivity)
    ensures r.id == u.id && r.totalTasks == |AssignedTo(tasks, u.id)|
    ensures r.completedTasks == Tables.Count(AssignedTo(tasks, u.id), PdfReports.IsDone)
    ensures r.overdueTasks == Tables.Count(AssignedTo(tasks, u.id), (t: Task) => IsOverdue(t, now))
    ensures r.completedTasks + r.overdueTasks <= r.totalTasks
    ensures r.totalEstimatedHours == Tables.Sum(AssignedTo(tasks, u.id), PdfReports.Estimate)
    ensures r.totalActualHours == Tables.Sum(AssignedTo(tasks, u.id), ActualIfDone)
    ensures r.onTimeCompletionRate == OnTimeRate(r.totalTasks, r.overdueTasks)
    ensures r.efficiency == Percentage(r.totalActualHours, r.totalEstimatedHours)
  {
    var mine := AssignedTo(tasks, u.id);
    var done := Tables.Filter(mine, PdfReports.IsDone);
    var overdue := Tables.Filter(mine, (t: Task) => IsOverdue(t, now));
    ProductivityCounts(mine, now);
    var estimated := Tables.Sum(mine, PdfReports.Estimate);
    var actual := Tables.Sum(done, PdfReports.Actual);
    Productivity(u.id, u.name, u.email, u.role, |mine|, |done|, |overdue|,
      OnTimeRate(|mine|, |overdue|), estimated, actual, Percentage(actual, estimated))
  }

  /**
   * The two rates of a productivity row: the on-time rate is the share of
   * the user's tasks that are not overdue, and the efficiency compares the
   * actual hours of the completed tasks with the estimate of all of them;
   * each is 0 when there is nothing to divide by.
   */
  lemma ProductivityRates(u: User, tasks: seq<Task>, now: int)
    ensures var r := ProductivityOf(u, tasks, now);
      && IsPercentageOf(r.onTimeCompletionRate, r.totalTasks - r.overdueTasks, r.totalTasks)
      && 0.0 <= r.onTimeCompletionRate <= 100.0
      && IsPercentageOf(r.efficiency, r.totalActualHours, r.totalEstimatedHours)
  {
    var r := ProductivityOf(u, tasks, now);
    RatesOf(r.totalTasks, r.overdueTasks, r.onTimeCompletionRate);
    PercentageFacts(r.totalActualHours, r.totalEstimatedHours, r.efficiency);
  }

  /** The on-time rate of `overdue` late tasks out of `total` is the share not late, between 0 and 100. */
  lemma RatesOf(total: int, overdue: int, rate: real)
    requires 0 <= overdue <= total && rate == OnTimeRate(total, overdue)
    ensures IsPercentageOf(rate, total - overdue, total) && 0.0 <= rate <= 100.0
  {
    PercentageFacts(total - overdue, total, rate);
  }

  /** `rate` is `part` out of `total` as a percentage, and 0 when `total` is not positive. */
  predicate IsPercentageOf(rate: real, part: int, total: int)
  {
    && (total <= 0 ==> rate == 0.0)
    && (total > 0 ==> rate * (total as real) == (part as real) * 100.0)
  }

  /** What `Percentage` promises, for a rate already known to be it. */
  lemma PercentageFacts(part: int, total: int, rate: real)
    requires rate == Percentage(part, total)
    ensures IsPercentageOf(rate, part, total)
    ensures total > 0 && 0 <= part <= total ==> 0.0 <= rate <= 100.0
  {
  }

  /** Summing the actual hours of the completed tasks is summing every task's completed-only hours. */
  lemma {:induction false} CompletedActuals(tasks: seq<Task>)
    ensures Tables.Sum(Tables.Filter(tasks, PdfReports.IsDone), PdfReports.Actual) == Tables.Sum(tasks, ActualIfDone)
  {
    if tasks != [] {
      CompletedActuals(tasks[1..]);
    }
  }

  /** A task that is overdue stays overdue as time passes, so a user's overdue count never falls while nothing else changes. */
  lemma OverdueGrowsWithTime(u: User, tasks: seq<Task>, now: int, later: int)
    requires now <= later
    ensures ProductivityOf(u, tasks, now).overdueTasks <= ProductivityOf(u, tasks, later).overdueTasks
  {
    Tables.CountMonotone(AssignedTo(tasks, u.id), (t: Task) => IsOverdue(t, now), (t: Task) => IsOverdue(t, later));
  }

  // ---------------------------------------------------------------------------
  // Time-tracking statistics
  // ---------------------------------------------------------------------------

  predicate HasActual(t: Task) { t.actualHours.Some? }

  datatype TimeTrackingStats = TimeTrackingStats(totalEstimatedHours: int, totalActualHours: int,
                                                 tasksWithEstimates: nat, tasksWithActuals: nat)

  /** The four running figures after one more task: a value is added, and counted, only when present. */
  function Tally(s: TimeTrackingStats, t: Task): TimeTrackingStats
  {
    var s' := if t.estimatedHours.Some? then s.(totalEstimatedHours := s.totalEstimatedHours + t.estimatedHours.value,
                                               tasksWithEstimates := s.tasksWithEstimates + 1)
              else s;
    if t.actualHours.Some? then s'.(totalActualHours := s'.totalActualHours + t.actualHours.value,
                                    tasksWithActuals := s'.tasksWithActuals + 1)
    else s'
  }

  /** The figures after a list of tasks, tallied in order from zero. */
  function TallyAll(tasks: seq<Task>): TimeTrackingStats
  {
    if tasks == [] then TimeTrackingStats(0, 0, 0, 0)
    else Tally(TallyAll(tasks[..|tasks| - 1]), tasks[|tasks| - 1])
  }

  /**
   * The tally counts exactly the tasks that have an estimate and sums
   * exactly their estimates: tasks without one are left out of both.
   */
  lemma {:induction false} TallyCountsEstimates(tasks: seq<Task>)
    ensures TallyAll(tasks).tasksWithEstimates == Tables.Count(tasks, PdfReports.HasEstimate)
    ensures TallyAll(tasks).totalEstimatedHours == Tables.Sum(Tables.Filter(tasks, PdfReports.HasEstimate), PdfReports.Estimate)
  {
    if tasks != [] {
      var front := tasks[..|tasks| - 1];
      var t := tasks[|tasks| - 1];
      assert tasks == front + [t];
      TallyCountsEstimates(front);
      TallyEstimatesStep(front, t);
    }
  }

  lemma TallyEstimatesStep(front: seq<Task>, t: Task)
    requires TallyAll(front).tasksWithEstimates == Tables.Count(front, PdfReports.HasEstimate)
    requires TallyAll(front).totalEstimatedHours == Tables.Sum(Tables.Filter(front, PdfReports.HasEstimate), PdfReports.Estimate)
    ensures TallyAll(front + [t]).tasksWithEstimates == Tables.Count(front + [t], PdfReports.HasEstimate)
    ensures TallyAll(front + [t]).totalEstimatedHours == Tables.Sum(Tables.Filter(front + [t], PdfReports.HasEstimate), PdfReports.Estimate)
  {
    TallyLast(front, t);
    var before, after := TallyAll(front), TallyAll(front + [t]);
    assert after.tasksWithEstimates == before.tasksWithEstimates + (if PdfReports.HasEstimate(t) then 1 else 0);
    assert after.totalEstimatedHours == before.totalEstimatedHours + (if PdfReports.HasEstimate(t) then PdfReports.Estimate(t) else 0);
    CountStep(front, t, PdfReports.HasEstimate);
    FilteredSumStep(front, t, PdfReports.HasEstimate, PdfReports.Estimate);
  }

  /** The tally of one more task is that task tallied onto the earlier ones. */
  lemma TallyLast(front: seq<Task>, t: Task)
    ensures TallyAll(front + [t]) == Tally(TallyAll(front), t)
  {
    assert (front + [t])[..|front|] == front;
  }

  /** Counting one more row adds one exactly when it passes. */
  lemma CountStep(front: seq<Task>, t: Task, p: Task -> bool)
    ensures Tables.Count(front + [t], p) == Tables.Count(front, p) + (if p(t) then 1 else 0)
  {
    Tables.SingleRow(t, p, PdfReports.Estimate);
    Tables.CountAppend(front, [t], p);
  }

  /** Summing the passing rows of one more row adds its value exactly when it passes. */
  lemma FilteredSumStep(front: seq<Task>, t: Task, p: Task -> bool, f: Task -> int)
    ensures Tables.Sum(Tables.Filter(front + [t], p), f) == Tables.Sum(Tables.Filter(front, p), f) + (if p(t) then f(t) else 0)
  {
    Tables.SingleRow(t, p, f);
    Tables.FilterAppend(front, [t], p);
    Tables.SumAppend(Tables.Filter(front, p), Tables.Filter([t], p), f);
  }

  /** The same for actual hours: only the tasks that have them are counted and summed. */
  lemma {:induction false} TallyCountsActuals(tasks: seq<Task>)
    ensures TallyAll(tasks).tasksWithActuals == Tables.Count(tasks, HasActual)
    ensures TallyAll(tasks).totalActualHours == Tables.Sum(Tables.Filter(tasks, HasActual), PdfReports.Actual)
  {
    if tasks != [] {
      var front := tasks[..|tasks| - 1];
      var t := tasks[|tasks| - 1];
      assert tasks == front + [t];
      TallyCountsActuals(front);
      TallyActualsStep(front, t);
    }
  }

  lemma TallyActualsStep(front: seq<Task>, t: Task)
    requires TallyAll(front).tasksWithActuals == Tables.Count(front, HasActual)
    requires TallyAll(front).totalActualHours == Tables.Sum(Tables.Filter(front, HasActual), PdfReports.Actual)
    ensures TallyAll(front + [t]).tasksWithActuals == Tables.Count(front + [t], HasActual)
    ensures TallyAll(front + [t]).totalActualHours == Tables.Sum(Tables.Filter(front + [t], HasActual), PdfReports.Actual)
  {
    TallyLast(front, t);
    var before, after := TallyAll(front), TallyAll(front + [t]);
    assert after.tasksWithActuals == before.tasksWithActuals + (if HasActual(t) then 1 else 0);
    assert after.totalActualHours == before.totalActualHours + (if HasActual(t) then PdfReports.Actual(t) else 0);
    CountStep(front, t, HasActual);
    FilteredSumStep(front, t, HasActual, PdfReports.Actual);
  }

  /**
   * The loop of `getTimeTrackingStats`: estimates and actual hours are
   * summed, and counted, over the tasks that have them.
   */
  method TimeTrackingStatsOf(tasks: seq<Task>) returns (s: TimeTrackingStats)
    ensures s.tasksWithEstimates == Tables.Count(tasks, PdfReports.HasEstimate)
    ensures s.tasksWithActuals == Tables.Count(tasks, HasActual)
    ensures s.totalEstimatedHours == Tables.Sum(Tables.Filter(tasks, PdfReports.HasEstimate), PdfReports.Estimate)
    ensures s.totalActualHours == Tables.Sum(Tables.Filter(tasks, HasActual), PdfReports.Actual)
  {
    var totalEstimatedHours := 0;
    var totalActualHours := 0;
    var tasksWithEstimates := 0;
    var tasksWithActuals := 0;
    for i := 0 to |tasks|
      invariant TimeTrackingStats(totalEstimatedHours, totalActualHours, tasksWithEstimates, tasksWithActuals)
        == TallyAll(tasks[..i])
    {
      var t := tasks[i];
      assert tasks[..i + 1][..i] == tasks[..i];
      if t.estimatedHours.Some? {
        totalEstimatedHours := totalEstimatedHours + t.estimatedHours.value;
        tasksWithEstimates := tasksWithEstimates + 1;
      }
      if t.actualHours.Some? {
        totalActualHours := totalActualHours + t.actualHours.value;
        tasksWithActuals := tasksWithActuals + 1;
      }
    }
    assert tasks[..|tasks|] == tasks;
    TallyCountsEstimates(tasks);
    TallyCountsActuals(tasks);
    s := TimeTrackingStats(totalEstimatedHours, totalActualHours, tasksWithEstimates, tasksWithActuals);
  }

  /** The average of `n` values summing to `total`, or 0 for none. */
  function Average(total: int, n: nat): (r: real)
    ensures n == 0 ==> r == 0.0
    ensures n > 0 ==> r * (n as real) == total as real
  {
    if n > 0 then total as real / n as real else 0.0
  }

  /** The averages and the accuracy the endpoint derives from the four sums. */
  function TimeTrackingRates(s: TimeTrackingStats): (r: (real, real, real))
    ensures s.tasksWithEstimates > 0 ==> r.0 * (s.tasksWithEstimates as real) == s.totalEstimatedHours as real
    ensures s.tasksWithActuals > 0 ==> r.1 * (s.tasksWithActuals as real) == s.totalActualHours as real
    ensures s.totalEstimatedHours <= 0 ==> r.2 == 0.0
    ensures s.totalEstimatedHours > 0 ==> (r.2 == 100.0 <==> s.totalActualHours == s.totalEstimatedHours)
  {
    (Average(s.totalEstimatedHours, s.tasksWithEstimates), Average(s.totalActualHours, s.tasksWithActuals),
     Percentage(s.totalActualHours, s.totalEstimatedHours))
  }

  // ---------------------------------------------------------------------------
  // Custom report
  // ---------------------------------------------------------------------------

  datatype TaskRow = TaskRow(id: int, title: string, status: TaskStatus, priority: Priority, estimatedHours: Option<int>,
                             actualHours: Option<int>, projectName: string, assignedUser: Option<string>,
                             createdAt: int, dueDate: Option<int>)

  datatype ProjectRow = ProjectRow(id: int, name: string, status: ProjectStatus, taskCount: nat, completedTasks: nat, createdAt: int)

  datatype CustomReport =
    | Summary(totalTasks: nat, completedTasks: nat, inProgressTasks: nat, totalProjects: nat, completedProjects: nat,
              totalEstimatedHours: int, totalActualHours: int)
    | Detailed(taskRows: seq<TaskRow>, projectRows: seq<ProjectRow>)
    | InvalidReportType

  /** The selected tasks that the report keeps: those whose project exists (`required: true`). */
  function WithProject(selected: seq<Task>, allProjects: seq<Project>): (r: seq<Task>)
    ensures forall t :: t in r <==> t in selected && FindProject(allProjects, t.projectId).Some?
  {
    Tables.Filter(selected, (t: Task) => FindProject(allProjects, t.projectId).Some?)
  }

  function TaskRowOf(t: Task, allProjects: seq<Project>, users: seq<User>): TaskRow
  {
    var project := FindProject(allProjects, t.projectId);
    var assignee := if t.assigneeId == 0 then None else FindUser(users, t.assigneeId);
    TaskRow(t.id, t.title, t.status, t.priority, t.estimatedHours, t.actualHours,
      if project.Some? then project.value.name else "",
      if assignee.Some? then Some(assignee.value.name) else None,
      t.createdAt, t.dueDate)
  }

  function ProjectRowOf(p: Project, allTasks: seq<Task>): ProjectRow
  {
    var c := CompletionOf(TasksOf(allTasks, p.id));
    ProjectRow(p.id, p.name, p.status, c.totalTasks, c.completedTasks, p.createdAt)
  }

  /**
   * `getCustomReport` over the tasks and projects its conditions select:
   * `summary` (also when no type is given) counts and sums them, `detailed`
   * lists them, and any other type gives the error object.
   */
  function CustomReportOf(reportType: Option<string>, selectedTasks: seq<Task>, selectedProjects: seq<Project>,
                          allProjects: seq<Project>, allTasks: seq<Task>, users: seq<User>): (r: CustomReport)
    ensures r.Summary? <==> reportType.None? || reportType == Some("summary")
    ensures r.Detailed? <==> reportType == Some("detailed")
    ensures r.InvalidReportType? <==> reportType.Some? && reportType.value != "summary" && reportType.value != "detailed"
    ensures r.Summary? ==>
      && r.totalTasks == |WithProject(selectedTasks, allProjects)|
      && r.completedTasks == Tables.Count(WithProject(selectedTasks, allProjects), PdfReports.IsDone)
      && r.inProgressTasks == Tables.Count(WithProject(selectedTasks, allProjects), PdfReports.IsInProgress)
      && r.completedTasks + r.inProgressTasks <= r.totalTasks
      && r.totalProjects == |selectedProjects|
      && r.completedProjects == Tables.Count(selectedProjects, IsCompletedProject)
      && r.completedProjects <= r.totalProjects
      && r.totalEstimatedHours == Tables.Sum(WithProject(selectedTasks, allProjects), PdfReports.Estimate)
      && r.totalActualHours == Tables.Sum(WithProject(selectedTasks, allProjects), ActualIfDone)
    ensures r.Detailed? ==>
      && |r.taskRows| == |WithProject(selectedTasks, allProjects)|
      && |r.projectRows| == |selectedProjects|
      && (forall k :: 0 <= k < |r.taskRows| ==> r.taskRows[k].id == WithProject(selectedTasks, allProjects)[k].id)
      && (forall k :: 0 <= k < |r.projectRows| ==> r.projectRows[k].completedTasks <= r.projectRows[k].taskCount)
      && (forall k :: 0 <= k < |r.projectRows| ==>
            && r.projectRows[k].id == selectedProjects[k].id
            && r.projectRows[k].taskCount == |TasksOf(allTasks, selectedProjects[k].id)|
            && r.projectRows[k].completedTasks == Tables.Count(TasksOf(allTasks, selectedProjects[k].id), PdfReports.IsDone))
  {
    var tasks := WithProject(selectedTasks, allProjects);
    var kind := if reportType.Some? then reportType.value else "summary";
    if kind == "summary" then
      var stats := PdfReports.ProjectStatsOf(tasks);
      var done := Tables.Filter(tasks, PdfReports.IsDone);
      CompletedActuals(tasks);
      Summary(|tasks|, stats.completedTasks, stats.inProgressTasks, |selectedProjects|,
        Tables.Count(selectedProjects, IsCompletedProject),
        Tables.Sum(tasks, PdfReports.Estimate), Tables.Sum(done, PdfReports.Actual))
    else if kind == "detailed" then
      Detailed(
        seq(|tasks|, k requires 0 <= k < |tasks| => TaskRowOf(tasks[k], allProjects, users)),
        seq(|selectedProjects|, k requires 0 <= k < |selectedProjects| => ProjectRowOf(selectedProjects[k], allTasks)))
    else InvalidReportType
  }

  /** The rows the detailed report lists for its tasks that are done. */
  function DoneRows(rows: seq<TaskRow>): nat
  {
    if rows == [] then 0 else (if rows[0].status == Done then 1 else 0) + DoneRows(rows[1..])
  }

  /**
   * The summary and the detailed report agree: the summary's completed
   * count is the number of done rows the detailed report lists for the same
   * selection.
   */
  lemma SummaryAgreesWithDetail(selectedTasks: seq<Task>, selectedProjects: seq<Project>, allProjects: seq<Project>,
                                allTasks: seq<Task>, users: seq<User>)
    ensures CustomReportOf(Some("summary"), selectedTasks, selectedProjects, allProjects, allTasks, users).completedTasks
      == DoneRows(CustomReportOf(Some("detailed"), selectedTasks, selectedProjects, allProjects, allTasks, users).taskRows)
  {
    var tasks := WithProject(selectedTasks, allProjects);
    var rows := CustomReportOf(Some("detailed"), selectedTasks, selectedProjects, allProjects, allTasks, users).taskRows;
    DoneRowsCount(tasks, rows, allProjects, users);
  }

  const CustomReportFailed: string := "Failed to generate custom report"

  /** The includes of the custom report's task query and project query, as written: only the assignee names its alias. */
  const AsWrittenTaskIncludes: seq<Include> := [Include(ProjectModel, None), Include(UserModel, Some("assignee"))]
  const AsWrittenProjectIncludes: seq<Include> := [Include(TaskModel, None)]

  /** The same includes naming the associations' aliases. */
  const TaskIncludes: seq<Include> := [Include(ProjectModel, Some("project")), Include(UserModel, Some("assignee"))]
  const ProjectIncludes: seq<Include> := [Include(TaskModel, Some("tasks"))]

  /** `getCustomReport` with the given includes: a query that cannot load one is answered with 500. */
  function CustomReportHandler(taskIncludes: seq<Include>, projectIncludes: seq<Include>, reportType: Option<string>,
                               selectedTasks: seq<Task>, selectedProjects: seq<Project>, allProjects: seq<Project>,
                               allTasks: seq<Task>, users: seq<User>): (r: Result<CustomReport>)
    ensures r.Err? <==> !IncludesResolve(TaskModel, taskIncludes) || !IncludesResolve(ProjectModel, projectIncludes)
    ensures r.Err? ==> r.failure == ServerError(CustomReportFailed)
    ensures r.Ok? ==> r.value == CustomReportOf(reportType, selectedTasks, selectedProjects, allProjects, allTasks, users)
  {
    if !IncludesResolve(TaskModel, taskIncludes) || !IncludesResolve(ProjectModel, projectIncludes) then
      Err(ServerError(CustomReportFailed))
    else Ok(CustomReportOf(reportType, selectedTasks, selectedProjects, allProjects, allTasks, users))
  }

  /** As written, the custom report is answered with 500 whatever its type and selection. */
  lemma AsWrittenCustomReportIs500(reportType: Option<string>, selectedTasks: seq<Task>, selectedProjects: seq<Project>,
                                   allProjects: seq<Project>, allTasks: seq<Task>, users: seq<User>)
    ensures CustomReportHandler(AsWrittenTaskIncludes, AsWrittenProjectIncludes, reportType, selectedTasks, selectedProjects,
                                allProjects, allTasks, users) == Err(ServerError(CustomReportFailed))
  {
    assert !IncludesResolve(TaskModel, AsWrittenTaskIncludes) by {
      assert AsWrittenTaskIncludes[0].alias == None;
    }
  }

  /** With the aliases named, the custom report answers with the report its type asks for. */
  lemma CustomReportWithAliases(reportType: Option<string>, selectedTasks: seq<Task>, selectedProjects: seq<Project>,
                                allProjects: seq<Project>, allTasks: seq<Task>, users: seq<User>)
    ensures CustomReportHandler(TaskIncludes, ProjectIncludes, reportType, selectedTasks, selectedProjects,
                                allProjects, allTasks, users)
      == Ok(CustomReportOf(reportType, selectedTasks, selectedProjects, allProjects, allTasks, users))
  {
    assert IncludesResolve(TaskModel, TaskIncludes);
    assert IncludesResolve(ProjectModel, ProjectIncludes);
  }

  lemma {:induction false} DoneRowsCount(tasks: seq<Task>, rows: seq<TaskRow>, allProjects: seq<Project>, users: seq<User>)
    requires |rows| == |tasks|
    requires forall k :: 0 <= k < |tasks| ==> rows[k] == TaskRowOf(tasks[k], allProjects, users)
    ensures DoneRows(rows) == Tables.Count(tasks, PdfReports.IsDone)
  {
    if tasks != [] {
      DoneRowsCount(tasks[1..], rows[1..], allProjects, users);
    }
  }
}

=== FILE: tables.dfy ===
/**
 * Database tables as sequences of rows in insertion order, with the queries
 * the handlers issue against them: lookup of the first matching row
 * (`findOne`, `findByPk`), filtering (`findAll` with a `where`), counting
 * (`count`) and summing a column.
 */
module Tables {
  import opened Common

  /** The position of the first row satisfying `p`. */
  function IndexWhere<T>(rows: seq<T>, p: T -> bool): (r: Option<nat>)
    ensures r.Some? ==> r.value < |rows| && p(rows[r.value])
    ensures r.Some? ==> forall j :: 0 <= j < r.value ==> !p(rows[j])
    ensures r.None? ==> forall j :: 0 <= j < |rows| ==> !p(rows[j])
  {
    if rows == [] then None
    else if p(rows[0]) then Some(0)
    else
      var rest := IndexWhere(rows[1..], p);
      if rest.Some? then Some(rest.value + 1) else None
  }

  /** The first row satisfying `p`, if any. */
  function FindWhere<T(==)>(rows: seq<T>, p: T -> bool): (r: Option<T>)
    ensures r.Some? ==> r.value in rows && p(r.value)
    ensures r.None? ==> forall j :: 0 <= j < |rows| ==> !p(rows[j])
  {
    var i := IndexWhere(rows, p);
    if i.Some? then Some(rows[i.value]) else None
  }

  /** The rows satisfying `p`, in table order, each as often as the table holds it. */
  function Filter<T(==)>(rows: seq<T>, p: T -> bool): (r: seq<T>)
    ensures |r| <= |rows|
    ensures forall x :: x in r ==> x in rows && p(x)
    ensures forall j :: 0 <= j < |rows| && p(rows[j]) ==> rows[j] in r
  {
    if rows == [] then []
    else if p(rows[0]) then [rows[0]] + Filter(rows[1..], p)
    else Filter(rows[1..], p)
  }

  /** A filter keeps each row it picks exactly as often as the table holds it, and no other row. */
  lemma {:induction false} FilterCounts<T>(rows: seq<T>, p: T -> bool)
    ensures multiset(Filter(rows, p)) <= multiset(rows)
    ensures forall x :: x in rows ==> multiset(Filter(rows, p))[x] == if p(x) then multiset(rows)[x] else 0
  {
    if rows != [] {
      var rest := rows[1..];
      FilterCounts(rest, p);
      var r := Filter(rest, p);
      assert rows == [rows[0]] + rest;
      assert multiset(rows) == multiset{rows[0]} + multiset(rest);
      assert multiset(Filter(rows, p)) == if p(rows[0]) then multiset{rows[0]} + multiset(r) else multiset(r) by {
        if p(rows[0]) {
          assert Filter(rows, p) == [rows[0]] + r;
        }
      }
      forall x | x in rows
        ensures multiset(Filter(rows, p))[x] == if p(x) then multiset(rows)[x] else 0
      {
        if x !in rest {
          assert multiset(rest)[x] == 0;
        }
      }
    }
  }

  /** `ok` holds of every two rows, the earlier one first. */
  ghost predicate Pairwise<T>(rows: seq<T>, ok: (T, T) -> bool)
  {
    forall i, j :: 0 <= i < j < |rows| ==> ok(rows[i], rows[j])
  }

  /** Filtering keeps the table's order, so what holds of every two rows still holds afterwards. */
  lemma {:induction false} FilterPairwise<T>(rows: seq<T>, p: T -> bool, ok: (T, T) -> bool)
    requires Pairwise(rows, ok)
    ensures Pairwise(Filter(rows, p), ok)
  {
    if rows != [] {
      var rest := Filter(rows[1..], p);
      FilterPairwise(rows[1..], p, ok);
      if p(rows[0]) {
        var r := [rows[0]] + rest;
        forall i, j | 0 <= i < j < |r| ensures ok(r[i], r[j]) {
          assert r[j] == rest[j - 1] && rest[j - 1] in rows[1..];
          var k :| 0 <= k < |rows[1..]| && rows[1..][k] == rest[j - 1];
          if i == 0 {
            assert ok(rows[0], rows[k + 1]);
          } else {
            assert r[i] == rest[i - 1];
          }
        }
      }
    }
  }

  /** Filtering splits over concatenation, so a filtered prefix grows one row at a time. */
  lemma {:induction false} FilterAppend<T>(a: seq<T>, b: seq<T>, p: T -> bool)
    ensures Filter(a + b, p) == Filter(a, p) + Filter(b, p)
  {
    if a != [] {
      assert (a + b)[0] == a[0] && (a + b)[1..] == a[1..] + b;
      FilterAppend(a[1..], b, p);
    } else {
      assert a + b == b;
    }
  }

  /** `count({ where })` */
  function Count<T>(rows: seq<T>, p: T -> bool): (n: nat)
    ensures n <= |rows|
    ensures n == 0 <==> forall j :: 0 <= j < |rows| ==> !p(rows[j])
    ensures n == |rows| <==> forall j :: 0 <= j < |rows| ==> p(rows[j])
  {
    if rows == [] then 0
    else (if p(rows[0]) then 1 else 0) + Count(rows[1..], p)
  }

  /** Filtering keeps exactly as many rows as `Count` counts. */
  lemma {:induction false} FilterCount<T>(rows: seq<T>, p: T -> bool)
    ensures |Filter(rows, p)| == Count(rows, p)
  {
    if rows != [] {
      FilterCount(rows[1..], p);
    }
  }

  /** Counting splits over concatenation. */
  lemma {:induction false} CountAppend<T>(a: seq<T>, b: seq<T>, p: T -> bool)
    ensures Count(a + b, p) == Count(a, p) + Count(b, p)
  {
    if a != [] {
      assert (a + b)[0] == a[0] && (a + b)[1..] == a[1..] + b;
      CountAppend(a[1..], b, p);
    } else {
      assert a + b == b;
    }
  }

  /** Rows satisfying one of two exclusive conditions are counted by the sum of the two counts. */
  lemma {:induction false} CountDisjointUnion<T>(rows: seq<T>, p: T -> bool, q: T -> bool, pq: T -> bool)
    requires forall x :: pq(x) <==> p(x) || q(x)
    requires forall x :: !(p(x) && q(x))
    ensures Count(rows, pq) == Count(rows, p) + Count(rows, q)
  {
    if rows != [] {
      CountDisjointUnion(rows[1..], p, q, pq);
    }
  }

  /** Rows of a sub-condition are never more than the rows of the condition. */
  lemma {:induction false} CountMonotone<T>(rows: seq<T>, p: T -> bool, q: T -> bool)
    requires forall x :: p(x) ==> q(x)
    ensures Count(rows, p) <= Count(rows, q)
  {
    if rows != [] {
      CountMonotone(rows[1..], p, q);
    }
  }

  /** `reduce((sum, row) => sum + f(row), 0)` */
  function Sum<T>(rows: seq<T>, f: T -> int): int
  {
    if rows == [] then 0 else f(rows[0]) + Sum(rows[1..], f)
  }

  /** A sum of non-negative terms is non-negative. */
  lemma {:induction false} SumNonNegative<T>(rows: seq<T>, f: T -> int)
    requires forall x :: f(x) >= 0
    ensures Sum(rows, f) >= 0
  {
    if rows != [] {
      SumNonNegative(rows[1..], f);
    }
  }

  /** Summing splits over concatenation, so a running total over a prefix extends one row at a time. */
  lemma {:induction false} SumAppend<T>(a: seq<T>, b: seq<T>, f: T -> int)
    ensures Sum(a + b, f) == Sum(a, f) + Sum(b, f)
  {
    if a != [] {
      assert (a + b)[0] == a[0] && (a + b)[1..] == a[1..] + b;
      SumAppend(a[1..], b, f);
    } else {
      assert a + b == b;
    }
  }

  /** Removing the row at `i` shifts the rows after it down by one and keeps every other row. */
  lemma RemoveAtFacts<T>(rows: seq<T>, i: nat)
    requires i < |rows|
    ensures var r := rows[..i] + rows[i + 1..];
      && |r| == |rows| - 1
      && (forall k :: 0 <= k < |r| ==> r[k] == rows[if k < i then k else k + 1])
      && (forall k :: 0 <= k < |rows| && k != i ==> rows[k] == r[if k < i then k else k - 1])
  {
  }

  /** The queries on a single row. */
  lemma SingleRow<T>(x: T, p: T -> bool, f: T -> int)
    ensures Filter([x], p) == (if p(x) then [x] else [])
    ensures Count([x], p) == (if p(x) then 1 else 0)
    ensures Sum([x], f) == f(x)
  {
    assert [x][1..] == [];
  }
}

=== FILE: task_dependencies.dfy ===
/**
 * Task dependencies: the `TaskDependencies` table, whose row (t, d) says that
 * task t depends on task d, and the handlers that create, update and delete
 * rows. Creation refuses a self-dependency, a duplicate pair and any row that
 * would close a cycle; the cycle test is the worklist search of
 * `checkCircularDependency`, proved here to decide reachability, and the
 * table is proved to stay acyclic under every handler.
 */
module TaskDependencies {
  import opened Common
  import opened Entities
  import Tables

  /** The four scheduling relations of the `dependencyType` column. */
  datatype DependencyType = FinishToStart | StartToStart | FinishToFinish | StartToFinish

  function DependencyTypeName(t: DependencyType): string
  {
    match t
    case FinishToStart => "finish_to_start"
    case StartToStart => "start_to_start"
    case FinishToFinish => "finish_to_finish"
    case StartToFinish => "start_to_finish"
  }

  /** The database enum: a string is stored only when it names one of the four types. */
  function ParseDependencyType(s: string): (r: Option<DependencyType>)
    ensures r.Some? <==> s in {"finish_to_start", "start_to_start", "finish_to_finish", "start_to_finish"}
    ensures r.Some? ==> DependencyTypeName(r.value) == s
  {
    if s == "finish_to_start" then Some(FinishToStart)
    else if s == "start_to_start" then Some(StartToStart)
    else if s == "finish_to_finish" then Some(FinishToFinish)
    else if s == "start_to_finish" then Some(StartToFinish)
    else None
  }

  /** A row: `lagTime` is a whole number of days, possibly negative, and nullable. */
  datatype Dependency = Dependency(id: int, taskId: int, dependsOnTaskId: int, dependencyType: DependencyType, lagTime: Option<int>)

  /** The unique index `unique_task_dependency` on (taskId, dependsOnTaskId). */
  predicate UniquePairs(rows: seq<Dependency>)
  {
    forall i, j :: 0 <= i < j < |rows| ==> (rows[i].taskId, rows[i].dependsOnTaskId) != (rows[j].taskId, rows[j].dependsOnTaskId)
  }

  /** Whether the row (t, d) is in the table. */
  predicate HasPair(rows: seq<Dependency>, t: int, d: int)
  {
    exists k :: 0 <= k < |rows| && rows[k].taskId == t && rows[k].dependsOnTaskId == d
  }

  /** `findAll({ where: { taskId } })`, projected on `dependsOnTaskId`, in table order. */
  function Successors(rows: seq<Dependency>, t: int): (r: seq<int>)
    ensures forall d :: d in r <==> HasPair(rows, t, d)
  {
    if rows == [] then []
    else
      var rest := Successors(rows[1..], t);
      assert forall d :: HasPair(rows[1..], t, d) ==> HasPair(rows, t, d) by {
        forall d | HasPair(rows[1..], t, d) ensures HasPair(rows, t, d) {
          var k :| 0 <= k < |rows[1..]| && rows[1..][k].taskId == t && rows[1..][k].dependsOnTaskId == d;
          assert rows[k + 1] == rows[1..][k];
        }
      }
      assert forall d :: HasPair(rows, t, d) ==> (d == rows[0].dependsOnTaskId && rows[0].taskId == t) || HasPair(rows[1..], t, d) by {
        forall d | HasPair(rows, t, d) ensures (d == rows[0].dependsOnTaskId && rows[0].taskId == t) || HasPair(rows[1..], t, d) {
          var k :| 0 <= k < |rows| && rows[k].taskId == t && rows[k].dependsOnTaskId == d;
          if k > 0 {
            assert rows[1..][k - 1] == rows[k];
          }
        }
      }
      if rows[0].taskId == t then [rows[0].dependsOnTaskId] + rest else rest
  }

  /** A walk along "depends on" edges. */
  predicate IsPath(rows: seq<Dependency>, p: seq<int>)
  {
    |p| >= 1 && forall i :: 0 <= i < |p| - 1 ==> HasPair(rows, p[i], p[i + 1])
  }

  /** Task `b` is reached from task `a` by following zero or more dependencies. */
  ghost predicate Reachable(rows: seq<Dependency>, a: int, b: int)
  {
    exists p :: IsPath(rows, p) && p[0] == a && p[|p| - 1] == b
  }

  /** No row (t, d) has t reachable from d: the dependency graph has no cycle. */
  ghost predicate Acyclic(rows: seq<Dependency>)
  {
    forall k :: 0 <= k < |rows| ==> !Reachable(rows, rows[k].dependsOnTaskId, rows[k].taskId)
  }

  lemma ReachableRefl(rows: seq<Dependency>, a: int)
    ensures Reachable(rows, a, a)
  {
    assert IsPath(rows, [a]);
  }

  lemma ReachableStep(rows: seq<Dependency>, a: int, b: int, c: int)
    requires Reachable(rows, a, b) && HasPair(rows, b, c)
    ensures Reachable(rows, a, c)
  {
    var p :| IsPath(rows, p) && p[0] == a && p[|p| - 1] == b;
    var q := p + [c];
    assert forall i :: 0 <= i < |q| - 1 ==> q[i] == p[i];
    assert IsPath(rows, q);
  }

  lemma ReachableTrans(rows: seq<Dependency>, a: int, b: int, c: int)
    requires Reachable(rows, a, b) && Reachable(rows, b, c)
    ensures Reachable(rows, a, c)
  {
    var p :| IsPath(rows, p) && p[0] == a && p[|p| - 1] == b;
    var q :| IsPath(rows, q) && q[0] == b && q[|q| - 1] == c;
    var r := p + q[1..];
    forall i | 0 <= i < |r| - 1 ensures HasPair(rows, r[i], r[i + 1]) {
      if i < |p| - 1 {
        assert r[i] == p[i] && r[i + 1] == p[i + 1];
      } else {
        assert r[i] == q[i - |p| + 1] && r[i + 1] == q[i - |p| + 2];
      }
    }
    assert r[|r| - 1] == c by {
      if |q| == 1 {
        assert r == p;
      } else {
        assert r[|r| - 1] == q[|q| - 1];
      }
    }
    assert IsPath(rows, r) && r[0] == a;
  }

  /** Every walk that starts in a set closed under "depends on" stays in it. */
  lemma {:induction false} ClosedSetTrapsPaths(rows: seq<Dependency>, s: set<int>, p: seq<int>)
    requires IsPath(rows, p) && p[0] in s
    requires forall x, y :: x in s && HasPair(rows, x, y) ==> y in s
    ensures p[|p| - 1] in s
  {
    if |p| > 1 {
      var q := p[..|p| - 1];
      forall i | 0 <= i < |q| - 1 ensures HasPair(rows, q[i], q[i + 1]) {
        assert q[i] == p[i] && q[i + 1] == p[i + 1];
      }
      ClosedSetTrapsPaths(rows, s, q);
      assert HasPair(rows, p[|p| - 2], p[|p| - 1]);
    }
  }

  /** The task ids that occur in the table, together with `d`. */
  function Universe(rows: seq<Dependency>, d: int): (u: set<int>)
    ensures d in u
    ensures forall x, y :: HasPair(rows, x, y) ==> y in u
  {
    {d} + set k | 0 <= k < |rows| :: rows[k].dependsOnTaskId
  }

  /**
   * `checkCircularDependency(taskId, dependsOnTaskId)`: a depth-first search
   * from `dependsOnTaskId` with an explicit stack and a visited set. It
   * reports a cycle exactly when `taskId` is reachable from
   * `dependsOnTaskId`, that is, when the row (taskId, dependsOnTaskId) would
   * close one.
   */
  method CheckCircularDependency(rows: seq<Dependency>, taskId: int, dependsOnTaskId: int) returns (circular: bool)
    ensures circular <==> Reachable(rows, dependsOnTaskId, taskId)
  {
    var u := Universe(rows, dependsOnTaskId);
    var visited: set<int> := {};
    var stack := [dependsOnTaskId];
    ReachableRefl(rows, dependsOnTaskId);
    while |stack| > 0
      invariant SearchInvariant(rows, dependsOnTaskId, taskId, u, visited, stack)
      decreases |u - visited|, |stack|
    {
      var current := stack[|stack| - 1];
      if current in visited {
        PopVisited(rows, dependsOnTaskId, taskId, u, visited, stack);
        stack := stack[..|stack| - 1];
        continue;
      }
      if current == taskId {
        return true;
      }
      Expand(rows, dependsOnTaskId, taskId, u, visited, stack);
      visited, stack := visited + {current}, stack[..|stack| - 1] + Successors(rows, current);
    }
    forall p | IsPath(rows, p) && p[0] == dependsOnTaskId ensures p[|p| - 1] in visited {
      ClosedSetTrapsPaths(rows, visited, p);
    }
    return false;
  }

  /**
   * What the search keeps: every id seen or pending is in the universe and
   * reachable from the start, the target has not been seen, the start has
   * been seen or is pending, and every dependency of a seen id has been seen
   * or is pending.
   */
  ghost predicate SearchInvariant(rows: seq<Dependency>, start: int, target: int, u: set<int>, visited: set<int>, stack: seq<int>)
  {
    && visited <= u && (forall x :: x in stack ==> x in u)
    && (forall x :: x in visited ==> Reachable(rows, start, x))
    && (forall x :: x in stack ==> Reachable(rows, start, x))
    && target !in visited
    && (start in visited || start in stack)
    && (forall x, y :: x in visited && HasPair(rows, x, y) ==> y in visited || y in stack)
  }

  /** Dropping an id already seen from the top of the stack keeps the search invariant. */
  lemma PopVisited(rows: seq<Dependency>, start: int, target: int, u: set<int>, visited: set<int>, stack: seq<int>)
    requires |stack| > 0 && stack[|stack| - 1] in visited
    requires SearchInvariant(rows, start, target, u, visited, stack)
    ensures SearchInvariant(rows, start, target, u, visited, stack[..|stack| - 1])
  {
    var rest := stack[..|stack| - 1];
    assert stack == rest + [stack[|stack| - 1]];
    assert forall x :: x in stack ==> x in rest || x in visited;
  }

  /**
   * Marking the top of the stack seen and pushing its dependencies keeps the
   * search invariant and leaves fewer unseen ids in the universe.
   */
  lemma Expand(rows: seq<Dependency>, start: int, target: int, u: set<int>, visited: set<int>, stack: seq<int>)
    requires |stack| > 0 && stack[|stack| - 1] !in visited && stack[|stack| - 1] != target
    requires forall x, y :: HasPair(rows, x, y) ==> y in u
    requires SearchInvariant(rows, start, target, u, visited, stack)
    ensures var current := stack[|stack| - 1];
      && SearchInvariant(rows, start, target, u, visited + {current}, stack[..|stack| - 1] + Successors(rows, current))
      && |u - (visited + {current})| < |u - visited|
  {
    var current := stack[|stack| - 1];
    var rest := stack[..|stack| - 1];
    var next := Successors(rows, current);
    assert stack == rest + [current];
    forall y | y in next ensures Reachable(rows, start, y) {
      ReachableStep(rows, start, current, y);
    }
    assert u - (visited + {current}) < u - visited by {
      assert current in u - visited;
    }
  }

  lemma HasPairAppend(rows: seq<Dependency>, e: Dependency, x: int, y: int)
    ensures HasPair(rows + [e], x, y) <==> HasPair(rows, x, y) || (x == e.taskId && y == e.dependsOnTaskId)
  {
    if HasPair(rows + [e], x, y) {
      var k :| 0 <= k < |rows + [e]| && (rows + [e])[k].taskId == x && (rows + [e])[k].dependsOnTaskId == y;
      if k < |rows| {
        assert rows[k] == (rows + [e])[k];
      }
    }
    if HasPair(rows, x, y) {
      var k :| 0 <= k < |rows| && rows[k].taskId == x && rows[k].dependsOnTaskId == y;
      assert (rows + [e])[k] == rows[k];
    }
    assert (rows + [e])[|rows|] == e;
  }

  /** A walk in the table with `e` added either avoids `e` or passes through it. */
  lemma {:induction false} SplitPath(rows: seq<Dependency>, e: Dependency, p: seq<int>)
    requires IsPath(rows + [e], p)
    ensures Reachable(rows, p[0], p[|p| - 1])
      || (Reachable(rows, p[0], e.taskId) && Reachable(rows, e.dependsOnTaskId, p[|p| - 1]))
  {
    if |p| == 1 {
      ReachableRefl(rows, p[0]);
    } else {
      var q := p[..|p| - 1];
      forall i | 0 <= i < |q| - 1 ensures HasPair(rows + [e], q[i], q[i + 1]) {
        assert q[i] == p[i] && q[i + 1] == p[i + 1];
      }
      SplitPath(rows, e, q);
      var x, y := p[|p| - 2], p[|p| - 1];
      assert q[|q| - 1] == x;
      assert HasPair(rows + [e], x, y);
      HasPairAppend(rows, e, x, y);
      if HasPair(rows, x, y) {
        if Reachable(rows, p[0], x) {
          ReachableStep(rows, p[0], x, y);
        } else {
          ReachableStep(rows, e.dependsOnTaskId, x, y);
        }
      } else {
        ReachableRefl(rows, e.dependsOnTaskId);
      }
    }
  }

  lemma ReachAfterInsert(rows: seq<Dependency>, e: Dependency, a: int, b: int)
    ensures Reachable(rows + [e], a, b) ==>
      Reachable(rows, a, b) || (Reachable(rows, a, e.taskId) && Reachable(rows, e.dependsOnTaskId, b))
  {
    if Reachable(rows + [e], a, b) {
      var p :| IsPath(rows + [e], p) && p[0] == a && p[|p| - 1] == b;
      SplitPath(rows, e, p);
    }
  }

  lemma ChainThroughEdge(rows: seq<Dependency>, a: int, u: int, v: int, b: int)
    requires HasPair(rows, u, v)
    ensures Reachable(rows, a, u) && Reachable(rows, v, b) ==> Reachable(rows, a, b)
  {
    if Reachable(rows, a, u) && Reachable(rows, v, b) {
      ReachableStep(rows, a, u, v);
      ReachableTrans(rows, a, v, b);
    }
  }

  /** Adding a row that the cycle check lets through keeps an acyclic table acyclic. */
  lemma InsertPreservesAcyclic(rows: seq<Dependency>, e: Dependency)
    requires Acyclic(rows)
    requires !Reachable(rows, e.dependsOnTaskId, e.taskId)
    ensures Acyclic(rows + [e])
  {
    var n := rows + [e];
    forall k | 0 <= k < |n| ensures !Reachable(n, n[k].dependsOnTaskId, n[k].taskId) {
      var u, v := n[k].taskId, n[k].dependsOnTaskId;
      ReachAfterInsert(rows, e, v, u);
      if k < |rows| {
        assert n[k] == rows[k];
        ChainThroughEdge(rows, e.dependsOnTaskId, u, v, e.taskId);
      }
    }
  }

  /** Every walk over a table whose pairs all occur in a second table is a walk there too. */
  lemma ReachableInSupergraph(sub: seq<Dependency>, sup: seq<Dependency>, a: int, b: int)
    requires forall x, y :: HasPair(sub, x, y) ==> HasPair(sup, x, y)
    ensures Reachable(sub, a, b) ==> Reachable(sup, a, b)
  {
    if Reachable(sub, a, b) {
      var p :| IsPath(sub, p) && p[0] == a && p[|p| - 1] == b;
      assert IsPath(sup, p);
    }
  }

  /** Dropping or editing rows without adding a pair cannot create a cycle. */
  lemma AcyclicSubgraph(sub: seq<Dependency>, sup: seq<Dependency>)
    requires Acyclic(sup)
    requires forall x, y :: HasPair(sub, x, y) ==> HasPair(sup, x, y)
    ensures Acyclic(sub)
  {
    forall k | 0 <= k < |sub| ensures !Reachable(sub, sub[k].dependsOnTaskId, sub[k].taskId) {
      var t, d := sub[k].taskId, sub[k].dependsOnTaskId;
      assert HasPair(sub, t, d);
      var j :| 0 <= j < |sup| && sup[j].taskId == t && sup[j].dependsOnTaskId == d;
      ReachableInSupergraph(sub, sup, d, t);
    }
  }

  /** What the table keeps true: the unique index, no cycle, and ids below the next auto-increment value. */
  ghost predicate TableInvariant(rows: seq<Dependency>, nextId: int)
  {
    && UniquePairs(rows)
    && Acyclic(rows)
    && (forall k :: 0 <= k < |rows| ==> rows[k].id < nextId)
    && (forall i, j :: 0 <= i < j < |rows| ==> rows[i].id != rows[j].id)
  }

  const NotAuthenticated: string := "User not authenticated"
  const TaskNotFound: string := "Task not found"
  const DependencyTaskNotFound: string := "Dependency task not found"
  const NotAuthorizedCreate: string := "Not authorized to create task dependencies"
  const SelfDependency: string := "A task cannot depend on itself"
  const AlreadyExists: string := "Dependency already exists"
  const CircularReference: string := "Creating this dependency would create a circular reference"
  const CreateFailed: string := "Failed to create task dependency"
  const DependencyNotFound: string := "Task dependency not found"
  const NotAuthorizedUpdate: string := "Not authorized to update task dependencies"
  const UpdateFailed: string := "Failed to update task dependency"
  const NotAuthorizedDelete: string := "Not authorized to delete task dependencies"
  const Deleted: string := "Task dependency deleted successfully"

  /**
   * The permission test of create, update and delete as written: the task is
   * loaded without its project, so the project owner is never seen and only
   * administrators pass.
   */
  predicate AsWrittenMayManage(caller: Caller)
  {
    var projectOwnerId: Option<UserId> := None;
    IsAdmin(caller) || projectOwnerId == Some(caller.id)
  }

  /** The intended test: an administrator, or the owner of the task's project. */
  predicate MayManage(caller: Caller, projects: seq<Project>, task: Option<Task>)
  {
    IsAdmin(caller) || (task.Some? && ProjectOwnerOf(projects, task.value) == Some(caller.id))
  }

  /** As written, the owner of a task's project who is not an administrator is refused, although the rule admits owners. */
  lemma AsWrittenLocksOutOwner(owner: UserId, project: Project, task: Task)
    requires project.ownerId == owner && task.projectId == project.id
    ensures !AsWrittenMayManage(Caller(owner, Employee))
    ensures MayManage(Caller(owner, Employee), [project], Some(task))
  {
  }

  /** The body of a create request; `None` is an absent or null field. */
  datatype CreateBody = CreateBody(taskId: int, dependsOnTaskId: int, dependencyType: Option<string>, lagTime: Option<int>)

  /** A `lagTime` body field of an update: absent, JSON null, or a number. */
  datatype LagField = Absent | Null | Days(days: int)

  datatype UpdateBody = UpdateBody(dependencyType: Option<string>, lagTime: LagField)

  /** `dependencyType || fallback`, then the database enum check. */
  function TypeOrDefault(given: Option<string>, fallback: DependencyType): (r: Option<DependencyType>)
    ensures given.None? || given.value == "" ==> r == Some(fallback)
    ensures given.Some? && given.value != "" ==> r == ParseDependencyType(given.value)
  {
    if given.None? || given.value == "" then Some(fallback) else ParseDependencyType(given.value)
  }

  /** `lagTime || 0` */
  function LagOrZero(given: Option<int>): (r: int)
    ensures given.Some? && given.value != 0 ==> r == given.value
    ensures given.None? || given.value == 0 ==> r == 0
  {
    if given.Some? then given.value else 0
  }

  /**
   * `createTaskDependency`: the checks in the order the handler makes them,
   * then the insert. The stored type and lag fall back to finish-to-start
   * and 0; a type outside the enum fails the insert.
   */
  ghost function CreateSpec(rows: seq<Dependency>, nextId: int, caller: Option<Caller>, tasks: seq<Task>, projects: seq<Project>,
                            body: CreateBody): (seq<Dependency>, int, Result<Dependency>)
  {
    var failure := CreateFailure(rows, caller, tasks, projects, body);
    if failure.Some? then (rows, nextId, Err(failure.value))
    else
      var row := Dependency(nextId, body.taskId, body.dependsOnTaskId, TypeOrDefault(body.dependencyType, FinishToStart).value,
                            Some(LagOrZero(body.lagTime)));
      (rows + [row], nextId + 1, Ok(row))
  }

  /** The first check a create fails, in the handler's order, or none when the row can be inserted. */
  ghost function CreateFailure(rows: seq<Dependency>, caller: Option<Caller>, tasks: seq<Task>, projects: seq<Project>,
                               body: CreateBody): Option<Failure>
  {
    var task := FindTask(tasks, body.taskId);
    if CallerId(caller).None? then Some(Unauthorized(NotAuthenticated))
    else if task.None? then Some(NotFound(TaskNotFound))
    else if FindTask(tasks, body.dependsOnTaskId).None? then Some(NotFound(DependencyTaskNotFound))
    else if !MayManage(caller.value, projects, task) then Some(Forbidden(NotAuthorizedCreate))
    else if body.taskId == body.dependsOnTaskId then Some(BadRequest(SelfDependency))
    else if HasPair(rows, body.taskId, body.dependsOnTaskId) then Some(BadRequest(AlreadyExists))
    else if Reachable(rows, body.dependsOnTaskId, body.taskId) then Some(BadRequest(CircularReference))
    else if TypeOrDefault(body.dependencyType, FinishToStart).None? then Some(ServerError(CreateFailed))
    else None
  }

  /**
   * The row the insert stores once every check has passed: the next id, the
   * pair, and the type and lag with their fallbacks. The pair is new and
   * closes no cycle, and the create appends exactly this row.
   */
  method NewRow(rows: seq<Dependency>, nextId: int, caller: Option<Caller>, tasks: seq<Task>, projects: seq<Project>,
                      body: CreateBody)
    returns (row: Dependency)
    requires CreateFailure(rows, caller, tasks, projects, body).None?
    ensures !HasPair(rows, body.taskId, body.dependsOnTaskId)
    ensures !Reachable(rows, body.dependsOnTaskId, body.taskId)
    ensures TypeOrDefault(body.dependencyType, FinishToStart).Some?
    ensures row == Dependency(nextId, body.taskId, body.dependsOnTaskId, TypeOrDefault(body.dependencyType, FinishToStart).value,
                              Some(LagOrZero(body.lagTime)))
    ensures CreateSpec(rows, nextId, caller, tasks, projects, body) == (rows + [row], nextId + 1, Ok(row))
  {
    row := Dependency(nextId, body.taskId, body.dependsOnTaskId, TypeOrDefault(body.dependencyType, FinishToStart).value,
                      Some(LagOrZero(body.lagTime)));
  }

  /** The handler's checks, run in order; the search decides the cycle check. */
  method CheckCreate(rows: seq<Dependency>, caller: Option<Caller>, tasks: seq<Task>, projects: seq<Project>, body: CreateBody)
    returns (failure: Option<Failure>)
    ensures failure == CreateFailure(rows, caller, tasks, projects, body)
  {
    var task := FindTask(tasks, body.taskId);
    if CallerId(caller).None? {
      return Some(Unauthorized(NotAuthenticated));
    }
    if task.None? {
      return Some(NotFound(TaskNotFound));
    }
    if FindTask(tasks, body.dependsOnTaskId).None? {
      return Some(NotFound(DependencyTaskNotFound));
    }
    if !MayManage(caller.value, projects, task) {
      return Some(Forbidden(NotAuthorizedCreate));
    }
    if body.taskId == body.dependsOnTaskId {
      return Some(BadRequest(SelfDependency));
    }
    if FindPair(rows, body.taskId, body.dependsOnTaskId) {
      return Some(BadRequest(AlreadyExists));
    }
    var circular := CheckCircularDependency(rows, body.taskId, body.dependsOnTaskId);
    if circular {
      return Some(BadRequest(CircularReference));
    }
    if TypeOrDefault(body.dependencyType, FinishToStart).None? {
      return Some(ServerError(CreateFailed));
    }
    return None;
  }

  /** A create succeeds exactly when every check passes, and then appends just the new row. */
  lemma CreateSucceedsExactlyWhenChecksPass(rows: seq<Dependency>, nextId: int, caller: Option<Caller>, tasks: seq<Task>,
                                            projects: seq<Project>, body: CreateBody)
    ensures var (after, next, r) := CreateSpec(rows, nextId, caller, tasks, projects, body);
      && (r.Ok? <==>
            && caller.Some? && caller.value.id != 0
            && (exists i :: 0 <= i < |tasks| && tasks[i].id == body.taskId)
            && (exists i :: 0 <= i < |tasks| && tasks[i].id == body.dependsOnTaskId)
            && MayManage(caller.value, projects, FindTask(tasks, body.taskId))
            && body.taskId != body.dependsOnTaskId
            && !HasPair(rows, body.taskId, body.dependsOnTaskId)
            && !Reachable(rows, body.dependsOnTaskId, body.taskId)
            && TypeOrDefault(body.dependencyType, FinishToStart).Some?)
      && (r.Ok? ==> after == rows + [r.value] && next == nextId + 1
                    && r.value.taskId == body.taskId && r.value.dependsOnTaskId == body.dependsOnTaskId
                    && r.value.id == nextId)
      && (r.Err? ==> after == rows && next == nextId)
  {
    var (after, next, r) := CreateSpec(rows, nextId, caller, tasks, projects, body);
    if FindTask(tasks, body.taskId).Some? {
      assert tasks[0..|tasks|] == tasks;
    }
  }

  /** With neither a type nor a lag given, the new row is finish-to-start with no delay. */
  lemma CreateDefaults(rows: seq<Dependency>, nextId: int, caller: Option<Caller>, tasks: seq<Task>, projects: seq<Project>, t: int, d: int)
    requires CreateSpec(rows, nextId, caller, tasks, projects, CreateBody(t, d, None, None)).2.Ok?
    ensures var row := CreateSpec(rows, nextId, caller, tasks, projects, CreateBody(t, d, None, None)).2.value;
      row.dependencyType == FinishToStart && row.lagTime == Some(0)
  {
  }

  /** Appending a fresh, cycle-free pair with the next id keeps the table invariant. */
  lemma AppendKeepsInvariant(rows: seq<Dependency>, nextId: int, e: Dependency)
    requires TableInvariant(rows, nextId)
    requires e.id == nextId && !HasPair(rows, e.taskId, e.dependsOnTaskId)
    requires !Reachable(rows, e.dependsOnTaskId, e.taskId)
    ensures TableInvariant(rows + [e], nextId + 1)
  {
    InsertPreservesAcyclic(rows, e);
    var after := rows + [e];
    forall i, j | 0 <= i < j < |after|
      ensures (after[i].taskId, after[i].dependsOnTaskId) != (after[j].taskId, after[j].dependsOnTaskId)
    {
      if j == |rows| {
        assert after[i] == rows[i];
        assert !(rows[i].taskId == e.taskId && rows[i].dependsOnTaskId == e.dependsOnTaskId);
      }
    }
  }

  /** Every create keeps the unique index, acyclicity and the id bound. */
  lemma CreatePreservesInvariant(rows: seq<Dependency>, nextId: int, caller: Option<Caller>, tasks: seq<Task>,
                                 projects: seq<Project>, body: CreateBody)
    requires TableInvariant(rows, nextId)
    ensures var (after, next, _) := CreateSpec(rows, nextId, caller, tasks, projects, body);
      TableInvariant(after, next)
  {
    CreateSucceedsExactlyWhenChecksPass(rows, nextId, caller, tasks, projects, body);
    var r := CreateSpec(rows, nextId, caller, tasks, projects, body).2;
    if r.Ok? {
      AppendKeepsInvariant(rows, nextId, r.value);
    }
  }

  /** `findByPk(id)` on the table: the position of the row with that id. */
  function FindDependency(rows: seq<Dependency>, id: int): (r: Option<nat>)
    ensures r.Some? ==> r.value < |rows| && rows[r.value].id == id
    ensures r.None? ==> forall k :: 0 <= k < |rows| ==> rows[k].id != id
  {
    if rows == [] then None
    else if rows[0].id == id then Some(0)
    else
      var rest := FindDependency(rows[1..], id);
      if rest.Some? then Some(rest.value + 1) else None
  }

  /**
   * `updateTaskDependency`: 404 for an unknown id, 403 unless allowed, then
   * the type is replaced when a non-empty one is given and the lag whenever
   * the field is present, null included.
   */
  function UpdateSpec(rows: seq<Dependency>, caller: Caller, tasks: seq<Task>, projects: seq<Project>, id: int,
                      body: UpdateBody): (seq<Dependency>, Result<Dependency>)
  {
    var k := FindDependency(rows, id);
    if k.None? then (rows, Err(NotFound(DependencyNotFound)))
    else
      var row := rows[k.value];
      if !MayManage(caller, projects, FindTask(tasks, row.taskId)) then (rows, Err(Forbidden(NotAuthorizedUpdate)))
      else
        var dependencyType := TypeOrDefault(body.dependencyType, row.dependencyType);
        if dependencyType.None? then (rows, Err(ServerError(UpdateFailed)))
        else
          var lag := match body.lagTime
            case Absent => row.lagTime
            case Null => None
            case Days(n) => Some(n);
          var updated := row.(dependencyType := dependencyType.value, lagTime := lag);
          (rows[k.value := updated], Ok(updated))
  }

  /** An update edits one row in place: its pair and id never change, a zero lag is stored as given, and an empty type keeps the old one. */
  lemma UpdateKeepsPair(rows: seq<Dependency>, caller: Caller, tasks: seq<Task>, projects: seq<Project>, id: int, body: UpdateBody)
    ensures var (after, r) := UpdateSpec(rows, caller, tasks, projects, id, body);
      && |after| == |rows|
      && (forall k :: 0 <= k < |rows| ==>
            after[k].id == rows[k].id && after[k].taskId == rows[k].taskId && after[k].dependsOnTaskId == rows[k].dependsOnTaskId)
      && (forall k :: 0 <= k < |rows| && rows[k].id != id ==> after[k] == rows[k])
      && (r.Ok? ==> r.value.id == id
                    && (body.lagTime == Days(0) ==> r.value.lagTime == Some(0))
                    && (body.dependencyType.None? ==> exists k :: 0 <= k < |rows| && rows[k].id == id && r.value.dependencyType == rows[k].dependencyType))
      && (r.Err? ==> after == rows)
  {
    var (after, r) := UpdateSpec(rows, caller, tasks, projects, id, body);
    var k := FindDependency(rows, id);
    if k.Some? && r.Ok? {
      assert rows[k.value].id == id;
    }
  }

  /** Updates and deletes never break the unique index, acyclicity or the id bound. */
  lemma UpdatePreservesInvariant(rows: seq<Dependency>, nextId: int, caller: Caller, tasks: seq<Task>, projects: seq<Project>,
                                 id: int, body: UpdateBody)
    requires TableInvariant(rows, nextId)
    ensures TableInvariant(UpdateSpec(rows, caller, tasks, projects, id, body).0, nextId)
  {
    var after := UpdateSpec(rows, caller, tasks, projects, id, body).0;
    UpdateKeepsPair(rows, caller, tasks, projects, id, body);
    forall x, y | HasPair(after, x, y) ensures HasPair(rows, x, y) {
      var k :| 0 <= k < |after| && after[k].taskId == x && after[k].dependsOnTaskId == y;
    }
    AcyclicSubgraph(after, rows);
  }

  /** `deleteTaskDependency`: 404 for an unknown id, 403 unless allowed, then the row is destroyed. */
  function DeleteSpec(rows: seq<Dependency>, caller: Caller, tasks: seq<Task>, projects: seq<Project>, id: int): (seq<Dependency>, Result<string>)
  {
    var k := FindDependency(rows, id);
    if k.None? then (rows, Err(NotFound(DependencyNotFound)))
    else if !MayManage(caller, projects, FindTask(tasks, rows[k.value].taskId)) then (rows, Err(Forbidden(NotAuthorizedDelete)))
    else (rows[..k.value] + rows[k.value + 1..], Ok(Deleted))
  }

  /** A delete removes exactly the row with that id, when ids are unique, and keeps the table invariant. */
  lemma DeleteRemovesOnlyThatRow(rows: seq<Dependency>, nextId: int, caller: Caller, tasks: seq<Task>, projects: seq<Project>, id: int)
    requires TableInvariant(rows, nextId)
    ensures var (after, r) := DeleteSpec(rows, caller, tasks, projects, id);
      && TableInvariant(after, nextId)
      && (r.Ok? ==> |after| == |rows| - 1 && (forall k :: 0 <= k < |after| ==> after[k].id != id)
                    && forall k :: 0 <= k < |rows| && rows[k].id != id ==> rows[k] in after)
      && (r.Err? ==> after == rows)
  {
    var (after, r) := DeleteSpec(rows, caller, tasks, projects, id);
    if r.Ok? {
      var i := FindDependency(rows, id).value;
      RemovalKeepsInvariant(rows, nextId, i);
      RemovalDropsOnlyId(rows, nextId, i, id);
    }
  }

  /** With unique ids, removing the row with an id drops that id and keeps every other row. */
  lemma RemovalDropsOnlyId(rows: seq<Dependency>, nextId: int, i: nat, id: int)
    requires TableInvariant(rows, nextId) && i < |rows| && rows[i].id == id
    ensures var after := rows[..i] + rows[i + 1..];
      && |after| == |rows| - 1
      && (forall k :: 0 <= k < |after| ==> after[k].id != id)
      && (forall k :: 0 <= k < |rows| && rows[k].id != id ==> rows[k] in after)
  {
    var after := rows[..i] + rows[i + 1..];
    Tables.RemoveAtFacts(rows, i);
    forall k | 0 <= k < |rows| && rows[k].id != id ensures rows[k] in after {
      assert rows[k] == after[if k < i then k else k - 1];
    }
  }

  /** Removing any one row keeps the table invariant. */
  lemma RemovalKeepsInvariant(rows: seq<Dependency>, nextId: int, i: nat)
    requires TableInvariant(rows, nextId) && i < |rows|
    ensures TableInvariant(rows[..i] + rows[i + 1..], nextId)
  {
    var after := rows[..i] + rows[i + 1..];
    RemovalKeepsDistinctRows(rows, nextId, i);
    RemovalAddsNoPair(rows, i);
    AcyclicSubgraph(after, rows);
  }

  /** Removing a row keeps pairs and ids distinct and below the next id. */
  lemma RemovalKeepsDistinctRows(rows: seq<Dependency>, nextId: int, i: nat)
    requires TableInvariant(rows, nextId) && i < |rows|
    ensures var after := rows[..i] + rows[i + 1..];
      && UniquePairs(after)
      && (forall k :: 0 <= k < |after| ==> after[k].id < nextId)
      && (forall j, k :: 0 <= j < k < |after| ==> after[j].id != after[k].id)
  {
    var after := rows[..i] + rows[i + 1..];
    Tables.RemoveAtFacts(rows, i);
    forall j, k | 0 <= j < k < |after|
      ensures (after[j].taskId, after[j].dependsOnTaskId) != (after[k].taskId, after[k].dependsOnTaskId)
      ensures after[j].id != after[k].id
    {
      var j', k' := if j < i then j else j + 1, if k < i then k else k + 1;
      assert after[j] == rows[j'] && after[k] == rows[k'] && j' < k';
    }
  }

  /** Every pair left after removing a row was in the table before. */
  lemma RemovalAddsNoPair(rows: seq<Dependency>, i: nat)
    requires i < |rows|
    ensures forall x, y :: HasPair(rows[..i] + rows[i + 1..], x, y) ==> HasPair(rows, x, y)
  {
    var after := rows[..i] + rows[i + 1..];
    Tables.RemoveAtFacts(rows, i);
    forall x, y | HasPair(after, x, y) ensures HasPair(rows, x, y) {
      var k :| 0 <= k < |after| && after[k].taskId == x && after[k].dependsOnTaskId == y;
      assert after[k] == rows[if k < i then k else k + 1];
    }
  }

  /** Dropping rows keeps the unique pair index, the ids, and (by `AcyclicSubgraph`) acyclicity. */
  lemma RetainKeepsInvariant(rows: seq<Dependency>, nextId: int, keep: Dependency -> bool)
    requires TableInvariant(rows, nextId)
    ensures TableInvariant(Tables.Filter(rows, keep), nextId)
  {
    var after := Tables.Filter(rows, keep);
    var ok := (a: Dependency, b: Dependency) => a.id != b.id && (a.taskId, a.dependsOnTaskId) != (b.taskId, b.dependsOnTaskId);
    assert Tables.Pairwise(rows, ok);
    Tables.FilterPairwise(rows, keep, ok);
    forall k | 0 <= k < |after| ensures after[k].id < nextId {
      assert after[k] in rows;
    }
    forall x, y | HasPair(after, x, y) ensures HasPair(rows, x, y) {
      var k :| 0 <= k < |after| && after[k].taskId == x && after[k].dependsOnTaskId == y;
      assert after[k] in rows;
      var j :| 0 <= j < |rows| && rows[j] == after[k];
    }
    AcyclicSubgraph(after, rows);
  }

  /** The `TaskDependencies` table the handlers update in place. */
  class DependencyTable {
    var rows: seq<Dependency>
    var nextId: int

    ghost predicate Valid()
      reads this
    {
      TableInvariant(rows, nextId)
    }

    constructor ()
      ensures Valid() && rows == [] && nextId == 1
    {
      rows := [];
      nextId := 1;
    }

    /** The database removing the rows `keep` rejects, as an `ON DELETE CASCADE` does. */
    method Retain(keep: Dependency -> bool)
      requires Valid()
      modifies this
      ensures Valid() && nextId == old(nextId)
      ensures rows == Tables.Filter(old(rows), keep)
    {
      RetainKeepsInvariant(rows, nextId, keep);
      rows := Tables.Filter(rows, keep);
    }

    /** `createTaskDependency` */
    method Create(caller: Option<Caller>, tasks: seq<Task>, projects: seq<Project>, body: CreateBody) returns (r: Result<Dependency>)
      requires Valid()
      modifies this
      ensures Valid()
      ensures (rows, nextId, r) == CreateSpec(old(rows), old(nextId), caller, tasks, projects, body)
    {
      var before, next := rows, nextId;
      var failure := CheckCreate(before, caller, tasks, projects, body);
      if failure.Some? {
        r := Err(failure.value);
      } else {
        var row := NewRow(before, next, caller, tasks, projects, body);
        AppendKeepsInvariant(before, next, row);
        rows, nextId, r := before + [row], next + 1, Ok(row);
      }
    }

    /** `updateTaskDependency` */
    method Update(caller: Caller, tasks: seq<Task>, projects: seq<Project>, id: int, body: UpdateBody) returns (r: Result<Dependency>)
      requires Valid()
      modifies this
      ensures Valid()
      ensures nextId == old(nextId)
      ensures (rows, r) == UpdateSpec(old(rows), caller, tasks, projects, id, body)
    {
      UpdatePreservesInvariant(rows, nextId, caller, tasks, projects, id, body);
      var k := FindDependency(rows, id);
      if k.None? {
        return Err(NotFound(DependencyNotFound));
      }
      var row := rows[k.value];
      if !MayManage(caller, projects, FindTask(tasks, row.taskId)) {
        return Err(Forbidden(NotAuthorizedUpdate));
      }
      var dependencyType := TypeOrDefault(body.dependencyType, row.dependencyType);
      if dependencyType.None? {
        return Err(ServerError(UpdateFailed));
      }
      var lag := row.lagTime;
      if body.lagTime != Absent {
        lag := if body.lagTime.Days? then Some(body.lagTime.days) else None;
      }
      var updated := row.(dependencyType := dependencyType.value, lagTime := lag);
      rows := rows[k.value := updated];
      r := Ok(updated);
    }

    /** `deleteTaskDependency` */
    method Delete(caller: Caller, tasks: seq<Task>, projects: seq<Project>, id: int) returns (r: Result<string>)
      requires Valid()
      modifies this
      ensures Valid()
      ensures nextId == old(nextId)
      ensures (rows, r) == DeleteSpec(old(rows), caller, tasks, projects, id)
    {
      var k := FindDependency(rows, id);
      if k.None? {
        return Err(NotFound(DependencyNotFound));
      }
      if !MayManage(caller, projects, FindTask(tasks, rows[k.value].taskId)) {
        return Err(Forbidden(NotAuthorizedDelete));
      }
      RemovalKeepsInvariant(rows, nextId, k.value);
      rows := rows[..k.value] + rows[k.value + 1..];
      r := Ok(Deleted);
    }
  }

  /** `findOne({ where: { taskId, dependsOnTaskId } })`, as a test. */
  function FindPair(rows: seq<Dependency>, t: int, d: int): (found: bool)
    ensures found <==> HasPair(rows, t, d)
  {
    if rows == [] then false
    else if rows[0].taskId == t && rows[0].dependsOnTaskId == d then true
    else
      var rest := FindPair(rows[1..], t, d);
      assert rest <==> HasPair(rows[1..], t, d);
      assert HasPair(rows[1..], t, d) ==> HasPair(rows, t, d) by {
        if HasPair(rows[1..], t, d) {
          var k :| 0 <= k < |rows[1..]| && rows[1..][k].taskId == t && rows[1..][k].dependsOnTaskId == d;
          assert rows[k + 1] == rows[1..][k];
        }
      }
      assert HasPair(rows, t, d) ==> HasPair(rows[1..], t, d) by {
        if HasPair(rows, t, d) {
          var k :| 0 <= k < |rows| && rows[k].taskId == t && rows[k].dependsOnTaskId == d;
          assert k != 0;
          assert rows[1..][k - 1] == rows[k];
        }
      }
      rest
  }
}

=== FILE: task_filter.dfy ===
/**
 * The task list's filter bar: the filter object it edits (status, assignee
 * and project, each possibly unset), the change handlers that rebuild it,
 * clearing, and the count of active filters shown beside the title. A field
 * is active when it is truthy: a non-empty status, a non-zero id.
 */
module TaskFilterView {
  import opened Common

  datatype Filters = Filters(status: Option<string>, assigneeId: Option<int>, projectId: Option<int>)

  predicate StatusActive(f: Filters)
  {
    f.status.Some? && f.status.value != ""
  }

  predicate AssigneeActive(f: Filters)
  {
    f.assigneeId.Some? && f.assigneeId.value != 0
  }

  predicate ProjectActive(f: Filters)
  {
    f.projectId.Some? && f.projectId.value != 0
  }

  /** The names of the active fields, in the order the counter tests them. */
  function ActiveFields(f: Filters): seq<string>
  {
    (if StatusActive(f) then ["status"] else [])
    + (if AssigneeActive(f) then ["assigneeId"] else [])
    + (if ProjectActive(f) then ["projectId"] else [])
  }

  /** The active fields are distinct, so there are at most three, and none exactly when no field is active. */
  lemma ActiveFieldsBounds(f: Filters)
    ensures |ActiveFields(f)| <= 3
    ensures |ActiveFields(f)| == 0 <==> !StatusActive(f) && !AssigneeActive(f) && !ProjectActive(f)
    ensures |ActiveFields(f)| == 3 <==> StatusActive(f) && AssigneeActive(f) && ProjectActive(f)
    ensures forall i, j :: 0 <= i < j < |ActiveFields(f)| ==> ActiveFields(f)[i] != ActiveFields(f)[j]
  {
  }

  /** `getActiveFilterCount`: one for each truthy field. */
  method ActiveFilterCount(f: Filters) returns (count: int)
    ensures count == |ActiveFields(f)|
    ensures 0 <= count <= 3
  {
    count := 0;
    if StatusActive(f) {
      count := count + 1;
    }
    if AssigneeActive(f) {
      count := count + 1;
    }
    if ProjectActive(f) {
      count := count + 1;
    }
    ActiveFieldsBounds(f);
  }

  /** `handleStatusChange`: `all` unsets the status, any other value sets it. */
  function HandleStatusChange(f: Filters, status: string): (r: Filters)
    ensures r.assigneeId == f.assigneeId && r.projectId == f.projectId
    ensures r.status.None? <==> status == "all"
    ensures status != "all" ==> r.status == Some(status)
  {
    f.(status := if status == "all" then None else Some(status))
  }

  /** `handleAssigneeChange`: 0 (all assignees) unsets the assignee, any other id sets it. */
  function HandleAssigneeChange(f: Filters, assigneeId: int): (r: Filters)
    ensures r.status == f.status && r.projectId == f.projectId
    ensures r.assigneeId.None? <==> assigneeId == 0
    ensures assigneeId != 0 ==> r.assigneeId == Some(assigneeId)
  {
    f.(assigneeId := if assigneeId == 0 then None else Some(assigneeId))
  }

  /** `handleProjectChange`: 0 (all projects) unsets the project, any other id sets it. */
  function HandleProjectChange(f: Filters, projectId: int): (r: Filters)
    ensures r.status == f.status && r.assigneeId == f.assigneeId
    ensures r.projectId.None? <==> projectId == 0
    ensures projectId != 0 ==> r.projectId == Some(projectId)
  {
    f.(projectId := if projectId == 0 then None else Some(projectId))
  }

  /** `clearFilters`: the empty filter object. */
  function ClearFilters(): (r: Filters)
    ensures r.status.None? && r.assigneeId.None? && r.projectId.None?
  {
    Filters(None, None, None)
  }

  /**
   * A change moves the count by the field it touches alone: the count of the
   * other fields, plus one when the new value is active. Cleared filters
   * count zero.
   */
  lemma ChangesCountOneField(f: Filters, status: string, id: int)
    ensures |ActiveFields(HandleStatusChange(f, status))|
         == |ActiveFields(f.(status := None))| + (if status != "all" && status != "" then 1 else 0)
    ensures |ActiveFields(HandleAssigneeChange(f, id))| == |ActiveFields(f.(assigneeId := None))| + (if id != 0 then 1 else 0)
    ensures |ActiveFields(HandleProjectChange(f, id))| == |ActiveFields(f.(projectId := None))| + (if id != 0 then 1 else 0)
    ensures |ActiveFields(ClearFilters())| == 0
  {
  }

  /** The value each select shows: `filters.status || 'all'`, `filters.assigneeId || 0`, `filters.projectId || 0`. */
  function ShownStatus(f: Filters): (s: string)
    ensures s == "all" <==> !StatusActive(f) || f.status.value == "all"
  {
    if StatusActive(f) then f.status.value else "all"
  }

  function ShownId(id: Option<int>): (s: int)
    ensures s == 0 <==> id.None? || id.value == 0
  {
    if id.Some? && id.value != 0 then id.value else 0
  }

  /**
   * Choosing again the option a select shows keeps which filters are active,
   * and a handler applied twice with the same value is applied once.
   */
  lemma ReselectingChangesNothing(f: Filters, status: string, id: int)
    requires f.status != Some("all")
    ensures ActiveFields(HandleStatusChange(f, ShownStatus(f))) == ActiveFields(f)
    ensures ActiveFields(HandleAssigneeChange(f, ShownId(f.assigneeId))) == ActiveFields(f)
    ensures ActiveFields(HandleProjectChange(f, ShownId(f.projectId))) == ActiveFields(f)
    ensures HandleStatusChange(HandleStatusChange(f, status), status) == HandleStatusChange(f, status)
    ensures HandleAssigneeChange(HandleAssigneeChange(f, id), id) == HandleAssigneeChange(f, id)
    ensures HandleProjectChange(HandleProjectChange(f, id), id) == HandleProjectChange(f, id)
  {
  }
}

=== FILE: task_schema.dfy ===
/**
 * The request schemas of the task endpoints: the create and update bodies,
 * the listing query, the `:id` parameter and the time-entry body. A body
 * field is `None` when the JSON body lacks it; numbers are taken as
 * integers. Whether a string is a date, and which instant it names, is
 * decided by the `Date` constructor, a parameter here (`None` for an
 * invalid date); `nowMs` is the clock at validation time.
 */
module TaskSchema {
  import opened Common
  import opened Text
  import opened Entities
  import opened Validation
  import Tasks

  /** `[a-zA-Z0-9\s\-_.,!?()]` */
  predicate IsTitleChar(c: char)
  {
    IsAsciiLetter(c) || IsDigit(c) || IsWhitespace(c) || c in "-_.,!?()"
  }

  /** `.min(3).max(200).regex(/^[a-zA-Z0-9\s\-_.,!?()]+$/)` */
  predicate ValidTitle(t: string)
  {
    3 <= |t| <= 200 && forall i :: 0 <= i < |t| ==> IsTitleChar(t[i])
  }

  /** `.min(10).max(2000)` */
  predicate ValidDescription(d: string)
  {
    10 <= |d| <= 2000
  }

  /** One comma-separated label: 2 to 50 characters once trimmed. */
  predicate ValidLabel(l: string)
  {
    2 <= |Trim(l)| <= 50
  }

  /** The `labels` refinement: an absent or empty string passes; otherwise every comma-separated piece is a valid label. */
  predicate ValidLabels(labels: Option<string>)
  {
    labels.None? || labels.value == "" ||
    var pieces := Split(labels.value, ',');
    forall i :: 0 <= i < |pieces| ==> ValidLabel(pieces[i])
  }

  /** The `dueDate` refinement: an absent or empty string passes; otherwise it must name an instant after now. */
  predicate ValidDueDate(d: Option<string>, parseDate: string -> Option<int>, nowMs: int)
  {
    d.None? || d.value == "" || (parseDate(d.value).Some? && parseDate(d.value).value > nowMs)
  }

  /** `.int().min(1).max(1000).optional()` */
  predicate ValidEstimate(h: Option<int>)
  {
    h.None? || 1 <= h.value <= 1000
  }

  /** `.int().min(0).max(1000).optional()` */
  predicate ValidActual(h: Option<int>)
  {
    h.None? || 0 <= h.value <= 1000
  }

  /** `z.array(z.number().int().positive())` */
  predicate PositiveIds(ids: seq<int>)
  {
    forall i :: 0 <= i < |ids| ==> ids[i] > 0
  }

  datatype CreateTaskBody = CreateTaskBody(
    title: Option<string>,
    description: Option<string>,
    projectId: Option<int>,
    assigneeId: Option<int>,
    status: Option<string>,
    priority: Option<string>,
    dueDate: Option<string>,
    labels: Option<string>,
    estimatedHours: Option<int>,
    dependencies: Option<seq<int>>)

  datatype CreateTaskData = CreateTaskData(
    title: string,
    description: string,
    projectId: int,
    assigneeId: int,
    status: TaskStatus,
    priority: Priority,
    dueDate: Option<string>,
    labels: Option<string>,
    estimatedHours: Option<int>,
    dependencies: seq<int>)

  /** The status field: `todo` when absent, otherwise one of the enumeration's names. */
  function StatusOrDefault(s: Option<string>): (r: Option<TaskStatus>)
    ensures s.None? ==> r == Some(Todo)
    ensures s.Some? ==> (r.Some? <==> exists st :: TaskStatusName(st) == s.value)
    ensures s.Some? && r.Some? ==> TaskStatusName(r.value) == s.value
  {
    if s.None? then Some(Todo)
    else
      var r := ParseTaskStatus(s.value);
      assert r.None? ==> TaskStatusName(Todo) != s.value;
      r
  }

  /** The priority field: `medium` when absent, otherwise one of the enumeration's names. */
  function PriorityOrDefault(s: Option<string>): (r: Option<Priority>)
    ensures s.None? ==> r == Some(Medium)
    ensures s.Some? ==> (r.Some? <==> exists p :: PriorityName(p) == s.value)
    ensures s.Some? && r.Some? ==> PriorityName(r.value) == s.value
  {
    if s.None? then Some(Medium)
    else
      var r := ParsePriority(s.value);
      assert r.None? ==> PriorityName(Medium) != s.value;
      r
  }

  /** `CreateTaskSchema.parse(body)` */
  function ParseCreateTask(b: CreateTaskBody, parseDate: string -> Option<int>, nowMs: int): (r: Option<CreateTaskData>)
    ensures r.Some? <==>
      && b.title.Some? && ValidTitle(b.title.value)
      && b.description.Some? && ValidDescription(b.description.value)
      && b.projectId.Some? && b.projectId.value > 0
      && b.assigneeId.Some? && b.assigneeId.value > 0
      && StatusOrDefault(b.status).Some?
      && PriorityOrDefault(b.priority).Some?
      && ValidDueDate(b.dueDate, parseDate, nowMs)
      && ValidLabels(b.labels)
      && ValidEstimate(b.estimatedHours)
      && (b.dependencies.None? || PositiveIds(b.dependencies.value))
    ensures r.Some? ==>
      && r.value.title == b.title.value && r.value.description == b.description.value
      && r.value.projectId == b.projectId.value && r.value.assigneeId == b.assigneeId.value
      && r.value.dueDate == b.dueDate && r.value.labels == b.labels && r.value.estimatedHours == b.estimatedHours
      && (b.status.None? ==> r.value.status == Todo)
      && (b.status.Some? ==> TaskStatusName(r.value.status) == b.status.value)
      && (b.priority.None? ==> r.value.priority == Medium)
      && (b.priority.Some? ==> PriorityName(r.value.priority) == b.priority.value)
      && (b.dependencies.None? ==> r.value.dependencies == [])
      && (b.dependencies.Some? ==> r.value.dependencies == b.dependencies.value)
      && PositiveIds(r.value.dependencies)
  {
    var status := StatusOrDefault(b.status);
    var priority := PriorityOrDefault(b.priority);
    if && b.title.Some? && ValidTitle(b.title.value)
       && b.description.Some? && ValidDescription(b.description.value)
       && b.projectId.Some? && b.projectId.value > 0
       && b.assigneeId.Some? && b.assigneeId.value > 0
       && status.Some? && priority.Some?
       && ValidDueDate(b.dueDate, parseDate, nowMs)
       && ValidLabels(b.labels)
       && ValidEstimate(b.estimatedHours)
       && (b.dependencies.None? || PositiveIds(b.dependencies.value))
    then
      Some(CreateTaskData(b.title.value, b.description.value, b.projectId.value, b.assigneeId.value,
        status.value, priority.value, b.dueDate, b.labels, b.estimatedHours,
        if b.dependencies.Some? then b.dependencies.value else []))
    else None
  }

  /**
   * The due date `createTask` and `updateTask` hand to the database: none
   * for an absent string, the empty string as it is (the schema lets it
   * through, the column refuses it), and otherwise the instant the string
   * names.
   */
  function DueInstant(d: Option<string>, parseDate: string -> Option<int>): (r: Option<Tasks.DueDate>)
    ensures d.None? ==> r.None?
    ensures d == Some("") ==> r == Some(Tasks.EmptyDate)
    ensures d.Some? && d.value != "" && parseDate(d.value).Some? ==> r == Some(Tasks.DueAt(parseDate(d.value).value))
    ensures d.Some? && d.value != "" && parseDate(d.value).None? ==> r.None?
  {
    if d.None? then None
    else if d.value == "" then Some(Tasks.EmptyDate)
    else match parseDate(d.value)
      case Some(ms) => Some(Tasks.DueAt(ms))
      case None => None
  }

  /** The fields `createTask` reads from a validated body; `dependencies` is not read. */
  function AsNewTask(d: CreateTaskData, parseDate: string -> Option<int>): Tasks.NewTask
  {
    Tasks.NewTask(d.title, d.description, d.projectId, d.assigneeId, Some(d.status), Some(d.priority),
      DueInstant(d.dueDate, parseDate), d.labels, d.estimatedHours)
  }

  /**
   * Behind the schema every new task has an assignee, so once the task is
   * stored the assignment notification goes out exactly when the assignee is
   * not the creator. A `dueDate` of `""` passes the schema but is never
   * stored: the insert fails and, once the project and permission checks
   * pass, the answer is 500. A stored task has the validated assignee, status
   * and priority, and a due date in the future when it has one.
   */
  lemma ValidatedTaskReachesAssignee(b: CreateTaskBody, parseDate: string -> Option<int>, nowMs: int, caller: Caller,
                                     rows: seq<Task>, nextId: int, projects: seq<Project>, users: seq<User>)
    requires ParseCreateTask(b, parseDate, nowMs).Some?
    ensures var d := ParseCreateTask(b, parseDate, nowMs).value;
      var body := AsNewTask(d, parseDate);
      var (_, _, r) := Tasks.CreateSpec(rows, nextId, caller, projects, users, body, nowMs);
      var project := FindProject(projects, b.projectId.value);
      && (Tasks.NotifiesAssignee(caller, body) <==> b.assigneeId.value != caller.id)
      && body.assigneeId > 0
      && (b.dueDate == Some("") ==> r.Err?)
      && (b.dueDate == Some("") && project.Some? && Tasks.MayCreateIn(caller, project.value) ==>
            r == Err(ServerError(Tasks.ServerFailure)))
      && (r.Ok? ==>
            && r.value.assigneeId == b.assigneeId.value
            && (r.value.dueDate.Some? ==> r.value.dueDate.value > nowMs)
            && (b.dueDate.None? ==> r.value.dueDate.None?)
            && (b.status.None? ==> r.value.status == Todo)
            && (b.status.Some? ==> TaskStatusName(r.value.status) == b.status.value)
            && (b.priority.Some? ==> PriorityName(r.value.priority) == b.priority.value))
  {
  }

  /** Labels that each pass the rule and hold no comma, joined with commas, pass the rule together. */
  lemma JoinedLabelsPass(labels: seq<string>)
    requires |labels| >= 1
    requires forall i :: 0 <= i < |labels| ==> ValidLabel(labels[i]) && ',' !in labels[i]
    ensures ValidLabels(Some(Join(labels, ',')))
  {
    JoinSplit(labels, ',');
  }

  /** A trailing comma leaves an empty last label, which the rule refuses. */
  lemma TrailingCommaRefused(tag: string)
    requires tag != "" && ',' !in tag
    ensures !ValidLabels(Some(tag + ","))
  {
    SplitAfterPiece(tag, "", ',');
    assert tag + "," == tag + [','] + "";
    var pieces := Split(tag + ",", ',');
    assert pieces == [tag, ""];
    assert !ValidLabel(pieces[1]);
  }

  datatype UpdateTaskBody = UpdateTaskBody(
    title: Option<string>,
    description: Option<string>,
    assigneeId: Option<int>,
    status: Option<string>,
    priority: Option<string>,
    dueDate: Option<string>,
    labels: Option<string>,
    estimatedHours: Option<int>,
    actualHours: Option<int>,
    dependencies: Option<seq<int>>)

  /** Whether the body gives at least one field (the refinement on the parsed object's keys). */
  predicate GivesSomeField(b: UpdateTaskBody)
  {
    || b.title.Some? || b.description.Some? || b.assigneeId.Some? || b.status.Some? || b.priority.Some?
    || b.dueDate.Some? || b.labels.Some? || b.estimatedHours.Some? || b.actualHours.Some? || b.dependencies.Some?
  }

  /** `UpdateTaskSchema.parse(body)`: the edit `updateTask` applies; `dependencies` is validated but not applied. */
  function ParseUpdateTask(b: UpdateTaskBody, parseDate: string -> Option<int>, nowMs: int): (r: Option<Tasks.TaskEdit>)
    ensures r.Some? <==>
      && (b.title.None? || ValidTitle(b.title.value))
      && (b.description.None? || ValidDescription(b.description.value))
      && (b.assigneeId.None? || b.assigneeId.value > 0)
      && (b.status.None? || ParseTaskStatus(b.status.value).Some?)
      && (b.priority.None? || ParsePriority(b.priority.value).Some?)
      && ValidDueDate(b.dueDate, parseDate, nowMs)
      && ValidLabels(b.labels)
      && ValidEstimate(b.estimatedHours)
      && ValidActual(b.actualHours)
      && (b.dependencies.None? || PositiveIds(b.dependencies.value))
      && GivesSomeField(b)
    ensures r.Some? ==>
      && r.value.title == b.title && r.value.description == b.description && r.value.assigneeId == b.assigneeId
      && (r.value.status.Some? <==> b.status.Some?)
      && (b.status.Some? ==> TaskStatusName(r.value.status.value) == b.status.value)
      && (r.value.priority.Some? <==> b.priority.Some?)
      && (b.priority.Some? ==> PriorityName(r.value.priority.value) == b.priority.value)
      && (b.dueDate.None? ==> r.value.dueDate.None?)
      && (b.dueDate == Some("") ==> r.value.dueDate == Some(Tasks.EmptyDate))
      && (b.dueDate.Some? && b.dueDate.value != "" ==>
            parseDate(b.dueDate.value).Some? && r.value.dueDate == Some(Tasks.DueAt(parseDate(b.dueDate.value).value)))
      && r.value.labels == b.labels && r.value.estimatedHours == b.estimatedHours && r.value.actualHours == b.actualHours
  {
    if && (b.title.None? || ValidTitle(b.title.value))
       && (b.description.None? || ValidDescription(b.description.value))
       && (b.assigneeId.None? || b.assigneeId.value > 0)
       && (b.status.None? || ParseTaskStatus(b.status.value).Some?)
       && (b.priority.None? || ParsePriority(b.priority.value).Some?)
       && ValidDueDate(b.dueDate, parseDate, nowMs)
       && ValidLabels(b.labels)
       && ValidEstimate(b.estimatedHours)
       && ValidActual(b.actualHours)
       && (b.dependencies.None? || PositiveIds(b.dependencies.value))
       && GivesSomeField(b)
    then
      Some(Tasks.TaskEdit(
        b.title, b.description,
        if b.status.Some? then ParseTaskStatus(b.status.value) else None,
        if b.priority.Some? then ParsePriority(b.priority.value) else None,
        DueInstant(b.dueDate, parseDate),
        b.assigneeId, b.labels, b.estimatedHours, b.actualHours))
    else None
  }

  /**
   * An empty body is refused, and a body that gives only `dependencies`
   * passes but leaves the task unchanged: that field is never applied.
   */
  lemma UpdateNeedsAField(t: Task, ids: seq<int>, parseDate: string -> Option<int>, nowMs: int)
    ensures ParseUpdateTask(UpdateTaskBody(None, None, None, None, None, None, None, None, None, None), parseDate, nowMs).None?
    ensures PositiveIds(ids) ==>
      var e := ParseUpdateTask(UpdateTaskBody(None, None, None, None, None, None, None, None, None, Some(ids)), parseDate, nowMs);
      e.Some? && Tasks.ApplyEdit(t, e.value) == t
  {
    Tasks.EmptyEditChangesNothing(t);
  }

  datatype TaskQueryInput = TaskQueryInput(
    status: Option<string>,
    priority: Option<string>,
    assigneeId: Option<string>,
    projectId: Option<string>,
    page: Option<string>,
    limit: Option<string>)

  datatype TaskQueryData = TaskQueryData(
    status: Option<TaskStatus>,
    priority: Option<Priority>,
    assigneeId: Option<nat>,
    projectId: Option<nat>,
    page: nat,
    limit: nat)

  /** A field that is optional and, when given, must parse. */
  predicate OptionalParses<T>(s: Option<string>, parse: string -> Option<T>)
  {
    s.None? || parse(s.value).Some?
  }

  /** An optional field's parsed value. */
  function ParseOptional<T>(s: Option<string>, parse: string -> Option<T>): (r: Option<T>)
    ensures r.Some? ==> s.Some? && r == parse(s.value)
    ensures OptionalParses(s, parse) && s.Some? ==> r.Some?
  {
    if s.None? then None else parse(s.value)
  }

  /**
   * `TaskQuerySchema.parse(query)`. The fields are checked in order; `page`
   * and `limit` throw when out of range, which ends the parse at once.
   */
  function ParseTaskQuery(q: TaskQueryInput): (r: Outcome<TaskQueryData>)
    ensures r.Parsed? <==>
      && OptionalParses(q.status, ParseTaskStatus) && OptionalParses(q.priority, ParsePriority)
      && OptionalParses(q.assigneeId, ParseId) && OptionalParses(q.projectId, ParseId)
      && ParsePage(q.page).Parsed? && ParseLimit(q.limit).Parsed?
    ensures r.Thrown? <==> ParsePage(q.page).Thrown? || ParseLimit(q.limit).Thrown?
    ensures ParsePage(q.page).Thrown? ==> r == Thrown(PageTooSmall)
    ensures r.Parsed? ==>
      && 1 <= r.value.page && 1 <= r.value.limit <= MaxLimit
      && (q.page.None? ==> r.value.page == DefaultPage)
      && (q.limit.None? ==> r.value.limit == DefaultLimit)
      && (q.page.Some? ==> r.value.page == DigitsValue(q.page.value))
      && (q.limit.Some? ==> r.value.limit == DigitsValue(q.limit.value))
      && (r.value.status.Some? <==> q.status.Some?)
      && (q.status.Some? ==> TaskStatusName(r.value.status.value) == q.status.value)
      && (r.value.priority.Some? <==> q.priority.Some?)
      && (q.priority.Some? ==> PriorityName(r.value.priority.value) == q.priority.value)
      && (q.assigneeId.None? ==> r.value.assigneeId.None?)
      && (q.assigneeId.Some? ==> r.value.assigneeId == Some(DigitsValue(q.assigneeId.value)))
      && (q.projectId.None? ==> r.value.projectId.None?)
      && (q.projectId.Some? ==> r.value.projectId == Some(DigitsValue(q.projectId.value)))
  {
    var page := ParsePage(q.page);
    var limit := ParseLimit(q.limit);
    if page.Thrown? then Thrown(page.message)
    else if limit.Thrown? then Thrown(limit.message)
    else if && OptionalParses(q.status, ParseTaskStatus) && OptionalParses(q.priority, ParsePriority)
            && OptionalParses(q.assigneeId, ParseId) && OptionalParses(q.projectId, ParseId)
            && page.Parsed? && limit.Parsed?
    then
      Parsed(TaskQueryData(ParseOptional(q.status, ParseTaskStatus), ParseOptional(q.priority, ParsePriority),
        ParseOptional(q.assigneeId, ParseId), ParseOptional(q.projectId, ParseId), page.value, limit.value))
    else Invalid
  }

  /** `TaskParamsSchema.parse(params)`: the `:id` of the task routes. */
  function ParseTaskParams(id: string): (r: Outcome<nat>)
    ensures r.Parsed? <==> IsDigitString(id)
    ensures !r.Thrown?
  {
    if ParseId(id).Some? then Parsed(ParseId(id).value) else Invalid
  }

  /** `updateTask` as routed: the `:id` parameter is checked before the body. */
  function ValidateUpdateRequest(id: string, b: UpdateTaskBody, parseDate: string -> Option<int>, nowMs: int)
    : (r: Result<(nat, Tasks.TaskEdit)>)
    ensures !IsDigitString(id) ==> r == Err(BadRequest(ParamsInvalid))
    ensures IsDigitString(id) && ParseUpdateTask(b, parseDate, nowMs).None? ==> r == Err(BadRequest(BodyInvalid))
    ensures r.Ok? <==> IsDigitString(id) && ParseUpdateTask(b, parseDate, nowMs).Some?
    ensures r.Ok? && (|id| == 1 || id[0] != '0') ==> NatToString(r.value.0) == id
  {
    var p := Respond(ParseTaskParams(id), ParamsInvalid);
    if p.Err? then Err(p.failure)
    else
      var e := ParseUpdateTask(b, parseDate, nowMs);
      if e.None? then Err(BadRequest(BodyInvalid))
      else
        assert |id| == 1 || id[0] != '0' ==> NatToString(p.value) == id by {
          if |id| == 1 || id[0] != '0' {
            DigitsToStringRoundTrip(id);
          }
        }
        Ok((p.value, e.value))
  }
}

=== FILE: tasks.dfy ===
/**
 * The task handlers: listing with its visibility rule and filters, creation
 * with its defaults and the assignment notification, and the update and
 * delete permission rules.
 *
 * An `assigneeId` of 0 stands for a task without an assignee (a null column);
 * user ids are the database's auto-increment integers, which start at 1.
 */
module Tasks {
  import opened Common
  import opened Entities
  import opened Text
  import Tables
  import TaskDependencies
  import TimeEntries
  import Notifications

  const TaskNotFound: string := "Task not found"
  const ProjectNotFound: string := "Project not found"
  const OwnProjectsOnly: string := "You can only create tasks for your own projects"
  const CannotUpdate: string := "Insufficient permissions to update this task"
  const CannotDelete: string := "Insufficient permissions to delete this task"
  const TaskDeleted: string := "Task deleted successfully"
  const ServerFailure: string := "Server error"

  /** Whether `userId` is the task's assignee; a task without one has no assignee to match. */
  predicate IsAssignee(t: Task, userId: UserId)
  {
    t.assigneeId != 0 && t.assigneeId == userId
  }

  // ---------------------------------------------------------------------------
  // getAllTasks
  // ---------------------------------------------------------------------------

  /**
   * The `status`, `assigneeId` and `projectId` query values, as the text the
   * handler reads without a schema; `None` is an absent or empty (falsy)
   * value, so that filter is not added.
   */
  datatype TaskQuery = TaskQuery(status: Option<string>, assigneeId: Option<string>, projectId: Option<string>)

  const Int32Max: int := 0x7FFF_FFFF

  /** Digits that name a 32-bit integer of at most `bound`. */
  predicate DigitsUpTo(s: string, bound: int)
  {
    IsDigitString(s) && DigitsValue(s) <= bound
  }

  /**
   * How the database reads text compared with an `integer` column: decimal
   * digits, with an optional sign, naming a 32-bit integer. Any other text
   * makes it refuse the query.
   */
  function ColumnInt(s: string): (r: Option<int>)
    ensures DigitsUpTo(s, Int32Max) ==> r == Some(DigitsValue(s))
    ensures |s| > 0 && s[0] == '-' && DigitsUpTo(s[1..], Int32Max + 1) ==> r == Some(-(DigitsValue(s[1..]) as int))
    ensures |s| > 0 && s[0] == '+' && DigitsUpTo(s[1..], Int32Max) ==> r == Some(DigitsValue(s[1..]))
    ensures r.Some? ==> -Int32Max - 1 <= r.value <= Int32Max
    ensures r.Some? ==> (|s| > 0 && s[0] in "+-" && IsDigitString(s[1..])) || IsDigitString(s)
  {
    if DigitsUpTo(s, Int32Max) then Some(DigitsValue(s))
    else if |s| > 0 && s[0] == '-' && DigitsUpTo(s[1..], Int32Max + 1) then Some(-(DigitsValue(s[1..]) as int))
    else if |s| > 0 && s[0] == '+' && DigitsUpTo(s[1..], Int32Max) then Some(DigitsValue(s[1..]))
    else None
  }

  /** Every 32-bit integer, written in decimal, is read back as itself. */
  lemma ColumnIntRoundTrip(i: int)
    requires -Int32Max - 1 <= i <= Int32Max
    ensures ColumnInt(IntToString(i)) == Some(i)
  {
    var t := IntToString(i);
    if i < 0 {
      var digits := NatToString(-i);
      assert t == "-" + digits;
      assert t[1..] == digits;
      NatToStringRoundTrip(-i);
      assert !IsDigit(t[0]);
    } else {
      assert t == NatToString(i);
      NatToStringRoundTrip(i);
    }
  }

  /** Text without a digit is refused. */
  lemma ColumnIntNeedsDigits(s: string)
    requires forall k :: 0 <= k < |s| ==> !IsDigit(s[k])
    ensures ColumnInt(s).None?
  {
    if |s| > 1 {
      assert !IsDigit(s[1..][0]);
    } else if |s| == 1 {
      assert !IsDigit(s[0]);
    }
  }

  /** The filters of a query, once the database has read each given value; `None` when it refuses one. */
  datatype TaskFilters = TaskFilters(status: Option<TaskStatus>, assigneeId: Option<int>, projectId: Option<int>)

  /**
   * The `whereClause` as the database reads it: a status that names no
   * status, or an id that is not an integer, makes it refuse the query.
   */
  function Filters(q: TaskQuery): (r: Option<TaskFilters>)
    ensures r.None? <==>
      || (q.status.Some? && ParseTaskStatus(q.status.value).None?)
      || (q.assigneeId.Some? && ColumnInt(q.assigneeId.value).None?)
      || (q.projectId.Some? && ColumnInt(q.projectId.value).None?)
    ensures r.Some? ==>
      && (r.value.status.Some? <==> q.status.Some?)
      && (q.status.Some? ==> TaskStatusName(r.value.status.value) == q.status.value)
      && (r.value.assigneeId.Some? <==> q.assigneeId.Some?)
      && (q.assigneeId.Some? ==> ColumnInt(q.assigneeId.value) == r.value.assigneeId)
      && (r.value.projectId.Some? <==> q.projectId.Some?)
      && (q.projectId.Some? ==> ColumnInt(q.projectId.value) == r.value.projectId)
  {
    if || (q.status.Some? && ParseTaskStatus(q.status.value).None?)
       || (q.assigneeId.Some? && ColumnInt(q.assigneeId.value).None?)
       || (q.projectId.Some? && ColumnInt(q.projectId.value).None?)
    then None
    else
      Some(TaskFilters(
        if q.status.Some? then ParseTaskStatus(q.status.value) else None,
        if q.assigneeId.Some? then ColumnInt(q.assigneeId.value) else None,
        if q.projectId.Some? then ColumnInt(q.projectId.value) else None))
  }

  /** Whether the task satisfies every filter present. */
  predicate MatchesFilters(t: Task, f: TaskFilters)
  {
    && (f.status.None? || t.status == f.status.value)
    && (f.assigneeId.None? || IsAssignee(t, f.assigneeId.value))
    && (f.projectId.None? || t.projectId == f.projectId.value)
  }

  /** `Project.findAll({ where: { ownerId } }).map(p => p.id)` */
  function OwnedProjectIds(projects: seq<Project>, userId: UserId): (ids: seq<int>)
    ensures forall k :: 0 <= k < |projects| && projects[k].ownerId == userId ==> projects[k].id in ids
    ensures forall id :: id in ids ==> exists k :: 0 <= k < |projects| && projects[k].ownerId == userId && projects[k].id == id
  {
    if projects == [] then []
    else
      var rest := OwnedProjectIds(projects[1..], userId);
      assert forall id :: id in rest ==> exists k :: 0 <= k < |projects| && projects[k].ownerId == userId && projects[k].id == id by {
        forall id | id in rest ensures exists k :: 0 <= k < |projects| && projects[k].ownerId == userId && projects[k].id == id {
          var k :| 0 <= k < |projects[1..]| && projects[1..][k].ownerId == userId && projects[1..][k].id == id;
          assert projects[k + 1] == projects[1..][k];
        }
      }
      if projects[0].ownerId == userId then [projects[0].id] + rest else rest
  }

  /** An administrator sees every task; anyone else sees the tasks of the projects they own and the tasks assigned to them. */
  predicate VisibleTo(caller: Caller, projects: seq<Project>, t: Task)
  {
    IsAdmin(caller) || t.projectId in OwnedProjectIds(projects, caller.id) || IsAssignee(t, caller.id)
  }

  /** A listed task with the dependency rows and time entries attached to it. */
  datatype TaskView = TaskView(task: Task, dependencies: seq<TaskDependencies.Dependency>, timeEntries: seq<TimeEntries.TimeEntry>)

  /** `{ ...taskData, dependencies: dependencies || [], timeEntries: timeEntries || [] }` */
  function View(t: Task, deps: seq<TaskDependencies.Dependency>, entries: seq<TimeEntries.TimeEntry>): (v: TaskView)
    ensures v.task == t
    ensures forall d :: d in v.dependencies <==> d in deps && d.taskId == t.id
    ensures forall e :: e in v.timeEntries <==> e in entries && e.taskId == t.id
  {
    TaskView(t,
      Tables.Filter(deps, (d: TaskDependencies.Dependency) => d.taskId == t.id),
      Tables.Filter(entries, (e: TimeEntries.TimeEntry) => e.taskId == t.id))
  }

  /** The views of the tasks in `tasks` that satisfy `pick`, in table order. */
  function Views(tasks: seq<Task>, pick: Task -> bool, deps: seq<TaskDependencies.Dependency>,
                 entries: seq<TimeEntries.TimeEntry>): (r: seq<TaskView>)
    ensures forall v :: v in r ==> v.task in tasks && pick(v.task) && v == View(v.task, deps, entries)
    ensures forall k :: 0 <= k < |tasks| && pick(tasks[k]) ==> View(tasks[k], deps, entries) in r
  {
    if tasks == [] then []
    else
      var rest := Views(tasks[1..], pick, deps, entries);
      assert forall k :: 1 <= k < |tasks| ==> tasks[k] == tasks[1..][k - 1];
      if pick(tasks[0]) then [View(tasks[0], deps, entries)] + rest else rest
  }

  /**
   * `getAllTasks`: the visible tasks that match the filters, each with its
   * dependencies and time entries. The query is not validated: a status that
   * is not a status name, or an id that is not an integer, makes the
   * database refuse the query, which is answered with 500.
   */
  function ListTasks(tasks: seq<Task>, projects: seq<Project>, deps: seq<TaskDependencies.Dependency>,
                     entries: seq<TimeEntries.TimeEntry>, caller: Caller, q: TaskQuery): (r: Result<seq<TaskView>>)
    ensures r.Err? <==>
      || (q.status.Some? && ParseTaskStatus(q.status.value).None?)
      || (q.assigneeId.Some? && ColumnInt(q.assigneeId.value).None?)
      || (q.projectId.Some? && ColumnInt(q.projectId.value).None?)
    ensures r.Err? ==> r.failure == ServerError(ServerFailure)
    ensures r.Ok? ==> forall v :: v in r.value ==>
      && v.task in tasks && VisibleTo(caller, projects, v.task)
      && MatchesFilters(v.task, Filters(q).value)
      && v == View(v.task, deps, entries)
    ensures r.Ok? ==> forall k :: 0 <= k < |tasks| ==>
      (VisibleTo(caller, projects, tasks[k]) && MatchesFilters(tasks[k], Filters(q).value)
       ==> View(tasks[k], deps, entries) in r.value)
  {
    match Filters(q)
    case None => Err(ServerError(ServerFailure))
    case Some(f) => Ok(Views(tasks, (t: Task) => VisibleTo(caller, projects, t) && MatchesFilters(t, f), deps, entries))
  }

  /**
   * An administrator's listing contains every listing of anyone else for the
   * same filters, and a filter only ever removes tasks from a listing.
   */
  lemma ListingsNest(tasks: seq<Task>, projects: seq<Project>, deps: seq<TaskDependencies.Dependency>,
                     entries: seq<TimeEntries.TimeEntry>, admin: Caller, other: Caller, q: TaskQuery)
    requires IsAdmin(admin)
    requires ListTasks(tasks, projects, deps, entries, other, q).Ok?
    ensures ListTasks(tasks, projects, deps, entries, admin, q).Ok?
    ensures forall v :: v in ListTasks(tasks, projects, deps, entries, other, q).value ==>
      v in ListTasks(tasks, projects, deps, entries, admin, q).value
    ensures forall v :: v in ListTasks(tasks, projects, deps, entries, other, q).value ==>
      v in ListTasks(tasks, projects, deps, entries, other, TaskQuery(None, None, None)).value
  {
    var mine := ListTasks(tasks, projects, deps, entries, other, q).value;
    forall v | v in mine
      ensures v in ListTasks(tasks, projects, deps, entries, admin, q).value
      ensures v in ListTasks(tasks, projects, deps, entries, other, TaskQuery(None, None, None)).value
    {
      var k :| 0 <= k < |tasks| && tasks[k] == v.task;
    }
  }

  // ---------------------------------------------------------------------------
  // createTask
  // ---------------------------------------------------------------------------

  /**
   * A due date as a handler passes it to the database: the instant a date
   * string names, or the empty string, which the schema lets through but the
   * timestamp column cannot hold.
   */
  datatype DueDate = DueAt(ms: int) | EmptyDate

  /** Writing an empty due date fails the insert or update, and the handler's `catch` answers 500. */
  predicate UnwritableDue(d: Option<DueDate>)
  {
    d == Some(EmptyDate)
  }

  /** The validated body of a create request; `None` and an `assigneeId` of 0 are absent fields. */
  datatype NewTask = NewTask(
    title: string,
    description: string,
    projectId: int,
    assigneeId: UserId,
    status: Option<TaskStatus>,
    priority: Option<Priority>,
    dueDate: Option<DueDate>,
    labels: Option<string>,
    estimatedHours: Option<int>)

  /** Only an administrator or the project's owner may add tasks to it. */
  predicate MayCreateIn(caller: Caller, project: Project)
  {
    IsAdmin(caller) || project.ownerId == caller.id
  }

  /** The assignment notification goes out when there is an assignee and it is not the creator. */
  predicate NotifiesAssignee(caller: Caller, body: NewTask)
  {
    body.assigneeId != 0 && body.assigneeId != caller.id
  }

  /**
   * `assigneeId` references `Users`: an id that names no user fails the
   * insert or update, and the handler's `catch` answers 500. The id 0 stands
   * for no assignee.
   */
  predicate UnknownAssignee(users: seq<User>, assigneeId: UserId)
  {
    assigneeId != 0 && FindUser(users, assigneeId).None?
  }

  /** Every task id is below the next auto-increment id, so ids are unique. */
  predicate TaskInvariant(rows: seq<Task>, nextId: int)
  {
    && UniqueIds(rows, (t: Task) => t.id)
    && forall k :: 0 <= k < |rows| ==> rows[k].id < nextId
  }

  /** `createTask`: the new table, the next id and the response. */
  function CreateSpec(rows: seq<Task>, nextId: int, caller: Caller, projects: seq<Project>, users: seq<User>, body: NewTask,
                      nowMs: int)
    : (seq<Task>, int, Result<Task>)
  {
    var project := FindProject(projects, body.projectId);
    if project.None? then (rows, nextId, Err(NotFound(ProjectNotFound)))
    else if !MayCreateIn(caller, project.value) then (rows, nextId, Err(Forbidden(OwnProjectsOnly)))
    else if UnknownAssignee(users, body.assigneeId) || UnwritableDue(body.dueDate) then
      (rows, nextId, Err(ServerError(ServerFailure)))
    else
      var t := StoredTask(nextId, body, nowMs);
      (rows + [t], nextId + 1, Ok(t))
  }

  /**
   * The row the insert stores: the next id, the body's fields, status `todo`
   * and priority `medium` unless given, and `actualHours` at the column's
   * default of 0, since the handler does not pass it.
   */
  function StoredTask(nextId: int, body: NewTask, nowMs: int): Task
  {
    Task(nextId, body.title, body.description, body.projectId, body.assigneeId,
      if body.status.Some? then body.status.value else Todo,
      if body.priority.Some? then body.priority.value else Medium,
      if body.dueDate.Some? && body.dueDate.value.DueAt? then Some(body.dueDate.value.ms) else None,
      body.labels, body.estimatedHours, Some(0), nowMs)
  }

  /**
   * A task is created exactly when its project exists, the caller is an
   * administrator or the project's owner, and the assignee, when given, is a
   * user, and the due date is not the empty string; the project is looked
   * up first, and an unknown assignee or an empty due date is a 500.
   * The new task is appended with a fresh id, status `todo` and priority
   * `medium` unless given, and the table invariant is kept.
   */
  lemma CreateOutcome(rows: seq<Task>, nextId: int, caller: Caller, projects: seq<Project>, users: seq<User>, body: NewTask,
                      nowMs: int)
    requires TaskInvariant(rows, nextId)
    ensures var (after, next, r) := CreateSpec(rows, nextId, caller, projects, users, body, nowMs);
      && (FindProject(projects, body.projectId).None? ==> r == Err(NotFound(ProjectNotFound)))
      && (r.Ok? <==> && FindProject(projects, body.projectId).Some?
                     && MayCreateIn(caller, FindProject(projects, body.projectId).value)
                     && !UnknownAssignee(users, body.assigneeId)
                     && !UnwritableDue(body.dueDate))
      && ((&& FindProject(projects, body.projectId).Some?
           && MayCreateIn(caller, FindProject(projects, body.projectId).value)
           && (UnknownAssignee(users, body.assigneeId) || UnwritableDue(body.dueDate)))
          ==> r == Err(ServerError(ServerFailure)))
      && (r.Err? ==> after == rows && next == nextId)
      && (r.Ok? ==>
          && after == rows + [r.value] && r.value.projectId == body.projectId
          && (forall k :: 0 <= k < |rows| ==> rows[k].id != r.value.id)
          && r.value.status == (if body.status.Some? then body.status.value else Todo)
          && r.value.priority == (if body.priority.Some? then body.priority.value else Medium)
          && r.value.actualHours == Some(0)
          && r.value.dueDate == (if body.dueDate.Some? then Some(body.dueDate.value.ms) else None))
      && TaskInvariant(after, next)
  {
    var (after, next, r) := CreateSpec(rows, nextId, caller, projects, users, body, nowMs);
    if r.Ok? {
      assert forall k :: 0 <= k < |rows| ==> after[k] == rows[k];
    }
  }

  // ---------------------------------------------------------------------------
  // updateTask and deleteTask
  // ---------------------------------------------------------------------------

  /** The position of the task with that id. */
  function FindTaskIndex(rows: seq<Task>, id: int): (r: Option<nat>)
    ensures r.Some? ==> r.value < |rows| && rows[r.value].id == id
    ensures r.None? ==> forall k :: 0 <= k < |rows| ==> rows[k].id != id
  {
    Tables.IndexWhere(rows, (t: Task) => t.id == id)
  }

  /** An administrator, the owner of the task's project or the task's assignee may update it. */
  predicate MayUpdate(caller: Caller, projects: seq<Project>, t: Task)
  {
    IsAdmin(caller) || ProjectOwnerOf(projects, t) == Some(caller.id) || IsAssignee(t, caller.id)
  }

  /** Only an administrator or the owner of the task's project may delete it. */
  predicate MayDelete(caller: Caller, projects: seq<Project>, t: Task)
  {
    IsAdmin(caller) || ProjectOwnerOf(projects, t) == Some(caller.id)
  }

  /** Whoever may delete a task may update it, and an assignee who owns neither the project nor the administrator role may only update. */
  lemma DeleteRightsImplyUpdateRights(caller: Caller, projects: seq<Project>, t: Task)
    ensures MayDelete(caller, projects, t) ==> MayUpdate(caller, projects, t)
    ensures IsAssignee(t, caller.id) && !IsAdmin(caller) && ProjectOwnerOf(projects, t) != Some(caller.id) ==>
      MayUpdate(caller, projects, t) && !MayDelete(caller, projects, t)
  {
  }

  /** The validated body of an update request; `None` is a field left out, which keeps its value. */
  datatype TaskEdit = TaskEdit(
    title: Option<string>,
    description: Option<string>,
    status: Option<TaskStatus>,
    priority: Option<Priority>,
    dueDate: Option<DueDate>,
    assigneeId: Option<UserId>,
    labels: Option<string>,
    estimatedHours: Option<int>,
    actualHours: Option<int>)

  /** `task.update({ title, description, status, priority, dueDate, assigneeId, labels, estimatedHours, actualHours })` */
  function ApplyEdit(t: Task, e: TaskEdit): Task
  {
    t.(title := if e.title.Some? then e.title.value else t.title,
       description := if e.description.Some? then e.description.value else t.description,
       status := if e.status.Some? then e.status.value else t.status,
       priority := if e.priority.Some? then e.priority.value else t.priority,
       dueDate := if e.dueDate.Some? && e.dueDate.value.DueAt? then Some(e.dueDate.value.ms) else t.dueDate,
       assigneeId := if e.assigneeId.Some? then e.assigneeId.value else t.assigneeId,
       labels := if e.labels.Some? then e.labels else t.labels,
       estimatedHours := if e.estimatedHours.Some? then e.estimatedHours else t.estimatedHours,
       actualHours := if e.actualHours.Some? then e.actualHours else t.actualHours)
  }

  /**
   * An edit replaces the title, status and assignee exactly when it gives
   * them, and never changes the id, the project or the creation time.
   */
  lemma EditKeepsIdentity(t: Task, e: TaskEdit)
    ensures var r := ApplyEdit(t, e);
      && r.id == t.id && r.projectId == t.projectId && r.createdAt == t.createdAt
      && r.title == (if e.title.Some? then e.title.value else t.title)
      && r.status == (if e.status.Some? then e.status.value else t.status)
      && r.assigneeId == (if e.assigneeId.Some? then e.assigneeId.value else t.assigneeId)
  {
  }

  /** An edit that gives no field leaves the task as it was. */
  lemma EmptyEditChangesNothing(t: Task)
    ensures ApplyEdit(t, TaskEdit(None, None, None, None, None, None, None, None, None)) == t
  {
    var r := ApplyEdit(t, TaskEdit(None, None, None, None, None, None, None, None, None));
    assert r.description == t.description && r.priority == t.priority && r.dueDate == t.dueDate;
    assert r.labels == t.labels && r.estimatedHours == t.estimatedHours && r.actualHours == t.actualHours;
  }

  /** `updateTask` */
  function UpdateSpec(rows: seq<Task>, caller: Caller, projects: seq<Project>, users: seq<User>, id: int, e: TaskEdit)
    : (seq<Task>, Result<Task>)
  {
    var k := FindTaskIndex(rows, id);
    if k.None? then (rows, Err(NotFound(TaskNotFound)))
    else if !MayUpdate(caller, projects, rows[k.value]) then (rows, Err(Forbidden(CannotUpdate)))
    else if (e.assigneeId.Some? && UnknownAssignee(users, e.assigneeId.value)) || UnwritableDue(e.dueDate) then
      (rows, Err(ServerError(ServerFailure)))
    else
      var t := ApplyEdit(rows[k.value], e);
      (rows[k.value := t], Ok(t))
  }

  /**
   * An update changes only the task asked for, keeps its id, and answers
   * 404, 403 or, for an unknown assignee or an empty due date, 500 without
   * change.
   */
  lemma UpdateEditsOnlyThatTask(rows: seq<Task>, nextId: int, caller: Caller, projects: seq<Project>, users: seq<User>, id: int,
                                e: TaskEdit)
    requires TaskInvariant(rows, nextId)
    ensures var (after, r) := UpdateSpec(rows, caller, projects, users, id, e);
      && |after| == |rows|
      && (r.Err? ==> after == rows)
      && (r.Ok? <==> && (exists k :: 0 <= k < |rows| && rows[k].id == id && MayUpdate(caller, projects, rows[k]))
                     && !(e.assigneeId.Some? && UnknownAssignee(users, e.assigneeId.value))
                     && !UnwritableDue(e.dueDate))
      && (forall k :: 0 <= k < |rows| && rows[k].id != id ==> after[k] == rows[k])
      && (forall k :: 0 <= k < |rows| && rows[k].id == id && r.Ok? ==> after[k] == ApplyEdit(rows[k], e) && r.value == after[k])
      && TaskInvariant(after, nextId)
  {
  }

  /** `deleteTask` */
  function DeleteSpec(rows: seq<Task>, caller: Caller, projects: seq<Project>, id: int): (seq<Task>, Result<string>)
  {
    var k := FindTaskIndex(rows, id);
    if k.None? then (rows, Err(NotFound(TaskNotFound)))
    else if !MayDelete(caller, projects, rows[k.value]) then (rows, Err(Forbidden(CannotDelete)))
    else (rows[..k.value] + rows[k.value + 1..], Ok(TaskDeleted))
  }

  /** A deletion removes exactly the task asked for, only for an administrator or the project's owner. */
  lemma DeleteRemovesOnlyThatTask(rows: seq<Task>, nextId: int, caller: Caller, projects: seq<Project>, id: int)
    requires TaskInvariant(rows, nextId)
    ensures var (after, r) := DeleteSpec(rows, caller, projects, id);
      && (r.Err? ==> after == rows)
      && (r.Ok? <==> exists k :: 0 <= k < |rows| && rows[k].id == id && MayDelete(caller, projects, rows[k]))
      && (r.Ok? ==> |after| == |rows| - 1 && forall t :: t in after <==> t in rows && t.id != id)
      && TaskInvariant(after, nextId)
  {
    var k := FindTaskIndex(rows, id);
    if k.Some? {
      RemoveTaskAt(rows, nextId, k.value);
    }
  }

  /** Taking the row at `i` out of the table leaves every other row and keeps ids unique. */
  lemma RemoveTaskAt(rows: seq<Task>, nextId: int, i: nat)
    requires TaskInvariant(rows, nextId) && i < |rows|
    ensures var after := rows[..i] + rows[i + 1..];
      && |after| == |rows| - 1
      && (forall t :: t in after <==> t in rows && t.id != rows[i].id)
      && TaskInvariant(after, nextId)
  {
    var after := rows[..i] + rows[i + 1..];
    assert forall j :: 0 <= j < |after| ==> after[j] == rows[if j < i then j else j + 1];
    forall t ensures t in after <==> t in rows && t.id != rows[i].id {
      if t in rows && t.id != rows[i].id {
        var j :| 0 <= j < |rows| && rows[j] == t;
        assert j != i;
        assert after[if j < i then j else j - 1] == t;
      }
    }
  }

  // ---------------------------------------------------------------------------
  // The Tasks table
  // ---------------------------------------------------------------------------

  /**
   * The end of `createTask`: when the new task has an assignee other than its
   * creator, `notifyTaskAssigned` sends them one unread `task_assigned`
   * notification about it.
   */
  method AnnounceAssignee(notifications: Notifications.NotificationTable, users: seq<User>, tasks: seq<Task>,
                          projects: seq<Project>, taskId: int, caller: Caller, body: NewTask, nowMs: int)
    requires notifications.Valid() && FindTask(tasks, taskId).Some? && !UnknownAssignee(users, body.assigneeId)
    modifies notifications
    ensures notifications.Valid()
    ensures NotifiesAssignee(caller, body) ==>
      && |notifications.rows| == |old(notifications.rows)| + 1
      && notifications.rows[..|old(notifications.rows)|] == old(notifications.rows)
      && var n := notifications.rows[|old(notifications.rows)|];
         n.userId == body.assigneeId && n.notificationType == Notifications.TaskAssigned
         && !n.isRead && n.relatedId == Some(taskId)
    ensures !NotifiesAssignee(caller, body) ==> notifications.rows == old(notifications.rows)
  {
    if body.assigneeId != 0 && body.assigneeId != caller.id {
      var n := notifications.NotifyTaskAssigned(users, tasks, projects, taskId, body.assigneeId, nowMs);
    }
  }

  /** Dropping rows keeps the ids unique and below the next id. */
  lemma RetainKeepsInvariant(rows: seq<Task>, nextId: int, keep: Task -> bool)
    requires TaskInvariant(rows, nextId)
    ensures TaskInvariant(Tables.Filter(rows, keep), nextId)
  {
    var after := Tables.Filter(rows, keep);
    Tables.FilterPairwise(rows, keep, (a: Task, b: Task) => a.id != b.id);
    forall k | 0 <= k < |after| ensures after[k].id < nextId {
      assert after[k] in rows;
    }
  }

  class TaskTable {
    var rows: seq<Task>
    var nextId: int

    predicate Valid()
      reads this
    {
      TaskInvariant(rows, nextId)
    }

    constructor ()
      ensures Valid() && rows == [] && nextId == 1
    {
      rows := [];
      nextId := 1;
    }

    /** The database removing the rows `keep` rejects, as an `ON DELETE CASCADE` does. */
    method Retain(keep: Task -> bool)
      requires Valid()
      modifies this
      ensures Valid() && nextId == old(nextId)
      ensures rows == Tables.Filter(old(rows), keep)
    {
      RetainKeepsInvariant(rows, nextId, keep);
      rows := Tables.Filter(rows, keep);
    }

    /**
     * `createTask`: the task is stored as `CreateSpec` says, and the
     * assignee, when there is one other than the creator, receives one
     * unread `task_assigned` notification about it.
     */
    method Create(caller: Caller, projects: seq<Project>, users: seq<User>, body: NewTask, nowMs: int,
                  notifications: Notifications.NotificationTable)
      returns (r: Result<Task>)
      requires Valid() && notifications.Valid()
      modifies this, notifications
      ensures Valid() && notifications.Valid()
      ensures (rows, nextId, r) == CreateSpec(old(rows), old(nextId), caller, projects, users, body, nowMs)
      ensures r.Ok? && NotifiesAssignee(caller, body) ==>
        && |notifications.rows| == |old(notifications.rows)| + 1
        && notifications.rows[..|old(notifications.rows)|] == old(notifications.rows)
        && var n := notifications.rows[|old(notifications.rows)|];
           n.userId == body.assigneeId && n.notificationType == Notifications.TaskAssigned
           && !n.isRead && n.relatedId == Some(r.value.id)
      ensures !(r.Ok? && NotifiesAssignee(caller, body)) ==> notifications.rows == old(notifications.rows)
    {
      var before, next := rows, nextId;
      var project := FindProject(projects, body.projectId);
      if project.None? {
        return Err(NotFound(ProjectNotFound));
      }
      if !MayCreateIn(caller, project.value) {
        return Err(Forbidden(OwnProjectsOnly));
      }
      if UnknownAssignee(users, body.assigneeId) || UnwritableDue(body.dueDate) {
        return Err(ServerError(ServerFailure));
      }
      var t := StoredTask(next, body, nowMs);
      CreateOutcome(before, next, caller, projects, users, body, nowMs);
      var after := before + [t];
      assert after[|before|] == t;
      rows, nextId, r := after, next + 1, Ok(t);
      assert FindTask(after, t.id).Some? by {
        assert after[|before|].id == t.id;
      }
      AnnounceAssignee(notifications, users, after, projects, t.id, caller, body, nowMs);
    }

    /** `updateTask` */
    method Update(caller: Caller, projects: seq<Project>, users: seq<User>, id: int, e: TaskEdit) returns (r: Result<Task>)
      requires Valid()
      modifies this
      ensures Valid() && nextId == old(nextId)
      ensures (rows, r) == UpdateSpec(old(rows), caller, projects, users, id, e)
    {
      UpdateEditsOnlyThatTask(rows, nextId, caller, projects, users, id, e);
      var k := FindTaskIndex(rows, id);
      if k.None? {
        return Err(NotFound(TaskNotFound));
      }
      if !MayUpdate(caller, projects, rows[k.value]) {
        return Err(Forbidden(CannotUpdate));
      }
      if (e.assigneeId.Some? && UnknownAssignee(users, e.assigneeId.value)) || UnwritableDue(e.dueDate) {
        return Err(ServerError(ServerFailure));
      }
      var t := ApplyEdit(rows[k.value], e);
      rows := rows[k.value := t];
      r := Ok(t);
    }

    /** `deleteTask` */
    method Delete(caller: Caller, projects: seq<Project>, id: int) returns (r: Result<string>)
      requires Valid()
      modifies this
      ensures Valid() && nextId == old(nextId)
      ensures (rows, r) == DeleteSpec(old(rows), caller, projects, id)
    {
      DeleteRemovesOnlyThatTask(rows, nextId, caller, projects, id);
      var k := FindTaskIndex(rows, id);
      if k.None? {
        return Err(NotFound(TaskNotFound));
      }
      if !MayDelete(caller, projects, rows[k.value]) {
        return Err(Forbidden(CannotDelete));
      }
      rows := rows[..k.value] + rows[k.value + 1..];
      r := Ok(TaskDeleted);
    }
  }
}

=== FILE: text.dfy ===
/**
 * String helpers with the semantics of the JavaScript built-ins the source
 * relies on: the `\s` character class and `trim`, `split` on one character,
 * `^\d+$` digit strings with `Number`, number printing and `padStart`.
 * Strings are sequences of Unicode scalar values; JavaScript measures
 * lengths in UTF-16 code units, which differs only outside the Basic
 * Multilingual Plane.
 */
module Text {

  predicate IsDigit(c: char)
  {
    '0' <= c <= '9'
  }

  predicate IsLower(c: char)
  {
    'a' <= c <= 'z'
  }

  predicate IsUpper(c: char)
  {
    'A' <= c <= 'Z'
  }

  /** `[a-zA-Z]` */
  predicate IsAsciiLetter(c: char)
  {
    IsLower(c) || IsUpper(c)
  }

  /** The characters matched by `\s` and removed by `String.prototype.trim`. */
  predicate IsWhitespace(c: char)
  {
    c == '\t' || c == '\n' || c == '\U{0B}' || c == '\U{0C}' || c == '\r' || c == ' '
    || c == '\U{A0}' || c == '\U{1680}' || ('\U{2000}' <= c <= '\U{200A}')
    || c == '\U{2028}' || c == '\U{2029}' || c == '\U{202F}' || c == '\U{205F}'
    || c == '\U{3000}' || c == '\U{FEFF}'
  }

  /** The characters that the regular-expression `.` does not match. */
  predicate IsLineTerminator(c: char)
  {
    c == '\n' || c == '\r' || c == '\U{2028}' || c == '\U{2029}'
  }

  /** The longest prefix of `s` without a line terminator: what `^.*` can scan. */
  function FirstLine(s: string): (r: string)
    ensures |r| <= |s| && r == s[..|r|]
    ensures forall i :: 0 <= i < |r| ==> !IsLineTerminator(r[i])
    ensures |r| < |s| ==> IsLineTerminator(s[|r|])
  {
    if s == [] || IsLineTerminator(s[0]) then [] else [s[0]] + FirstLine(s[1..])
  }

  /** A string without a line terminator is its own first line. */
  lemma FirstLineOfOneLine(s: string)
    requires forall i :: 0 <= i < |s| ==> !IsLineTerminator(s[i])
    ensures FirstLine(s) == s
  {
  }

  function TrimStart(s: string): (r: string)
    ensures |r| <= |s| && r == s[|s| - |r|..]
    ensures forall i :: 0 <= i < |s| - |r| ==> IsWhitespace(s[i])
    ensures r == [] || !IsWhitespace(r[0])
  {
    if s != [] && IsWhitespace(s[0]) then TrimStart(s[1..]) else s
  }

  function TrimEnd(s: string): (r: string)
    ensures |r| <= |s| && r == s[..|r|]
    ensures forall i :: |r| <= i < |s| ==> IsWhitespace(s[i])
    ensures r == [] || !IsWhitespace(r[|r| - 1])
  {
    if s != [] && IsWhitespace(s[|s| - 1]) then TrimEnd(s[..|s| - 1]) else s
  }

  /** `s.trim()`: what is left of `s` after removing surrounding whitespace. */
  function Trim(s: string): (r: string)
    ensures |r| <= |s|
    ensures r == [] || (!IsWhitespace(r[0]) && !IsWhitespace(r[|r| - 1]))
  {
    TrimEnd(TrimStart(s))
  }

  /** `s.split(sep)`: the pieces between occurrences of `sep`, empty ones included. */
  function Split(s: string, sep: char): (r: seq<string>)
    ensures |r| >= 1
  {
    if s == [] then [[]]
    else
      var rest := Split(s[1..], sep);
      if s[0] == sep then [[]] + rest else [[s[0]] + rest[0]] + rest[1..]
  }

  /** `parts.join(sep)` */
  function Join(parts: seq<string>, sep: char): string
    requires |parts| >= 1
  {
    if |parts| == 1 then parts[0] else parts[0] + [sep] + Join(parts[1..], sep)
  }

  lemma {:induction false} JoinConsHead(x: string, parts: seq<string>, sep: char)
    requires |parts| >= 1
    ensures Join([x + parts[0]] + parts[1..], sep) == x + Join(parts, sep)
  {
    var ps := [x + parts[0]] + parts[1..];
    if |parts| > 1 {
      assert ps[1..] == parts[1..];
    }
  }

  /** Splitting and joining again on the same separator gives back the input, and no piece holds the separator. */
  lemma {:induction false} SplitJoin(s: string, sep: char)
    ensures Join(Split(s, sep), sep) == s
    ensures forall i :: 0 <= i < |Split(s, sep)| ==> sep !in Split(s, sep)[i]
  {
    if s != [] {
      var rest := Split(s[1..], sep);
      SplitJoin(s[1..], sep);
      if s[0] == sep {
        var ps := [[]] + rest;
        assert ps[1..] == rest;
        assert s == [sep] + s[1..];
      } else {
        JoinConsHead([s[0]], rest, sep);
        assert s == [s[0]] + s[1..];
        var ps := Split(s, sep);
        forall i | 0 <= i < |ps| ensures sep !in ps[i] {
          if i > 0 {
            assert ps[i] == rest[i];
          }
        }
      }
    }
  }

  /** A string without the separator splits into itself alone. */
  lemma {:induction false} SplitWithoutSeparator(x: string, sep: char)
    requires sep !in x
    ensures Split(x, sep) == [x]
  {
    if x != [] {
      SplitWithoutSeparator(x[1..], sep);
      assert x == [x[0]] + x[1..];
    }
  }

  /** The text before the first separator is the first piece; splitting goes on after it. */
  lemma {:induction false} SplitAfterPiece(x: string, y: string, sep: char)
    requires sep !in x
    ensures Split(x + [sep] + y, sep) == [x] + Split(y, sep)
  {
    var s := x + [sep] + y;
    if x == [] {
      assert s[1..] == y;
    } else {
      assert s[1..] == x[1..] + [sep] + y;
      SplitAfterPiece(x[1..], y, sep);
      assert x == [x[0]] + x[1..];
    }
  }

  /** Joining pieces that do not hold the separator and splitting again gives the pieces back. */
  lemma {:induction false} JoinSplit(parts: seq<string>, sep: char)
    requires |parts| >= 1
    requires forall i :: 0 <= i < |parts| ==> sep !in parts[i]
    ensures Split(Join(parts, sep), sep) == parts
  {
    if |parts| == 1 {
      SplitWithoutSeparator(parts[0], sep);
    } else {
      JoinSplit(parts[1..], sep);
      SplitAfterPiece(parts[0], Join(parts[1..], sep), sep);
      assert parts == [parts[0]] + parts[1..];
    }
  }

  /** `^\d+$` */
  predicate IsDigitString(s: string)
  {
    |s| > 0 && forall i :: 0 <= i < |s| ==> IsDigit(s[i])
  }

  function DigitValue(c: char): (d: nat)
    requires IsDigit(c)
    ensures d < 10
  {
    (c as int) - ('0' as int)
  }

  function DigitChar(d: nat): (c: char)
    requires d < 10
    ensures IsDigit(c) && DigitValue(c) == d
  {
    (('0' as int) + d) as char
  }

  /** `Number(s)` for a string of decimal digits (leading zeros allowed). */
  function DigitsValue(s: string): nat
    requires forall i :: 0 <= i < |s| ==> IsDigit(s[i])
  {
    if s == [] then 0 else DigitsValue(s[..|s| - 1]) * 10 + DigitValue(s[|s| - 1])
  }

  /** `String(n)` for a natural number: its decimal digits without leading zeros. */
  function NatToString(n: nat): (s: string)
    ensures IsDigitString(s)
    ensures |s| > 1 ==> s[0] != '0'
  {
    if n < 10 then [DigitChar(n)] else NatToString(n / 10) + [DigitChar(n % 10)]
  }

  /** Printing a number and reading it back gives the number. */
  lemma {:induction false} NatToStringRoundTrip(n: nat)
    ensures DigitsValue(NatToString(n)) == n
  {
    if n >= 10 {
      NatToStringRoundTrip(n / 10);
      var s := NatToString(n);
      assert s[..|s| - 1] == NatToString(n / 10);
    }
  }

  /** A digit string with a non-zero leading digit has a positive value. */
  lemma {:induction false} LeadingDigitPositive(s: string)
    requires IsDigitString(s) && s[0] != '0'
    ensures DigitsValue(s) > 0
  {
    if |s| > 1 {
      LeadingDigitPositive(s[..|s| - 1]);
    }
  }

  /** Reading a digit string without leading zeros and printing the number gives the string back. */
  lemma {:induction false} DigitsToStringRoundTrip(s: string)
    requires IsDigitString(s)
    requires |s| == 1 || s[0] != '0'
    ensures NatToString(DigitsValue(s)) == s
  {
    var init := s[..|s| - 1];
    if |s| == 1 {
      assert init == [];
    } else {
      assert IsDigitString(init);
      DigitsToStringRoundTrip(init);
      LeadingDigitPositive(init);
      assert s == init + [s[|s| - 1]];
    }
  }

  /** `String(i)` for an integer. */
  function IntToString(i: int): (s: string)
    ensures |s| >= 1
    ensures i < 0 <==> s[0] == '-'
  {
    if i < 0 then "-" + NatToString(-i) else NatToString(i)
  }

  /** `s.padStart(2, '0')` */
  function PadStart2(s: string): (r: string)
    ensures |s| >= 2 ==> r == s
    ensures |s| < 2 ==> |r| == 2 && r[2 - |s|..] == s && forall i :: 0 <= i < 2 - |s| ==> r[i] == '0'
  {
    if |s| >= 2 then s else if |s| == 1 then ['0'] + s else "00"
  }
}

=== FILE: time_entries.dfy ===
/**
 * Time tracking: the `TimeEntries` table and the handlers that start, stop,
 * edit and delete entries. A user has at most one running entry at a time;
 * starting a second one is refused, and stopping an entry records its
 * duration in whole minutes, rounded to the nearest minute.
 *
 * Clock readings (`new Date()`) are the `nowMs` parameters; dates sent in a
 * body arrive already converted to millisecond timestamps.
 */
module TimeEntries {
  import opened Common
  import opened Entities
  import Tables
  import opened JsMath
  import Ordering

  /** A row; `duration` is in minutes and is set when the entry is stopped or edited. */
  datatype TimeEntry = TimeEntry(
    id: int,
    taskId: int,
    userId: UserId,
    startTime: int,
    endTime: Option<int>,
    duration: Option<int>,
    description: Option<string>,
    isRunning: bool)

  const MsPerMinute: int := 1000 * 60

  const NotAuthenticated: string := "User not authenticated"
  const TaskNotFound: string := "Task not found"
  const NotAuthorizedTrack: string := "Not authorized to track time on this task"
  const AlreadyRunning: string := "You already have a running time entry. Please stop it before starting a new one."
  const EntryNotFound: string := "Time entry not found"
  const NotAuthorizedStop: string := "Not authorized to stop this time entry"
  const NotRunning: string := "Time entry is not running"
  const NotAuthorizedUpdate: string := "Not authorized to update this time entry"
  const NotAuthorizedDelete: string := "Not authorized to delete this time entry"
  const Deleted: string := "Time entry deleted successfully"
  const NotAuthorizedList: string := "Not authorized to view other users' time entries"
  const NoRunningEntry: string := "No running time entry found"

  /** `Math.round((end - start) / (1000 * 60))`: elapsed minutes, to the nearest minute. */
  function DurationMinutes(startMs: int, endMs: int): (m: int)
    ensures 2 * m * MsPerMinute - MsPerMinute <= 2 * (endMs - startMs) < 2 * m * MsPerMinute + MsPerMinute
  {
    RoundDiv(endMs - startMs, MsPerMinute)
  }

  /** A whole number of minutes is recorded exactly, and up to 29.999 seconds more still round down to it. */
  lemma DurationExactOnWholeMinutes(startMs: int, minutes: int)
    ensures DurationMinutes(startMs, startMs + minutes * MsPerMinute) == minutes
    ensures minutes >= 0 ==> DurationMinutes(startMs, startMs + minutes * MsPerMinute + 29999) == minutes
  {
    var a := minutes * MsPerMinute;
    assert (2 * a + MsPerMinute) / (2 * MsPerMinute) == minutes by {
      assert 2 * a + MsPerMinute == minutes * (2 * MsPerMinute) + MsPerMinute;
    }
    if minutes >= 0 {
      assert (2 * (a + 29999) + MsPerMinute) / (2 * MsPerMinute) == minutes by {
        assert 2 * (a + 29999) + MsPerMinute == minutes * (2 * MsPerMinute) + 119998;
      }
    }
  }

  /** No user has two running entries. */
  predicate AtMostOneRunning(rows: seq<TimeEntry>)
  {
    forall i, j :: 0 <= i < |rows| && 0 <= j < |rows| && rows[i].isRunning && rows[j].isRunning && rows[i].userId == rows[j].userId ==> i == j
  }

  /** What the table keeps true: one running entry per user at most, unique ids below the next id. */
  predicate EntriesInvariant(rows: seq<TimeEntry>, nextId: int)
  {
    && AtMostOneRunning(rows)
    && (forall k :: 0 <= k < |rows| ==> rows[k].id < nextId)
    && (forall i, j :: 0 <= i < j < |rows| ==> rows[i].id != rows[j].id)
  }

  /** `findOne({ where: { userId, isRunning: true } })`: the position of the user's first running entry. */
  function FindRunning(rows: seq<TimeEntry>, userId: UserId): (r: Option<nat>)
    ensures r.Some? ==> r.value < |rows| && rows[r.value].userId == userId && rows[r.value].isRunning
    ensures r.None? ==> forall k :: 0 <= k < |rows| ==> !(rows[k].userId == userId && rows[k].isRunning)
  {
    if rows == [] then None
    else if rows[0].userId == userId && rows[0].isRunning then Some(0)
    else
      var rest := FindRunning(rows[1..], userId);
      if rest.Some? then Some(rest.value + 1) else None
  }

  /** `findByPk(id)`: the position of the entry with that id. */
  function FindEntry(rows: seq<TimeEntry>, id: int): (r: Option<nat>)
    ensures r.Some? ==> r.value < |rows| && rows[r.value].id == id
    ensures r.None? ==> forall k :: 0 <= k < |rows| ==> rows[k].id != id
  {
    if rows == [] then None
    else if rows[0].id == id then Some(0)
    else
      var rest := FindEntry(rows[1..], id);
      if rest.Some? then Some(rest.value + 1) else None
  }

  /**
   * Who may track time on a task, as written: the task is loaded without its
   * project, so the owner test never passes and only administrators and the
   * assignee are admitted.
   */
  predicate AsWrittenMayTrack(caller: Caller, task: Task)
  {
    var projectOwnerId: Option<UserId> := None;
    IsAdmin(caller) || projectOwnerId == Some(caller.id) || task.assigneeId == caller.id
  }

  /** The intended rule: an administrator, the owner of the task's project, or its assignee. */
  predicate MayTrack(caller: Caller, projects: seq<Project>, task: Task)
  {
    IsAdmin(caller) || ProjectOwnerOf(projects, task) == Some(caller.id) || task.assigneeId == caller.id
  }

  /** As written, a project owner who is neither administrator nor assignee cannot track time on the project's tasks. */
  lemma AsWrittenRefusesOwner(owner: UserId, project: Project, task: Task)
    requires project.ownerId == owner && task.projectId == project.id && task.assigneeId != owner
    ensures !AsWrittenMayTrack(Caller(owner, Employee), task)
    ensures MayTrack(Caller(owner, Employee), [project], task)
  {
  }

  /** Stop, edit and delete are for the entry's own user or an administrator. */
  predicate MayChange(caller: Caller, entry: TimeEntry)
  {
    entry.userId == caller.id || IsAdmin(caller)
  }

  /** `startTimeEntry` */
  function StartSpec(rows: seq<TimeEntry>, nextId: int, caller: Option<Caller>, tasks: seq<Task>, projects: seq<Project>,
                     taskId: int, description: Option<string>, nowMs: int): (seq<TimeEntry>, int, Result<TimeEntry>)
  {
    if CallerId(caller).None? then (rows, nextId, Err(Unauthorized(NotAuthenticated)))
    else
      var task := FindTask(tasks, taskId);
      if task.None? then (rows, nextId, Err(NotFound(TaskNotFound)))
      else if !MayTrack(caller.value, projects, task.value) then (rows, nextId, Err(Forbidden(NotAuthorizedTrack)))
      else if FindRunning(rows, caller.value.id).Some? then (rows, nextId, Err(BadRequest(AlreadyRunning)))
      else
        var entry := TimeEntry(nextId, taskId, caller.value.id, nowMs, None, None, description, true);
        (rows + [entry], nextId + 1, Ok(entry))
  }

  /**
   * Starting succeeds exactly when the caller may track the task and has no
   * running entry; the new entry is running from now, without end or
   * duration, and the invariant is kept.
   */
  lemma StartKeepsOneRunning(rows: seq<TimeEntry>, nextId: int, caller: Option<Caller>, tasks: seq<Task>, projects: seq<Project>,
                             taskId: int, description: Option<string>, nowMs: int)
    requires EntriesInvariant(rows, nextId)
    ensures var (after, next, r) := StartSpec(rows, nextId, caller, tasks, projects, taskId, description, nowMs);
      && EntriesInvariant(after, next)
      && (r.Ok? <==> CallerId(caller).Some? && FindTask(tasks, taskId).Some?
                     && MayTrack(caller.value, projects, FindTask(tasks, taskId).value)
                     && forall k :: 0 <= k < |rows| ==> !(rows[k].userId == caller.value.id && rows[k].isRunning))
      && (r.Ok? ==> after == rows + [r.value] && r.value.isRunning && r.value.startTime == nowMs
                    && r.value.endTime.None? && r.value.duration.None? && r.value.userId == caller.value.id)
      && (r.Err? ==> after == rows)
  {
    var (after, next, r) := StartSpec(rows, nextId, caller, tasks, projects, taskId, description, nowMs);
    if r.Ok? {
      forall i | 0 <= i < |rows| ensures after[i] == rows[i] {
      }
    }
  }

  /** A user who already has a running entry cannot start another, whatever the task. */
  lemma SecondStartRefused(rows: seq<TimeEntry>, nextId: int, caller: Caller, tasks: seq<Task>, projects: seq<Project>,
                           t1: int, t2: int, d1: Option<string>, d2: Option<string>, now1: int, now2: int)
    requires StartSpec(rows, nextId, Some(caller), tasks, projects, t1, d1, now1).2.Ok?
    ensures var (after, next, _) := StartSpec(rows, nextId, Some(caller), tasks, projects, t1, d1, now1);
      StartSpec(after, next, Some(caller), tasks, projects, t2, d2, now2).2.Err?
  {
    var (after, next, r) := StartSpec(rows, nextId, Some(caller), tasks, projects, t1, d1, now1);
    assert after[|rows|].userId == caller.id && after[|rows|].isRunning;
  }

  /** `stopTimeEntry` */
  function StopSpec(rows: seq<TimeEntry>, caller: Caller, id: int, nowMs: int): (seq<TimeEntry>, Result<TimeEntry>)
  {
    var k := FindEntry(rows, id);
    if k.None? then (rows, Err(NotFound(EntryNotFound)))
    else
      var entry := rows[k.value];
      if !MayChange(caller, entry) then (rows, Err(Forbidden(NotAuthorizedStop)))
      else if !entry.isRunning then (rows, Err(BadRequest(NotRunning)))
      else
        var stopped := entry.(endTime := Some(nowMs), duration := Some(DurationMinutes(entry.startTime, nowMs)), isRunning := false);
        (rows[k.value := stopped], Ok(stopped))
  }

  /**
   * Stopping applies only to a running entry of the caller (or any entry for
   * an administrator): it ends the entry now, records the elapsed minutes and
   * leaves every other row alone; otherwise nothing changes.
   */
  lemma StopEndsOnlyThatEntry(rows: seq<TimeEntry>, nextId: int, caller: Caller, id: int, nowMs: int)
    requires EntriesInvariant(rows, nextId)
    ensures var (after, r) := StopSpec(rows, caller, id, nowMs);
      && EntriesInvariant(after, nextId)
      && (r.Ok? <==> exists k :: 0 <= k < |rows| && rows[k].id == id && MayChange(caller, rows[k]) && rows[k].isRunning)
      && (r.Ok? ==> !r.value.isRunning && r.value.endTime == Some(nowMs)
                    && r.value.duration == Some(DurationMinutes(r.value.startTime, nowMs))
                    && |after| == |rows|
                    && forall k :: 0 <= k < |rows| ==> (after[k] == rows[k] || (rows[k].id == id && after[k] == r.value)))
      && (r.Err? ==> after == rows)
  {
    var (after, r) := StopSpec(rows, caller, id, nowMs);
    var k := FindEntry(rows, id);
    if k.Some? {
      forall j | 0 <= j < |rows| && rows[j].id == id ensures j == k.value {
      }
    }
  }

  /** The edit fields of `updateTimeEntry`; a date is given only when the body sends one. */
  datatype EntryEdit = EntryEdit(description: Option<string>, startTime: Option<int>, endTime: Option<int>)

  /**
   * `updateTimeEntry`: the duration is recomputed only when both times are
   * given; an empty description keeps the old one; the running flag is never
   * touched.
   */
  function UpdateSpec(rows: seq<TimeEntry>, caller: Caller, id: int, edit: EntryEdit): (seq<TimeEntry>, Result<TimeEntry>)
  {
    var k := FindEntry(rows, id);
    if k.None? then (rows, Err(NotFound(EntryNotFound)))
    else
      var entry := rows[k.value];
      if !MayChange(caller, entry) then (rows, Err(Forbidden(NotAuthorizedUpdate)))
      else
        var duration :=
          if edit.startTime.Some? && edit.endTime.Some? then Some(DurationMinutes(edit.startTime.value, edit.endTime.value))
          else entry.duration;
        var description := if edit.description.Some? && edit.description.value != "" then edit.description else entry.description;
        var updated := entry.(
          description := description,
          startTime := if edit.startTime.Some? then edit.startTime.value else entry.startTime,
          endTime := if edit.endTime.Some? then edit.endTime else entry.endTime,
          duration := duration);
        (rows[k.value := updated], Ok(updated))
  }

  /** An edit changes one row, never its user, task or running flag, and keeps an old duration unless both times are sent. */
  lemma UpdateKeepsRunningFlags(rows: seq<TimeEntry>, nextId: int, caller: Caller, id: int, edit: EntryEdit)
    requires EntriesInvariant(rows, nextId)
    ensures var (after, r) := UpdateSpec(rows, caller, id, edit);
      && EntriesInvariant(after, nextId)
      && |after| == |rows|
      && (forall k :: 0 <= k < |rows| ==>
            after[k].isRunning == rows[k].isRunning && after[k].userId == rows[k].userId
            && after[k].taskId == rows[k].taskId && after[k].id == rows[k].id)
      && (forall k :: 0 <= k < |rows| && rows[k].id != id ==> after[k] == rows[k])
      && (r.Ok? && (edit.startTime.None? || edit.endTime.None?) ==>
            exists k :: 0 <= k < |rows| && rows[k].id == id && r.value.duration == rows[k].duration)
      && (r.Ok? && edit.description == Some("") ==>
            exists k :: 0 <= k < |rows| && rows[k].id == id && r.value.description == rows[k].description)
      && (r.Err? ==> after == rows)
  {
    var (after, r) := UpdateSpec(rows, caller, id, edit);
    var k := FindEntry(rows, id);
    if k.Some? {
      assert rows[k.value].id == id;
    }
  }

  /** `deleteTimeEntry`: no running check; the entry's own user or an administrator. */
  function DeleteSpec(rows: seq<TimeEntry>, caller: Caller, id: int): (seq<TimeEntry>, Result<string>)
  {
    var k := FindEntry(rows, id);
    if k.None? then (rows, Err(NotFound(EntryNotFound)))
    else if !MayChange(caller, rows[k.value]) then (rows, Err(Forbidden(NotAuthorizedDelete)))
    else (rows[..k.value] + rows[k.value + 1..], Ok(Deleted))
  }

  /** A delete removes exactly the entry with that id, running or not, and keeps the invariant. */
  lemma DeleteRemovesOnlyThatEntry(rows: seq<TimeEntry>, nextId: int, caller: Caller, id: int)
    requires EntriesInvariant(rows, nextId)
    ensures var (after, r) := DeleteSpec(rows, caller, id);
      && EntriesInvariant(after, nextId)
      && (r.Ok? <==> exists k :: 0 <= k < |rows| && rows[k].id == id && MayChange(caller, rows[k]))
      && (r.Ok? ==> |after| == |rows| - 1 && (forall k :: 0 <= k < |after| ==> after[k].id != id)
                    && forall k :: 0 <= k < |rows| && rows[k].id != id ==> rows[k] in after)
      && (r.Err? ==> after == rows)
  {
    var (after, r) := DeleteSpec(rows, caller, id);
    var k := FindEntry(rows, id);
    if k.Some? {
      var i := k.value;
      forall j | 0 <= j < |rows| && rows[j].id == id ensures j == i {
      }
      if r.Ok? {
        EntryRemovalKeepsInvariant(rows, nextId, i);
        RemovalDropsOnlyId(rows, nextId, i, id);
      }
    }
  }

  /** With unique ids, removing the entry with an id drops that id and keeps every other entry. */
  lemma RemovalDropsOnlyId(rows: seq<TimeEntry>, nextId: int, i: nat, id: int)
    requires EntriesInvariant(rows, nextId) && i < |rows| && rows[i].id == id
    ensures var after := rows[..i] + rows[i + 1..];
      && |after| == |rows| - 1
      && (forall k :: 0 <= k < |after| ==> after[k].id != id)
      && (forall k :: 0 <= k < |rows| && rows[k].id != id ==> rows[k] in after)
  {
    var after := rows[..i] + rows[i + 1..];
    Tables.RemoveAtFacts(rows, i);
    forall k | 0 <= k < |rows| && rows[k].id != id ensures rows[k] in after {
      assert rows[k] == after[if k < i then k else k - 1];
    }
  }

  /** Removing any one entry keeps the table invariant. */
  lemma EntryRemovalKeepsInvariant(rows: seq<TimeEntry>, nextId: int, i: nat)
    requires EntriesInvariant(rows, nextId) && i < |rows|
    ensures EntriesInvariant(rows[..i] + rows[i + 1..], nextId)
  {
    RemovalKeepsOneRunning(rows, i);
    RemovalKeepsIds(rows, nextId, i);
  }

  /** Removing an entry leaves at most one running entry per user. */
  lemma RemovalKeepsOneRunning(rows: seq<TimeEntry>, i: nat)
    requires AtMostOneRunning(rows) && i < |rows|
    ensures AtMostOneRunning(rows[..i] + rows[i + 1..])
  {
    var after := rows[..i] + rows[i + 1..];
    Tables.RemoveAtFacts(rows, i);
    forall a, b | 0 <= a < |after| && 0 <= b < |after| && after[a].isRunning && after[b].isRunning && after[a].userId == after[b].userId
      ensures a == b
    {
      assert after[a] == rows[if a < i then a else a + 1];
      assert after[b] == rows[if b < i then b else b + 1];
    }
  }

  /** Removing an entry keeps ids distinct and below the next id. */
  lemma RemovalKeepsIds(rows: seq<TimeEntry>, nextId: int, i: nat)
    requires EntriesInvariant(rows, nextId) && i < |rows|
    ensures var after := rows[..i] + rows[i + 1..];
      && (forall k :: 0 <= k < |after| ==> after[k].id < nextId)
      && (forall a, b :: 0 <= a < b < |after| ==> after[a].id != after[b].id)
  {
    var after := rows[..i] + rows[i + 1..];
    Tables.RemoveAtFacts(rows, i);
    forall a, b | 0 <= a < b < |after| ensures after[a].id != after[b].id {
      var a', b' := if a < i then a else a + 1, if b < i then b else b + 1;
      assert after[a] == rows[a'] && after[b] == rows[b'] && a' < b';
    }
  }

  /** `getTimeEntriesByUser`: only the user themself or an administrator; newest first. */
  function ListByUser(rows: seq<TimeEntry>, caller: Caller, userId: UserId): (r: Result<seq<TimeEntry>>)
    ensures r.Err? <==> userId != caller.id && !IsAdmin(caller)
    ensures r.Ok? ==> Ordering.SortedOn(r.value, (e: TimeEntry) => e.startTime, true)
    ensures r.Ok? ==> forall e :: e in r.value <==> e in rows && e.userId == userId
    ensures r.Ok? ==> multiset(r.value) <= multiset(rows)
    ensures r.Ok? ==> forall e :: e in rows ==> multiset(r.value)[e] == if e.userId == userId then multiset(rows)[e] else 0
  {
    if userId != caller.id && !IsAdmin(caller) then Err(Forbidden(NotAuthorizedList))
    else
      var mine := Filter(rows, userId);
      Ok(Ordering.SortOn(mine, (e: TimeEntry) => e.startTime, true))
  }

  /** The entries of one user, in table order. */
  function Filter(rows: seq<TimeEntry>, userId: UserId): (r: seq<TimeEntry>)
    ensures forall e :: e in r <==> e in rows && e.userId == userId
    ensures multiset(r) <= multiset(rows)
    ensures forall e :: e in rows ==> multiset(r)[e] == if e.userId == userId then multiset(rows)[e] else 0
  {
    if rows == [] then []
    else
      var rest := Filter(rows[1..], userId);
      assert rows == [rows[0]] + rows[1..];
      assert forall e :: e in rows <==> e == rows[0] || e in rows[1..];
      if rows[0].userId == userId then [rows[0]] + rest else rest
  }

  /** `getRunningTimeEntry` */
  function RunningEntry(rows: seq<TimeEntry>, caller: Option<Caller>): (r: Result<TimeEntry>)
    ensures CallerId(caller).None? ==> r == Err(Unauthorized(NotAuthenticated))
    ensures r.Ok? ==> r.value in rows && r.value.isRunning && r.value.userId == caller.value.id
    ensures CallerId(caller).Some? && r.Err? ==> forall k :: 0 <= k < |rows| ==> !(rows[k].userId == caller.value.id && rows[k].isRunning)
  {
    if CallerId(caller).None? then Err(Unauthorized(NotAuthenticated))
    else
      var k := FindRunning(rows, caller.value.id);
      if k.None? then Err(NotFound(NoRunningEntry)) else Ok(rows[k.value])
  }

  /** Under the invariant the running entry reported is the user's only running entry. */
  lemma RunningEntryIsUnique(rows: seq<TimeEntry>, nextId: int, caller: Caller)
    requires EntriesInvariant(rows, nextId)
    requires RunningEntry(rows, Some(caller)).Ok?
    ensures forall e :: e in rows && e.isRunning && e.userId == caller.id ==> e == RunningEntry(rows, Some(caller)).value
  {
    var k := FindRunning(rows, caller.id).value;
    forall e | e in rows && e.isRunning && e.userId == caller.id ensures e == rows[k] {
      var j :| 0 <= j < |rows| && rows[j] == e;
    }
  }

  /** Dropping rows keeps one running entry per user and the ids unique and below the next id. */
  lemma RetainKeepsInvariant(rows: seq<TimeEntry>, nextId: int, keep: TimeEntry -> bool)
    requires EntriesInvariant(rows, nextId)
    ensures EntriesInvariant(Tables.Filter(rows, keep), nextId)
  {
    var after := Tables.Filter(rows, keep);
    var ok := (a: TimeEntry, b: TimeEntry) => a.id != b.id && !(a.isRunning && b.isRunning && a.userId == b.userId);
    assert Tables.Pairwise(rows, ok);
    Tables.FilterPairwise(rows, keep, ok);
    forall i, j | 0 <= i < |after| && 0 <= j < |after| && after[i].isRunning && after[j].isRunning
      && after[i].userId == after[j].userId
      ensures i == j
    {
    }
    forall k | 0 <= k < |after| ensures after[k].id < nextId {
      assert after[k] in rows;
    }
  }

  /** The `TimeEntries` table the handlers update in place. */
  class TimeEntryTable {
    var rows: seq<TimeEntry>
    var nextId: int

    ghost predicate Valid()
      reads this
    {
      EntriesInvariant(rows, nextId)
    }

    constructor ()
      ensures Valid() && rows == [] && nextId == 1
    {
      rows := [];
      nextId := 1;
    }

    /** The database removing the rows `keep` rejects, as an `ON DELETE CASCADE` does. */
    method Retain(keep: TimeEntry -> bool)
      requires Valid()
      modifies this
      ensures Valid() && nextId == old(nextId)
      ensures rows == Tables.Filter(old(rows), keep)
    {
      RetainKeepsInvariant(rows, nextId, keep);
      rows := Tables.Filter(rows, keep);
    }

    /** `startTimeEntry` */
    method Start(caller: Option<Caller>, tasks: seq<Task>, projects: seq<Project>, taskId: int, description: Option<string>, nowMs: int)
      returns (r: Result<TimeEntry>)
      requires Valid()
      modifies this
      ensures Valid()
      ensures (rows, nextId, r) == StartSpec(old(rows), old(nextId), caller, tasks, projects, taskId, description, nowMs)
    {
      StartKeepsOneRunning(rows, nextId, caller, tasks, projects, taskId, description, nowMs);
      var userId := CallerId(caller);
      if userId.None? {
        return Err(Unauthorized(NotAuthenticated));
      }
      var task := FindTask(tasks, taskId);
      if task.None? {
        return Err(NotFound(TaskNotFound));
      }
      if !MayTrack(caller.value, projects, task.value) {
        return Err(Forbidden(NotAuthorizedTrack));
      }
      var running := FindRunning(rows, userId.value);
      if running.Some? {
        return Err(BadRequest(AlreadyRunning));
      }
      var entry := TimeEntry(nextId, taskId, userId.value, nowMs, None, None, description, true);
      rows := rows + [entry];
      nextId := nextId + 1;
      r := Ok(entry);
    }

    /** `stopTimeEntry` */
    method Stop(caller: Caller, id: int, nowMs: int) returns (r: Result<TimeEntry>)
      requires Valid()
      modifies this
      ensures Valid() && nextId == old(nextId)
      ensures (rows, r) == StopSpec(old(rows), caller, id, nowMs)
    {
      StopEndsOnlyThatEntry(rows, nextId, caller, id, nowMs);
      var k := FindEntry(rows, id);
      if k.None? {
        return Err(NotFound(EntryNotFound));
      }
      var entry := rows[k.value];
      if !MayChange(caller, entry) {
        return Err(Forbidden(NotAuthorizedStop));
      }
      if !entry.isRunning {
        return Err(BadRequest(NotRunning));
      }
      var duration := DurationMinutes(entry.startTime, nowMs);
      var stopped := entry.(endTime := Some(nowMs), duration := Some(duration), isRunning := false);
      rows := rows[k.value := stopped];
      r := Ok(stopped);
    }

    /** `updateTimeEntry` */
    method Update(caller: Caller, id: int, edit: EntryEdit) returns (r: Result<TimeEntry>)
      requires Valid()
      modifies this
      ensures Valid() && nextId == old(nextId)
      ensures (rows, r) == UpdateSpec(old(rows), caller, id, edit)
    {
      UpdateKeepsRunningFlags(rows, nextId, caller, id, edit);
      var k := FindEntry(rows, id);
      if k.None? {
        return Err(NotFound(EntryNotFound));
      }
      var entry := rows[k.value];
      if !MayChange(caller, entry) {
        return Err(Forbidden(NotAuthorizedUpdate));
      }
      var duration := entry.duration;
      if edit.startTime.Some? && edit.endTime.Some? {
        duration := Some(DurationMinutes(edit.startTime.value, edit.endTime.value));
      }
      var description := entry.description;
      if edit.description.Some? && edit.description.value != "" {
        description := edit.description;
      }
      var startTime := entry.startTime;
      if edit.startTime.Some? {
        startTime := edit.startTime.value;
      }
      var endTime := entry.endTime;
      if edit.endTime.Some? {
        endTime := edit.endTime;
      }
      var updated := entry.(description := description, startTime := startTime, endTime := endTime, duration := duration);
      rows := rows[k.value := updated];
      r := Ok(updated);
    }

    /** `deleteTimeEntry` */
    method Delete(caller: Caller, id: int) returns (r: Result<string>)
      requires Valid()
      modifies this
      ensures Valid() && nextId == old(nextId)
      ensures (rows, r) == DeleteSpec(old(rows), caller, id)
    {
      var k := FindEntry(rows, id);
      if k.None? {
        return Err(NotFound(EntryNotFound));
      }
      if !MayChange(caller, rows[k.value]) {
        return Err(Forbidden(NotAuthorizedDelete));
      }
      EntryRemovalKeepsInvariant(rows, nextId, k.value);
      rows := rows[..k.value] + rows[k.value + 1..];
      r := Ok(Deleted);
    }
  }
}

=== FILE: time_tracker.dfy ===
/**
 * The time tracker's helpers: the running clock's `HH:MM:SS` text, the
 * duration text of a stopped entry, who may manage an entry, and which entry
 * the tracker treats as running. Each printer is paired with a reader that
 * parses its text back, and the reading-back lemmas tie the two.
 */
module TimeTrackerView {
  import opened Common
  import opened Text
  import opened JsMath
  import Tables
  import TimeEntries

  /** `n.toString().padStart(2, '0')` */
  function Field(n: int): string
  {
    PadStart2(IntToString(n))
  }

  /** `formatTime`: the clock shows hours only once a full hour has passed. */
  function FormatTime(seconds: int): string
  {
    ClockText(FloorDiv(seconds, 3600), FloorDiv(JsRem(seconds, 3600), 60), JsRem(seconds, 60))
  }

  /** The clock's fields joined by colons, the hours left out while there are none. */
  function ClockText(hours: int, minutes: int, secs: int): string
  {
    if hours > 0 then Join([Field(hours), Field(minutes), Field(secs)], ':')
    else Join([Field(minutes), Field(secs)], ':')
  }

  /** A clock field: at least two digits. */
  predicate IsClockField(s: string)
  {
    IsDigitString(s) && |s| >= 2
  }

  /**
   * Reads a clock text back: two or three colon-separated fields of at least
   * two digits, the minutes and seconds below 60.
   */
  function ReadClock(s: string): Option<nat>
  {
    ReadClockFields(Split(s, ':'))
  }

  /** The fields of a clock text: optional hours, then minutes and seconds. */
  function ReadClockFields(p: seq<string>): Option<nat>
  {
    if |p| == 3 then
      var rest := ReadMinutesSeconds(p[1], p[2]);
      if IsClockField(p[0]) && rest.Some? then Some(DigitsValue(p[0]) * 3600 + rest.value) else None
    else if |p| == 2 then ReadMinutesSeconds(p[0], p[1])
    else None
  }

  /** The last two fields of a clock text: minutes and seconds, each below 60. */
  function ReadMinutesSeconds(a: string, b: string): Option<nat>
  {
    if IsClockField(a) && IsClockField(b) && DigitsValue(a) < 60 && DigitsValue(b) < 60 then
      Some(DigitsValue(a) * 60 + DigitsValue(b))
    else None
  }

  /** A leading zero does not change a digit string's value. */
  lemma {:induction false} LeadingZero(s: string)
    requires forall i :: 0 <= i < |s| ==> IsDigit(s[i])
    ensures forall i :: 0 <= i < |"0" + s| ==> IsDigit(("0" + s)[i])
    ensures DigitsValue("0" + s) == DigitsValue(s)
    decreases |s|
  {
    if s != [] {
      var z := "0" + s;
      assert z[..|z| - 1] == "0" + s[..|s| - 1];
      LeadingZero(s[..|s| - 1]);
    }
  }

  /** A padded field of a non-negative number: digits only, at least two, exactly two below 100, worth the number. */
  lemma FieldFacts(n: nat)
    ensures IsClockField(Field(n))
    ensures n < 100 ==> |Field(n)| == 2
    ensures DigitsValue(Field(n)) == n
    ensures ':' !in Field(n) && ' ' !in Field(n)
  {
    var s := NatToString(n);
    NatToStringRoundTrip(n);
    if n >= 10 && n < 100 {
      assert NatToString(n) == NatToString(n / 10) + [DigitChar(n % 10)];
    }
    if |s| < 2 {
      assert Field(n) == "0" + s;
      LeadingZero(s);
    }
    assert forall i :: 0 <= i < |Field(n)| ==> IsDigit(Field(n)[i]);
  }

  /**
   * The clock reads back as the elapsed seconds: three fields from the first
   * full hour on and two before it, every field padded to two digits or more.
   */
  lemma FormatTimeReadsBack(seconds: nat)
    ensures var p := Split(FormatTime(seconds), ':');
      && |p| == (if seconds >= 3600 then 3 else 2)
      && (forall i :: 0 <= i < |p| ==> IsClockField(p[i]))
      && |p[|p| - 1]| == 2 && |p[|p| - 2]| == 2
    ensures ReadClock(FormatTime(seconds)) == Some(seconds)
  {
    FormatTimeFields(seconds);
    FormatTimeReads(seconds);
  }

  /** The clock's fields: three from the first full hour on, two before it. */
  lemma FormatTimeFields(seconds: nat)
    ensures var p := Split(FormatTime(seconds), ':');
      && |p| == (if seconds >= 3600 then 3 else 2)
      && (forall i :: 0 <= i < |p| ==> IsClockField(p[i]))
      && |p[|p| - 1]| == 2 && |p[|p| - 2]| == 2
  {
    var hours, minutes, secs := ClockParts(seconds);
    ClockTextFields(hours, minutes, secs);
  }

  /** The clock text reads back as the elapsed seconds. */
  lemma FormatTimeReads(seconds: nat)
    ensures ReadClock(FormatTime(seconds)) == Some(seconds)
  {
    var hours, minutes, secs := ClockParts(seconds);
    ClockTextReadsBack(hours, minutes, secs, seconds);
  }

  /** A clock text splits back into its padded fields. */
  lemma ClockTextSplits(hours: nat, minutes: nat, secs: nat)
    ensures Split(ClockText(hours, minutes, secs), ':')
         == if hours > 0 then [Field(hours), Field(minutes), Field(secs)] else [Field(minutes), Field(secs)]
  {
    var m, s := Field(minutes), Field(secs);
    FieldFacts(minutes);
    FieldFacts(secs);
    if hours > 0 {
      var h := Field(hours);
      FieldFacts(hours);
      ThreeFieldsSplit(h, m, s);
    } else {
      TwoFieldsSplit(m, s);
    }
  }

  /** Two fields without a colon, joined by one, split back into those fields. */
  lemma TwoFieldsSplit(a: string, b: string)
    requires ':' !in a && ':' !in b
    ensures Split(Join([a, b], ':'), ':') == [a, b]
  {
    assert [a, b][1..] == [b];
    assert Join([a, b], ':') == a + [':'] + b;
    SplitAfterPiece(a, b, ':');
    SplitWithoutSeparator(b, ':');
  }

  /** Three fields without a colon, joined by colons, split back into those fields. */
  lemma ThreeFieldsSplit(a: string, b: string, c: string)
    requires ':' !in a && ':' !in b && ':' !in c
    ensures Split(Join([a, b, c], ':'), ':') == [a, b, c]
  {
    assert [a, b, c][1..] == [b, c];
    assert Join([a, b, c], ':') == a + [':'] + Join([b, c], ':');
    TwoFieldsSplit(b, c);
    SplitAfterPiece(a, Join([b, c], ':'), ':');
  }

  /** A clock text has two or three fields, the hours only when there are some, each padded to two digits or more. */
  lemma ClockTextFields(hours: nat, minutes: nat, secs: nat)
    requires minutes < 60 && secs < 60
    ensures var p := Split(ClockText(hours, minutes, secs), ':');
      && |p| == (if hours > 0 then 3 else 2)
      && (forall i :: 0 <= i < |p| ==> IsClockField(p[i]))
      && |p[|p| - 1]| == 2 && |p[|p| - 2]| == 2
  {
    ClockTextSplits(hours, minutes, secs);
    FieldFacts(minutes);
    FieldFacts(secs);
    if hours > 0 {
      FieldFacts(hours);
      FieldsAreClockFields([Field(hours), Field(minutes), Field(secs)]);
    } else {
      FieldsAreClockFields([Field(minutes), Field(secs)]);
    }
  }

  /** Every element of a short list of clock fields is a clock field. */
  lemma FieldsAreClockFields(p: seq<string>)
    requires 2 <= |p| <= 3 && IsClockField(p[0]) && IsClockField(p[1]) && IsClockField(p[|p| - 1])
    ensures forall i :: 0 <= i < |p| ==> IsClockField(p[i])
  {
  }

  /** A clock text reads back as the seconds its fields make up. */
  lemma ClockTextReadsBack(hours: nat, minutes: nat, secs: nat, total: nat)
    requires minutes < 60 && secs < 60 && total == hours * 3600 + minutes * 60 + secs
    ensures ReadClock(ClockText(hours, minutes, secs)) == Some(total)
  {
    var text := ClockText(hours, minutes, secs);
    var m, s := Field(minutes), Field(secs);
    ClockTextSplits(hours, minutes, secs);
    FieldFacts(minutes);
    FieldFacts(secs);
    if hours > 0 {
      var h := Field(hours);
      FieldFacts(hours);
      ReadLongClock(h, m, s, hours, minutes, secs, total);
    } else {
      ReadShortClock(m, s, minutes, secs, total);
    }
  }

  /** Three clock fields, the last two below 60, read back as the seconds they make up. */
  lemma ReadLongClock(h: string, m: string, s: string, hours: nat, minutes: nat, secs: nat, total: nat)
    requires IsClockField(h) && IsClockField(m) && IsClockField(s)
    requires DigitsValue(h) == hours && DigitsValue(m) == minutes && DigitsValue(s) == secs
    requires minutes < 60 && secs < 60 && total == hours * 3600 + minutes * 60 + secs
    ensures ReadClockFields([h, m, s]) == Some(total)
  {
  }

  /** Two clock fields below 60 read back as the seconds they make up. */
  lemma ReadShortClock(m: string, s: string, minutes: nat, secs: nat, total: nat)
    requires IsClockField(m) && IsClockField(s)
    requires DigitsValue(m) == minutes && DigitsValue(s) == secs
    requires minutes < 60 && secs < 60 && total == minutes * 60 + secs
    ensures ReadClockFields([m, s]) == Some(total)
  {
  }

  /** The clock text of the elapsed seconds is that of its hours, minutes and seconds, which make them up. */
  lemma ClockParts(seconds: nat) returns (hours: nat, minutes: nat, secs: nat)
    ensures FormatTime(seconds) == ClockText(hours, minutes, secs)
    ensures minutes < 60 && secs < 60
    ensures seconds == hours * 3600 + minutes * 60 + secs
    ensures hours > 0 <==> seconds >= 3600
  {
    ClockArithmetic(seconds);
    hours, minutes, secs := FloorDiv(seconds, 3600), FloorDiv(JsRem(seconds, 3600), 60), JsRem(seconds, 60);
  }

  /** The clock's hours, minutes and seconds make up the elapsed seconds. */
  lemma ClockArithmetic(seconds: nat)
    ensures var hours := FloorDiv(seconds, 3600);
      var minutes := FloorDiv(JsRem(seconds, 3600), 60);
      var secs := JsRem(seconds, 60);
      && hours >= 0 && 0 <= minutes < 60 && 0 <= secs < 60
      && seconds == hours * 3600 + minutes * 60 + secs
      && (hours > 0 <==> seconds >= 3600)
  {
    var hours := seconds / 3600;
    var rest := seconds % 3600;
    assert seconds == hours * 3600 + rest;
    assert rest == (rest / 60) * 60 + rest % 60;
    assert rest % 60 == seconds % 60 by {
      assert seconds == (hours * 60) * 60 + rest;
    }
  }

  /** `formatDuration`: an absent or zero duration prints as `0m`; hours appear from 60 minutes on, unpadded. */
  function FormatDuration(minutes: Option<int>): string
  {
    if minutes.None? || minutes.value == 0 then "0m"
    else DurationText(FloorDiv(minutes.value, 60), JsRem(minutes.value, 60))
  }

  /** Whole hours, when there are some, then the minutes left over. */
  function DurationText(hours: int, mins: int): string
  {
    if hours > 0 then IntToString(hours) + "h " + IntToString(mins) + "m"
    else IntToString(mins) + "m"
  }

  /** A digit string followed by the unit letter, and its value. */
  function ReadUnit(s: string, unit: char): Option<nat>
  {
    if |s| >= 2 && s[|s| - 1] == unit && IsDigitString(s[..|s| - 1]) then Some(DigitsValue(s[..|s| - 1])) else None
  }

  /** Reads a duration text back: `Mm`, or `Hh Mm` with fewer than 60 minutes. */
  function ReadDuration(s: string): Option<nat>
  {
    ReadDurationWords(Split(s, ' '))
  }

  /** The words of a duration text: `Mm`, or `Hh` and `Mm`. */
  function ReadDurationWords(p: seq<string>): Option<nat>
  {
    if |p| == 1 then ReadUnit(p[0], 'm')
    else if |p| == 2 && ReadUnit(p[0], 'h').Some? && ReadUnit(p[1], 'm').Some? && ReadUnit(p[1], 'm').value < 60 then
      Some(ReadUnit(p[0], 'h').value * 60 + ReadUnit(p[1], 'm').value)
    else None
  }

  /** The digits of a number followed by a unit letter read back as that number. */
  lemma UnitReadsBack(n: nat, unit: char)
    requires !IsDigit(unit) && unit != ' '
    ensures ReadUnit(NatToString(n) + [unit], unit) == Some(n)
    ensures ' ' !in NatToString(n) + [unit]
  {
    var s := NatToString(n) + [unit];
    assert s[..|s| - 1] == NatToString(n);
    NatToStringRoundTrip(n);
    assert forall i :: 0 <= i < |NatToString(n)| ==> IsDigit(NatToString(n)[i]);
  }

  /**
   * Every non-negative duration reads back as itself, and an absent one
   * reads as zero; the text has an hours part exactly from 60 minutes on.
   */
  lemma FormatDurationReadsBack(minutes: Option<int>)
    requires minutes.None? || minutes.value >= 0
    ensures ReadDuration(FormatDuration(minutes)) == Some(if minutes.None? then 0 else minutes.value)
    ensures |Split(FormatDuration(minutes), ' ')| == (if minutes.Some? && minutes.value >= 60 then 2 else 1)
  {
    FormatDurationWords(minutes);
    FormatDurationReads(minutes);
  }

  /** A duration text has an hours word exactly from 60 minutes on. */
  lemma FormatDurationWords(minutes: Option<int>)
    requires minutes.None? || minutes.value >= 0
    ensures |Split(FormatDuration(minutes), ' ')| == (if minutes.Some? && minutes.value >= 60 then 2 else 1)
  {
    if minutes.None? || minutes.value == 0 {
      ZeroDurationReadsBack();
    } else {
      var hours := FloorDiv(minutes.value, 60);
      var mins := JsRem(minutes.value, 60);
      assert minutes.value == hours * 60 + mins && 0 <= mins < 60;
      DurationTextReadsBack(hours, mins);
    }
  }

  /** A duration text reads back as its minutes, an absent duration as zero. */
  lemma FormatDurationReads(minutes: Option<int>)
    requires minutes.None? || minutes.value >= 0
    ensures ReadDuration(FormatDuration(minutes)) == Some(if minutes.None? then 0 else minutes.value)
  {
    if minutes.None? || minutes.value == 0 {
      ZeroDurationReadsBack();
    } else {
      var hours := FloorDiv(minutes.value, 60);
      var mins := JsRem(minutes.value, 60);
      assert minutes.value == hours * 60 + mins && 0 <= mins < 60;
      DurationTextReadsBack(hours, mins);
    }
  }

  /** `0m` is one word and reads back as zero. */
  lemma ZeroDurationReadsBack()
    ensures Split("0m", ' ') == ["0m"]
    ensures ReadDuration("0m") == Some(0)
  {
    MinutesTextReadsBack(0);
    assert NatToString(0) + "m" == "0m";
  }

  /** Hours and fewer than 60 minutes render as one or two words that read back as the minutes they make up. */
  lemma DurationTextReadsBack(hours: nat, mins: nat)
    requires mins < 60
    ensures |Split(DurationText(hours, mins), ' ')| == (if hours > 0 then 2 else 1)
    ensures ReadDuration(DurationText(hours, mins)) == Some(hours * 60 + mins)
  {
    if hours > 0 {
      HoursTextReadsBack(hours, mins);
    } else {
      MinutesTextReadsBack(mins);
    }
  }

  /** A count of minutes alone is one word and reads back as that count. */
  lemma MinutesTextReadsBack(mins: nat)
    ensures Split(NatToString(mins) + "m", ' ') == [NatToString(mins) + "m"]
    ensures ReadDuration(NatToString(mins) + "m") == Some(mins)
  {
    UnitReadsBack(mins, 'm');
    SplitWithoutSeparator(NatToString(mins) + "m", ' ');
    assert ReadDurationWords([NatToString(mins) + "m"]) == Some(mins);
  }

  /** Hours and fewer than 60 minutes are two words and read back as the minutes they make up. */
  lemma HoursTextReadsBack(hours: nat, mins: nat)
    requires mins < 60
    ensures |Split(NatToString(hours) + "h " + NatToString(mins) + "m", ' ')| == 2
    ensures ReadDuration(NatToString(hours) + "h " + NatToString(mins) + "m") == Some(hours * 60 + mins)
  {
    HoursTextSplits(hours, mins);
    UnitReadsBack(hours, 'h');
    UnitReadsBack(mins, 'm');
    ReadHoursWords(NatToString(hours) + "h", NatToString(mins) + "m", hours, mins);
  }

  /** An hours text splits at its one space into the hours word and the minutes word. */
  lemma HoursTextSplits(hours: nat, mins: nat)
    ensures Split(NatToString(hours) + "h " + NatToString(mins) + "m", ' ') == [NatToString(hours) + "h", NatToString(mins) + "m"]
  {
    var a, b := NatToString(hours) + "h", NatToString(mins) + "m";
    UnitReadsBack(hours, 'h');
    UnitReadsBack(mins, 'm');
    SplitWithoutSeparator(b, ' ');
    SplitAfterPiece(a, b, ' ');
    assert NatToString(hours) + "h " + NatToString(mins) + "m" == a + [' '] + b;
  }

  /** An hours word and a minutes word below 60 read back as the minutes they make up. */
  lemma ReadHoursWords(a: string, b: string, hours: nat, mins: nat)
    requires ReadUnit(a, 'h') == Some(hours) && ReadUnit(b, 'm') == Some(mins) && mins < 60
    ensures ReadDurationWords([a, b]) == Some(hours * 60 + mins)
  {
  }

  /** `canManageTimeEntry`: the entry's own user, or a user whose role is `admin`. */
  predicate CanManageTimeEntry(entry: TimeEntries.TimeEntry, currentUserId: int, currentUserRole: string)
  {
    entry.userId == currentUserId || currentUserRole == "admin"
  }

  /** The delete button is shown for a manageable entry that is not running. */
  predicate CanDelete(entry: TimeEntries.TimeEntry, currentUserId: int, currentUserRole: string)
  {
    CanManageTimeEntry(entry, currentUserId, currentUserRole) && !entry.isRunning
  }

  /**
   * For a signed-in user whose role is shown by its name, the tracker offers
   * to manage exactly the entries the server lets that user change, and never
   * offers to delete a running one.
   */
  lemma ManageMatchesServer(entry: TimeEntries.TimeEntry, caller: Caller)
    ensures CanManageTimeEntry(entry, caller.id, RoleName(caller.role)) <==> TimeEntries.MayChange(caller, entry)
    ensures CanDelete(entry, caller.id, RoleName(caller.role)) ==> TimeEntries.MayChange(caller, entry) && !entry.isRunning
  {
  }

  predicate IsRunning(e: TimeEntries.TimeEntry)
  {
    e.isRunning
  }

  /** `timeEntries.find(entry => entry.isRunning)`: the first running entry in the list. */
  function RunningEntry(entries: seq<TimeEntries.TimeEntry>): (r: Option<TimeEntries.TimeEntry>)
    ensures r.Some? <==> exists k :: 0 <= k < |entries| && entries[k].isRunning
    ensures r.Some? ==> exists k :: 0 <= k < |entries| && entries[k] == r.value && r.value.isRunning &&
                          (forall j :: 0 <= j < k ==> !entries[j].isRunning)
  {
    var i := Tables.IndexWhere(entries, IsRunning);
    if i.Some? then Some(entries[i.value]) else None
  }

  /**
   * The list a task's tracker is given holds every user's entries of the
   * task. As written, the tracker adopts the first running entry of any
   * user: with another user's timer listed before the viewer's own, it shows
   * that timer as the viewer's, and its stop button is refused to an
   * employee.
   */
  lemma AsWrittenAdoptsOthersTimer()
    ensures var theirs := TimeEntries.TimeEntry(1, 7, 2, 0, None, None, None, true);
      var mine := TimeEntries.TimeEntry(2, 7, 1, 0, None, None, None, true);
      var entries := [theirs, mine];
      && TimeEntries.AtMostOneRunning(entries)
      && RunningEntry(entries) == Some(theirs)
      && RunningEntry(entries).value.userId != 1
      && TimeEntries.StopSpec(entries, Caller(1, Employee), RunningEntry(entries).value.id, 60000).1
           == Err(Forbidden(TimeEntries.NotAuthorizedStop))
  {
    var theirs := TimeEntries.TimeEntry(1, 7, 2, 0, None, None, None, true);
    var mine := TimeEntries.TimeEntry(2, 7, 1, 0, None, None, None, true);
    var entries := [theirs, mine];
    assert IsRunning(entries[0]);
    assert TimeEntries.FindEntry(entries, 1) == Some(0);
  }

  function RunsFor(currentUserId: int): TimeEntries.TimeEntry -> bool
  {
    (e: TimeEntries.TimeEntry) => e.isRunning && e.userId == currentUserId
  }

  /** The corrected lookup: `timeEntries.find(entry => entry.isRunning && entry.userId === currentUserId)`. */
  function RunningEntryOf(entries: seq<TimeEntries.TimeEntry>, currentUserId: int): (r: Option<TimeEntries.TimeEntry>)
    ensures r.Some? <==> exists k :: 0 <= k < |entries| && entries[k].isRunning && entries[k].userId == currentUserId
    ensures r.Some? ==> exists k :: 0 <= k < |entries| && entries[k] == r.value && r.value.isRunning &&
                          r.value.userId == currentUserId &&
                          (forall j :: 0 <= j < k ==> !(entries[j].isRunning && entries[j].userId == currentUserId))
  {
    var i := Tables.IndexWhere(entries, RunsFor(currentUserId));
    if i.Some? then Some(entries[i.value]) else None
  }

  /**
   * Whatever users the list mixes, as long as the server keeps at most one
   * running entry per user, the corrected lookup finds exactly the current
   * user's running entry, and it is the one the server's `getRunningTimeEntry`
   * reports.
   */
  lemma RunningEntryOfIsTheUsersOne(entries: seq<TimeEntries.TimeEntry>, user: int, e: TimeEntries.TimeEntry)
    requires TimeEntries.AtMostOneRunning(entries)
    ensures RunningEntryOf(entries, user) == Some(e) <==> e in entries && e.isRunning && e.userId == user
    ensures var i := TimeEntries.FindRunning(entries, user);
      RunningEntryOf(entries, user) == if i.Some? then Some(entries[i.value]) else None
  {
    if e in entries && e.isRunning && e.userId == user {
      var k :| 0 <= k < |entries| && entries[k] == e;
      var r := RunningEntryOf(entries, user);
      var j :| 0 <= j < |entries| && entries[j] == r.value && r.value.isRunning && r.value.userId == user;
      assert j == k;
    }
    var i := TimeEntries.FindRunning(entries, user);
    var r := RunningEntryOf(entries, user);
    if i.Some? {
      assert r.Some?;
      var j :| 0 <= j < |entries| && entries[j] == r.value && r.value.isRunning && r.value.userId == user;
      assert j == i.value;
    }
  }

  /**
   * On a list of the current user's own entries the tracker as written and
   * the corrected lookup agree.
   */
  lemma {:induction false} OwnEntriesAgree(entries: seq<TimeEntries.TimeEntry>, user: int)
    requires forall k :: 0 <= k < |entries| ==> entries[k].userId == user
    ensures RunningEntry(entries) == RunningEntryOf(entries, user)
  {
    var a := RunningEntry(entries);
    var b := RunningEntryOf(entries, user);
    if a.Some? {
      var k :| 0 <= k < |entries| && entries[k] == a.value && a.value.isRunning && (forall j :: 0 <= j < k ==> !entries[j].isRunning);
      var h :| 0 <= h < |entries| && entries[h] == b.value && b.value.isRunning && b.value.userId == user &&
        (forall j :: 0 <= j < h ==> !(entries[j].isRunning && entries[j].userId == user));
      assert !(h < k) && !(k < h);
    }
  }
}

=== FILE: tokens.dfy ===
/**
 * The JSON Web Token layer of the session subsystem: issuing the short-lived
 * access token and the long-lived refresh token, and verifying them.
 *
 * A token is modelled by what it carries, not by its bytes: a signed token is
 * its claims set together with the secret it was signed with, and any other
 * text is uninterpreted. Signature verification succeeds exactly when the verifying
 * secret is the signing secret. Times are JavaScript millisecond timestamps;
 * the `iat` and `exp` claims are NumericDate seconds (section 2 of RFC 7519),
 * `Math.floor(ms / 1000)`.
 */
module Tokens {
  import opened Common

  /** The `iss` claim (section 4.1.1 of RFC 7519) both token kinds carry. */
  const Issuer: string := "task-management-app"
  /** The `aud` claim (section 4.1.3 of RFC 7519) both token kinds carry. */
  const Audience: string := "task-management-users"
  /** `expiresIn: '15m'` */
  const AccessLifetime: int := 900
  /** `expiresIn: '7d'` */
  const RefreshLifetime: int := 604800
  /** Fallback of the reported `expiresIn` when the access token has no `exp`. */
  const DefaultExpiresIn: int := 900

  const AccessRejection: string := "Invalid or expired access token"
  const RefreshRejection: string := "Invalid or expired refresh token"

  /** The private `type` claim. */
  datatype TokenType = Access | Refresh

  /**
   * A claims set: the private `userId` and `type` claims and the registered
   * `iss`, `aud`, `iat` and `exp` claims. `jti` (section 4.1.7 of RFC 7519) is
   * the per-token nonce of the corrected refresh token; access tokens and the
   * refresh tokens of `GenerateRefreshTokenJwt` carry none.
   */
  datatype Claims = Claims(
    userId: UserId,
    tokenType: TokenType,
    iss: string,
    aud: string,
    iat: int,
    exp: Option<int>,
    jti: Option<string>)

  /** A bearer token as it arrives in a cookie or header. */
  datatype Token = Signed(claims: Claims, key: string) | Opaque(text: string)

  /** JavaScript truthiness of a token string: only the empty string is falsy. */
  predicate Present(t: Token)
  {
    t != Opaque("")
  }

  /** The `JWT_SECRET` and `JWT_REFRESH_SECRET` settings; an unset setting is "". */
  datatype Secrets = Secrets(jwtSecret: string, jwtRefreshSecret: string)

  /** `process.env.JWT_REFRESH_SECRET || process.env.JWT_SECRET` */
  function RefreshKey(s: Secrets): (k: string)
    ensures k == s.jwtRefreshSecret || k == s.jwtSecret
    ensures k == s.jwtSecret <==> s.jwtRefreshSecret == "" || s.jwtRefreshSecret == s.jwtSecret
  {
    if s.jwtRefreshSecret != "" then s.jwtRefreshSecret else s.jwtSecret
  }

  /** `Math.floor(ms / 1000)` for a timestamp. */
  function EpochSeconds(nowMs: int): int
  {
    nowMs / 1000
  }

  /** `jwt.sign(payload, key, { expiresIn, issuer, audience })` at time `nowMs`. */
  function Sign(userId: UserId, t: TokenType, lifetime: int, key: string, nowMs: int, jti: Option<string>): Token
  {
    var iat := EpochSeconds(nowMs);
    Signed(Claims(userId, t, Issuer, Audience, iat, Some(iat + lifetime), jti), key)
  }

  /** The access token: type 'access', fifteen minutes, signed with `JWT_SECRET`. */
  function GenerateAccessToken(userId: UserId, nowMs: int, s: Secrets): (t: Token)
    ensures t.Signed? && t.key == s.jwtSecret
    ensures t.claims.userId == userId && t.claims.tokenType == Access
    ensures t.claims.exp == Some(EpochSeconds(nowMs) + AccessLifetime)
  {
    Sign(userId, Access, AccessLifetime, s.jwtSecret, nowMs, None)
  }

  /**
   * The refresh token as the source signs it: type 'refresh', seven days,
   * signed with the refresh key, and nothing else in it. Signing is
   * deterministic, so the token is a function of the user and the second.
   */
  function GenerateRefreshTokenJwt(userId: UserId, nowMs: int, s: Secrets): (t: Token)
    ensures t.Signed? && t.key == RefreshKey(s)
    ensures t.claims.userId == userId && t.claims.tokenType == Refresh && t.claims.jti == None
  {
    Sign(userId, Refresh, RefreshLifetime, RefreshKey(s), nowMs, None)
  }

  /**
   * The corrected refresh token: the same claims plus a `jti` nonce, the
   * random value `generateRefreshToken` draws from `crypto.randomBytes(64)`.
   */
  function GenerateUniqueRefreshToken(userId: UserId, nowMs: int, s: Secrets, nonce: string): (t: Token)
    ensures t.Signed? && t.key == RefreshKey(s)
    ensures t.claims.userId == userId && t.claims.tokenType == Refresh && t.claims.jti == Some(nonce)
  {
    Sign(userId, Refresh, RefreshLifetime, RefreshKey(s), nowMs, Some(nonce))
  }

  /** Two refresh tokens the source issues to one user within one second are the same token. */
  lemma SameSecondRefreshTokensCoincide(userId: UserId, t1: int, t2: int, s: Secrets)
    requires EpochSeconds(t1) == EpochSeconds(t2)
    ensures GenerateRefreshTokenJwt(userId, t1, s) == GenerateRefreshTokenJwt(userId, t2, s)
  {
  }

  /** Corrected refresh tokens drawn with different nonces never coincide, whoever and whenever they are for. */
  lemma NoncedRefreshTokensDiffer(u1: UserId, u2: UserId, t1: int, t2: int, s: Secrets, n1: string, n2: string)
    requires n1 != n2
    ensures GenerateUniqueRefreshToken(u1, t1, s, n1) != GenerateUniqueRefreshToken(u2, t2, s, n2)
  {
  }

  /** `jwt.decode`: the claims of a signed token, without any check. */
  function Decode(t: Token): (c: Option<Claims>)
    ensures c.Some? <==> t.Signed?
    ensures t.Signed? ==> c.value == t.claims
  {
    match t
    case Signed(claims, _) => Some(claims)
    case Opaque(_) => None
  }

  datatype TokenPair = TokenPair(accessToken: Token, refreshToken: Token, expiresIn: int)

  /**
   * `generateTokenPair`: both tokens for one user, and the access token's
   * remaining lifetime in seconds, read back from its own `exp` claim at the
   * same instant (900 when the claim is missing or zero).
   */
  function GenerateTokenPair(userId: UserId, nowMs: int, s: Secrets, nonce: string): (p: TokenPair)
    ensures p.accessToken == GenerateAccessToken(userId, nowMs, s)
    ensures p.refreshToken == GenerateUniqueRefreshToken(userId, nowMs, s, nonce)
    ensures p.expiresIn == AccessLifetime
  {
    var access := GenerateAccessToken(userId, nowMs, s);
    var decoded := Decode(access);
    var expiresIn :=
      if decoded.Some? && decoded.value.exp.Some? && decoded.value.exp.value != 0
      then decoded.value.exp.value - EpochSeconds(nowMs)
      else DefaultExpiresIn;
    TokenPair(access, GenerateUniqueRefreshToken(userId, nowMs, s, nonce), expiresIn)
  }

  datatype Verification = Verified(claims: Claims) | Rejected(reason: string)

  /** What `jwt.verify` with the issuer and audience options, followed by the `type` check, accepts. */
  predicate Acceptable(t: Token, key: string, expected: TokenType, nowMs: int)
  {
    && t.Signed?
    && t.key == key
    && (t.claims.exp.None? || EpochSeconds(nowMs) < t.claims.exp.value)
    && t.claims.aud == Audience
    && t.claims.iss == Issuer
    && t.claims.tokenType == expected
  }

  /**
   * `jwt.verify` then the `type` check, in that order: signature, expiry
   * (expired once the current second reaches `exp`), audience, issuer and
   * type. Every failure collapses into the one `rejection` message.
   */
  function Verify(t: Token, key: string, expected: TokenType, nowMs: int, rejection: string): (r: Verification)
    ensures r.Verified? <==> Acceptable(t, key, expected, nowMs)
    ensures r.Verified? ==> r.claims == t.claims
    ensures r.Rejected? ==> r.reason == rejection
  {
    match t
    case Opaque(_) => Rejected(rejection)
    case Signed(c, k) =>
      if k != key then Rejected(rejection)
      else if c.exp.Some? && EpochSeconds(nowMs) >= c.exp.value then Rejected(rejection)
      else if c.aud != Audience then Rejected(rejection)
      else if c.iss != Issuer then Rejected(rejection)
      else if c.tokenType != expected then Rejected(rejection)
      else Verified(c)
  }

  /** `verifyAccessToken` */
  function VerifyAccessToken(t: Token, s: Secrets, nowMs: int): (r: Verification)
    ensures r.Verified? <==> Acceptable(t, s.jwtSecret, Access, nowMs)
    ensures r.Verified? ==> r.claims == t.claims && r.claims.tokenType == Access
    ensures r.Rejected? ==> r.reason == AccessRejection
  {
    Verify(t, s.jwtSecret, Access, nowMs, AccessRejection)
  }

  /** `verifyRefreshToken` */
  function VerifyRefreshToken(t: Token, s: Secrets, nowMs: int): (r: Verification)
    ensures r.Verified? <==> Acceptable(t, RefreshKey(s), Refresh, nowMs)
    ensures r.Verified? ==> r.claims == t.claims && r.claims.tokenType == Refresh
    ensures r.Rejected? ==> r.reason == RefreshRejection
  {
    Verify(t, RefreshKey(s), Refresh, nowMs, RefreshRejection)
  }

  /** An issued access token verifies, for its user, exactly until the second its lifetime ends. */
  lemma AccessTokenRoundTrip(userId: UserId, issuedMs: int, nowMs: int, s: Secrets)
    ensures var r := VerifyAccessToken(GenerateAccessToken(userId, issuedMs, s), s, nowMs);
      (r.Verified? <==> EpochSeconds(nowMs) < EpochSeconds(issuedMs) + AccessLifetime)
      && (r.Verified? ==> r.claims.userId == userId)
  {
  }

  /** An issued refresh token verifies, for its user, exactly until the second its lifetime ends. */
  lemma RefreshTokenRoundTrip(userId: UserId, issuedMs: int, nowMs: int, s: Secrets, nonce: string)
    ensures var r := VerifyRefreshToken(GenerateUniqueRefreshToken(userId, issuedMs, s, nonce), s, nowMs);
      (r.Verified? <==> EpochSeconds(nowMs) < EpochSeconds(issuedMs) + RefreshLifetime)
      && (r.Verified? ==> r.claims.userId == userId)
  {
  }

  /**
   * The `type` claim keeps the two kinds apart even when `JWT_REFRESH_SECRET`
   * is unset and both kinds are signed with the same secret.
   */
  lemma NoTypeConfusion(userId: UserId, issuedMs: int, nowMs: int, s: Secrets, nonce: string)
    ensures VerifyAccessToken(GenerateUniqueRefreshToken(userId, issuedMs, s, nonce), s, nowMs).Rejected?
    ensures VerifyAccessToken(GenerateRefreshTokenJwt(userId, issuedMs, s), s, nowMs).Rejected?
    ensures VerifyRefreshToken(GenerateAccessToken(userId, issuedMs, s), s, nowMs).Rejected?
  {
  }

  /** The `expiresIn` reported with a pair is the access token's real remaining lifetime. */
  lemma ExpiresInMatchesVerifier(userId: UserId, issuedMs: int, nowMs: int, s: Secrets, nonce: string)
    ensures var p := GenerateTokenPair(userId, issuedMs, s, nonce);
      VerifyAccessToken(p.accessToken, s, nowMs).Verified?
      <==> EpochSeconds(nowMs) < EpochSeconds(issuedMs) + p.expiresIn
  {
  }

  /** A token is never accepted under a secret other than the one it was signed with. */
  lemma ForeignSignatureRejected(t: Token, key: string, expected: TokenType, nowMs: int, rejection: string)
    requires t.Signed? && t.key != key
    ensures Verify(t, key, expected, nowMs, rejection) == Rejected(rejection)
  {
  }
}

=== FILE: user_schema.dfy ===
/**
 * The request-body schemas of the account endpoints. A body field is
 * absent, a string, or some other JSON value (a number, a boolean, null,
 * an array or an object), which every string rule refuses; a successful
 * parse yields the typed data with defaults filled in, and unknown keys are
 * dropped. Whether a string is an e-mail address is decided by the
 * validation library's own pattern, which is a parameter here.
 */
module UserSchema {
  import opened Common
  import opened Text

  /** One field of a JSON body, as far as a string rule can tell. */
  datatype Field = Absent | Given(text: string) | NotText

  /** `z.enum(['admin', 'employee'])` */
  function ParseRole(s: string): (r: Option<Role>)
    ensures r.Some? ==> RoleName(r.value) == s
    ensures r.None? ==> s != "admin" && s != "employee"
  {
    if s == "admin" then Some(Admin) else if s == "employee" then Some(Employee) else None
  }

  /** `UserRoleSchema.default('employee')`: a missing role becomes 'employee'; any other value must name a role. */
  function ParseRoleOrDefault(f: Field): Option<Role>
  {
    match f
    case Absent => Some(Employee)
    case Given(s) => ParseRole(s)
    case NotText => None
  }

  /** Whether some character of `s` satisfies `f`. */
  predicate Contains(s: string, f: char -> bool)
  {
    exists i :: 0 <= i < |s| && f(s[i])
  }

  /**
   * `.min(8).regex(/^(?=.*[a-z])(?=.*[A-Z])(?=.*\d)/)`: at least eight
   * characters, and a lower-case letter, an upper-case letter and a digit
   * before the first line terminator (the lookaheads' `.*` stops there).
   */
  predicate StrongPassword(p: string)
  {
    var line := FirstLine(p);
    |p| >= 8 && Contains(line, IsLower) && Contains(line, IsUpper) && Contains(line, IsDigit)
  }

  /** `.min(2).max(100).regex(/^[a-zA-Z\s]+$/)` */
  predicate ValidName(n: string)
  {
    2 <= |n| <= 100 && forall i :: 0 <= i < |n| ==> IsAsciiLetter(n[i]) || IsWhitespace(n[i])
  }

  /** `.min(1).email()` */
  predicate ValidEmail(e: string, isEmail: string -> bool)
  {
    |e| >= 1 && isEmail(e)
  }

  datatype CreateUserBody = CreateUserBody(email: Field, password: Field, name: Field, role: Field)
  datatype CreateUserData = CreateUserData(email: string, password: string, name: string, role: Role)

  /** `CreateUserSchema.parse(body)` */
  function ParseCreateUser(b: CreateUserBody, isEmail: string -> bool): (r: Option<CreateUserData>)
    ensures r.Some? <==>
      && b.email.Given? && ValidEmail(b.email.text, isEmail)
      && b.password.Given? && StrongPassword(b.password.text)
      && b.name.Given? && ValidName(b.name.text)
      && (b.role.Absent? || (b.role.Given? && b.role.text in {"admin", "employee"}))
    ensures r.Some? ==> r.value.email == b.email.text && r.value.password == b.password.text && r.value.name == b.name.text
    ensures r.Some? && b.role.Absent? ==> r.value.role == Employee
    ensures r.Some? && b.role.Given? ==> RoleName(r.value.role) == b.role.text
  {
    if b.email.Given? && ValidEmail(b.email.text, isEmail)
      && b.password.Given? && StrongPassword(b.password.text)
      && b.name.Given? && ValidName(b.name.text)
      && ParseRoleOrDefault(b.role).Some?
    then Some(CreateUserData(b.email.text, b.password.text, b.name.text, ParseRoleOrDefault(b.role).value))
    else None
  }

  datatype LoginBody = LoginBody(email: Field, password: Field)
  datatype LoginData = LoginData(email: string, password: string)

  /** `LoginUserSchema.parse(body)`: any non-empty password is admitted. */
  function ParseLogin(b: LoginBody, isEmail: string -> bool): (r: Option<LoginData>)
    ensures r.Some? <==> b.email.Given? && ValidEmail(b.email.text, isEmail) && b.password.Given? && |b.password.text| >= 1
    ensures r.Some? ==> r.value == LoginData(b.email.text, b.password.text)
  {
    if b.email.Given? && ValidEmail(b.email.text, isEmail) && b.password.Given? && |b.password.text| >= 1
    then Some(LoginData(b.email.text, b.password.text))
    else None
  }

  datatype UpdateUserBody = UpdateUserBody(email: Field, name: Field, role: Field)

  /** `UpdateUserSchema.parse(body)`: each field absent or a valid string, and at least one given. */
  predicate ValidUpdateUser(b: UpdateUserBody, isEmail: string -> bool)
  {
    && (b.email.Absent? || (b.email.Given? && isEmail(b.email.text)))
    && (b.name.Absent? || (b.name.Given? && ValidName(b.name.text)))
    && (b.role.Absent? || (b.role.Given? && ParseRole(b.role.text).Some?))
    && (!b.email.Absent? || !b.name.Absent? || !b.role.Absent?)
  }

  /** `ChangePasswordSchema` */
  predicate ValidChangePassword(currentPassword: string, newPassword: string)
  {
    |currentPassword| >= 1 && StrongPassword(newPassword)
  }

  /** `PasswordResetRequestSchema` */
  predicate ValidPasswordResetRequest(email: string, isEmail: string -> bool)
  {
    ValidEmail(email, isEmail)
  }

  /** `PasswordResetConfirmSchema` */
  predicate ValidPasswordResetConfirm(token: string, newPassword: string)
  {
    |token| >= 1 && StrongPassword(newPassword)
  }

  /** `RefreshTokenSchema`: the body token is optional, but a non-empty string when given. */
  predicate ValidRefreshTokenBody(refreshToken: Field)
  {
    refreshToken.Absent? || (refreshToken.Given? && |refreshToken.text| >= 1)
  }

  /**
   * Every e-mail and password pair accepted at registration passes the login
   * schema, but not the other way round: login checks the password's presence only.
   */
  lemma LoginIsLaxerThanRegistration(b: CreateUserBody, isEmail: string -> bool)
    ensures ParseCreateUser(b, isEmail).Some? ==> ParseLogin(LoginBody(b.email, b.password), isEmail).Some?
    ensures b.email.Given? && ValidEmail(b.email.text, isEmail) && b.password == Given("a") ==>
      ParseLogin(LoginBody(b.email, b.password), isEmail).Some? && ParseCreateUser(b, isEmail).None?
  {
  }

  /** The strength rule looks only at the first line: a line break before the required characters defeats it. */
  lemma StrengthStopsAtLineBreak()
    ensures StrongPassword("Password1")
    ensures !StrongPassword("\nPassword1")
  {
    OneLineStrong();
    assert FirstLine("\nPassword1") == [];
  }

  /** `Password1` has all three kinds of character on its one line. */
  lemma OneLineStrong()
    ensures StrongPassword("Password1")
  {
    var p := "Password1";
    assert forall i :: 0 <= i < |p| ==> !IsLineTerminator(p[i]);
    FirstLineOfOneLine(p);
    assert IsUpper(p[0]) && IsLower(p[1]) && IsDigit(p[8]);
  }

  /**
   * A new password given when changing or resetting a password passes exactly
   * when it would pass at registration: the three schemas share one strength
   * rule, so a short password is refused by all of them.
   */
  lemma NewPasswordsFollowRegistrationRule(p: string, other: string, email: string, name: string, isEmail: string -> bool)
    requires |other| >= 1 && ValidEmail(email, isEmail) && ValidName(name)
    ensures ValidChangePassword(other, p) <==> ValidPasswordResetConfirm(other, p)
    ensures ValidChangePassword(other, p) <==> ParseCreateUser(CreateUserBody(Given(email), Given(p), Given(name), Absent), isEmail).Some?
    ensures |p| < 8 ==> !ValidChangePassword(other, p) && !ValidPasswordResetConfirm(other, p)
  {
  }

  /** An update body must name at least one field; the empty body is refused. */
  lemma EmptyUpdateRefused(isEmail: string -> bool)
    ensures !ValidUpdateUser(UpdateUserBody(Absent, Absent, Absent), isEmail)
  {
  }

  /**
   * A field that is present but not a string fails its rule: a body with a
   * numeric `role` is refused rather than given the default role, and so is
   * any body with a non-string e-mail, password or name.
   */
  lemma NonTextFieldsRefused(b: CreateUserBody, l: LoginBody, u: UpdateUserBody, isEmail: string -> bool)
    ensures b.email.NotText? || b.password.NotText? || b.name.NotText? || b.role.NotText? ==> ParseCreateUser(b, isEmail).None?
    ensures l.email.NotText? || l.password.NotText? ==> ParseLogin(l, isEmail).None?
    ensures u.email.NotText? || u.name.NotText? || u.role.NotText? ==> !ValidUpdateUser(u, isEmail)
    ensures ParseCreateUser(b.(role := Absent), isEmail).Some? ==> ParseCreateUser(b.(role := NotText), isEmail).None?
  {
  }
}

=== FILE: validation.dfy ===
/**
 * What the request schemas share: the three ways a parse can end (the
 * validated data, a schema violation, or an exception thrown by one of the
 * schema's own transforms), how the validation middleware answers each, and
 * the digit-string rules used for ids, `page` and `limit`.
 */
module Validation {
  import opened Common
  import opened Text

  /**
   * The end of `schema.parse(input)`. A violated rule is reported as a
   * validation error; a transform that throws a plain `Error` escapes the
   * parse with its own message.
   */
  datatype Outcome<T> = Parsed(value: T) | Invalid | Thrown(message: string)

  /**
   * The validation middleware's answer: the data is passed on, a validation
   * error is answered with 400 and the middleware's message, and any other
   * exception reaches the framework's default handler, which answers 500.
   */
  function Respond<T>(o: Outcome<T>, invalidMessage: string): (r: Result<T>)
    ensures r.Ok? <==> o.Parsed?
    ensures o.Parsed? ==> r.value == o.value
    ensures o.Invalid? ==> r == Err(BadRequest(invalidMessage))
    ensures o.Thrown? ==> r.Err? && r.failure.Code() == 500 && r.failure.message == o.message
  {
    match o
    case Parsed(v) => Ok(v)
    case Invalid => Err(BadRequest(invalidMessage))
    case Thrown(m) => Err(ServerError(m))
  }

  const BodyInvalid: string := "Validation failed"
  const QueryInvalid: string := "Query validation failed"
  const ParamsInvalid: string := "Parameter validation failed"

  /** `z.string().regex(/^\d+$/).transform(Number)` */
  function ParseId(s: string): (r: Option<nat>)
    ensures r.Some? <==> IsDigitString(s)
    ensures r.Some? ==> r.value == DigitsValue(s)
  {
    if IsDigitString(s) then Some(DigitsValue(s)) else None
  }

  /** Every natural number, written in decimal, is read back as itself. */
  lemma ParseIdRoundTrip(n: nat)
    ensures ParseId(NatToString(n)) == Some(n)
  {
    NatToStringRoundTrip(n);
  }

  /** An id written with a sign, or empty, is refused. */
  lemma ParseIdRefusesSigns(s: string)
    ensures ParseId("") == None
    ensures ParseId("-" + s) == None && ParseId("+" + s) == None
  {
    assert ("-" + s)[0] == '-';
    assert ("+" + s)[0] == '+';
  }

  const PageTooSmall: string := "Page must be at least 1"
  const LimitTooSmall: string := "Limit must be at least 1"
  const LimitTooLarge: string := "Limit cannot exceed 100"
  const DefaultPage: nat := 1
  const DefaultLimit: nat := 10
  const MaxLimit: nat := 100

  /** The `page` query field: digits, at least 1, and 1 when absent. */
  function ParsePage(s: Option<string>): (r: Outcome<nat>)
    ensures r.Parsed? ==> r.value >= 1
    ensures s.None? ==> r == Parsed(DefaultPage)
    ensures s.Some? ==> (r.Invalid? <==> !IsDigitString(s.value))
    ensures r.Thrown? <==> s.Some? && IsDigitString(s.value) && DigitsValue(s.value) == 0
    ensures r.Thrown? ==> r.message == PageTooSmall
    ensures s.Some? && r.Parsed? ==> r.value == DigitsValue(s.value)
  {
    if s.None? then Parsed(DefaultPage)
    else if !IsDigitString(s.value) then Invalid
    else if DigitsValue(s.value) < 1 then Thrown(PageTooSmall)
    else Parsed(DigitsValue(s.value))
  }

  /** The `limit` query field: digits, between 1 and 100, and 10 when absent. */
  function ParseLimit(s: Option<string>): (r: Outcome<nat>)
    ensures r.Parsed? ==> 1 <= r.value <= MaxLimit
    ensures s.None? ==> r == Parsed(DefaultLimit)
    ensures s.Some? ==> (r.Invalid? <==> !IsDigitString(s.value))
    ensures r.Thrown? <==> s.Some? && IsDigitString(s.value) && (DigitsValue(s.value) == 0 || DigitsValue(s.value) > MaxLimit)
    ensures s.Some? && r.Parsed? ==> r.value == DigitsValue(s.value)
  {
    if s.None? then Parsed(DefaultLimit)
    else if !IsDigitString(s.value) then Invalid
    else if DigitsValue(s.value) < 1 then Thrown(LimitTooSmall)
    else if DigitsValue(s.value) > MaxLimit then Thrown(LimitTooLarge)
    else Parsed(DigitsValue(s.value))
  }

  /**
   * A page or limit written in decimal is read back as itself whenever it is
   * in range, and a limit beyond 100 escapes as an exception rather than a
   * validation error, so the client sees 500, not 400.
   */
  lemma PagingRoundTrip(page: nat, limit: nat)
    ensures page >= 1 ==> ParsePage(Some(NatToString(page))) == Parsed(page)
    ensures 1 <= limit <= MaxLimit ==> ParseLimit(Some(NatToString(limit))) == Parsed(limit)
    ensures limit > MaxLimit ==>
      Respond(ParseLimit(Some(NatToString(limit))), QueryInvalid) == Err(ServerError(LimitTooLarge))
  {
    NatToStringRoundTrip(page);
    NatToStringRoundTrip(limit);
  }
}
